=== FILE: README.md ===
# Small simulations and a résumé upload, modelled in Dafny

The repository is a collection of independent browser and desktop demos.
This project models the parts of them whose behaviour can be stated exactly,
and proves what those parts promise:

- **Forest fire** (`ForestFire/script.js`): a grid of empty, tree, burning and
  burned cells. Each step reads `grid`, writes `nextGrid` and copies it back.
  Wind biases the spread probability. Manual and random ignition, the state
  counters, and the automatic pause once the fire is out.
- **Game of Life** (`GameOfLife/script.js`): Conway's B3/S23 rule on a
  toroidal grid, the generation counter, the population, click-to-toggle,
  reset and randomise, and the resize restore.
- **Maze runner** (`procedural_maze_runner/maze_runner.py`): wall carving,
  the recursive-backtracker and Prim's generation steps, breadth-first path
  search over open walls, and the player's wall-checked moves.
- **NeuralFlowViz** (`NeuralFlowViz/js/model.js`, `visualization.js`):
  - layer construction, the tokenizer and token embeddings;
  - the active-component state machine and row-normalised attention weights;
  - the animation queue and its stepper, layout, hit-testing, zoom bounds and tooltips.
- **Tectonic simulation** (`TectonicSimulation/js/*.js`):
  - the fault-type decision and the greedy ordering of fault contact points;
  - stress accumulation, decay and release on faults;
  - the plate stress ledger;
  - earthquake construction, lifetime, camera shake and descriptions;
  - the simulation's fault pairing, per-frame bookkeeping, statistics, pause and reset;
  - the small numeric helpers.
- **ATS upload** (`ats_app/app.py`): the extension check, the text-extraction
  dispatch, and the validation ladder of the upload endpoint.

## How the model is built

**Files.** There is one Dafny module per source file. `common.dfy` holds the
shared vocabulary: `Option`, the random stream and `array2` snapshots.

**Randomness.**
- `Math.random()` / `random.random()` is a stream of draws (`Common.Stream`).
  `Draw(rand, n)` is the n-th draw that the model counts.
- Each object that draws keeps a cursor `drawn`, the index of its next counted draw.
- ForestFire, GameOfLife and the NeuralFlowViz model count every call of the
  generator. There the cursor is the call number, so every random choice is named exactly.
- TectonicSimulation does not count the draws spent on an earthquake's looks:
  - four per wave particle, for floor(50·m) particles (earthquake.js:25, 41-57);
  - those of the cracks above magnitude 4 (earthquake.js:119-157);
  - the crack displacement while a quake's progress is below 0.3 (earthquake.js:228-231).
- There the simulation's cursor indexes only the modelled draws: fault, epicentre,
  depth, slip point and camera shake. It is not the call number of the program's generator.
- Plates arrive built (`generatePlates` is not part of this model), so their draws are
  not on the simulation's cursor. A plate's constructor reads its six draws from a
  starting index given to it.
- `random.choice` picks are passed in as a `pick` index.

**Floating-point library calls.** `distanceTo`, `length()`, `Math.log` and
`Math.pow(10, x)` are tables passed in (`TectonicUtils.Env`). The model assumes
only that distances and lengths are non-negative, that a logarithm is positive
exactly above 1, and that a power of ten is positive. All other numbers are
`real`.

**Mutable state.** State the source updates in place is a `class`:
- grids are `array2`s;
- lists and dictionaries are `seq` fields that the methods reassign.

Each method is proved against a specification function of the old state, for
example:
- `Forest.UpdateSimulation` against `StepGrid`;
- `Maze.GenerateStepRB` against `BacktrackStep`;
- `Fault` construction against `Route(Candidates(...))`.

The properties are then lemmas about those functions.

## Model

| member | source | states |
|---|---|---|
| ForestFire.WindVector | ForestFire/script.js:43-53 | each wind direction is a vector with components in -1..1, and it is (0, 0) exactly for "none" |
| ForestFire.Alignment | ForestFire/script.js:150-152 | the cosine between the offset towards a burning neighbour and the wind is positive exactly when their dot product is, lies in [-1, 1], and is 0 with no wind (the `\|\| 1` guard) |
| ForestFire.Probability | ForestFire/script.js:145-158 | the spread probability is 0 when fireSpreadRate is 0 and never below fireSpreadRate/10 otherwise |
| ForestFire.WindBias | ForestFire/script.js:148-158 | wind raises the probability above fireSpreadRate/10 exactly when the strength is positive, the neighbour lies with the wind and the rate is positive; otherwise, and always with no wind, it is fireSpreadRate/10 |
| ForestFire.ProbTableWithoutRate | ForestFire/script.js:145 | with fireSpreadRate 0 every neighbour's probability is 0 |
| ForestFire.Neighbour | ForestFire/script.js:137-165 | testing one neighbour ignites the tree only if that in-bounds neighbour is burning, and costs one draw exactly when it is burning |
| ForestFire.ScanStep | ForestFire/script.js:133-169 | the scan in di-then-dj order is the current neighbour's test followed by the rest of the scan, stopping at the first ignition |
| ForestFire.ScanSound | ForestFire/script.js:128-174 | the scan ignites only when some in-bounds neighbour (no wrap-around) burns; with none it uses no draw and does not ignite |
| ForestFire.ScanWithoutRate | ForestFire/script.js:145-161 | when every probability is 0 and every draw is in [0, 1), the scan never ignites |
| ForestFire.NextCell | ForestFire/script.js:119-174 | burning becomes burned, empty and burned stay as they are, and a tree stays a tree or starts burning |
| ForestFire.RowStep | ForestFire/script.js:118-176 | one more cell of the row-major pass appends that cell's new state and advances the draw cursor by its draws |
| ForestFire.NextCellNeedsFire | ForestFire/script.js:128-174 | a cell burns after the step only if it was a tree with a burning in-bounds neighbour; a tree without one stays a tree and draws nothing |
| ForestFire.StepCells | ForestFire/script.js:118-183 | over the whole step, cell by cell: burning becomes burned, empty and burned are copied, new fire only on trees next to fire, and a tree afterwards was a tree before |
| ForestFire.NoSpreadWithoutRate | ForestFire/script.js:145-161 | with fireSpreadRate 0 no tree ignites and nothing is burning after one step |
| ForestFire.FireOutIsFixedPoint | ForestFire/script.js:118-183 | a grid with no burning cell is unchanged by a step and uses no draw |
| ForestFire.StepCounts | ForestFire/script.js:118-183 | in one step the tree count never rises and the burned count never falls |
| ForestFire.CountTotal | ForestFire/script.js:244-257 | the four state counts add up to rows × cols |
| ForestFire.CountSet | ForestFire/script.js:296-297 | changing one cell moves exactly one unit between the counts of its old and new state |
| ForestFire.IgniteOne | ForestFire/script.js:205-206 | setting another tree on fire keeps the grid related to the original by trees-caught-fire only |
| ForestFire.IgnitedCounts | ForestFire/script.js:196-209 | grids that differ only by ignited trees have the same empty and burned counts and the same trees + burning total, with no more trees |
| ForestFire.Forest.constructor | ForestFire/script.js:56-72 | page load sizes the grid and plants it with one draw per cell, row by row (`Cells() == Planting(rand, 0, rows, cols, density)`); the three counters equal the counts of trees, burning and burned cells; the simulation is left paused |
| ForestFire.Forest.InitializeGrid | ForestFire/script.js:56-72 | new buffers, each cell a tree exactly when its draw (row-major, one per cell) is below the density, the copy in `nextGrid`, and counters that match the grid |
| ForestFire.Forest.PlantedGrids | ForestFire/script.js:61-69 | two fresh distinct buffers both hold the planting from the current cursor, which advances by rows × cols |
| ForestFire.Forest.PlantRow | ForestFire/script.js:64-68 | row i of both buffers is planted from the next cols draws; every other row is unchanged |
| ForestFire.Forest.CountStates | ForestFire/script.js:249-257 | the counting pass returns the exact numbers of tree, burning and burned cells |
| ForestFire.Forest.UpdateStats | ForestFire/script.js:244-267 | counters equal the grid's counts, and a running simulation stops exactly when nothing burns and something has burned |
| ForestFire.Forest.ToggleSimulation | ForestFire/script.js:217-227 | the running flag is negated |
| ForestFire.Forest.CatchesFire | ForestFire/script.js:130-169 | the neighbour loop's result and draw cursor are those of the scan specification from offset (-1, -1) |
| ForestFire.Forest.Ignites | ForestFire/script.js:137-165 | one neighbour's test matches `Neighbour`: a burning in-bounds neighbour costs one draw and ignites when the draw is below its probability |
| ForestFire.Forest.UpdateSimulation | ForestFire/script.js:111-187 | the new grid is `StepGrid` of the old grid alone, the cursor is at the end of the pass, the tree count does not rise and the burned count does not fall, and the counters and auto-pause are refreshed |
| ForestFire.Forest.ComputeNextGrid | ForestFire/script.js:118-176 | `nextGrid` receives the step of the current grid, which is not written |
| ForestFire.Forest.StepRow | ForestFire/script.js:119-175 | row i of `nextGrid` receives the row's new states; the other rows are untouched |
| ForestFire.Forest.NextState | ForestFire/script.js:120-174 | one cell's new state and draw use are those of `NextCell` |
| ForestFire.Forest.CopyBack | ForestFire/script.js:179-183 | the grid becomes a copy of `nextGrid` |
| ForestFire.Forest.Click | ForestFire/script.js:287-307 | a click on an in-bounds tree sets only that cell burning, moves one cell from the tree count to the burning count and starts the simulation; any other click changes nothing |
| ForestFire.Forest.SetOnFire | ForestFire/script.js:296-297 | a tree cell becomes burning and nothing else changes |
| ForestFire.Forest.StartFire | ForestFire/script.js:190-214 | the number of fires is `floor(3 * draw) + 1` of the next draw; the grid and draw index afterwards are exactly those of that many searches in a row (`Searches`); the grid changes only by trees catching fire; the draws used are between 2 and 200 per fire plus one; the counters are refreshed |
| ForestFire.Forest.SearchFires | ForestFire/script.js:197-209 | n searches leave exactly the grid and draw index of `Searches`, change the grid only by trees catching fire, and use 2 to 200 draws each |
| ForestFire.Forest.TryIgnite | ForestFire/script.js:198-209 | the grid and draw index afterwards are exactly `Search`'s; a fire starts exactly when some of the 100 attempts finds a tree, and then (i, j) is the cell of the first such attempt, drawn as row then column from draws d + 2k and d + 2k + 1; on success exactly that tree is set on fire, otherwise all 100 attempts are spent and the grid is unchanged; a grid with rows but no columns never ignites |
| ForestFire.Forest.Attempt | ForestFire/script.js:200-207 | one attempt uses two draws and ignites exactly when the cell it draws holds a tree, and then exactly that cell |
| ForestFire.AttemptRow | ForestFire/script.js:201 | the row attempt k tries lies below the row count |
| ForestFire.AttemptCol | ForestFire/script.js:202 | the column attempt k tries lies below the column count |
| ForestFire.FirstTree | ForestFire/script.js:200-207 | the attempt returned finds a tree, and no attempt before it (of the 100) does; None means none of the 100 does |
| ForestFire.SearchIgnites | ForestFire/script.js:198-209 | a search sets at most one tree on fire and spends 2 to 200 draws |
| ForestFire.SearchResult | ForestFire/script.js:198-209 | a search's outcome is fixed by its first hit: that hit's cell is set on fire after 2(k + 1) draws, and no hit leaves the grid after 200 draws |
| ForestFire.SearchWithoutColumns | ForestFire/script.js:200-206 | with rows but no columns a search ignites nothing and spends all 200 draws |
| GameOfLife.Wrapped | GameOfLife/script.js:98-102 | the wrapped neighbour value of a 0/1 board is 0 or 1 |
| GameOfLife.Neighbours | GameOfLife/script.js:89-107 | the neighbour count of a 0/1 board lies in 0..8 |
| GameOfLife.Term | GameOfLife/script.js:95-102 | the loop adds nothing for the cell itself, and 0 or 1 otherwise on a 0/1 board |
| GameOfLife.ScanAll | GameOfLife/script.js:89-107 | the nested 3 × 3 loop's sum is exactly the eight wrapped neighbours, the cell itself excluded |
| GameOfLife.Rule | GameOfLife/script.js:123-129 | a live cell with fewer than 2 or more than 3 neighbours dies, a dead cell with 3 is born, every other cell keeps its value, and 0/1 stays 0/1 |
| GameOfLife.Next | GameOfLife/script.js:114-129 | the next state of a cell of a 0/1 board is 0 or 1 |
| GameOfLife.StepIsStep | GameOfLife/script.js:112-131 | the next generation is the rule applied to every cell of the previous generation |
| GameOfLife.StepBinary | GameOfLife/script.js:123-129 | a step keeps a 0/1 board a 0/1 board |
| GameOfLife.PopulationIsLive | GameOfLife/script.js:148 | on a 0/1 board the summed population equals the number of live cells |
| GameOfLife.Toggle | GameOfLife/script.js:203 | a click yields 0 or 1, and flips a 0/1 cell |
| GameOfLife.ClickTwice | GameOfLife/script.js:202-203 | two clicks on the same 0/1 cell restore the board |
| GameOfLife.Zeros | GameOfLife/script.js:49-54 | a reset board has the requested shape and every cell 0 |
| GameOfLife.Restored | GameOfLife/script.js:236-240 | after a resize, cells inside both sizes keep their old values, all others are 0, and a 0/1 board stays 0/1 |
| GameOfLife.Seeded | GameOfLife/script.js:58 | a seeded cell is 1 exactly when its draw exceeds 0.7, else 0 |
| GameOfLife.Seeding | GameOfLife/script.js:56-64 | cell (r, c) of a randomised board is seeded by draw number r·cols + c of the call |
| GameOfLife.SeedRow | GameOfLife/script.js:57-59 | one randomised row is seeded by consecutive draws |
| GameOfLife.SeedingBinary | GameOfLife/script.js:56-64 | a randomised board is a 0/1 board |
| GameOfLife.Life.constructor | GameOfLife/script.js:29-47 | initialisation gives an all-zero board of the given size, generation 0, population 0, not running |
| GameOfLife.Life.ResetGrid | GameOfLife/script.js:49-54 | both buffers are replaced, every cell is 0 and the generation is 0 |
| GameOfLife.Life.RandomizeGrid | GameOfLife/script.js:56-64 | the board is the seeding from the current cursor, rows × cols draws are used, generation is 0 and the population is refreshed |
| GameOfLife.Life.CountNeighbors | GameOfLife/script.js:89-107 | the accumulator loop returns the wrapped neighbour count |
| GameOfLife.Life.CountRow | GameOfLife/script.js:94-104 | the inner loop adds the three offsets of one row of the 3 × 3 window |
| GameOfLife.Life.UpdateGrid | GameOfLife/script.js:110-141 | the grid becomes the step of the previous generation (computed into `nextGrid`), a 0/1 board stays 0/1, and the generation increases by exactly 1 |
| GameOfLife.Life.ComputeNextGrid | GameOfLife/script.js:114-131 | `nextGrid` receives the next generation, read from the unmodified grid |
| GameOfLife.Life.NextState | GameOfLife/script.js:116-129 | one cell of `nextGrid` receives its next state; every other cell is untouched |
| GameOfLife.Life.CopyBack | GameOfLife/script.js:134-138 | the grid becomes a copy of `nextGrid` |
| GameOfLife.Life.UpdateStats | GameOfLife/script.js:144-150 | the population is the sum of all cell values |
| GameOfLife.Life.StartSimulation | GameOfLife/script.js:172-178 | afterwards the simulation is running |
| GameOfLife.Life.StopSimulation | GameOfLife/script.js:181-187 | afterwards the simulation is stopped |
| GameOfLife.Life.Click | GameOfLife/script.js:190-207 | an in-bounds click toggles only that cell and refreshes the population; an out-of-bounds click changes nothing; 0/1 stays 0/1 |
| GameOfLife.Life.Resize | GameOfLife/script.js:228-245 | the board takes the new size with old values kept where both sizes cover a cell and 0 elsewhere; the generation is 0 and the population is refreshed |
| GameOfLife.Life.RestoreSaved | GameOfLife/script.js:236-240 | the restore loops copy every cell inside both sizes from the saved board into the zero board |
| MazeRunner.Opposite | procedural_maze_runner/maze_runner.py:139-144 | the facing side differs, and stepping one way and then the opposite way returns to the start |
| MazeRunner.Toward | procedural_maze_runner/maze_runner.py:139-144 | the side from one cell to another exists exactly when they are orthogonally adjacent, and is that side |
| MazeRunner.Carve | procedural_maze_runner/maze_runner.py:139-144 | `_remove_walls` clears the facing pair of walls on both adjacent cells, changes no other cell and never raises a wall |
| MazeRunner.CarveSealed | procedural_maze_runner/maze_runner.py:139-144 | carving between neighbours keeps the outer border closed |
| MazeRunner.CarveJoined | procedural_maze_runner/maze_runner.py:139-144 | after carving, the two cells are joined in both directions, and every earlier passage is kept |
| MazeRunner.Around | procedural_maze_runner/maze_runner.py:113-119 | the neighbours are distinct, in bounds and orthogonally adjacent, at most one per side, and every in-bounds side is listed |
| MazeRunner.AroundExactly | procedural_maze_runner/maze_runner.py:113-119 | `get_neighbours` yields at most 4 distinct cells, which are exactly the in-bounds orthogonal neighbours |
| MazeRunner.Unvisited | procedural_maze_runner/maze_runner.py:158 | the candidates are exactly the unvisited members of the neighbour list |
| MazeRunner.GatherSpec | procedural_maze_runner/maze_runner.py:167-174 | `_add_walls_to_frontier` appends only in-bounds pairs from the cell, never one already present in either orientation, covers every in-bounds side, and keeps the frontier free of twins |
| MazeRunner.Remove | procedural_maze_runner/maze_runner.py:189 | `list.remove` of a present entry shortens the list by one and adds nothing |
| MazeRunner.RemoveAt | procedural_maze_runner/maze_runner.py:189 | in a twin-free frontier, removing the picked entry deletes exactly that position |
| MazeRunner.OpenMoves | procedural_maze_runner/maze_runner.py:78-86 | the moves from a cell are exactly the adjacent cells behind its open walls |
| MazeRunner.FindPathBFS | procedural_maze_runner/maze_runner.py:70-95 | a returned path runs from start to end through open walls between adjacent in-bounds cells; None only when no such path exists; [start] when start == end; no cell is enqueued twice |
| MazeRunner.EnqueueMoves | procedural_maze_runner/maze_runner.py:87-94 | expanding one cell enqueues each unvisited open neighbour once, with a valid path, and afterwards every open neighbour is visited |
| MazeRunner.GetNeighbours | procedural_maze_runner/maze_runner.py:113-119 | the loop builds the neighbour list in N, S, E, W order |
| MazeRunner.BacktrackStep | procedural_maze_runner/maze_runner.py:153-166 | the step reports more work exactly when the stack is non-empty and never changes the frontier |
| MazeRunner.BacktrackMoves | procedural_maze_runner/maze_runner.py:153-166 | with an empty stack only `current` is cleared; otherwise it pushes one previously unvisited neighbour, carving to it and marking it visited, or it pops once when every neighbour is visited |
| MazeRunner.BacktrackKeeps | procedural_maze_runner/maze_runner.py:153-166 | a step keeps the generator invariant: closed border, stack cells visited and joined in a chain, unvisited cells uncarved |
| MazeRunner.PrimsStep | procedural_maze_runner/maze_runner.py:184-196 | the step reports more work exactly when the frontier is non-empty and never changes the stack |
| MazeRunner.PrimsMoves | procedural_maze_runner/maze_runner.py:184-196 | the picked entry is removed; only when exactly one endpoint is visited is the wall carved, the other endpoint marked and its walls added to the frontier; otherwise only the frontier shrinks |
| MazeRunner.PrimsKeeps | procedural_maze_runner/maze_runner.py:184-196 | a step keeps Prim's invariant: closed border, every frontier pair has a visited end, unvisited cells uncarved |
| MazeRunner.RBStartInv | procedural_maze_runner/maze_runner.py:145-152 | the backtracker's start state satisfies its invariant |
| MazeRunner.PrimsStartInv | procedural_maze_runner/maze_runner.py:175-183 | Prim's start state satisfies its invariant |
| MazeRunner.Maze.constructor | procedural_maze_runner/maze_runner.py:123-130 | a new maze has every wall up, nothing visited, empty stack and frontier, start (0, 0) and end at the far corner |
| MazeRunner.Maze.ResetGrid | procedural_maze_runner/maze_runner.py:133-138 | all walls are raised, all visits cleared, the stack and frontier emptied |
| MazeRunner.Maze.RemoveWalls | procedural_maze_runner/maze_runner.py:139-144 | the wall grid becomes `Carve` of the old one |
| MazeRunner.Maze.StartCell | procedural_maze_runner/maze_runner.py:147-148 | the generators start from `start_pos` when it is inside the grid, else from (0, 0), so the start is always in bounds |
| MazeRunner.Maze.StartGenerationRB | procedural_maze_runner/maze_runner.py:145-152 | after a reset, the start cell is visited and is the only stack entry |
| MazeRunner.Maze.GenerateStepRB | procedural_maze_runner/maze_runner.py:153-166 | the new walls, visits, stack, current cell and result are those of `BacktrackStep` |
| MazeRunner.Maze.AddWallsToFrontier | procedural_maze_runner/maze_runner.py:167-174 | the frontier becomes `Gather` of the old frontier around the cell |
| MazeRunner.Maze.StartGenerationPrims | procedural_maze_runner/maze_runner.py:175-183 | after a reset, the start cell is visited and its walls form the frontier |
| MazeRunner.Maze.GenerateStepPrims | procedural_maze_runner/maze_runner.py:184-196 | the new walls, visits, frontier, current cell and result are those of `PrimsStep` |
| MazeRunner.Player.constructor | procedural_maze_runner/maze_runner.py:235-240 | the player stands at the given cell, drawn at its centre |
| MazeRunner.Player.Move | procedural_maze_runner/maze_runner.py:246-261 | the move succeeds exactly when the wall on that side is open; then the position shifts by (dx, dy) and the pixel position is re-centred, otherwise nothing changes; in a closed-border maze the player stays in bounds |
| NeuralModel.StackShape | NeuralFlowViz/js/model.js:28-66 | there are numLayers + 2 layers: embedding first, transformers in between, output last; each index equals its position; each transformer holds layerNorm, attention, residual, layerNorm, feedForward, residual |
| NeuralModel.TokenizeSpec | NeuralFlowViz/js/model.js:93-98 | no token is empty or contains whitespace, each punctuation mark is a token of its own, and the tokens concatenate to the input without its whitespace |
| NeuralModel.EmbeddingsSpec | NeuralFlowViz/js/model.js:69-90 | one embedding per token: the token, position = index, a vector of hiddenSize values in [-0.1, 0.1), and colour tokenColors[index mod length] |
| NeuralModel.Clamp01 | NeuralFlowViz/js/model.js:242 | a raw weight is clamped into [0, 1], and one already inside is kept |
| NeuralModel.Raw | NeuralFlowViz/js/model.js:224-245 | each raw attention row has n entries, all in [0, 1] |
| NeuralModel.NormaliseSpec | NeuralFlowViz/js/model.js:248-251 | a normalised row of non-negative weights keeps its length, has entries in [0, 1] and sums to 1 when non-empty |
| NeuralModel.NormaliseValues | NeuralFlowViz/js/model.js:248-251 | with a positive sum each entry is its weight divided by the sum; otherwise every entry is the uniform 1/n |
| NeuralModel.WeightsSpec | NeuralFlowViz/js/model.js:215-260 | the attention weights are numHeads × n × n, and every row has entries in [0, 1] that sum to 1 |
| NeuralModel.ActivationsRange | NeuralFlowViz/js/model.js:263-270 | count activations, each a squared draw in [0, 1) |
| NeuralModel.Promote | NeuralFlowViz/js/model.js:149-153 | on a transformer layer, no component, 'embedding' or 'output' becomes 'attention', and any other component is kept |
| NeuralModel.LLMModel.constructor | NeuralFlowViz/js/model.js:7-26 | the configuration is stored, the layers are built, and there are no tokens, no embeddings and the idle state |
| NeuralModel.LLMModel.CreateLayers | NeuralFlowViz/js/model.js:28-66 | the layer list becomes `Stack(numLayers, numHeads)` |
| NeuralModel.LLMModel.ResetState | NeuralFlowViz/js/model.js:110-120 | tokens and embeddings are emptied and the state is idle |
| NeuralModel.LLMModel.GenerateRandomVector | NeuralFlowViz/js/model.js:101-107 | the vector is the next `size` draws scaled into [-0.1, 0.1) |
| NeuralModel.LLMModel.ProcessText | NeuralFlowViz/js/model.js:69-90 | the state is reset, the tokens are `Tokenize(text)`, and the embeddings are built from the next draws, hiddenSize per token |
| NeuralModel.LLMModel.EmbedTokens | NeuralFlowViz/js/model.js:77-84 | the loop builds exactly the `Embeddings` of the tokens |
| NeuralModel.LLMModel.DrawRow | NeuralFlowViz/js/model.js:224-245 | one raw attention row is drawn from the next n draws |
| NeuralModel.LLMModel.GenerateAttentionWeights | NeuralFlowViz/js/model.js:215-260 | the nested loops build exactly `AttentionWeights`, using numHeads·n·n draws |
| NeuralModel.LLMModel.DrawHead | NeuralFlowViz/js/model.js:220-254 | one head's n normalised rows, using n·n draws |
| NeuralModel.LLMModel.GenerateRandomActivations | NeuralFlowViz/js/model.js:263-270 | the loop returns the next count squared draws |
| NeuralModel.LLMModel.ProcessTokenThroughLayer | NeuralFlowViz/js/model.js:130-180 | the token and layer are recorded; embedding/output layers set that component with no attention and 50/80 activations; on a transformer the component is promoted, with attention weights only for 'attention' and 100 or 30 activations |
| NeuralModel.LLMModel.SetActiveComponent | NeuralFlowViz/js/model.js:183-212 | the component is set, layer and token are kept, attention weights are generated only for 'attention', and the activation count follows the component kind |
| NeuralVisualizer.LayerStepsShape | NeuralFlowViz/js/visualization.js:721-744 | a layer contributes one processLayer step, then one processComponent step per component of a transformer layer, in order |
| NeuralVisualizer.StepsCount | NeuralFlowViz/js/visualization.js:719-745 | the queue before the reset step holds tokens × (layers + transformer components) steps |
| NeuralVisualizer.StepsOrdered | NeuralFlowViz/js/visualization.js:719-745 | the steps are token-major then layer-minor |
| NeuralVisualizer.ScheduleShape | NeuralFlowViz/js/visualization.js:715-751 | the queue has length tokens × work + 1, ends in a single reset step, and is ordered and addresses only existing tokens and layers |
| NeuralVisualizer.ScheduleRunnable | NeuralFlowViz/js/visualization.js:715-751 | every step of the queue addresses a layer the model has |
| NeuralVisualizer.StackWork | NeuralFlowViz/js/visualization.js:719-745 | for the model's layers the per-token work is 7·numLayers + 2 |
| NeuralVisualizer.Width | NeuralFlowViz/js/visualization.js:103-153 | every box has positive width |
| NeuralVisualizer.Height | NeuralFlowViz/js/visualization.js:103-153 | every box's height is between 40 and 180 |
| NeuralVisualizer.ColumnSeparated | NeuralFlowViz/js/visualization.js:103-142 | a transformer column has one box per component, in order, at the layer's x, with at least 20 pixels between consecutive boxes |
| NeuralVisualizer.PositionsShape | NeuralFlowViz/js/visualization.js:63-163 | one entry per layer with layerIndex = i, centred vertically, left to right when the canvas is wider than twice the padding; transformer layers get one box per component in order, embedding gets token and position boxes, output one box |
| NeuralVisualizer.FirstInSpec | NeuralFlowViz/js/visualization.js:590-607 | the first box of a layer that strictly contains the point is found, and none before it does |
| NeuralVisualizer.FirstHitSpec | NeuralFlowViz/js/visualization.js:587-609 | the hit is the first box, in layer then component order, that strictly contains the point; no hit means no box contains it |
| NeuralVisualizer.ColumnUniqueHit | NeuralFlowViz/js/visualization.js:109-142 | no point lies in two boxes of one column |
| NeuralVisualizer.ZoomFactor | NeuralFlowViz/js/visualization.js:649-651 | the zoom factor is positive, and below 1 exactly when scrolling down |
| NeuralVisualizer.ZoomKeepsAnchor | NeuralFlowViz/js/visualization.js:663-667 | zooming keeps the model point under the mouse fixed |
| NeuralVisualizer.TooltipSpec | NeuralFlowViz/js/visualization.js:675-691 | tokenEmbedding and positionEmbedding get the embeddings text, attention the multi-head attention text, feedForward, layerNorm and residual their own texts; any other type gets "<type> component"; a type gets a configured tooltip exactly when it is one of these six |
| NeuralVisualizer.LayoutExplained | NeuralFlowViz/js/visualization.js:675-691 | every laid-out box except the output box has a configured tooltip |
| NeuralVisualizer.Visualizer.constructor | NeuralFlowViz/js/visualization.js:7-24 | empty queue, step 0, not animating, no positions, scale 1 and zero offsets |
| NeuralVisualizer.Visualizer.Setup | NeuralFlowViz/js/visualization.js:40-60 | the canvas size is stored and the positions are computed for it |
| NeuralVisualizer.Visualizer.CalculateComponentPositions | NeuralFlowViz/js/visualization.js:63-163 | the positions become `Positions` of the model's layers for the canvas size |
| NeuralVisualizer.Visualizer.PlaceComponents | NeuralFlowViz/js/visualization.js:105-142 | the component loop builds exactly the column of boxes |
| NeuralVisualizer.Visualizer.MousePressed | NeuralFlowViz/js/visualization.js:582-610 | a press inside a box activates that layer and component on the model (first hit wins); a press outside every box changes nothing |
| NeuralVisualizer.Visualizer.MouseWheel | NeuralFlowViz/js/visualization.js:647-672 | scale and offsets change only if the new scale is within [0.5, 3], so an in-range scale stays in range |
| NeuralVisualizer.Visualizer.StartAnimation | NeuralFlowViz/js/visualization.js:694-712 | the text is processed, the queue is rebuilt from scratch, the step is 0, not started, animating |
| NeuralVisualizer.Visualizer.CreateAnimationSequence | NeuralFlowViz/js/visualization.js:715-751 | the queue gains exactly `Schedule(tokens, layers)` |
| NeuralVisualizer.Visualizer.QueueToken | NeuralFlowViz/js/visualization.js:721-744 | one token's steps are appended |
| NeuralVisualizer.Visualizer.QueueComponents | NeuralFlowViz/js/visualization.js:733-742 | one processComponent step per component is appended |
| NeuralVisualizer.Visualizer.ProcessAnimation | NeuralFlowViz/js/visualization.js:754-784 | past the queue's end only animation stops; otherwise the step's action is applied to the model and the step counter advances by one |
| NeuralVisualizer.Visualizer.Reset | NeuralFlowViz/js/visualization.js:787-794 | queue emptied, step 0, not animating, and the model state reset |
| TectonicUtils.Abs | TectonicSimulation/js/fault.js:40 | the absolute value is non-negative and is x or -x |
| TectonicUtils.Min | TectonicSimulation/js/earthquake.js:20 | `Math.min` is below both arguments and is one of them |
| TectonicUtils.Max | TectonicSimulation/js/simulation.js:266 | `Math.max` is above both arguments and is one of them |
| TectonicUtils.Random | TectonicSimulation/js/utils.js:6-8 | `random(min, max)` lies in [min, max) for a draw in [0, 1) when min < max |
| TectonicUtils.Lerp | TectonicSimulation/js/utils.js:11-13 | lerp(a, b, 0) = a and lerp(a, b, 1) = b |
| TectonicUtils.Map | TectonicSimulation/js/utils.js:21-23 | map sends inMin to outMin and inMax to outMax |
| TectonicUtils.Clamp | TectonicSimulation/js/utils.js:26-28 | with min ≤ max the result is in [min, max] and in-range values are kept; with min > max it is max |
| TectonicUtils.ClampIdempotent | TectonicSimulation/js/utils.js:26-28 | clamping twice is clamping once |
| TectonicUtils.RankMonotone | TectonicSimulation/js/utils.js:68-75 | a larger value never falls into an earlier threshold band |
| TectonicUtils.HeightToColorBand | TectonicSimulation/js/utils.js:68-75 | the terrain colour is the palette entry of the height's band under thresholds 0.2, 0.4, 0.5, 0.7, 0.85 |
| TectonicUtils.HeightToColorMonotone | TectonicSimulation/js/utils.js:68-75 | a higher terrain never gets an earlier colour band |
| TectonicPlate.Fold | TectonicSimulation/js/plate.js:144 | the `reduce` from an accumulator adds the sum of all amounts |
| TectonicPlate.SumAppend | TectonicSimulation/js/plate.js:134-139 | appending a point adds its amount to the total |
| TectonicPlate.SortDescOrdered | TectonicSimulation/js/plate.js:150 | the sort orders the points by descending amount |
| TectonicPlate.SortDesc | TectonicSimulation/js/plate.js:150 | the sort is a permutation of the points |
| TectonicPlate.SumPermutation | TectonicSimulation/js/plate.js:150 | sorting does not change the total stress |
| TectonicPlate.DrainSum | TectonicSimulation/js/plate.js:155-160 | draining in order lowers the total by exactly the released amount |
| TectonicPlate.DrainBounded | TectonicSimulation/js/plate.js:155-160 | nothing is released for a non-positive request, and never more than the request |
| TectonicPlate.DrainExact | TectonicSimulation/js/plate.js:155-160 | for non-negative amounts the released amount is min(request, total) and no point goes negative |
| TectonicPlate.Keep | TectonicSimulation/js/plate.js:163 | the filter keeps only points above 0.01, and only points that were there |
| TectonicPlate.KeepSum | TectonicSimulation/js/plate.js:163 | filtering never raises the total |
| TectonicPlate.ReleaseSpec | TectonicSimulation/js/plate.js:148-166 | `releaseStress` returns 0 for a non-positive request and never more than the request; it returns min(request, total) for non-negative amounts; remaining points exceed 0.01 and their total is at most the old total minus the release |
| TectonicPlate.DrainInOrder | TectonicSimulation/js/plate.js:155-160 | the draining loop computes exactly `Drain` |
| TectonicPlate.Plate.constructor | TectonicSimulation/js/plate.js:5-31 | density and thickness are drawn in [0.8, 1.2), oceanic when the draw exceeds 0.5 (opacity 0.8, else 1), colour channels from three draws, no stress points and deformation 0 |
| TectonicPlate.Plate.TotalStress | TectonicSimulation/js/plate.js:143-145 | the total stress is the sum of all point amounts |
| TectonicPlate.Plate.AddStress | TectonicSimulation/js/plate.js:133-140 | exactly one point (amount, age 0) is appended, the others are unchanged, and deformation and total stress rise by the amount |
| TectonicPlate.Plate.ReleaseStress | TectonicSimulation/js/plate.js:148-166 | the points and returned amount are `Release` of the old points, and deformation decreases by exactly the released amount |
| TectonicFault.DetermineFaultType | TectonicSimulation/js/fault.js:30-57 | relative y-velocity above 0.05 gives subduction if the density difference exceeds 0.1 in size, else convergent; otherwise transform if \|x\| > \|z\|, else divergent; each iff |
| TectonicFault.FaultColor | TectonicSimulation/js/fault.js:218-231 | white exactly for a type outside the four known ones |
| TectonicFault.RowContactsSpec | TectonicSimulation/js/fault.js:96-110 | one vertex's contacts are exactly its midpoints with vertices closer than 2.0 |
| TectonicFault.CandidatesSpec | TectonicSimulation/js/fault.js:92-111 | the contact candidates are exactly the midpoints of vertex pairs closer than 2.0 |
| TectonicFault.Nearest | TectonicSimulation/js/fault.js:122-131 | the chosen index is the first of the nearest remaining points |
| TectonicFault.Remove | TectonicSimulation/js/fault.js:134 | `splice` removes exactly that one point |
| TectonicFault.RouteSpec | TectonicSimulation/js/fault.js:114-140 | the ordered contacts are a permutation of the candidates, the first found comes first, and each next point is the nearest remaining to the previous one |
| TectonicFault.CollectRow | TectonicSimulation/js/fault.js:96-110 | the inner loop collects one vertex's contacts |
| TectonicFault.NearestIndex | TectonicSimulation/js/fault.js:122-131 | the search loop returns `Nearest` |
| TectonicFault.CollectCandidates | TectonicSimulation/js/fault.js:95-111 | the nested loops collect exactly `Candidates` |
| TectonicFault.OrderContacts | TectonicSimulation/js/fault.js:114-140 | the greedy loop computes exactly `Route` |
| TectonicFault.FindContactPoints | TectonicSimulation/js/fault.js:86-141 | the contact points are `Route(Candidates(...))` |
| TectonicFault.Raised | TectonicSimulation/js/fault.js:151-163 | every contact point's stress rises by the same increment |
| TectonicFault.Damped | TectonicSimulation/js/fault.js:193-195 | every contact point's stress is multiplied by 0.1 |
| TectonicFault.ReleaseBounds | TectonicSimulation/js/fault.js:186-187 | releasing 70 to 95 % leaves between 5 % and 30 % of a non-negative stress |
| TectonicFault.Fault.constructor | TectonicSimulation/js/fault.js:5-28 | the given type or the determined one; friction, strength, accumulation and decay rates drawn from their ranges; stress 0; contact points found |
| TectonicFault.Fault.IncrementNonNegative | TectonicSimulation/js/fault.js:160 | the per-point stress increment is non-negative |
| TectonicFault.Fault.Decayed | TectonicSimulation/js/fault.js:151-166 | after decay the stress is never negative, and a fault with no contact points ends at 0 |
| TectonicFault.Fault.Outcome | TectonicSimulation/js/fault.js:172-178 | the update returns 0 when the decayed stress is at most the strength |
| TectonicFault.Fault.OutcomeSign | TectonicSimulation/js/fault.js:172-183 | above the strength the returned magnitude 1.5·ln(stress) is positive exactly when stress > 1 |
| TectonicFault.Fault.Update | TectonicSimulation/js/fault.js:149-179 | points and fault gain the same increment once per point, then decay; above strength the stress is released, the points damped, the time recorded and 1.5·ln(stress) returned; otherwise 0 and the time kept; the new stress, contact points and time are `Advanced` of the old ones with the draw |
| TectonicFault.Fault.AdvancedValid | TectonicSimulation/js/fault.js:149-179 | one update keeps the stress non-negative and the number of contact points, and a fault without contact points stays at stress 0 |
| TectonicFault.Fault.Strain | TectonicSimulation/js/fault.js:151-166 | the accumulation loop and decay give `Raised` points and `Decayed` stress |
| TectonicFault.Fault.AccumulateStress | TectonicSimulation/js/fault.js:151-163 | every point gains the increment and the fault gains it once per point |
| TectonicFault.Fault.DampContacts | TectonicSimulation/js/fault.js:193-195 | every point's stress is multiplied by 0.1 |
| TectonicFault.Fault.TriggerEarthquake | TectonicSimulation/js/fault.js:181-200 | returns 1.5·ln(stress); the stress keeps 5 % to 30 % of its value; the points are damped; the time is recorded |
| TectonicEarthquake.DescriptionBand | TectonicSimulation/js/earthquake.js:274-283 | the description is the label of the magnitude's band under thresholds 2 to 8 (below 2 "Micro", from 8 "Catastrophic") |
| TectonicEarthquake.DescriptionMonotone | TectonicSimulation/js/earthquake.js:274-283 | a larger magnitude never maps to an earlier band |
| TectonicEarthquake.CrackCount | TectonicSimulation/js/earthquake.js:119-125 | cracks only above magnitude 4, floor(2·magnitude) of them |
| TectonicEarthquake.Earthquake.constructor | TectonicSimulation/js/earthquake.js:5-26 | active from now, duration 2000 + 1000·m, radius 2·m, energy 10^(1.5m), depth drawn in [5, 30), shakeIntensity = min(m/3, 1) ≤ 1 |
| TectonicEarthquake.Earthquake.Update | TectonicSimulation/js/earthquake.js:167-173 | the quake stays active until the elapsed time exceeds its duration, and is never reactivated |
| TectonicEarthquake.Earthquake.ApplyCameraShake | TectonicSimulation/js/earthquake.js:238-252 | an inactive quake leaves the camera alone; an active one adds one jolt per axis |
| TectonicEarthquake.Earthquake.Jolt | TectonicSimulation/js/earthquake.js:249-251 | each jolt is at most intensity·dt·10 in size |
| TectonicSimulation.MinAllBelow | TectonicSimulation/js/simulation.js:190-198 | the minimum vertex distance is below a bound exactly when some vertex pair is |
| TectonicSimulation.MinDistance | TectonicSimulation/js/simulation.js:190-198 | the nested loops compute the minimum distance (none for no pairs) |
| TectonicSimulation.ClosePairsMember | TectonicSimulation/js/simulation.js:183-210 | a pair (i, j) gets a fault exactly when i < j and some vertex pair is closer than 5 |
| TectonicSimulation.ClosePairsDistinct | TectonicSimulation/js/simulation.js:183-210 | each unordered plate pair gets at most one fault |
| TectonicSimulation.ClosePairsIncreasing | TectonicSimulation/js/simulation.js:185-186 | the faults are created in (i, j) lexicographic order |
| TectonicSimulation.MeanRatio | TectonicSimulation/js/simulation.js:273-279 | the average of stress/strength is 0 without faults and non-negative when the stresses are |
| TectonicSimulation.Counted | TectonicSimulation/js/simulation.js:265-267 | a quake adds exactly 1 to the count and its energy to the total, and the maximum magnitude never decreases and covers the quake |
| TectonicSimulation.SurvivorsSpec | TectonicSimulation/js/simulation.js:233-245 | the kept quakes are exactly the still-active ones, and the list never grows |
| TectonicSimulation.Simulation.constructor | TectonicSimulation/js/simulation.js:5-27 | time scale 1, not paused, no quakes, all stats 0, the camera at (0, 30, 30), and one fault per close plate pair |
| TectonicSimulation.Simulation.CreateFaults | TectonicSimulation/js/simulation.js:183-210 | the faults appended are exactly one per close pair, in pair order |
| TectonicSimulation.Simulation.CreateAllFaults | TectonicSimulation/js/simulation.js:183-210 | from no faults, the faults are exactly one per close pair, four draws each |
| TectonicSimulation.Simulation.AddFaultIfClose | TectonicSimulation/js/simulation.js:190-208 | a fault is appended exactly when the pair is close |
| TectonicSimulation.Simulation.AddFault | TectonicSimulation/js/simulation.js:202-203 | one fresh fault for the pair is appended |
| TectonicSimulation.Simulation.Update | TectonicSimulation/js/simulation.js:212-249 | while paused nothing changes and the step is 0; otherwise the step is elapsed × time scale, every fault's new state is `Stepped` (each advanced by the step with the draw at its cursor), each outcome is booked (a quake exactly for a positive magnitude), the list keeps the still-active quakes in order, the camera and the draw index are `Shake` of the old camera over the old and new quakes, and avgStress is refreshed |
| TectonicSimulation.Simulation.Advance | TectonicSimulation/js/simulation.js:214-249 | an unpaused step by dt: the faults' new states, the booked quakes, the survivors, the camera shake and avgStress, as for `Update` |
| TectonicSimulation.Simulation.UpdateFaults | TectonicSimulation/js/simulation.js:222-230 | every fault's new state is `Stepped` from the old states; the draw index moves past each fault's draws; each outcome, in order, produces one quake with that magnitude when positive and none otherwise |
| TectonicSimulation.Simulation.Tick | TectonicSimulation/js/simulation.js:223-229 | fault k's new state is `Advanced` of its old one with the next draw, the draw index moves past its `TurnDraws`, a quake starts exactly when the update returns a positive magnitude, and the other faults are untouched |
| TectonicSimulation.Simulation.StepFault | TectonicSimulation/js/simulation.js:223 | one fault update returns its `Outcome`, the fault's new state is `Advanced` of its old one, one draw is taken exactly when it slips, and a positive magnitude leaves contact points to pick an epicentre from |
| TectonicSimulation.SteppedAt | TectonicSimulation/js/simulation.js:222-230 | after the fault loop each fault holds its own old state advanced by dt with the draw at its cursor, whatever the other faults did |
| TectonicSimulation.CursorsStep | TectonicSimulation/js/simulation.js:222-230 | the first fault draws at the starting index, each next fault right after the draws of the one before, and the loop ends past the last fault's draws |
| TectonicSimulation.Simulation.TriggerEarthquake | TectonicSimulation/js/simulation.js:251-271 | the epicentre is a randomly drawn contact point, a fresh quake is appended, and the stats are `Counted` |
| TectonicSimulation.Simulation.UpdateEarthquakes | TectonicSimulation/js/simulation.js:233-245 | the list keeps the still-active quakes in their original order, and the camera is shaken by each active one |
| TectonicSimulation.Simulation.EndOrShake | TectonicSimulation/js/simulation.js:234-244 | one iteration of the reverse loop removes an ended quake or shakes the camera |
| TectonicSimulation.Simulation.UpdateStats | TectonicSimulation/js/simulation.js:273-283 | avgStress becomes the mean stress/strength ratio (non-negative), and the other stats are unchanged |
| TectonicSimulation.Simulation.Reset | TectonicSimulation/js/simulation.js:330-364 | the given plates replace the old ones, the faults are rebuilt from them, there are no quakes, and all four stats are 0 |
| TectonicSimulation.Simulation.TogglePause | TectonicSimulation/js/simulation.js:324-327 | the pause flag is negated and returned, so two toggles restore it |
| TectonicSimulation.Simulation.SetTimeScale | TectonicSimulation/js/simulation.js:367-369 | the time scale is set |
| Upload.LastDot | ats_app/app.py:25 | no dot exactly when the name has no '.', otherwise the position of the last '.' |
| Upload.AllowedFileSpec | ats_app/app.py:22-25 | a name is allowed exactly when the lower-cased text after its last '.' is txt, pdf or docx; a name without '.' is refused |
| Upload.AllowedFileAccepts | ats_app/app.py:22-25 | "a.tar.PDF", ".txt" and "CV.Docx" are allowed |
| Upload.AllowedFileRefuses | ats_app/app.py:22-25 | "a.pdf.exe", "resume" and "resume." are refused |
| Upload.ExtractText | ats_app/app.py:27-54 | an unknown suffix or a read failure gives ""; a .txt file gives its content; .pdf and .docx give their non-empty placeholder |
| Upload.AllowedDispatches | ats_app/app.py:25-50 | every allowed name saved in the upload folder dispatches to a known format |
| Upload.StripBlank | ats_app/app.py:95-99 | a job description strips to "" exactly when it is all whitespace |
| Upload.UploadResume | ats_app/app.py:88-160 | the status is 200, 400 or 500, and a 400 leaves the upload folder untouched |
| Upload.UploadSaveFails | ats_app/app.py:114-153 | past validation, a failed save answers 500 with the internal-error message and removes the file from the upload folder |
| Upload.UploadRejects | ats_app/app.py:92-160 | 400 exactly for an unacceptable request, before any save, with missing part, empty filename, blank job description and disallowed type checked in that order |
| Upload.UploadAfterSave | ats_app/app.py:114-139 | after a successful save, empty extracted text removes the file with a 500, otherwise the file stays and the analysis is returned with 200 |
| Upload.UploadKeepsName | ats_app/app.py:103-139 | when the secured name equals the upload's name the format is always known; PDF and DOCX give 200, and TXT gives 200 exactly when the file reads as non-empty |
| Upload.ListingCoversAllowed | ats_app/app.py:14 | an order of the allowed set has three entries, which are exactly txt, pdf and docx |
| Upload.TypeMessage | ats_app/app.py:160 | for any order of the allowed set, the disallowed-type message is "File type not allowed. Please upload one of: " followed by the three extensions joined by ", " |

## Left out

- Drawing is not modelled. This covers canvas, p5 and Three.js rendering, meshes, particles, line materials and the fault line's visuals. It is rendering through libraries outside the model.
- Scheduling is not modelled: `requestAnimationFrame`, `setTimeout`, `THREE.Clock`, and the pygame main loop with its event handling. Elapsed time and the current time are inputs.
- Sound synthesis, the pygame setup, DOM and GUI wiring, and Flask routing are device or framework I/O.
- PendulumWave and the UI/config/main scripts of NeuralFlowViz and TectonicSimulation are outside this model.
- Floating point is not modelled; all quantities are `real`. `ForestFire.Alignment` uses the exact cosine, with the literal 0.7071067811865476 for 1/√2. The rounding of `Math.sqrt` is not modelled.
- The random stream is given from outside. A stream position it does not define reads as 0.
- `Math.log`, `Math.pow(10, ·)`, `distanceTo` and `length()` are tables given from outside. Only the facts stated in `TectonicUtils.Sound` are assumed about them.
- TectonicSimulation `generatePlates`, `Plate.update` (rotation), `addTerrainDetail` and `generateFractalNoise` are left out: they are trigonometric float numerics. Plates are passed to the simulation's constructor and to `Reset`; the draws `generatePlates` makes are therefore not on the simulation's cursor, which starts at 0 in the constructor and continues across `Reset`.
- The utility `getFaultColor(stress)` (an HSL colour) is left out. `TectonicFault.FaultColor` models the fault's own type-based colour.
- Earthquake particles, crack geometry and their animation are left out. Only the crack count is modelled. Their draws are not counted either, so TectonicSimulation's draw cursor skips them.
- `analyze_resume_ai` is left out because it sleeps and then draws a random score. The score is an input of `Upload.UploadResume`.
- `secure_filename` is a library call. The secured name is an input of `Upload.UploadResume`.
- File saving, reading and removal are modelled as inputs: whether the save succeeded, and the file's content or a read failure. An `os.remove` that itself fails is not modelled.
- The logging `print`s of the upload code are left out.
- TectonicUtils.Map: requires inMin ≠ inMax. In JavaScript a zero-width input range divides by zero and gives Infinity or NaN.
- TectonicSimulation.Simulation.SetTimeScale: requires a non-negative scale. Every frame's dt must be non-negative for the stress invariants. The source accepts any number, but its slider only offers positive values.
- TectonicEarthquake.Earthquake.ApplyCameraShake: requires a non-zero duration. A duration of 0 needs magnitude −2, and quakes are only created with a positive magnitude.
- NeuralModel.LLMModel.ProcessTokenThroughLayer: requires an existing layer index. The source throws a TypeError on a missing layer.
- NeuralVisualizer.Visualizer.ProcessAnimation: models one tick, meaning the step's action plus the step increment. The re-arming `setTimeout` and its delay are not modelled.
- MazeRunner.Player.Move: requires the player to stand inside the maze. The source indexes the grid at the player's cell.
- MazeRunner.Maze.StartGenerationRB: requires at least one row and one column. On an empty maze the source indexes a missing cell.
- MazeRunner.Maze.StartGenerationPrims: requires at least one row and one column, for the same reason.
- ForestFire.Forest.StartFire: requires at least one row. With no rows the source reads `grid[0][j]` of a missing row and throws; with rows but no columns it runs and every attempt misses, which the model keeps.
- Upload.Message: the order of the allowed types in the "File type not allowed" message is an input. It may be any order of txt, pdf and docx, because Python leaves set iteration order unspecified.
- Upload.UploadResume: every exception inside the `try` block is modelled as a failed save (`saveOk` false), which answers 500 and removes the file; the analysis itself never raises in the model, and a failing `os.remove` is not modelled.
- Upload.Lower: lower-cases ASCII letters only. Python's `str.lower` also folds non-ASCII letters.

=== FILE: common.dfy ===
/**
 * Small shared vocabulary: an optional value, the random-number oracle and
 * two-dimensional grids held in `array2`s together with their value snapshots.
 */
module Common {

  datatype Option<T> = None | Some(value: T)

  /**
   * The draws of `Math.random()` / `random.random()` that a model counts:
   * `Draw(rand, n)` is the n-th of them. Where a model counts every call,
   * that is the n-th call of the program's generator.
   */
  type Stream = imap<nat, real>

  /** The n-th draw (0 for an index the stream does not give). */
  function Draw(rand: Stream, n: nat): real
  {
    if n in rand then rand[n] else 0.0
  }

  /** Every draw lies in [0, 1). */
  ghost predicate UnitStream(rand: Stream)
  {
    forall n: nat :: 0.0 <= Draw(rand, n) < 1.0
  }

  /** A stream whose every draw lies in [0, 1), as `Math.random()`'s do. */
  type UnitDraws = rand: Stream | UnitStream(rand) ghost witness imap n: nat | true :: 0.0

  /** `Math.floor(r * n)`: a draw scaled to an index below n. */
  function ScaledIndex(r: real, n: nat): (k: int)
    requires 0.0 <= r < 1.0 && n > 0
    ensures 0 <= k < n
  {
    assert 0.0 <= r * n as real;
    assert r * n as real < n as real by {
      assert (1.0 - r) * n as real > 0.0;
    }
    (r * n as real).Floor
  }

  /** A rectangular grid of rows, each a sequence of cols values. */
  ghost predicate IsMatrix<T>(g: seq<seq<T>>, rows: nat, cols: nat)
  {
    |g| == rows && forall i :: 0 <= i < rows ==> |g[i]| == cols
  }

  /** The contents of a two-dimensional array, row by row. */
  ghost function Snapshot<T>(a: array2<T>): (g: seq<seq<T>>)
    reads a
    ensures IsMatrix(g, a.Length0, a.Length1)
  {
    seq(a.Length0, i requires 0 <= i < a.Length0 reads a =>
      seq(a.Length1, j requires 0 <= j < a.Length1 reads a => a[i, j]))
  }

  /** An array whose every cell agrees with a grid has that grid as its snapshot. */
  lemma SnapshotEq<T>(a: array2<T>, h: seq<seq<T>>)
    requires IsMatrix(h, a.Length0, a.Length1)
    requires forall i, j :: 0 <= i < a.Length0 && 0 <= j < a.Length1 ==> a[i, j] == h[i][j]
    ensures Snapshot(a) == h
  {
    forall i | 0 <= i < a.Length0 ensures Snapshot(a)[i] == h[i] {
      assert forall j :: 0 <= j < a.Length1 ==> Snapshot(a)[i][j] == h[i][j];
    }
  }

  /** g with the value at (i, j) replaced by v. */
  function SetCell<T>(g: seq<seq<T>>, i: nat, j: nat, v: T): (h: seq<seq<T>>)
    requires i < |g| && j < |g[i]|
    ensures |h| == |g| && forall a :: 0 <= a < |g| ==> |h[a]| == |g[a]|
    ensures h[i][j] == v
    ensures forall a, b :: 0 <= a < |g| && 0 <= b < |g[a]| && (a, b) != (i, j) ==> h[a][b] == g[a][b]
  {
    g[i := g[i][j := v]]
  }
}

=== FILE: forest_fire.dfy ===
/**
 * The forest-fire cellular automaton: a rows x cols grid of four cell states,
 * stepped with double buffering (reads from `grid`, writes to `nextGrid`, then
 * copies back), fire spread biased by wind, click/random ignition and the
 * statistics pass that pauses the run once the fire is out.
 */
module ForestFire {
  import opened Common

  /** Cell states 0 (empty), 1 (tree), 2 (burning), 3 (burned). */
  datatype Cell = Empty | Tree | Burning | Burned

  /** The nine entries of the wind-direction selector. */
  datatype Wind = Calm | North | East | South | West | Northeast | Southeast | Southwest | Northwest

  /** The (x, y) wind vector of each direction; "none" is (0, 0). */
  function WindVector(w: Wind): (v: (int, int))
    ensures -1 <= v.0 <= 1 && -1 <= v.1 <= 1
    ensures v == (0, 0) <==> w == Calm
  {
    match w
    case Calm => (0, 0)
    case North => (0, -1)
    case East => (1, 0)
    case South => (0, 1)
    case West => (-1, 0)
    case Northeast => (1, -1)
    case Southeast => (1, 1)
    case Southwest => (-1, 1)
    case Northwest => (-1, -1)
  }

  /** The slider values read at the start of every step. */
  datatype Params = Params(wind: Wind, windStrength: int, fireSpreadRate: int)

  type Grid = seq<seq<Cell>>


  predicate InBounds(i: int, j: int, rows: nat, cols: nat)
  {
    0 <= i < rows && 0 <= j < cols
  }

  /** Number of non-zero components of a vector with components in -1..1: its squared length. */
  function SquaredNorm(x: int, y: int): (n: nat)
    requires -1 <= x <= 1 && -1 <= y <= 1
    ensures n == x * x + y * y
  {
    (if x != 0 then 1 else 0) + (if y != 0 then 1 else 0)
  }

  /**
   * Cosine between the offset (di, dj) towards a burning neighbour and the wind
   * vector, `dot / (sqrt(|d|^2) * sqrt(|w|^2) || 1)`: a zero denominator (no
   * wind) is replaced by 1. With squared lengths 1 and 2 the denominator is 1,
   * 2 (both diagonal) or sqrt(2) (one diagonal), the last written as a product
   * with 1 / sqrt(2) = 0.7071067811865476.
   */
  function Alignment(di: int, dj: int, w: Wind): (a: real)
    requires -1 <= di <= 1 && -1 <= dj <= 1 && (di, dj) != (0, 0)
    ensures a > 0.0 <==> di * WindVector(w).0 + dj * WindVector(w).1 > 0
    ensures w == Calm ==> a == 0.0
    ensures -1.0 <= a <= 1.0
  {
    var (wx, wy) := WindVector(w);
    var dot := di * wx + dj * wy;
    var nd, nw := SquaredNorm(di, dj), SquaredNorm(wx, wy);
    if nw == 0 then 0.0
    else if nd == 1 && nw == 1 then dot as real
    else if nd == 2 && nw == 2 then dot as real / 2.0
    else dot as real * 0.7071067811865476
  }

  /** The probability that one burning neighbour at offset (di, dj) ignites a tree. */
  function Probability(p: Params, di: int, dj: int): (prob: real)
    requires -1 <= di <= 1 && -1 <= dj <= 1 && (di, dj) != (0, 0)
    // no spread rate, no fire
    ensures p.fireSpreadRate == 0 ==> prob == 0.0
    // wind only ever scales the base probability up
    ensures p.fireSpreadRate >= 0 ==> prob >= p.fireSpreadRate as real / 10.0
  {
    var base := p.fireSpreadRate as real / 10.0;
    if p.windStrength > 0 && Alignment(di, dj, p.wind) > 0.0 then
      var scale := 1.0 + Alignment(di, dj, p.wind) * p.windStrength as real / 5.0;
      assert scale >= 1.0;
      assert base >= 0.0 ==> base * scale >= base;
      base * scale
    else
      base
  }

  /**
   * Wind raises the probability exactly for a positive strength and a burning
   * neighbour that lies with the wind (the fire travels downwind); otherwise
   * the probability is the spread rate divided by 10.
   */
  lemma WindBias(p: Params, di: int, dj: int)
    requires -1 <= di <= 1 && -1 <= dj <= 1 && (di, dj) != (0, 0)
    ensures var dot := di * WindVector(p.wind).0 + dj * WindVector(p.wind).1;
      && (p.windStrength <= 0 || dot <= 0 ==> Probability(p, di, dj) == p.fireSpreadRate as real / 10.0)
      && (p.windStrength > 0 && dot > 0 && p.fireSpreadRate > 0 ==>
            Probability(p, di, dj) > p.fireSpreadRate as real / 10.0)
      && (p.wind == Calm ==> Probability(p, di, dj) == p.fireSpreadRate as real / 10.0)
  {
    var base := p.fireSpreadRate as real / 10.0;
    if p.windStrength > 0 && Alignment(di, dj, p.wind) > 0.0 && p.fireSpreadRate > 0 {
      var scale := 1.0 + Alignment(di, dj, p.wind) * p.windStrength as real / 5.0;
      assert scale > 1.0;
      assert base > 0.0;
      assert base * scale > base * 1.0;
    }
  }

  /**
   * The nine ignition probabilities of one step, indexed by Slot(di, dj);
   * the centre slot is never used.
   */
  type Odds = t: seq<real> | |t| == 9 witness [0.0, 0.0, 0.0, 0.0, 0.0, 0.0, 0.0, 0.0, 0.0]

  /** Row-major position of offset (di, dj) in a 3 x 3 table. */
  function Slot(di: int, dj: int): (k: nat)
    requires -1 <= di <= 1 && -1 <= dj <= 1
    ensures k < 9
  {
    (di + 1) * 3 + (dj + 1)
  }

  /** The probabilities the sliders give, one per neighbour offset. */
  function ProbTable(p: Params): (t: Odds)
  {
    seq(9, k requires 0 <= k < 9 =>
      var di, dj := k / 3 - 1, k % 3 - 1;
      if di == 0 && dj == 0 then 0.0 else Probability(p, di, dj))
  }

  /**
   * `odds` holds the probability of every neighbour offset. The quantifier
   * fires only on an explicit `Probability(p, di, dj)`, so that proofs about
   * the neighbour scan never expand the wind arithmetic.
   */
  ghost predicate Tabulates(p: Params, odds: Odds)
  {
    forall di, dj {:trigger Probability(p, di, dj)} ::
      -1 <= di <= 1 && -1 <= dj <= 1 && (di, dj) != (0, 0) ==> odds[Slot(di, dj)] == Probability(p, di, dj)
  }

  lemma ProbTableTabulates(p: Params)
    ensures Tabulates(p, ProbTable(p))
  {
    forall di, dj | -1 <= di <= 1 && -1 <= dj <= 1 && (di, dj) != (0, 0)
      ensures ProbTable(p)[Slot(di, dj)] == Probability(p, di, dj)
    {
      var k: int := Slot(di, dj);
      assert k / 3 - 1 == di && k % 3 - 1 == dj;
    }
  }

  /** With no spread rate every probability is 0. */
  lemma ProbTableWithoutRate(p: Params)
    requires p.fireSpreadRate == 0
    ensures forall k :: 0 <= k < 9 ==> ProbTable(p)[k] <= 0.0
  {
  }

  /** The neighbour at offset (a, b) of (i, j) exists and is burning. */
  ghost predicate BurningAt(g: Grid, rows: nat, cols: nat, i: int, j: int, a: int, b: int)
    requires IsMatrix(g, rows, cols)
  {
    -1 <= a <= 1 && -1 <= b <= 1 && (a, b) != (0, 0) &&
    InBounds(i + a, j + b, rows, cols) && g[i + a][j + b] == Burning
  }

  /** Some in-bounds neighbour (no wrap-around) of (i, j) is burning. */
  ghost predicate HasBurningNeighbour(g: Grid, rows: nat, cols: nat, i: int, j: int)
    requires IsMatrix(g, rows, cols)
  {
    exists a, b :: BurningAt(g, rows, cols, i, j, a, b)
  }

  /**
   * The neighbour scan of one tree, from offset (di, dj) on, in the order di
   * then dj from -1 to 1, skipping (0, 0): every burning in-bounds neighbour
   * costs one draw, and the first draw below its probability ignites the tree
   * and ends the scan. Returns whether the tree ignites and the next draw index.
   */
  function ScanFrom(g: Grid, rows: nat, cols: nat, i: int, j: int, odds: Odds,
                    rand: Stream, cursor: nat, di: int, dj: int): (r: (bool, nat))
    requires IsMatrix(g, rows, cols)
    requires -1 <= di <= 2 && -1 <= dj <= 2
    ensures r.1 >= cursor
    decreases 2 - di, 2 - dj
  {
    if di > 1 then (false, cursor)
    else if dj > 1 then ScanFrom(g, rows, cols, i, j, odds, rand, cursor, di + 1, -1)
    else if di == 0 && dj == 0 then ScanFrom(g, rows, cols, i, j, odds, rand, cursor, di, dj + 1)
    else if InBounds(i + di, j + dj, rows, cols) && g[i + di][j + dj] == Burning then
      if Draw(rand, cursor) < odds[Slot(di, dj)] then (true, cursor + 1)
      else ScanFrom(g, rows, cols, i, j, odds, rand, cursor + 1, di, dj + 1)
    else ScanFrom(g, rows, cols, i, j, odds, rand, cursor, di, dj + 1)
  }

  /**
   * The test of the single neighbour at offset (di, dj): whether it ignites
   * the tree, and the next draw index (one draw if it is burning, none if not).
   */
  function Neighbour(g: Grid, rows: nat, cols: nat, i: int, j: int, odds: Odds,
                     rand: Stream, cursor: nat, di: int, dj: int): (r: (bool, nat))
    requires IsMatrix(g, rows, cols)
    requires -1 <= di <= 1 && -1 <= dj <= 1 && (di, dj) != (0, 0)
    ensures r.0 ==> BurningAt(g, rows, cols, i, j, di, dj)
    ensures r.1 == if BurningAt(g, rows, cols, i, j, di, dj) then cursor + 1 else cursor
  {
    if InBounds(i + di, j + dj, rows, cols) && g[i + di][j + dj] == Burning then
      (Draw(rand, cursor) < odds[Slot(di, dj)], cursor + 1)
    else (false, cursor)
  }

  /** The scan from a real offset (di, dj) is that neighbour's test followed by the rest. */
  lemma ScanStep(g: Grid, rows: nat, cols: nat, i: int, j: int, odds: Odds,
                 rand: Stream, cursor: nat, di: int, dj: int)
    requires IsMatrix(g, rows, cols)
    requires -1 <= di <= 1 && -1 <= dj <= 1 && (di, dj) != (0, 0)
    ensures var n := Neighbour(g, rows, cols, i, j, odds, rand, cursor, di, dj);
      ScanFrom(g, rows, cols, i, j, odds, rand, cursor, di, dj) ==
      if n.0 then n else ScanFrom(g, rows, cols, i, j, odds, rand, n.1, di, dj + 1)
  {
  }

  /**
   * A scan ignites the tree only when some neighbour is burning, and with no
   * burning neighbour it uses no draw.
   */
  lemma {:induction false} ScanSound(g: Grid, rows: nat, cols: nat, i: int, j: int, odds: Odds,
                                     rand: Stream, cursor: nat, di: int, dj: int)
    requires IsMatrix(g, rows, cols)
    requires -1 <= di <= 2 && -1 <= dj <= 2
    ensures ScanFrom(g, rows, cols, i, j, odds, rand, cursor, di, dj).0 ==> HasBurningNeighbour(g, rows, cols, i, j)
    ensures !HasBurningNeighbour(g, rows, cols, i, j) ==>
              ScanFrom(g, rows, cols, i, j, odds, rand, cursor, di, dj) == (false, cursor)
    decreases 2 - di, 2 - dj
  {
    if di > 1 {
    } else if dj > 1 {
      ScanSound(g, rows, cols, i, j, odds, rand, cursor, di + 1, -1);
    } else if di == 0 && dj == 0 {
      ScanSound(g, rows, cols, i, j, odds, rand, cursor, di, dj + 1);
    } else if InBounds(i + di, j + dj, rows, cols) && g[i + di][j + dj] == Burning {
      assert BurningAt(g, rows, cols, i, j, di, dj);
      ScanSound(g, rows, cols, i, j, odds, rand, cursor + 1, di, dj + 1);
    } else {
      ScanSound(g, rows, cols, i, j, odds, rand, cursor, di, dj + 1);
    }
  }

  /** With a zero spread rate no draw can be below the probability. */
  lemma {:induction false} ScanWithoutRate(g: Grid, rows: nat, cols: nat, i: int, j: int, odds: Odds,
                                           rand: Stream, cursor: nat, di: int, dj: int)
    requires IsMatrix(g, rows, cols) && UnitStream(rand) && forall k :: 0 <= k < 9 ==> odds[k] <= 0.0
    requires -1 <= di <= 2 && -1 <= dj <= 2
    ensures !ScanFrom(g, rows, cols, i, j, odds, rand, cursor, di, dj).0
    decreases 2 - di, 2 - dj
  {
    if di <= 1 {
      var next := if dj > 1 then (di + 1, -1) else (di, dj + 1);
      var burning := dj <= 1 && (di, dj) != (0, 0) &&
                     InBounds(i + di, j + dj, rows, cols) && g[i + di][j + dj] == Burning;
      var c := if burning then cursor + 1 else cursor;
      if burning {
        var k := Slot(di, dj);
        assert odds[k] <= 0.0 && 0.0 <= Draw(rand, cursor);
      }
      assert ScanFrom(g, rows, cols, i, j, odds, rand, cursor, di, dj)
          == ScanFrom(g, rows, cols, i, j, odds, rand, c, next.0, next.1);
      ScanWithoutRate(g, rows, cols, i, j, odds, rand, c, next.0, next.1);
    }
  }

  /** The new state of cell (i, j) and the next draw index. */
  function NextCell(g: Grid, rows: nat, cols: nat, i: nat, j: nat, odds: Odds,
                    rand: Stream, cursor: nat): (r: (Cell, nat))
    requires IsMatrix(g, rows, cols) && i < rows && j < cols
    ensures r.1 >= cursor
    // a burning cell burns for exactly one step
    ensures g[i][j] == Burning ==> r == (Burned, cursor)
    // empty and burned cells are inert
    ensures g[i][j] == Empty || g[i][j] == Burned ==> r == (g[i][j], cursor)
    ensures g[i][j] == Tree ==> r.0 == Tree || r.0 == Burning
  {
    match g[i][j]
    case Burning => (Burned, cursor)
    case Tree =>
      var s := ScanFrom(g, rows, cols, i, j, odds, rand, cursor, -1, -1);
      (if s.0 then Burning else Tree, s.1)
    case _ => (g[i][j], cursor)
  }

  /**
   * The draw index when the row-major pass reaches cell (i, j), starting the
   * step at draw `start`; (rows, 0) is the index after the whole pass.
   */
  function CursorAt(g: Grid, rows: nat, cols: nat, odds: Odds, rand: Stream,
                    start: nat, i: nat, j: nat): (c: nat)
    requires IsMatrix(g, rows, cols)
    requires i <= rows && j <= cols && (i == rows ==> j == 0)
    ensures c >= start
    decreases i, j
  {
    if j == 0 then
      (if i == 0 then start else CursorAt(g, rows, cols, odds, rand, start, i - 1, cols))
    else
      NextCell(g, rows, cols, i, j - 1, odds, rand, CursorAt(g, rows, cols, odds, rand, start, i, j - 1)).1
  }

  /** The new states of the first j cells of row i. */
  ghost function RowPrefix(g: Grid, rows: nat, cols: nat, odds: Odds, rand: Stream,
                           start: nat, i: nat, j: nat): (r: seq<Cell>)
    requires IsMatrix(g, rows, cols) && i < rows && j <= cols
    ensures |r| == j
  {
    if j == 0 then []
    else RowPrefix(g, rows, cols, odds, rand, start, i, j - 1) +
         [NextCell(g, rows, cols, i, j - 1, odds, rand, CursorAt(g, rows, cols, odds, rand, start, i, j - 1)).0]
  }

  /**
   * Advancing the row pass by one cell: the draws of cell (i, j) are consumed
   * and its new state is appended.
   */
  lemma RowStep(g: Grid, rows: nat, cols: nat, odds: Odds, rand: Stream, start: nat,
                i: nat, j: nat, row: seq<Cell>, c: nat, next: Cell, c': nat)
    requires IsMatrix(g, rows, cols) && i < rows && j < cols
    requires c == CursorAt(g, rows, cols, odds, rand, start, i, j)
    requires row == RowPrefix(g, rows, cols, odds, rand, start, i, j)
    requires (next, c') == NextCell(g, rows, cols, i, j, odds, rand, c)
    ensures c' == CursorAt(g, rows, cols, odds, rand, start, i, j + 1)
    ensures row + [next] == RowPrefix(g, rows, cols, odds, rand, start, i, j + 1)
  {
  }

  lemma {:induction false} RowPrefixCells(g: Grid, rows: nat, cols: nat, odds: Odds, rand: Stream,
                                          start: nat, i: nat, j: nat)
    requires IsMatrix(g, rows, cols) && i < rows && j <= cols
    ensures forall b :: 0 <= b < j ==>
              RowPrefix(g, rows, cols, odds, rand, start, i, j)[b] ==
              NextCell(g, rows, cols, i, b, odds, rand, CursorAt(g, rows, cols, odds, rand, start, i, b)).0
  {
    if j > 0 { RowPrefixCells(g, rows, cols, odds, rand, start, i, j - 1); }
  }

  lemma StepGridRows(g: Grid, rows: nat, cols: nat, odds: Odds, rand: Stream, start: nat)
    requires IsMatrix(g, rows, cols)
    ensures forall i, j :: 0 <= i < rows && 0 <= j < cols ==>
              StepGrid(g, rows, cols, odds, rand, start)[i][j] == RowPrefix(g, rows, cols, odds, rand, start, i, cols)[j]
  {
    forall i | 0 <= i < rows {
      RowPrefixCells(g, rows, cols, odds, rand, start, i, cols);
    }
  }

  /** The whole grid after one step that starts at draw `start`. */
  function StepGrid(g: Grid, rows: nat, cols: nat, odds: Odds, rand: Stream, start: nat): (h: Grid)
    requires IsMatrix(g, rows, cols)
    ensures IsMatrix(h, rows, cols)
  {
    seq(rows, i requires 0 <= i < rows =>
      seq(cols, j requires 0 <= j < cols =>
        NextCell(g, rows, cols, i, j, odds, rand, CursorAt(g, rows, cols, odds, rand, start, i, j)).0))
  }

  /** Number of cells of a row in state s. */
  function CountRow(row: seq<Cell>, s: Cell): nat
  {
    if row == [] then 0
    else CountRow(row[..|row| - 1], s) + (if row[|row| - 1] == s then 1 else 0)
  }

  /** Number of cells of a grid in state s. */
  function Count(g: Grid, s: Cell): nat
  {
    if g == [] then 0 else Count(g[..|g| - 1], s) + CountRow(g[|g| - 1], s)
  }

  /** No cell is burning. */
  ghost predicate FireOut(g: Grid)
  {
    forall i, j :: 0 <= i < |g| && 0 <= j < |g[i]| ==> g[i][j] != Burning
  }


  // ---------------------------------------------------------------------------
  // Properties of one step

  /** Only a tree with a burning neighbour can catch fire; without one it draws nothing. */
  lemma NextCellNeedsFire(g: Grid, rows: nat, cols: nat, i: nat, j: nat, odds: Odds,
                          rand: Stream, cursor: nat)
    requires IsMatrix(g, rows, cols) && i < rows && j < cols
    ensures NextCell(g, rows, cols, i, j, odds, rand, cursor).0 == Burning ==>
              g[i][j] == Tree && HasBurningNeighbour(g, rows, cols, i, j)
    ensures g[i][j] == Tree && !HasBurningNeighbour(g, rows, cols, i, j) ==>
              NextCell(g, rows, cols, i, j, odds, rand, cursor) == (Tree, cursor)
  {
    ScanSound(g, rows, cols, i, j, odds, rand, cursor, -1, -1);
  }

  /**
   * Cell by cell: burning becomes burned, empty and burned stay, and a cell
   * is burning afterwards only if it was a tree next to a burning cell.
   */
  lemma StepCells(g: Grid, rows: nat, cols: nat, odds: Odds, rand: Stream, start: nat, i: nat, j: nat)
    requires IsMatrix(g, rows, cols) && i < rows && j < cols
    ensures var h := StepGrid(g, rows, cols, odds, rand, start);
      && (g[i][j] == Burning ==> h[i][j] == Burned)
      && (g[i][j] == Empty || g[i][j] == Burned ==> h[i][j] == g[i][j])
      && (h[i][j] == Burning ==> g[i][j] == Tree && HasBurningNeighbour(g, rows, cols, i, j))
      && (g[i][j] == Tree && !HasBurningNeighbour(g, rows, cols, i, j) ==> h[i][j] == Tree)
      && (h[i][j] == Tree ==> g[i][j] == Tree)
  {
    NextCellNeedsFire(g, rows, cols, i, j, odds, rand, CursorAt(g, rows, cols, odds, rand, start, i, j));
  }

  /** With fireSpreadRate = 0 no tree ignites, so after one step nothing burns. */
  lemma NoSpreadWithoutRate(g: Grid, rows: nat, cols: nat, p: Params, rand: Stream, start: nat)
    requires IsMatrix(g, rows, cols) && UnitStream(rand) && p.fireSpreadRate == 0
    ensures FireOut(StepGrid(g, rows, cols, ProbTable(p), rand, start))
    ensures forall i, j :: 0 <= i < rows && 0 <= j < cols && g[i][j] == Tree ==>
              StepGrid(g, rows, cols, ProbTable(p), rand, start)[i][j] == Tree
  {
    var h := StepGrid(g, rows, cols, ProbTable(p), rand, start);
    ProbTableWithoutRate(p);
    forall i, j | 0 <= i < rows && 0 <= j < cols
      ensures h[i][j] != Burning
      ensures g[i][j] == Tree ==> h[i][j] == Tree
    {
      if g[i][j] == Tree {
        ScanWithoutRate(g, rows, cols, i, j, ProbTable(p), rand, CursorAt(g, rows, cols, ProbTable(p), rand, start, i, j), -1, -1);
      }
    }
  }

  /** Once the fire is out the grid is a fixed point and no draw is used. */
  lemma FireOutIsFixedPoint(g: Grid, rows: nat, cols: nat, odds: Odds, rand: Stream, start: nat)
    requires IsMatrix(g, rows, cols) && FireOut(g)
    ensures StepGrid(g, rows, cols, odds, rand, start) == g
    ensures CursorAt(g, rows, cols, odds, rand, start, rows, 0) == start
  {
    var h := StepGrid(g, rows, cols, odds, rand, start);
    forall i, j | 0 <= i < rows && 0 <= j < cols
      ensures h[i][j] == g[i][j]
      ensures CursorAt(g, rows, cols, odds, rand, start, i, j) == start
    {
      NoBurningNoNeighbour(g, rows, cols, i, j);
      CursorStaysWhenFireOut(g, rows, cols, odds, rand, start, i, j);
      NextCellNeedsFire(g, rows, cols, i, j, odds, rand, start);
    }
    CursorStaysWhenFireOut(g, rows, cols, odds, rand, start, rows, 0);
    forall i | 0 <= i < rows ensures h[i] == g[i] { }
  }

  lemma NoBurningNoNeighbour(g: Grid, rows: nat, cols: nat, i: int, j: int)
    requires IsMatrix(g, rows, cols) && FireOut(g)
    ensures !HasBurningNeighbour(g, rows, cols, i, j)
  {
    forall a, b ensures !BurningAt(g, rows, cols, i, j, a, b) {
      if -1 <= a <= 1 && -1 <= b <= 1 && InBounds(i + a, j + b, rows, cols) {
        assert g[i + a][j + b] != Burning;
      }
    }
  }

  lemma {:induction false} CursorStaysWhenFireOut(g: Grid, rows: nat, cols: nat, odds: Odds,
                                                  rand: Stream, start: nat, i: nat, j: nat)
    requires IsMatrix(g, rows, cols) && FireOut(g)
    requires i <= rows && j <= cols && (i == rows ==> j == 0)
    ensures CursorAt(g, rows, cols, odds, rand, start, i, j) == start
    decreases i, j
  {
    if j == 0 {
      if i > 0 { CursorStaysWhenFireOut(g, rows, cols, odds, rand, start, i - 1, cols); }
    } else {
      CursorStaysWhenFireOut(g, rows, cols, odds, rand, start, i, j - 1);
      NoBurningNoNeighbour(g, rows, cols, i, j - 1);
      NextCellNeedsFire(g, rows, cols, i, j - 1, odds, rand, start);
    }
  }

  // ---------------------------------------------------------------------------
  // Counting

  lemma {:induction false} CountRowMono(r: seq<Cell>, q: seq<Cell>, s: Cell)
    requires |r| == |q|
    requires forall k :: 0 <= k < |q| && q[k] == s ==> r[k] == s
    ensures CountRow(q, s) <= CountRow(r, s)
    decreases |r|
  {
    if r != [] {
      CountRowMono(r[..|r| - 1], q[..|q| - 1], s);
    }
  }

  /** If every s-cell of h was an s-cell of g, h has no more s-cells than g. */
  lemma {:induction false} CountMono(g: Grid, h: Grid, s: Cell)
    requires |g| == |h| && forall i :: 0 <= i < |g| ==> |g[i]| == |h[i]|
    requires forall i, j :: 0 <= i < |h| && 0 <= j < |h[i]| && h[i][j] == s ==> g[i][j] == s
    ensures Count(h, s) <= Count(g, s)
    decreases |g|
  {
    if g != [] {
      var n := |g| - 1;
      CountMono(g[..n], h[..n], s);
      CountRowMono(g[n], h[n], s);
    }
  }

  /** In one step the tree count never rises and the burned count never falls. */
  lemma StepCounts(g: Grid, rows: nat, cols: nat, odds: Odds, rand: Stream, start: nat)
    requires IsMatrix(g, rows, cols)
    ensures Count(StepGrid(g, rows, cols, odds, rand, start), Tree) <= Count(g, Tree)
    ensures Count(g, Burned) <= Count(StepGrid(g, rows, cols, odds, rand, start), Burned)
  {
    var h := StepGrid(g, rows, cols, odds, rand, start);
    forall i, j | 0 <= i < rows && 0 <= j < cols
      ensures h[i][j] == Tree ==> g[i][j] == Tree
      ensures g[i][j] == Burned ==> h[i][j] == Burned
    {
      StepCells(g, rows, cols, odds, rand, start, i, j);
    }
    CountMono(g, h, Tree);
    CountMono(h, g, Burned);
  }

  lemma {:induction false} CountRowTotal(r: seq<Cell>)
    ensures CountRow(r, Empty) + CountRow(r, Tree) + CountRow(r, Burning) + CountRow(r, Burned) == |r|
    decreases |r|
  {
    if r != [] { CountRowTotal(r[..|r| - 1]); }
  }

  /** The four state counts add up to rows * cols. */
  lemma {:induction false} CountTotal(g: Grid, rows: nat, cols: nat)
    requires IsMatrix(g, rows, cols)
    ensures Count(g, Empty) + Count(g, Tree) + Count(g, Burning) + Count(g, Burned) == rows * cols
    decreases rows
  {
    if rows > 0 {
      CountTotal(g[..rows - 1], rows - 1, cols);
      CountRowTotal(g[rows - 1]);
      assert (rows - 1) * cols + cols == rows * cols;
    }
  }

  lemma {:induction false} CountRowSet(r: seq<Cell>, j: nat, c: Cell, s: Cell)
    requires j < |r|
    ensures CountRow(r[j := c], s) + (if r[j] == s then 1 else 0)
         == CountRow(r, s) + (if c == s then 1 else 0)
    decreases |r|
  {
    var n := |r| - 1;
    if j < n {
      assert r[j := c][..n] == r[..n][j := c];
      CountRowSet(r[..n], j, c, s);
    } else {
      assert r[j := c][..n] == r[..n];
    }
  }

  /** Changing one cell changes the counts of the old and the new state by one. */
  lemma {:induction false} CountSet(g: Grid, i: nat, j: nat, c: Cell, s: Cell)
    requires i < |g| && j < |g[i]|
    ensures Count(SetCell(g, i, j, c), s) + (if g[i][j] == s then 1 else 0)
         == Count(g, s) + (if c == s then 1 else 0)
    decreases |g|
  {
    var n := |g| - 1;
    var h := SetCell(g, i, j, c);
    if i < n {
      assert h[..n] == SetCell(g[..n], i, j, c);
      CountSet(g[..n], i, j, c, s);
    } else {
      assert h[..n] == g[..n];
      CountRowSet(g[i], j, c, s);
    }
  }

  /** `after` differs from `before` only by trees that caught fire. */
  ghost predicate OnlyIgnited(before: Grid, after: Grid, rows: nat, cols: nat)
  {
    IsMatrix(before, rows, cols) && IsMatrix(after, rows, cols) &&
    forall i, j :: 0 <= i < rows && 0 <= j < cols ==>
      after[i][j] == before[i][j] || (before[i][j] == Tree && after[i][j] == Burning)
  }

  /** Igniting one more tree keeps a grid within the trees-caught-fire relation. */
  lemma IgniteOne(g0: Grid, g: Grid, i: nat, j: nat, rows: nat, cols: nat)
    requires OnlyIgnited(g0, g, rows, cols) && i < rows && j < cols && g[i][j] == Tree
    ensures OnlyIgnited(g0, SetCell(g, i, j, Burning), rows, cols)
  {
  }

  /** Trees catching fire twice over is trees catching fire. */
  lemma OnlyIgnitedTrans(a: Grid, b: Grid, c: Grid, rows: nat, cols: nat)
    requires OnlyIgnited(a, b, rows, cols) && OnlyIgnited(b, c, rows, cols)
    ensures OnlyIgnited(a, c, rows, cols)
  {
  }

  /** The row that attempt k of a search starting at draw d tries: `floor(random() * rows)` on draw d + 2k. */
  function AttemptRow(rand: Stream, d: nat, k: nat, rows: nat): (i: nat)
    requires UnitStream(rand) && rows > 0
    ensures i < rows
  {
    ScaledIndex(Draw(rand, d + 2 * k), rows)
  }

  /** The column that attempt k tries: `floor(random() * cols)` on draw d + 2k + 1. */
  function AttemptCol(rand: Stream, d: nat, k: nat, cols: nat): (j: nat)
    requires UnitStream(rand) && cols > 0
    ensures j < cols
  {
    ScaledIndex(Draw(rand, d + 2 * k + 1), cols)
  }

  /** Attempt k finds a tree: the grid has columns and the cell it tries holds a tree. */
  predicate Hits(g: Grid, rand: Stream, d: nat, k: nat, rows: nat, cols: nat)
    requires IsMatrix(g, rows, cols) && UnitStream(rand) && rows > 0
  {
    cols > 0 && g[AttemptRow(rand, d, k, rows)][AttemptCol(rand, d, k, cols)] == Tree
  }

  /**
   * The first attempt from k on, of the 100 a search makes, that finds a
   * tree; None when none of them does.
   */
  function FirstTree(g: Grid, rand: Stream, d: nat, rows: nat, cols: nat, k: nat): (r: Option<nat>)
    requires IsMatrix(g, rows, cols) && UnitStream(rand) && rows > 0
    ensures r.Some? ==> k <= r.value < 100 && Hits(g, rand, d, r.value, rows, cols)
    ensures forall a :: k <= a < 100 && (r.None? || a < r.value) ==> !Hits(g, rand, d, a, rows, cols)
    decreases 100 - k
  {
    if k >= 100 then None
    else if Hits(g, rand, d, k, rows, cols) then Some(k)
    else FirstTree(g, rand, d, rows, cols, k + 1)
  }

  /**
   * One search from draw d, as a grid and the next draw index: the tree the
   * first successful attempt k finds is set on fire after 2(k + 1) draws;
   * when no attempt succeeds the grid is kept and all 200 draws are spent.
   */
  function Search(g: Grid, rand: Stream, d: nat, rows: nat, cols: nat): (r: (Grid, nat))
    requires IsMatrix(g, rows, cols) && UnitStream(rand) && rows > 0
    ensures IsMatrix(r.0, rows, cols)
  {
    match FirstTree(g, rand, d, rows, cols, 0)
    case None => (g, d + 200)
    case Some(k) => (SetCell(g, AttemptRow(rand, d, k, rows), AttemptCol(rand, d, k, cols), Burning), d + 2 * (k + 1))
  }

  /** n searches one after the other, from the grid g and draw d. */
  function Searches(g: Grid, rand: Stream, d: nat, rows: nat, cols: nat, n: nat): (r: (Grid, nat))
    requires IsMatrix(g, rows, cols) && UnitStream(rand) && rows > 0
    ensures IsMatrix(r.0, rows, cols)
  {
    if n == 0 then (g, d)
    else
      var p := Searches(g, rand, d, rows, cols, n - 1);
      Search(p.0, rand, p.1, rows, cols)
  }

  /** A search sets at most one tree on fire, and spends 2 to 200 draws. */
  lemma SearchIgnites(g: Grid, rand: Stream, d: nat, rows: nat, cols: nat)
    requires IsMatrix(g, rows, cols) && UnitStream(rand) && rows > 0
    ensures OnlyIgnited(g, Search(g, rand, d, rows, cols).0, rows, cols)
    ensures d + 2 <= Search(g, rand, d, rows, cols).1 <= d + 200
  {
    match FirstTree(g, rand, d, rows, cols, 0)
    case None =>
    case Some(k) =>
      IgniteOne(g, g, AttemptRow(rand, d, k, rows), AttemptCol(rand, d, k, cols), rows, cols);
  }

  /** The grid and draw index a search leaves, given how its first hit came out. */
  lemma SearchResult(g: Grid, rand: Stream, d: nat, rows: nat, cols: nat, hit: bool, i: nat, j: nat, h: Grid, e: nat)
    requires IsMatrix(g, rows, cols) && UnitStream(rand) && rows > 0
    requires hit <==> FirstTree(g, rand, d, rows, cols, 0).Some?
    requires hit ==> var k := FirstTree(g, rand, d, rows, cols, 0).value;
                     i == AttemptRow(rand, d, k, rows) && j == AttemptCol(rand, d, k, cols) &&
                     h == SetCell(g, i, j, Burning) && e == d + 2 * (k + 1)
    requires !hit ==> h == g && e == d + 200
    ensures (h, e) == Search(g, rand, d, rows, cols)
  {
  }

  /** A grid with rows but no columns never catches fire, and each search spends all 200 draws. */
  lemma SearchWithoutColumns(g: Grid, rand: Stream, d: nat, rows: nat)
    requires IsMatrix(g, rows, 0) && UnitStream(rand) && rows > 0
    ensures Search(g, rand, d, rows, 0) == (g, d + 200)
  {
    assert !Hits(g, rand, d, 0, rows, 0);
  }

  lemma {:induction false} IgnitedRowCounts(r: seq<Cell>, q: seq<Cell>)
    requires |r| == |q|
    requires forall k :: 0 <= k < |r| ==> q[k] == r[k] || (r[k] == Tree && q[k] == Burning)
    ensures CountRow(q, Tree) + CountRow(q, Burning) == CountRow(r, Tree) + CountRow(r, Burning)
    ensures CountRow(q, Empty) == CountRow(r, Empty) && CountRow(q, Burned) == CountRow(r, Burned)
    decreases |r|
  {
    if r != [] { IgnitedRowCounts(r[..|r| - 1], q[..|q| - 1]); }
  }

  /**
   * Setting trees on fire moves cells from the tree count to the burning
   * count and leaves the empty and burned counts alone.
   */
  lemma {:induction false} IgnitedCounts(before: Grid, after: Grid, rows: nat, cols: nat)
    requires OnlyIgnited(before, after, rows, cols)
    ensures Count(after, Tree) + Count(after, Burning) == Count(before, Tree) + Count(before, Burning)
    ensures Count(after, Tree) <= Count(before, Tree)
    ensures Count(after, Empty) == Count(before, Empty) && Count(after, Burned) == Count(before, Burned)
    decreases rows
  {
    if rows > 0 {
      var n := rows - 1;
      IgnitedCounts(before[..n], after[..n], n, cols);
      IgnitedRowCounts(before[n], after[n]);
      CountRowMono(before[n], after[n], Tree);
    }
  }


  /** The first draw of row i when a row-major pass starts at draw `start` (see RowStartIs). */
  function RowStart(start: nat, cols: nat, i: nat): (k: nat)
    ensures k >= start
  {
    if i == 0 then start else RowStart(start, cols, i - 1) + cols
  }

  lemma {:induction false} RowStartIs(start: nat, cols: nat, i: nat)
    ensures RowStart(start, cols, i) == start + i * cols
  {
    if i > 0 {
      RowStartIs(start, cols, i - 1);
      assert (i - 1) * cols + cols == i * cols;
    }
  }


  /** A freshly planted cell: a tree when its draw is below the density. */
  function Planted(draw: real, density: real): Cell
  {
    if draw < density then Tree else Empty
  }

  /** The grid planted by a row-major pass with one draw per cell, starting at draw `start`. */
  ghost function Planting(rand: Stream, start: nat, rows: nat, cols: nat, density: real): (g: Grid)
    ensures IsMatrix(g, rows, cols)
  {
    seq(rows, i requires 0 <= i < rows =>
      seq(cols, j requires 0 <= j < cols => Planted(Draw(rand, RowStart(start, cols, i) + j), density)))
  }

  // ---------------------------------------------------------------------------
  // The simulation state

  class Forest {
    const rows: nat
    const cols: nat
    /** The current generation, the only grid a step reads. */
    var grid: array2<Cell>
    /** Scratch buffer a step writes. */
    var nextGrid: array2<Cell>
    var simulationRunning: bool
    /** The tree, burning and burned counts last shown by the statistics pass. */
    var trees: nat
    var burning: nat
    var burned: nat
    /** The program's random generator and how many draws it has handed out. */
    const rand: Stream
    var drawn: nat

    ghost predicate Valid()
      reads this`grid, this`nextGrid
    {
      grid.Length0 == rows && grid.Length1 == cols &&
      nextGrid.Length0 == rows && nextGrid.Length1 == cols &&
      grid != nextGrid && UnitStream(rand)
    }

    ghost function Cells(): Grid
      reads this`grid, grid
    {
      Snapshot(grid)
    }

    /** The grid after `grid[i, j] := Burning` is g with that cell set. */
    ghost method SetCellSnapshot(g: Grid, i: nat, j: nat)
      requires Valid() && i < rows && j < cols && IsMatrix(g, rows, cols)
      requires grid[i, j] == Burning
      requires forall a, b :: 0 <= a < rows && 0 <= b < cols && (a, b) != (i, j) ==> grid[a, b] == g[a][b]
      ensures Cells() == SetCell(g, i, j, Burning)
    {
      SnapshotEq(grid, SetCell(g, i, j, Burning));
    }

    /** Page load: size the grid and plant it with the initial density (InitializeGrid). */
    constructor (rows: nat, cols: nat, density: real, rand: Stream)
      requires UnitStream(rand)
      ensures Valid() && !simulationRunning && this.rows == rows && this.cols == cols
      ensures drawn == RowStart(0, cols, rows)
      ensures Cells() == Planting(rand, 0, rows, cols, density)
      ensures trees == Count(Cells(), Tree) && burning == Count(Cells(), Burning) && burned == Count(Cells(), Burned)
    {
      this.rows, this.cols, this.rand := rows, cols, rand;
      grid := new Cell[0, 0];
      nextGrid := new Cell[0, 0];
      simulationRunning := false;
      trees, burning, burned := 0, 0, 0;
      drawn := 0;
      new;
      InitializeGrid(density);
    }

    /**
     * Reset: new buffers, every cell a tree with probability `density` (one
     * draw per cell, row by row), then the statistics pass.
     */
    method InitializeGrid(density: real)
      requires UnitStream(rand)
      modifies this`grid, this`nextGrid, this`drawn, this`trees, this`burning, this`burned, this`simulationRunning
      ensures Valid() && fresh(grid) && fresh(nextGrid)
      ensures drawn == RowStart(old(drawn), cols, rows)
      ensures Cells() == Planting(rand, old(drawn), rows, cols, density) && Snapshot(nextGrid) == Cells()
      ensures trees == Count(Cells(), Tree) && burning == Count(Cells(), Burning) && burned == Count(Cells(), Burned)
      ensures simulationRunning == (old(simulationRunning) && !(burning == 0 && burned > 0))
    {
      grid, nextGrid := PlantedGrids(density);
      UpdateStats();
    }

    /** Fresh grid and scratch buffer, planted row by row with one draw per cell. */
    method PlantedGrids(density: real) returns (g: array2<Cell>, n: array2<Cell>)
      modifies this`drawn
      ensures fresh(g) && fresh(n) && g != n
      ensures g.Length0 == rows && g.Length1 == cols && n.Length0 == rows && n.Length1 == cols
      ensures drawn == RowStart(old(drawn), cols, rows)
      ensures Snapshot(g) == Planting(rand, old(drawn), rows, cols, density) && Snapshot(n) == Snapshot(g)
    {
      g := new Cell[rows, cols];
      n := new Cell[rows, cols];
      for i := 0 to rows
        invariant drawn == RowStart(old(drawn), cols, i)
        invariant forall a, b {:trigger g[a, b]} :: 0 <= a < i && 0 <= b < cols ==>
                    g[a, b] == Planted(Draw(rand, RowStart(old(drawn), cols, a) + b), density) && n[a, b] == g[a, b]
      {
        PlantRow(g, n, i, density);
      }
      SnapshotEq(g, Planting(rand, old(drawn), rows, cols, density));
      SnapshotEq(n, Snapshot(g));
    }

    /** Row i of a fresh grid and its copy in the scratch buffer, one draw per cell. */
    method PlantRow(g: array2<Cell>, n: array2<Cell>, i: nat, density: real)
      requires g.Length0 == rows && g.Length1 == cols && n.Length0 == rows && n.Length1 == cols
      requires g != n && i < rows
      modifies g, n, this`drawn
      ensures drawn == old(drawn) + cols
      ensures forall b :: 0 <= b < cols ==> g[i, b] == Planted(Draw(rand, old(drawn) + b), density) && n[i, b] == g[i, b]
      ensures forall a, b :: 0 <= a < rows && a != i && 0 <= b < cols ==> g[a, b] == old(g[a, b]) && n[a, b] == old(n[a, b])
    {
      for j := 0 to cols
        invariant drawn == old(drawn) + j
        invariant forall b :: 0 <= b < j ==> g[i, b] == Planted(Draw(rand, old(drawn) + b), density) && n[i, b] == g[i, b]
        invariant forall a, b :: 0 <= a < rows && a != i && 0 <= b < cols ==> g[a, b] == old(g[a, b]) && n[a, b] == old(n[a, b])
      {
        g[i, j] := if Draw(rand, drawn) < density then Tree else Empty;
        drawn := drawn + 1;
        n[i, j] := g[i, j];
      }
    }

    /** One pass counting trees, burning and burned cells. */
    method CountStates() returns (t: nat, bn: nat, bd: nat)
      requires Valid()
      ensures t == Count(Cells(), Tree) && bn == Count(Cells(), Burning) && bd == Count(Cells(), Burned)
    {
      ghost var g := Cells();
      t, bn, bd := 0, 0, 0;
      for i := 0 to rows
        invariant t == Count(g[..i], Tree) && bn == Count(g[..i], Burning) && bd == Count(g[..i], Burned)
      {
        for j := 0 to cols
          invariant t == Count(g[..i], Tree) + CountRow(g[i][..j], Tree)
          invariant bn == Count(g[..i], Burning) + CountRow(g[i][..j], Burning)
          invariant bd == Count(g[..i], Burned) + CountRow(g[i][..j], Burned)
        {
          assert g[i][..j + 1][..j] == g[i][..j];
          match grid[i, j]
          case Tree => t := t + 1;
          case Burning => bn := bn + 1;
          case Burned => bd := bd + 1;
          case Empty =>
        }
        assert g[i][..cols] == g[i];
        assert g[..i + 1][..i] == g[..i];
      }
      assert g[..rows] == g;
    }

    /** Show the counts; a running simulation pauses itself once the fire is out. */
    method UpdateStats()
      requires Valid()
      modifies this`trees, this`burning, this`burned, this`simulationRunning
      ensures trees == Count(Cells(), Tree) && burning == Count(Cells(), Burning) && burned == Count(Cells(), Burned)
      ensures simulationRunning == (old(simulationRunning) && !(burning == 0 && burned > 0))
    {
      trees, burning, burned := CountStates();
      if simulationRunning && burning == 0 && burned > 0 {
        ToggleSimulation();
      }
    }

    /** Pause / resume button (the animation-frame loop itself is not modelled). */
    method ToggleSimulation()
      modifies this`simulationRunning
      ensures simulationRunning == !old(simulationRunning)
    {
      simulationRunning := !simulationRunning;
    }

    /**
     * The neighbour scan of the tree at (i, j): one draw per burning in-bounds
     * neighbour, stopping at the first draw that ignites the tree.
     */
    method CatchesFire(i: nat, j: nat, p: Params, ghost odds: Odds, ghost g: Grid) returns (catchesFire: bool)
      requires Valid() && i < rows && j < cols && Cells() == g
      requires Tabulates(p, odds)
      modifies this`drawn
      ensures (catchesFire, drawn) == ScanFrom(g, rows, cols, i, j, odds, rand, old(drawn), -1, -1)
    {
      catchesFire := false;
      for di := -1 to 2
        invariant Cells() == g
        invariant ScanFrom(g, rows, cols, i, j, odds, rand, old(drawn), -1, -1)
               == ScanFrom(g, rows, cols, i, j, odds, rand, drawn, di, -1)
      {
        for dj := -1 to 2
          invariant Cells() == g
          invariant ScanFrom(g, rows, cols, i, j, odds, rand, old(drawn), -1, -1)
                 == ScanFrom(g, rows, cols, i, j, odds, rand, drawn, di, dj)
        {
          if di == 0 && dj == 0 { continue; }
          ScanStep(g, rows, cols, i, j, odds, rand, drawn, di, dj);
          catchesFire := Ignites(i, j, di, dj, p, odds, g);
          if catchesFire { break; }
        }
        if catchesFire { break; }
      }
    }

    /**
     * The test of one neighbour: a burning in-bounds neighbour costs one draw,
     * which ignites the tree when it is below the probability for its offset.
     */
    method Ignites(i: nat, j: nat, di: int, dj: int, p: Params, ghost odds: Odds, ghost g: Grid)
      returns (ignites: bool)
      requires Valid() && i < rows && j < cols && Cells() == g
      requires Tabulates(p, odds)
      requires -1 <= di <= 1 && -1 <= dj <= 1 && (di, dj) != (0, 0)
      modifies this`drawn
      ensures (ignites, drawn) == Neighbour(g, rows, cols, i, j, odds, rand, old(drawn), di, dj)
    {
      ignites := false;
      var ni, nj := i + di, j + dj;
      if 0 <= ni < rows && 0 <= nj < cols {
        assert g[ni][nj] == grid[ni, nj];
        if grid[ni, nj] == Burning {
          var probability := Probability(p, di, dj);
          assert probability == odds[Slot(di, dj)];
          var draw := Draw(rand, drawn);
          drawn := drawn + 1;
          ignites := draw < probability;
        }
      }
    }

    /**
     * One step: every new state is computed from `grid` alone into `nextGrid`,
     * the result is copied back, then the statistics pass runs.
     */
    method UpdateSimulation(p: Params)
      requires Valid()
      modifies grid, nextGrid, this`drawn, this`trees, this`burning, this`burned, this`simulationRunning
      ensures Valid()
      ensures Cells() == StepGrid(old(Cells()), rows, cols, ProbTable(p), rand, old(drawn))
      ensures drawn == CursorAt(old(Cells()), rows, cols, ProbTable(p), rand, old(drawn), rows, 0)
      ensures trees == Count(Cells(), Tree) && burning == Count(Cells(), Burning) && burned == Count(Cells(), Burned)
      ensures trees <= old(Count(Cells(), Tree)) && burned >= old(Count(Cells(), Burned))
      ensures simulationRunning == (old(simulationRunning) && !(burning == 0 && burned > 0))
    {
      ghost var g := Cells();
      ghost var start := drawn;
      ProbTableTabulates(p);
      ComputeNextGrid(p, ProbTable(p));
      CopyBack();
      StepCounts(g, rows, cols, ProbTable(p), rand, start);
      UpdateStats();
    }

    /** Fill `nextGrid` with the new state of every cell, row by row. */
    method ComputeNextGrid(p: Params, ghost odds: Odds)
      requires Valid()
      requires Tabulates(p, odds)
      modifies nextGrid, this`drawn
      ensures Snapshot(nextGrid) == StepGrid(Cells(), rows, cols, odds, rand, old(drawn))
      ensures drawn == CursorAt(Cells(), rows, cols, odds, rand, old(drawn), rows, 0)
    {
      ghost var g := Cells();
      for i := 0 to rows
        invariant drawn == CursorAt(g, rows, cols, odds, rand, old(drawn), i, 0)
        invariant forall a, b {:trigger nextGrid[a, b]} :: 0 <= a < i && 0 <= b < cols ==>
                    nextGrid[a, b] == RowPrefix(g, rows, cols, odds, rand, old(drawn), a, cols)[b]
      {
        StepRow(i, p, odds, g, old(drawn));
      }
      StepGridRows(g, rows, cols, odds, rand, old(drawn));
      SnapshotEq(nextGrid, StepGrid(g, rows, cols, odds, rand, old(drawn)));
    }

    /** The new states of row i, written to `nextGrid`. */
    method StepRow(i: nat, p: Params, ghost odds: Odds, ghost g: Grid, ghost start: nat)
      requires Valid() && i < rows && Cells() == g
      requires Tabulates(p, odds)
      requires drawn == CursorAt(g, rows, cols, odds, rand, start, i, 0)
      modifies nextGrid, this`drawn
      ensures drawn == CursorAt(g, rows, cols, odds, rand, start, i + 1, 0)
      ensures forall b {:trigger nextGrid[i, b]} :: 0 <= b < cols ==>
                nextGrid[i, b] == RowPrefix(g, rows, cols, odds, rand, start, i, cols)[b]
      ensures forall a, b {:trigger nextGrid[a, b]} :: 0 <= a < rows && a != i && 0 <= b < cols ==>
                nextGrid[a, b] == old(nextGrid[a, b])
    {
      ghost var row := [];
      for j := 0 to cols
        invariant drawn == CursorAt(g, rows, cols, odds, rand, start, i, j)
        invariant row == RowPrefix(g, rows, cols, odds, rand, start, i, j)
        invariant forall b {:trigger nextGrid[i, b]} :: 0 <= b < j ==> nextGrid[i, b] == row[b]
        invariant forall a, b {:trigger nextGrid[a, b]} :: 0 <= a < rows && a != i && 0 <= b < cols ==>
                    nextGrid[a, b] == old(nextGrid[a, b])
      {
        ghost var c := drawn;
        var next := NextState(i, j, p, odds, g);
        RowStep(g, rows, cols, odds, rand, start, i, j, row, c, next, drawn);
        label written:
        nextGrid[i, j] := next;
        forall b | 0 <= b < j ensures nextGrid[i, b] == (row + [next])[b] {
          assert nextGrid[i, b] == old@written(nextGrid[i, b]);
        }
        row := row + [next];
      }
    }

    /** The new state of cell (i, j), read from `grid` alone. */
    method NextState(i: nat, j: nat, p: Params, ghost odds: Odds, ghost g: Grid) returns (next: Cell)
      requires Valid() && i < rows && j < cols && Cells() == g
      requires Tabulates(p, odds)
      modifies this`drawn
      ensures (next, drawn) == NextCell(g, rows, cols, i, j, odds, rand, old(drawn))
    {
      next := grid[i, j];
      if grid[i, j] == Burning {
        next := Burned;
      }
      if grid[i, j] == Tree {
        var catchesFire := CatchesFire(i, j, p, odds, g);
        if catchesFire {
          next := Burning;
        }
      }
    }

    /** Copy the scratch buffer back into the grid. */
    method CopyBack()
      requires Valid()
      modifies grid
      ensures Cells() == Snapshot(nextGrid)
    {
      for i := 0 to rows
        invariant forall a, b :: 0 <= a < i && 0 <= b < cols ==> grid[a, b] == nextGrid[a, b]
      {
        for j := 0 to cols
          invariant forall a, b :: 0 <= a < i && 0 <= b < cols ==> grid[a, b] == nextGrid[a, b]
          invariant forall b :: 0 <= b < j ==> grid[i, b] == nextGrid[i, b]
        {
          grid[i, j] := nextGrid[i, j];
        }
      }
      SnapshotEq(grid, Snapshot(nextGrid));
    }

    /**
     * Clicking pixel (x, y) sets an in-bounds tree on fire, starts the
     * simulation if it was paused and refreshes the statistics; any other
     * click changes nothing.
     */
    method Click(x: real, y: real)
      requires Valid()
      modifies grid, this`trees, this`burning, this`burned, this`simulationRunning
      ensures var i, j := (y / 10.0).Floor, (x / 10.0).Floor;
        if InBounds(i, j, rows, cols) && old(grid[i, j]) == Tree then
          Cells() == SetCell(old(Cells()), i, j, Burning) &&
          trees == old(Count(Cells(), Tree)) - 1 && burning == old(Count(Cells(), Burning)) + 1 &&
          trees == Count(Cells(), Tree) && burning == Count(Cells(), Burning) && burned == Count(Cells(), Burned) &&
          simulationRunning
        else
          unchanged(this, grid)
    {
      var j := (x / 10.0).Floor;
      var i := (y / 10.0).Floor;
      if i >= 0 && i < rows && j >= 0 && j < cols {
        if grid[i, j] == Tree {
          ghost var g := Cells();
          SetOnFire(i, j);
          CountSet(g, i, j, Burning, Tree);
          CountSet(g, i, j, Burning, Burning);
          if !simulationRunning {
            ToggleSimulation();
          }
          UpdateStats();
        }
      }
    }

    /** `grid[i][j] = 2` on a tree. */
    method SetOnFire(i: nat, j: nat)
      requires Valid() && i < rows && j < cols && grid[i, j] == Tree
      modifies grid
      ensures Cells() == SetCell(old(Cells()), i, j, Burning)
    {
      ghost var g := Cells();
      grid[i, j] := Burning;
      SetCellSnapshot(g, i, j);
    }

    /**
     * The "start fire" button: resumes the simulation, then makes 1 to 3
     * searches of at most 100 random cells each for a tree to set on fire,
     * and refreshes the statistics.
     */
    method StartFire() returns (numFires: nat, ghost ignited: nat)
      requires Valid() && rows > 0
      modifies grid, this`drawn, this`trees, this`burning, this`burned, this`simulationRunning
      ensures numFires == ScaledIndex(Draw(rand, old(drawn)), 3) + 1
      ensures (Cells(), drawn) == Searches(old(Cells()), rand, old(drawn) + 1, rows, cols, numFires)
      ensures 1 <= numFires <= 3 && ignited <= numFires
      ensures old(drawn) + 1 + 2 * numFires <= drawn <= old(drawn) + 1 + 200 * numFires
      ensures OnlyIgnited(old(Cells()), Cells(), rows, cols)
      ensures trees == Count(Cells(), Tree) && burning == Count(Cells(), Burning) && burned == Count(Cells(), Burned)
      ensures simulationRunning == !(burning == 0 && burned > 0)
    {
      if !simulationRunning {
        ToggleSimulation();
      }
      numFires := ScaledIndex(Draw(rand, drawn), 3) + 1;
      drawn := drawn + 1;
      ghost var g0, d1 := Cells(), drawn;
      ignited := SearchFires(numFires);
      ghost var res := Searches(g0, rand, d1, rows, cols, numFires);
      assert g0 == old(Cells()) && d1 == old(drawn) + 1;
      UpdateStats();
      assert Cells() == res.0 && drawn == res.1;
      assert (Cells(), drawn) == res;
    }

    /** `n` searches in a row; `ignited` counts those that found a tree. */
    method SearchFires(n: nat) returns (ghost ignited: nat)
      requires Valid() && rows > 0
      modifies grid, this`drawn
      ensures (Cells(), drawn) == Searches(old(Cells()), rand, old(drawn), rows, cols, n)
      ensures ignited <= n
      ensures old(drawn) + 2 * n <= drawn <= old(drawn) + 200 * n
      ensures OnlyIgnited(old(Cells()), Cells(), rows, cols)
    {
      ghost var g0, d0 := Cells(), drawn;
      ignited := 0;
      for f := 0 to n
        invariant ignited <= f
        invariant d0 + 2 * f <= drawn <= d0 + 200 * f
        invariant OnlyIgnited(g0, Cells(), rows, cols)
        invariant (Cells(), drawn) == Searches(g0, rand, d0, rows, cols, f)
      {
        ghost var g := Cells();
        ghost var i, j;
        var fireStarted;
        fireStarted, i, j := TryIgnite();
        if fireStarted {
          IgniteOne(g0, g, i, j, rows, cols);
          ignited := ignited + 1;
        }
      }
    }

    /**
     * Attempt k of a search that started at draw d0 on the grid g: draws a row
     * and a column and sets the cell on fire when it holds a tree.
     */
    method Attempt(ghost g: Grid, ghost d0: nat, ghost k: nat) returns (hit: bool, ghost r: nat, ghost c: nat)
      requires Valid() && rows > 0 && Cells() == g && drawn == d0 + 2 * k
      modifies grid, this`drawn
      ensures drawn == old(drawn) + 2
      ensures hit <==> Hits(g, rand, d0, k, rows, cols)
      ensures hit ==> cols > 0 && r == AttemptRow(rand, d0, k, rows) && c == AttemptCol(rand, d0, k, cols) &&
                      Cells() == SetCell(g, r, c, Burning)
      ensures !hit ==> unchanged(grid)
    {
      hit, r, c := false, 0, 0;
      var row := ScaledIndex(Draw(rand, drawn), rows);
      var u := Draw(rand, drawn + 1);
      drawn := drawn + 2;
      if cols > 0 {
        var col := ScaledIndex(u, cols);
        if grid[row, col] == Tree {
          SetOnFire(row, col);
          hit, r, c := true, row, col;
        }
      }
    }

    /**
     * One search: up to 100 random cells (two draws each, row then column)
     * until one holding a tree is found and set on fire; (i, j) is that cell.
     * A grid without columns has no cell at column 0 to hold a tree, so every
     * attempt misses.
     */
    method TryIgnite() returns (fireStarted: bool, ghost i: nat, ghost j: nat)
      requires Valid() && rows > 0
      modifies grid, this`drawn
      ensures (Cells(), drawn) == Search(old(Cells()), rand, old(drawn), rows, cols)
      ensures fireStarted <==> FirstTree(old(Cells()), rand, old(drawn), rows, cols, 0).Some?
      ensures fireStarted ==>
        var k := FirstTree(old(Cells()), rand, old(drawn), rows, cols, 0).value;
        i == AttemptRow(rand, old(drawn), k, rows) && j == AttemptCol(rand, old(drawn), k, cols)
      ensures old(drawn) + 2 <= drawn <= old(drawn) + 200
      ensures !fireStarted ==> drawn == old(drawn) + 200 && unchanged(grid)
      ensures fireStarted ==> i < rows && j < cols && old(grid[i, j]) == Tree &&
                              Cells() == SetCell(old(Cells()), i, j, Burning)
    {
      ghost var g, d0 := Cells(), drawn;
      fireStarted, i, j := false, 0, 0;
      var attempts := 0;
      while attempts < 100 && !fireStarted
        invariant 0 <= attempts <= 100 && drawn == d0 + 2 * attempts
        invariant !fireStarted ==> unchanged(grid) && Cells() == g
        invariant fireStarted ==> attempts > 0 && cols > 0 &&
                                  i == AttemptRow(rand, d0, attempts - 1, rows) &&
                                  j == AttemptCol(rand, d0, attempts - 1, cols) &&
                                  Cells() == SetCell(g, i, j, Burning)
        invariant FirstTree(g, rand, d0, rows, cols, 0) ==
                  if fireStarted then Some(attempts - 1) else FirstTree(g, rand, d0, rows, cols, attempts)
      {
        fireStarted, i, j := Attempt(g, d0, attempts);
        attempts := attempts + 1;
      }
      SearchResult(g, rand, d0, rows, cols, fireStarted, i, j, Cells(), drawn);
    }
  }
}

=== FILE: game_of_life.dfy ===
/**
 * Conway's Game of Life (rule B3/S23) on a toroidal ROWS x COLS grid of 0/1
 * cells: double-buffered generations with a counter, random and empty
 * boards, click-to-toggle, the population statistic and the resize that
 * keeps whatever still fits.
 */
module GameOfLife {
  import opened Common

  /** A board of cell values, 1 alive and 0 dead. */
  type Board = seq<seq<int>>

  /** Every cell is 0 or 1. */
  ghost predicate Binary(g: Board)
  {
    forall i, j :: 0 <= i < |g| && 0 <= j < |g[i]| ==> g[i][j] == 0 || g[i][j] == 1
  }

  /**
   * The neighbour of (row, col) at offset (i, j), wrapped around both edges:
   * row `(row + i + ROWS) % ROWS`, column `(col + j + COLS) % COLS`.
   */
  function Wrapped(g: Board, rows: nat, cols: nat, row: nat, col: nat, i: int, j: int): (v: int)
    requires IsMatrix(g, rows, cols) && row < rows && col < cols
    requires -1 <= i <= 1 && -1 <= j <= 1
    ensures Binary(g) ==> v == 0 || v == 1
  {
    g[(row + i + rows) % rows][(col + j + cols) % cols]
  }

  /** The live-neighbour count: the eight wrapped neighbours, the cell itself excluded. */
  function Neighbours(g: Board, rows: nat, cols: nat, row: nat, col: nat): (n: int)
    requires IsMatrix(g, rows, cols) && row < rows && col < cols
    ensures Binary(g) ==> 0 <= n <= 8
  {
    Wrapped(g, rows, cols, row, col, -1, -1) + Wrapped(g, rows, cols, row, col, -1, 0) +
    Wrapped(g, rows, cols, row, col, -1, 1) + Wrapped(g, rows, cols, row, col, 0, -1) +
    Wrapped(g, rows, cols, row, col, 0, 1) + Wrapped(g, rows, cols, row, col, 1, -1) +
    Wrapped(g, rows, cols, row, col, 1, 0) + Wrapped(g, rows, cols, row, col, 1, 1)
  }

  /** The term the neighbour loop adds at offset (i, j): nothing for the cell itself. */
  function Term(g: Board, rows: nat, cols: nat, row: nat, col: nat, i: int, j: int): (v: int)
    requires IsMatrix(g, rows, cols) && row < rows && col < cols
    requires -1 <= i <= 1 && -1 <= j <= 1
    ensures (i, j) == (0, 0) ==> v == 0
    ensures Binary(g) ==> v == 0 || v == 1
  {
    if i == 0 && j == 0 then 0 else Wrapped(g, rows, cols, row, col, i, j)
  }

  /** The inner loop's running sum: offsets (i, -1) up to (i, j - 1). */
  function RowScan(g: Board, rows: nat, cols: nat, row: nat, col: nat, i: int, j: int): (n: int)
    requires IsMatrix(g, rows, cols) && row < rows && col < cols
    requires -1 <= i <= 1 && -1 <= j <= 2
    decreases j + 1
  {
    if j == -1 then 0 else RowScan(g, rows, cols, row, col, i, j - 1) + Term(g, rows, cols, row, col, i, j - 1)
  }

  /** The outer loop's running sum: the full rows of offsets -1 up to i - 1. */
  function Scan(g: Board, rows: nat, cols: nat, row: nat, col: nat, i: int): (n: int)
    requires IsMatrix(g, rows, cols) && row < rows && col < cols
    requires -1 <= i <= 2
    decreases i + 1
  {
    if i == -1 then 0 else Scan(g, rows, cols, row, col, i - 1) + RowScan(g, rows, cols, row, col, i - 1, 2)
  }

  /** The full scan adds up exactly the eight wrapped neighbours. */
  lemma ScanAll(g: Board, rows: nat, cols: nat, row: nat, col: nat)
    requires IsMatrix(g, rows, cols) && row < rows && col < cols
    ensures Scan(g, rows, cols, row, col, 2) == Neighbours(g, rows, cols, row, col)
  {
    forall i | -1 <= i <= 1
      ensures RowScan(g, rows, cols, row, col, i, 2) ==
              Term(g, rows, cols, row, col, i, -1) + Term(g, rows, cols, row, col, i, 0) +
              Term(g, rows, cols, row, col, i, 1)
    {
      assert RowScan(g, rows, cols, row, col, i, 0) == Term(g, rows, cols, row, col, i, -1);
    }
    assert Scan(g, rows, cols, row, col, 1) ==
           RowScan(g, rows, cols, row, col, -1, 2) + RowScan(g, rows, cols, row, col, 0, 2);
  }

  /**
   * The update of one cell, as the if-chain writes it: a live cell with
   * fewer than 2 or more than 3 neighbours dies, a dead cell with exactly 3
   * is born, anything else is kept.
   */
  function Rule(v: int, n: int): (next: int)
    // a 0/1 cell stays 0/1
    ensures v == 0 || v == 1 ==> next == 0 || next == 1
    // B3/S23: alive next exactly when born with 3 or surviving with 2 or 3
    ensures v == 0 || v == 1 ==> (next == 1 <==> n == 3 || (v == 1 && n == 2))
    // the three cases of the chain
    ensures v == 1 && (n < 2 || n > 3) ==> next == 0
    ensures v != 1 && n == 3 ==> next == 1
    ensures !(v == 1 && (n < 2 || n > 3)) && !(v != 1 && n == 3) ==> next == v
  {
    if v == 1 && (n < 2 || n > 3) then 0
    else if v != 1 && n == 3 then 1
    else v
  }

  /** The next state of cell (r, c), from g alone. */
  function Next(g: Board, rows: nat, cols: nat, r: nat, c: nat): (v: int)
    requires IsMatrix(g, rows, cols) && r < rows && c < cols
    ensures Binary(g) ==> v == 0 || v == 1
  {
    Rule(g[r][c], Neighbours(g, rows, cols, r, c))
  }

  /** The next generation, every cell computed from g alone. */
  function Step(g: Board, rows: nat, cols: nat): (h: Board)
    requires IsMatrix(g, rows, cols)
    ensures IsMatrix(h, rows, cols)
  {
    seq(rows, r requires 0 <= r < rows => seq(cols, c requires 0 <= c < cols => Next(g, rows, cols, r, c)))
  }

  /**
   * h is the next generation of g, stated cell by cell; the quantifier fires
   * only on an explicit `Next(g, rows, cols, r, c)`, so that loops over the
   * board do not expand the neighbour sums.
   */
  ghost predicate IsStep(g: Board, rows: nat, cols: nat, h: Board)
    requires IsMatrix(g, rows, cols)
  {
    IsMatrix(h, rows, cols) &&
    forall r, c {:trigger Next(g, rows, cols, r, c)} :: 0 <= r < rows && 0 <= c < cols ==> h[r][c] == Next(g, rows, cols, r, c)
  }

  lemma StepIsStep(g: Board, rows: nat, cols: nat)
    requires IsMatrix(g, rows, cols)
    ensures IsStep(g, rows, cols, Step(g, rows, cols))
  {
  }

  /** A generation of a 0/1 board is a 0/1 board. */
  lemma StepBinary(g: Board, rows: nat, cols: nat)
    requires IsMatrix(g, rows, cols) && Binary(g)
    ensures Binary(Step(g, rows, cols))
  {
    var h := Step(g, rows, cols);
    forall i, j | 0 <= i < rows && 0 <= j < cols
      ensures h[i][j] == 0 || h[i][j] == 1
    {
      assert h[i][j] == Next(g, rows, cols, i, j);
    }
  }

  /** The sum of a row's values. */
  function RowSum(row: seq<int>): int
  {
    if row == [] then 0 else RowSum(row[..|row| - 1]) + row[|row| - 1]
  }

  /** `grid.flat().reduce((sum, cell) => sum + cell, 0)`: the sum of all values, row by row. */
  function Population(g: Board): int
  {
    if g == [] then 0 else Population(g[..|g| - 1]) + RowSum(g[|g| - 1])
  }

  /** Number of live cells of a row. */
  function RowLive(row: seq<int>): nat
  {
    if row == [] then 0 else RowLive(row[..|row| - 1]) + (if row[|row| - 1] == 1 then 1 else 0)
  }

  /** Number of live cells of a board. */
  function Live(g: Board): nat
  {
    if g == [] then 0 else Live(g[..|g| - 1]) + RowLive(g[|g| - 1])
  }

  lemma {:induction false} RowSumIsLive(row: seq<int>)
    requires forall j :: 0 <= j < |row| ==> row[j] == 0 || row[j] == 1
    ensures RowSum(row) == RowLive(row)
  {
    if row != [] {
      RowSumIsLive(row[..|row| - 1]);
    }
  }

  /** On a 0/1 board the population (a sum of values) is the number of live cells. */
  lemma {:induction false} PopulationIsLive(g: Board)
    requires Binary(g)
    ensures Population(g) == Live(g)
  {
    if g != [] {
      var last := g[|g| - 1];
      assert forall j :: 0 <= j < |last| ==> last[j] == 0 || last[j] == 1;
      RowSumIsLive(last);
      var init := g[..|g| - 1];
      assert Binary(init) by {
        forall i, j | 0 <= i < |init| && 0 <= j < |init[i]|
          ensures init[i][j] == 0 || init[i][j] == 1
        {
          assert init[i] == g[i];
        }
      }
      PopulationIsLive(init);
    }
  }

  /** `grid[row][col] ? 0 : 1`: the new value of a clicked cell. */
  function Toggle(v: int): (w: int)
    ensures w == 0 || w == 1
    ensures v == 0 || v == 1 ==> w == 1 - v
  {
    if v != 0 then 0 else 1
  }

  /** Two clicks on the same cell of a 0/1 board restore the board. */
  lemma ClickTwice(g: Board, r: nat, c: nat)
    requires r < |g| && c < |g[r]| && (g[r][c] == 0 || g[r][c] == 1)
    ensures var h := SetCell(g, r, c, Toggle(g[r][c]));
      SetCell(h, r, c, Toggle(h[r][c])) == g
  {
    var h := SetCell(g, r, c, Toggle(g[r][c]));
    var k := SetCell(h, r, c, Toggle(h[r][c]));
    assert k[r] == g[r];
  }

  /** A board of zeros (`Array(ROWS).fill().map(() => Array(COLS).fill(0))`). */
  function Zeros(rows: nat, cols: nat): (h: Board)
    ensures IsMatrix(h, rows, cols) && Binary(h)
    ensures forall r, c :: 0 <= r < rows && 0 <= c < cols ==> h[r][c] == 0
  {
    seq(rows, r => seq(cols, c => 0))
  }

  /** The board after a resize: old values where both sizes cover the cell, 0 elsewhere. */
  function Restored(saved: Board, oldRows: nat, oldCols: nat, rows: nat, cols: nat): (h: Board)
    requires IsMatrix(saved, oldRows, oldCols)
    ensures IsMatrix(h, rows, cols)
    ensures forall r, c :: 0 <= r < rows && r < oldRows && 0 <= c < cols && c < oldCols ==> h[r][c] == saved[r][c]
    ensures forall r, c :: 0 <= r < rows && 0 <= c < cols && (r >= oldRows || c >= oldCols) ==> h[r][c] == 0
    ensures Binary(saved) ==> Binary(h)
  {
    seq(rows, r requires 0 <= r < rows =>
      seq(cols, c requires 0 <= c < cols => if r < oldRows && c < oldCols then saved[r][c] else 0))
  }

  /** `Math.random() > 0.7 ? 1 : 0`: a randomly seeded cell. */
  function Seeded(draw: real): (v: int)
    ensures v == 0 || v == 1
    ensures v == 1 <==> draw > 0.7
  {
    if draw > 0.7 then 1 else 0
  }

  /** A board seeded from the draws d, d + 1, ... taken row by row. */
  function Seeding(rand: Stream, d: nat, rows: nat, cols: nat): (h: Board)
    ensures IsMatrix(h, rows, cols)
    ensures forall r, c :: 0 <= r < rows && 0 <= c < cols ==> h[r][c] == Seeded(Draw(rand, d + r * cols + c))
  {
    seq(rows, r requires 0 <= r < rows => SeedRow(rand, d + r * cols, cols))
  }

  /** One seeded row, from the draws base, base + 1, ... */
  function SeedRow(rand: Stream, base: nat, cols: nat): (row: seq<int>)
    ensures |row| == cols
    ensures forall c :: 0 <= c < cols ==> row[c] == Seeded(Draw(rand, base + c))
  {
    seq(cols, c requires 0 <= c < cols => Seeded(Draw(rand, base + c)))
  }

  /** A randomly seeded board is a 0/1 board. */
  lemma SeedingBinary(rand: Stream, d: nat, rows: nat, cols: nat)
    ensures Binary(Seeding(rand, d, rows, cols))
  {
    var h := Seeding(rand, d, rows, cols);
    forall i, j | 0 <= i < |h| && 0 <= j < |h[i]|
      ensures h[i][j] == 0 || h[i][j] == 1
    {
      assert h[i][j] == Seeded(Draw(rand, d + i * cols + j));
    }
  }

  /** The state of the page: the two buffers, the counters and the run flag. */
  class Life {
    /** ROWS and COLS, set from the canvas size on load and on every resize. */
    var rows: nat
    var cols: nat
    var grid: array2<int>
    var nextGrid: array2<int>
    var generation: nat
    var isRunning: bool
    /** The population shown by the last statistics pass. */
    var population: int
    /** The `Math.random()` stream and the number of draws taken from it. */
    const rand: Stream
    var drawn: nat

    ghost predicate Valid()
      reads this`rows, this`cols, this`grid, this`nextGrid
    {
      grid.Length0 == rows && grid.Length1 == cols &&
      nextGrid.Length0 == rows && nextGrid.Length1 == cols &&
      grid != nextGrid
    }

    /** The current generation as a board. */
    ghost function Cells(): Board
      reads this`grid, grid
    {
      Snapshot(grid)
    }

    /** Page load (`init`): an empty grid of the given size and the statistics. */
    constructor (rows: nat, cols: nat, rand: Stream)
      ensures Valid() && this.rows == rows && this.cols == cols && this.rand == rand
      ensures Cells() == Zeros(rows, cols)
      ensures generation == 0 && !isRunning && population == 0
    {
      this.rows, this.cols, this.rand := rows, cols, rand;
      drawn := 0;
      isRunning := false;
      grid := new int[rows, cols]((r, c) => 0);
      nextGrid := new int[rows, cols]((r, c) => 0);
      generation := 0;
      population := 0;
      new;
      ghost var h := Zeros(rows, cols);
      SnapshotEq(grid, h);
      ZeroPopulation(h);
    }

    /** A board of zeros has population 0. */
    static lemma {:induction false} ZeroPopulation(h: Board)
      requires forall i, j :: 0 <= i < |h| && 0 <= j < |h[i]| ==> h[i][j] == 0
      ensures Population(h) == 0
    {
      if h != [] {
        var last := h[|h| - 1];
        ZeroRow(last);
        ZeroPopulation(h[..|h| - 1]);
      }
    }

    static lemma {:induction false} ZeroRow(row: seq<int>)
      requires forall j :: 0 <= j < |row| ==> row[j] == 0
      ensures RowSum(row) == 0
    {
      if row != [] {
        ZeroRow(row[..|row| - 1]);
      }
    }

    /** `resetGrid`: both buffers replaced by boards of zeros, generation 0. */
    method ResetGrid()
      modifies this`grid, this`nextGrid, this`generation
      ensures Valid() && fresh(grid) && fresh(nextGrid)
      ensures Cells() == Zeros(rows, cols)
      ensures forall r, c {:trigger grid[r, c]} :: 0 <= r < rows && 0 <= c < cols ==> grid[r, c] == 0
      ensures generation == 0
    {
      grid := new int[rows, cols]((r, c) => 0);
      nextGrid := new int[rows, cols]((r, c) => 0);
      generation := 0;
      SnapshotEq(grid, Zeros(rows, cols));
    }

    /**
     * `randomizeGrid`: a new board whose cell (r, c) is seeded by the draw
     * number r * COLS + c of this call (rows are built in order), a new
     * buffer of zeros, generation 0, then the statistics.
     */
    method RandomizeGrid()
      requires Valid()
      modifies this`grid, this`nextGrid, this`generation, this`drawn, this`population
      ensures Valid() && fresh(grid) && fresh(nextGrid)
      ensures Cells() == Seeding(rand, old(drawn), rows, cols)
      ensures drawn == old(drawn) + rows * cols
      ensures generation == 0 && population == Population(Cells())
    {
      var d, n := drawn, cols;
      var f := rand;
      grid := new int[rows, cols]((r: int, c: int) requires 0 <= r && 0 <= c => Seeded(Draw(f, d + r * n + c)));
      nextGrid := new int[rows, cols]((r, c) => 0);
      SnapshotEq(grid, Seeding(rand, d, rows, cols));
      drawn := drawn + rows * cols;
      generation := 0;
      UpdateStats();
    }

    /** `countNeighbors`: the 3 x 3 scan around (row, col), wrapping at the edges. */
    method CountNeighbors(row: nat, col: nat, ghost g: Board) returns (count: int)
      requires Valid() && row < rows && col < cols && Cells() == g
      ensures count == Neighbours(g, rows, cols, row, col)
    {
      count := 0;
      for i := -1 to 2
        invariant count == Scan(g, rows, cols, row, col, i)
      {
        var s := CountRow(row, col, i, g);
        count := count + s;
      }
      ScanAll(g, rows, cols, row, col);
    }

    /** The inner loop of `countNeighbors`: the three offsets (i, -1), (i, 0), (i, 1). */
    method CountRow(row: nat, col: nat, i: int, ghost g: Board) returns (count: int)
      requires Valid() && row < rows && col < cols && Cells() == g && -1 <= i <= 1
      ensures count == RowScan(g, rows, cols, row, col, i, 2)
    {
      count := 0;
      var r := (row + i + rows) % rows;
      for j := -1 to 2
        invariant count == RowScan(g, rows, cols, row, col, i, j)
      {
        if i == 0 && j == 0 {
          continue;
        }
        var c := (col + j + cols) % cols;
        assert Term(g, rows, cols, row, col, i, j) == g[r][c] == grid[r, c];
        count := count + grid[r, c];
      }
    }

    /**
     * `updateGrid`: every new state is written to `nextGrid` from the current
     * generation alone, copied back, and the generation counter advances.
     */
    method UpdateGrid()
      requires Valid()
      modifies grid, nextGrid, this`generation
      ensures Valid()
      ensures Cells() == Step(old(Cells()), rows, cols) && Snapshot(nextGrid) == Cells()
      ensures Binary(old(Cells())) ==> Binary(Cells())
      ensures generation == old(generation) + 1
    {
      ghost var g := Cells();
      StepIsStep(g, rows, cols);
      ComputeNextGrid(g, Step(g, rows, cols));
      CopyBack();
      generation := generation + 1;
      if Binary(g) {
        StepBinary(g, rows, cols);
      }
    }

    /** The first loop of `updateGrid`: fill `nextGrid` with the next generation. */
    method ComputeNextGrid(ghost g: Board, ghost h: Board)
      requires Valid() && Cells() == g && IsStep(g, rows, cols, h)
      modifies nextGrid
      ensures Snapshot(nextGrid) == h
    {
      for row := 0 to rows
        modifies nextGrid
        invariant forall a, b {:trigger nextGrid[a, b]} :: 0 <= a < row && 0 <= b < cols ==> nextGrid[a, b] == h[a][b]
      {
        for col := 0 to cols
          modifies nextGrid
          invariant forall a, b {:trigger nextGrid[a, b]} :: 0 <= a < row && 0 <= b < cols ==> nextGrid[a, b] == h[a][b]
          invariant forall b {:trigger nextGrid[row, b]} :: 0 <= b < col ==> nextGrid[row, b] == h[row][b]
        {
          NextState(row, col, g, h);
        }
      }
      SnapshotEq(nextGrid, h);
    }

    /** The rule applied to one cell, written to `nextGrid[row][col]`. */
    method NextState(row: nat, col: nat, ghost g: Board, ghost h: Board)
      requires Valid() && row < rows && col < cols && Cells() == g && IsStep(g, rows, cols, h)
      modifies nextGrid
      ensures nextGrid[row, col] == h[row][col]
      ensures forall a, b {:trigger nextGrid[a, b]} :: 0 <= a < rows && 0 <= b < cols && (a, b) != (row, col) ==>
                nextGrid[a, b] == old(nextGrid[a, b])
    {
      var neighbors := CountNeighbors(row, col, g);
      assert h[row][col] == Next(g, rows, cols, row, col);
      var isAlive := grid[row, col] == 1;
      if isAlive && (neighbors < 2 || neighbors > 3) {
        nextGrid[row, col] := 0;
      } else if !isAlive && neighbors == 3 {
        nextGrid[row, col] := 1;
      } else {
        nextGrid[row, col] := grid[row, col];
      }
    }

    /** The second loop of `updateGrid`: copy the buffer back into the grid. */
    method CopyBack()
      requires Valid()
      modifies grid
      ensures Cells() == Snapshot(nextGrid)
    {
      for row := 0 to rows
        modifies grid
        invariant forall a, b {:trigger grid[a, b]} :: 0 <= a < row && 0 <= b < cols ==> grid[a, b] == nextGrid[a, b]
      {
        for col := 0 to cols
          modifies grid
          invariant forall a, b {:trigger grid[a, b]} :: 0 <= a < row && 0 <= b < cols ==> grid[a, b] == nextGrid[a, b]
          invariant forall b {:trigger grid[row, b]} :: 0 <= b < col ==> grid[row, b] == nextGrid[row, b]
        {
          grid[row, col] := nextGrid[row, col];
        }
      }
      SnapshotEq(grid, Snapshot(nextGrid));
    }

    /** `updateStats`: the population is the sum of all cell values. */
    method UpdateStats()
      requires Valid()
      modifies this`population
      ensures population == Population(Cells())
    {
      ghost var g := Cells();
      var sum := 0;
      for row := 0 to rows
        invariant sum == Population(g[..row])
      {
        for col := 0 to cols
          invariant sum == Population(g[..row]) + RowSum(g[row][..col])
        {
          assert g[row][..col + 1][..col] == g[row][..col];
          sum := sum + grid[row, col];
        }
        assert g[row][..cols] == g[row];
        assert g[..row + 1][..row] == g[..row];
      }
      assert g[..rows] == g;
      population := sum;
    }

    /** `startSimulation`: start running unless already running. */
    method StartSimulation()
      modifies this`isRunning
      ensures isRunning
    {
      if !isRunning {
        isRunning := true;
      }
    }

    /** `stopSimulation`: stop running. */
    method StopSimulation()
      modifies this`isRunning
      ensures !isRunning
    {
      isRunning := false;
    }

    /**
     * `handleCanvasClick` at canvas point (x, y) (already scaled to canvas
     * pixels): an in-bounds cell is toggled and the statistics refreshed; a
     * click outside the grid changes nothing.
     */
    method Click(x: real, y: real)
      requires Valid()
      modifies grid, this`population
      ensures var row, col := (y / 15.0).Floor, (x / 15.0).Floor;
        if InGrid(row, col) then
          Cells() == SetCell(old(Cells()), row, col, Toggle(old(grid[row, col]))) &&
          population == Population(Cells())
        else
          unchanged(grid) && population == old(population)
      ensures Binary(old(Cells())) ==> Binary(Cells())
    {
      var col := (x / 15.0).Floor;
      var row := (y / 15.0).Floor;
      if row >= 0 && row < rows && col >= 0 && col < cols {
        ghost var g := Cells();
        grid[row, col] := Toggle(grid[row, col]);
        SnapshotEq(grid, SetCell(g, row, col, Toggle(g[row][col])));
        UpdateStats();
      }
    }

    predicate InGrid(row: int, col: int)
      reads this`rows, this`cols
    {
      0 <= row < rows && 0 <= col < cols
    }

    /**
     * The window's resize handler: the grid is re-initialised to the new
     * size (generation 0) and every cell that lies inside both the old and
     * the new size gets its old value back. The old array is no longer
     * reachable from the page once `init` replaces it, so it serves as the
     * saved copy.
     */
    method Resize(newRows: nat, newCols: nat)
      requires Valid()
      modifies this`rows, this`cols, this`grid, this`nextGrid, this`generation, this`population
      ensures Valid() && rows == newRows && cols == newCols && fresh(grid)
      ensures Cells() == Restored(old(Cells()), old(rows), old(cols), rows, cols)
      ensures Binary(old(Cells())) ==> Binary(Cells())
      ensures generation == 0 && population == Population(Cells())
    {
      ghost var g := Cells();
      ghost var oldRows, oldCols := rows, cols;
      var saved := grid;
      rows, cols := newRows, newCols;
      ResetGrid();
      RestoreSaved(saved, g);
      UpdateStats();
    }

    /** The restore loops of the resize handler, over a grid of zeros. */
    method RestoreSaved(saved: array2<int>, ghost g: Board)
      requires Valid() && saved != grid && g == Snapshot(saved)
      requires forall a, b {:trigger grid[a, b]} :: 0 <= a < rows && 0 <= b < cols ==> grid[a, b] == 0
      modifies grid
      ensures Cells() == Restored(g, saved.Length0, saved.Length1, rows, cols)
    {
      var keepRows := if rows < saved.Length0 then rows else saved.Length0;
      var keepCols := if cols < saved.Length1 then cols else saved.Length1;
      for row := 0 to keepRows
        modifies grid
        invariant forall a, b {:trigger grid[a, b]} :: 0 <= a < rows && 0 <= b < cols ==>
                    grid[a, b] == if a < row && b < keepCols then g[a][b] else 0
      {
        for col := 0 to keepCols
          modifies grid
          invariant forall a, b {:trigger grid[a, b]} :: 0 <= a < rows && 0 <= b < cols ==>
                      grid[a, b] == if (a < row && b < keepCols) || (a == row && b < col) then g[a][b] else 0
        {
          grid[row, col] := saved[row, col];
        }
      }
      SnapshotEq(grid, Restored(g, saved.Length0, saved.Length1, rows, cols));
    }
  }
}

=== FILE: maze_runner.dfy ===
/**
 * The maze of the procedural maze runner: a COLS x ROWS grid of cells with
 * four walls each, carved step by step by a recursive backtracker or by
 * randomised Prim's algorithm, searched breadth-first for the hint path and
 * walked by the player.
 *
 * A cell is named by its coordinates (x, y). The program's cell objects sit
 * at `grid[y][x]` for the life of the maze, so a coordinate pair and a cell
 * object name each other; the generation stack, the frontier and the
 * current cell hold coordinates here where the program holds the objects.
 */
module MazeRunner {
  import opened Common

  /** A cell position: column x, row y (y grows downwards). */
  type Coord = (int, int)

  /** The four sides of a cell. */
  datatype Dir = N | S | E | W

  /** The order in which every scan of the program visits the sides. */
  const Sides: seq<Dir> := [N, S, E, W]

  /** The cell beyond side d of c. */
  function Go(c: Coord, d: Dir): Coord
  {
    match d
    case N => (c.0, c.1 - 1)
    case S => (c.0, c.1 + 1)
    case E => (c.0 + 1, c.1)
    case W => (c.0 - 1, c.1)
  }

  /** The side facing d across a shared wall. */
  function Opposite(d: Dir): (r: Dir)
    ensures r != d
    ensures forall c: Coord {:trigger Go(c, d)} :: Go(Go(c, d), r) == c
  {
    match d
    case N => S
    case S => N
    case E => W
    case W => E
  }

  /** The side of a through which b is reached, if b is an orthogonal neighbour of a. */
  function Toward(a: Coord, b: Coord): (r: Option<Dir>)
    ensures r.Some? ==> Go(a, r.value) == b
    ensures forall d :: Go(a, d) == b ==> r == Some(d)
  {
    if b == Go(a, N) then Some(N)
    else if b == Go(a, S) then Some(S)
    else if b == Go(a, E) then Some(E)
    else if b == Go(a, W) then Some(W)
    else None
  }

  /** The `walls` dictionary of a cell: true where the wall stands. */
  datatype Walls = Walls(n: bool, s: bool, e: bool, w: bool)
  {
    function Up(d: Dir): bool
    {
      match d
      case N => n
      case S => s
      case E => e
      case W => w
    }

    /** These walls with side d set to v. */
    function Set(d: Dir, v: bool): (r: Walls)
      ensures r.Up(d) == v
      ensures forall d' :: d' != d ==> r.Up(d') == Up(d')
    {
      match d
      case N => this.(n := v)
      case S => this.(s := v)
      case E => this.(e := v)
      case W => this.(w := v)
    }
  }

  /** A fresh cell: all four walls standing. */
  const Closed: Walls := Walls(true, true, true, true)

  predicate InBounds(c: Coord, cols: nat, rows: nat)
  {
    0 <= c.0 < cols && 0 <= c.1 < rows
  }

  /** c names a cell of the grid g (indexed g[y][x]). */
  predicate Inside<T>(g: seq<seq<T>>, c: Coord)
  {
    0 <= c.1 < |g| && 0 <= c.0 < |g[c.1]|
  }

  function At<T>(g: seq<seq<T>>, c: Coord): T
    requires Inside(g, c)
  {
    g[c.1][c.0]
  }

  /** g with the cell c replaced by v. */
  function Put<T>(g: seq<seq<T>>, c: Coord, v: T): (h: seq<seq<T>>)
    requires Inside(g, c)
    ensures |h| == |g| && forall y :: 0 <= y < |g| ==> |h[y]| == |g[y]|
    ensures At(h, c) == v
    ensures forall c' :: Inside(g, c') && c' != c ==> At(h, c') == At(g, c')
  {
    SetCell(g, c.1, c.0, v)
  }

  /** A rows x cols grid holding v everywhere. */
  function Uniform<T>(rows: nat, cols: nat, v: T): (g: seq<seq<T>>)
    ensures IsMatrix(g, rows, cols)
    ensures forall c :: Inside(g, c) ==> At(g, c) == v
  {
    seq(rows, y => seq(cols, x => v))
  }

  /** No wall on the outer boundary is open. */
  ghost predicate Sealed(g: seq<seq<Walls>>)
  {
    forall c, d :: Inside(g, c) && !Inside(g, Go(c, d)) ==> At(g, c).Up(d)
  }

  /** Every cell not yet reached by the generator still has all its walls. */
  ghost predicate Untouched(g: seq<seq<Walls>>, visited: seq<seq<bool>>)
  {
    forall c :: Inside(g, c) && Inside(visited, c) && !At(visited, c) ==> At(g, c) == Closed
  }

  /** a and b are neighbours and the wall between them is open on both sides. */
  ghost predicate Joined(g: seq<seq<Walls>>, a: Coord, b: Coord)
  {
    Inside(g, a) && Inside(g, b) && Toward(a, b).Some? &&
    !At(g, a).Up(Toward(a, b).value) && !At(g, b).Up(Opposite(Toward(a, b).value))
  }

  /** `_remove_walls(c1, c2)` on the walls g, as the two offset tests write it. */
  function Carve(g: seq<seq<Walls>>, c1: Coord, c2: Coord): (h: seq<seq<Walls>>)
    requires Inside(g, c1) && Inside(g, c2)
    ensures |h| == |g| && forall y :: 0 <= y < |g| ==> |h[y]| == |g[y]|
    // nothing but the two cells changes
    ensures forall c :: Inside(g, c) && c != c1 && c != c2 ==> At(h, c) == At(g, c)
    // for neighbours, exactly the facing pair of walls comes down
    ensures Toward(c1, c2).Some? ==>
              At(h, c1) == At(g, c1).Set(Toward(c1, c2).value, false) &&
              At(h, c2) == At(g, c2).Set(Opposite(Toward(c1, c2).value), false)
    // no wall ever goes up
    ensures forall c, d :: Inside(g, c) && At(h, c).Up(d) ==> At(g, c).Up(d)
  {
    var dx, dy := c1.0 - c2.0, c1.1 - c2.1;
    var g1 := if dx == 1 then Knock(g, c1, W, c2, E)
              else if dx == -1 then Knock(g, c1, E, c2, W)
              else g;
    if dy == 1 then Knock(g1, c1, N, c2, S)
    else if dy == -1 then Knock(g1, c1, S, c2, N)
    else g1
  }

  /** Side d1 of c1 and then side d2 of c2 are opened. */
  function Knock(g: seq<seq<Walls>>, c1: Coord, d1: Dir, c2: Coord, d2: Dir): (h: seq<seq<Walls>>)
    requires Inside(g, c1) && Inside(g, c2)
    ensures |h| == |g| && forall y :: 0 <= y < |g| ==> |h[y]| == |g[y]|
    ensures forall c :: Inside(g, c) && c != c1 && c != c2 ==> At(h, c) == At(g, c)
    ensures c1 != c2 ==> At(h, c1) == At(g, c1).Set(d1, false) && At(h, c2) == At(g, c2).Set(d2, false)
    ensures forall c, d :: Inside(g, c) && At(h, c).Up(d) ==> At(g, c).Up(d)
  {
    var g1 := Put(g, c1, At(g, c1).Set(d1, false));
    Put(g1, c2, At(g1, c2).Set(d2, false))
  }

  /** Carving between neighbours inside the grid keeps the boundary sealed. */
  lemma CarveSealed(g: seq<seq<Walls>>, a: Coord, b: Coord)
    requires Sealed(g) && Inside(g, a) && Inside(g, b) && Toward(a, b).Some?
    ensures Sealed(Carve(g, a, b))
  {
    var h := Carve(g, a, b);
    var d := Toward(a, b).value;
    forall c, e | Inside(h, c) && !Inside(h, Go(c, e))
      ensures At(h, c).Up(e)
    {
      assert At(g, c).Up(e);
      if c == a {
        assert e != d;
      } else if c == b {
        assert Go(b, Opposite(d)) == a;
        assert e != Opposite(d);
      }
    }
  }

  /** Carving from a reached cell a to b, then reaching b, leaves every unreached cell closed. */
  lemma CarveUntouched(g: seq<seq<Walls>>, visited: seq<seq<bool>>, rows: nat, cols: nat, a: Coord, b: Coord)
    requires IsMatrix(g, rows, cols) && IsMatrix(visited, rows, cols) && Untouched(g, visited)
    requires Inside(g, a) && Inside(g, b) && At(visited, a)
    ensures Untouched(Carve(g, a, b), Put(visited, b, true))
  {
    var h := Carve(g, a, b);
    var v := Put(visited, b, true);
    forall c | Inside(h, c) && Inside(v, c) && !At(v, c)
      ensures At(h, c) == Closed
    {
      assert c != a && c != b;
    }
  }

  /** Carving never closes a passage and opens the one between a and b. */
  lemma CarveJoined(g: seq<seq<Walls>>, a: Coord, b: Coord)
    requires Inside(g, a) && Inside(g, b) && Toward(a, b).Some?
    ensures Joined(Carve(g, a, b), a, b)
    ensures forall x, y :: Joined(g, x, y) ==> Joined(Carve(g, a, b), x, y)
  {
    var h := Carve(g, a, b);
    forall x, y | Joined(g, x, y)
      ensures Joined(h, x, y)
    {
      var t := Toward(x, y).value;
      assert !At(g, x).Up(t) && !At(g, y).Up(Opposite(t));
    }
  }

  /**
   * `Cell.get_neighbours`, as a specification: the cells beyond the first k
   * sides, in the order N, S, E, W, that lie inside the grid.
   */
  function Around(c: Coord, cols: nat, rows: nat, k: nat): (r: seq<Coord>)
    requires k <= 4
    ensures |r| <= k
    ensures forall m :: m in r ==> InBounds(m, cols, rows) && Toward(c, m).Some? && Toward(c, m).value in Sides[..k]
    ensures forall j :: 0 <= j < k && InBounds(Go(c, Sides[j]), cols, rows) ==> Go(c, Sides[j]) in r
    ensures forall i, j :: 0 <= i < j < |r| ==> r[i] != r[j]
  {
    if k == 0 then []
    else
      var rest := Around(c, cols, rows, k - 1);
      var m := Go(c, Sides[k - 1]);
      if InBounds(m, cols, rows) then
        assert Toward(c, m) == Some(Sides[k - 1]);
        assert m !in rest;
        rest + [m]
      else rest
  }

  /** `[n for n in ns if not n.visited_gen]`. */
  function Unvisited(visited: seq<seq<bool>>, ns: seq<Coord>): (r: seq<Coord>)
    requires forall c :: c in ns ==> Inside(visited, c)
    ensures forall c :: c in r ==> c in ns && Inside(visited, c) && !At(visited, c)
    ensures forall i :: 0 <= i < |ns| && !At(visited, ns[i]) ==> ns[i] in r
  {
    if ns == [] then []
    else
      assert ns[0] in ns;
      (if !At(visited, ns[0]) then [ns[0]] else []) + Unvisited(visited, ns[1..])
  }

  /** A wall pair of the frontier, (reached cell, neighbour). */
  type Edge = (Coord, Coord)

  /** No pair occurs twice, in either orientation. */
  ghost predicate NoTwins(fr: seq<Edge>)
  {
    forall i, j :: 0 <= i < j < |fr| ==> fr[i] != fr[j] && fr[i] != (fr[j].1, fr[j].0)
  }

  /**
   * `_add_walls_to_frontier(cell)` after the first k sides: each in-bounds
   * pair (cell, neighbour) is appended unless present in either orientation.
   */
  function Gather(fr: seq<Edge>, cell: Coord, cols: nat, rows: nat, k: nat): seq<Edge>
    requires k <= 4
  {
    if k == 0 then fr
    else
      var rest := Gather(fr, cell, cols, rows, k - 1);
      var n := Go(cell, Sides[k - 1]);
      if InBounds(n, cols, rows) && (cell, n) !in rest && (n, cell) !in rest then rest + [(cell, n)]
      else rest
  }

  /**
   * Gathering keeps the old entries in order, adds at most one entry per
   * side, each an in-bounds pair from cell absent in both orientations
   * before, pairs cell with every in-bounds neighbour, and creates no twins.
   */
  lemma GatherSpec(fr: seq<Edge>, cell: Coord, cols: nat, rows: nat, k: nat)
    requires k <= 4
    ensures var r := Gather(fr, cell, cols, rows, k);
      |fr| <= |r| <= |fr| + k && r[..|fr|] == fr &&
      (forall i :: |fr| <= i < |r| ==>
         r[i].0 == cell && InBounds(r[i].1, cols, rows) && Toward(cell, r[i].1).Some? &&
         Toward(cell, r[i].1).value in Sides[..k] && r[i] !in fr && (r[i].1, r[i].0) !in fr) &&
      (forall j :: 0 <= j < k && InBounds(Go(cell, Sides[j]), cols, rows) ==>
         (cell, Go(cell, Sides[j])) in r || (Go(cell, Sides[j]), cell) in r) &&
      (NoTwins(fr) ==> NoTwins(r))
  {
    GatherGrows(fr, cell, cols, rows, k);
    GatherCovers(fr, cell, cols, rows, k);
    if NoTwins(fr) {
      GatherNoTwins(fr, cell, cols, rows, k);
    }
  }

  /** Gathering keeps the old entries and appends only fresh in-bounds pairs from cell. */
  lemma {:induction false} GatherGrows(fr: seq<Edge>, cell: Coord, cols: nat, rows: nat, k: nat)
    requires k <= 4
    ensures var r := Gather(fr, cell, cols, rows, k);
      |fr| <= |r| <= |fr| + k && r[..|fr|] == fr &&
      (forall i :: |fr| <= i < |r| ==>
         r[i].0 == cell && InBounds(r[i].1, cols, rows) && Toward(cell, r[i].1).Some? &&
         Toward(cell, r[i].1).value in Sides[..k] && r[i] !in fr && (r[i].1, r[i].0) !in fr)
    decreases k
  {
    if k > 0 {
      GatherGrows(fr, cell, cols, rows, k - 1);
      var rest := Gather(fr, cell, cols, rows, k - 1);
      var n := Go(cell, Sides[k - 1]);
      if InBounds(n, cols, rows) && (cell, n) !in rest && (n, cell) !in rest {
        assert Toward(cell, n) == Some(Sides[k - 1]);
        var r := rest + [(cell, n)];
        assert r[..|fr|] == rest[..|fr|];
        assert forall i :: 0 <= i < |rest| ==> r[i] == rest[i];
        assert (cell, n) !in fr && (n, cell) !in fr by {
          assert forall x :: x in fr ==> x in rest by {
            forall x | x in fr ensures x in rest {
              var i :| 0 <= i < |fr| && fr[i] == x;
              assert rest[i] == x;
            }
          }
        }
      }
    }
  }

  /** After gathering, every in-bounds neighbour of cell is paired with it, in one orientation. */
  lemma {:induction false} GatherCovers(fr: seq<Edge>, cell: Coord, cols: nat, rows: nat, k: nat)
    requires k <= 4
    ensures var r := Gather(fr, cell, cols, rows, k);
      forall j :: 0 <= j < k && InBounds(Go(cell, Sides[j]), cols, rows) ==>
        (cell, Go(cell, Sides[j])) in r || (Go(cell, Sides[j]), cell) in r
    decreases k
  {
    if k > 0 {
      GatherCovers(fr, cell, cols, rows, k - 1);
      var rest := Gather(fr, cell, cols, rows, k - 1);
      assert forall x :: x in rest ==> x in Gather(fr, cell, cols, rows, k);
    }
  }

  /** Gathering creates no twins. */
  lemma {:induction false} GatherNoTwins(fr: seq<Edge>, cell: Coord, cols: nat, rows: nat, k: nat)
    requires k <= 4 && NoTwins(fr)
    ensures NoTwins(Gather(fr, cell, cols, rows, k))
    decreases k
  {
    if k > 0 {
      GatherNoTwins(fr, cell, cols, rows, k - 1);
      var rest := Gather(fr, cell, cols, rows, k - 1);
      var n := Go(cell, Sides[k - 1]);
      if InBounds(n, cols, rows) && (cell, n) !in rest && (n, cell) !in rest {
        var r := rest + [(cell, n)];
        forall i, j | 0 <= i < j < |r|
          ensures r[i] != r[j] && r[i] != (r[j].1, r[j].0)
        {
          assert r[i] == rest[i];
          if j < |rest| {
            assert r[j] == rest[j];
          }
        }
      }
    }
  }

  /** `list.remove(e)`: the first occurrence of e taken out. */
  function Remove(s: seq<Edge>, e: Edge): (r: seq<Edge>)
    ensures e in s ==> |r| == |s| - 1
    ensures e !in s ==> r == s
    ensures forall x :: x in r ==> x in s
  {
    if s == [] then []
    else if s[0] == e then s[1..]
    else [s[0]] + Remove(s[1..], e)
  }

  /** Removing an entry that does not occur earlier removes exactly that position. */
  lemma {:induction false} RemoveFirst(s: seq<Edge>, i: nat)
    requires i < |s| && forall j :: 0 <= j < i ==> s[j] != s[i]
    ensures Remove(s, s[i]) == s[..i] + s[i + 1..]
    decreases i
  {
    if i > 0 {
      var t := s[1..];
      assert t[i - 1] == s[i];
      RemoveFirst(t, i - 1);
      assert s[..i] == [s[0]] + t[..i - 1] && s[i + 1..] == t[i..];
    }
  }

  /** Removing the entry at i of a pair list without twins removes exactly that entry. */
  lemma RemoveAt(fr: seq<Edge>, i: nat)
    requires NoTwins(fr) && i < |fr|
    ensures Remove(fr, fr[i]) == fr[..i] + fr[i + 1..]
    ensures NoTwins(Remove(fr, fr[i]))
  {
    assert forall j :: 0 <= j < i ==> fr[j] != fr[i];
    RemoveFirst(fr, i);
    var r := fr[..i] + fr[i + 1..];
    forall a, b | 0 <= a < b < |r|
      ensures r[a] != r[b] && r[a] != (r[b].1, r[b].0)
    {
      if b < i {
        assert r[a] == fr[a] && r[b] == fr[b];
      } else if a < i {
        assert r[a] == fr[a] && r[b] == fr[b + 1];
      } else {
        assert r[a] == fr[a + 1] && r[b] == fr[b + 1];
      }
    }
  }

  /** The moves of `find_path_bfs` from c: one per open wall, in the order N, S, E, W. */
  function OpenMoves(w: Walls, c: Coord): (ms: seq<Coord>)
    ensures forall d :: !w.Up(d) ==> Go(c, d) in ms
    ensures forall m :: m in ms ==> Toward(c, m).Some? && !w.Up(Toward(c, m).value)
  {
    (if !w.n then [(c.0, c.1 - 1)] else []) + (if !w.s then [(c.0, c.1 + 1)] else []) +
    (if !w.e then [(c.0 + 1, c.1)] else []) + (if !w.w then [(c.0 - 1, c.1)] else [])
  }

  /** One search step: from cell a through an open wall of a to the cell b inside the grid. */
  ghost predicate Link(g: seq<seq<Walls>>, a: Coord, b: Coord)
  {
    Inside(g, a) && Inside(g, b) && b in OpenMoves(At(g, a), a)
  }

  /** p walks from s to t by search steps. */
  ghost predicate IsPath(g: seq<seq<Walls>>, p: seq<Coord>, s: Coord, t: Coord)
  {
    |p| > 0 && p[0] == s && p[|p| - 1] == t &&
    forall i :: 0 <= i < |p| - 1 ==> Link(g, p[i], p[i + 1])
  }

  ghost predicate Distinct<T>(s: seq<T>)
  {
    forall i, j :: 0 <= i < j < |s| ==> s[i] != s[j]
  }

  lemma PathExtend(g: seq<seq<Walls>>, p: seq<Coord>, s: Coord, c: Coord, n: Coord)
    requires IsPath(g, p, s, c) && Link(g, c, n)
    ensures IsPath(g, p + [n], s, n)
  {
    var q := p + [n];
    forall i | 0 <= i < |q| - 1
      ensures Link(g, q[i], q[i + 1])
    {
      if i < |p| - 1 {
        assert q[i] == p[i] && q[i + 1] == p[i + 1];
      }
    }
  }

  /** A set of cells closed under search steps holds the end of every path that starts in it. */
  lemma {:induction false} ClosedHoldsPath(g: seq<seq<Walls>>, seen: set<Coord>, p: seq<Coord>, s: Coord, t: Coord)
    requires IsPath(g, p, s, t) && s in seen
    requires forall a, b {:trigger Link(g, a, b)} :: a in seen && Link(g, a, b) ==> b in seen
    ensures t in seen
    decreases |p|
  {
    if |p| > 1 {
      var q := p[..|p| - 1];
      assert IsPath(g, q, s, q[|q| - 1]) by {
        forall i | 0 <= i < |q| - 1
          ensures Link(g, q[i], q[i + 1])
        {
          assert q[i] == p[i] && q[i + 1] == p[i + 1];
        }
      }
      ClosedHoldsPath(g, seen, q, s, q[|q| - 1]);
      assert Link(g, p[|p| - 2], p[|p| - 1]);
    }
  }

  /** Every cell of a rows x cols grid. */
  function AllCells(cols: nat, rows: nat): (all: set<Coord>)
    ensures forall c :: c in all <==> InBounds(c, cols, rows)
  {
    set x, y | 0 <= x < cols && 0 <= y < rows :: (x, y)
  }

  /** A queue entry: a cell and the path the search took to it. */
  type Entry = (Coord, seq<Coord>)

  /**
   * The search's bookkeeping: the queue holds, in order, the cells enqueued
   * from position head on, each with a path to it from start; the visited
   * set is exactly the enqueued cells, all inside the grid, none twice.
   */
  ghost predicate Queued(g: seq<seq<Walls>>, q: seq<Entry>, enqueued: seq<Coord>, head: nat,
                         visited: set<Coord>, start: Coord, cols: nat, rows: nat)
  {
    head <= |enqueued| && |q| == |enqueued| - head &&
    (forall k :: 0 <= k < |q| ==> q[k].0 == enqueued[head + k] && IsPath(g, q[k].1, start, q[k].0)) &&
    |enqueued| > 0 && enqueued[0] == start && Distinct(enqueued) &&
    (forall c :: c in visited <==> c in enqueued) &&
    (forall c :: c in visited ==> InBounds(c, cols, rows))
  }

  /** Enqueueing an unvisited cell of the grid with a path to it keeps the bookkeeping. */
  lemma QueuedPush(g: seq<seq<Walls>>, q: seq<Entry>, enqueued: seq<Coord>, head: nat, visited: set<Coord>,
                   start: Coord, cols: nat, rows: nat, next: Coord, p: seq<Coord>)
    requires Queued(g, q, enqueued, head, visited, start, cols, rows)
    requires InBounds(next, cols, rows) && next !in visited && IsPath(g, p, start, next)
    ensures Queued(g, q + [(next, p)], enqueued + [next], head, visited + {next}, start, cols, rows)
  {
    var q', e' := q + [(next, p)], enqueued + [next];
    forall k | 0 <= k < |q'|
      ensures q'[k].0 == e'[head + k] && IsPath(g, q'[k].1, start, q'[k].0)
    {
      if k < |q| {
        assert q'[k] == q[k] && e'[head + k] == enqueued[head + k];
      }
    }
  }

  /**
   * `find_path_bfs(maze, start, end)`: breadth-first search over the open
   * walls. A returned path is a walk from start to end by search steps;
   * None comes back only when no such walk exists; a cell is enqueued at
   * most once (`enqueued` lists them in queue order).
   */
  method FindPathBFS(maze: Maze, start: Coord, end: Coord) returns (path: Option<seq<Coord>>, ghost enqueued: seq<Coord>)
    requires maze.Valid() && InBounds(start, maze.cols, maze.rows)
    ensures path.Some? ==> IsPath(maze.walls, path.value, start, end)
    ensures path.None? ==> forall p :: !IsPath(maze.walls, p, start, end)
    ensures start == end ==> path == Some([start])
    ensures Distinct(enqueued) && |enqueued| > 0 && enqueued[0] == start
    ensures forall c :: c in enqueued ==> InBounds(c, maze.cols, maze.rows)
  {
    ghost var g := maze.walls;
    var q: seq<Entry> := [(start, [start])];
    var visited: set<Coord> := {start};
    ghost var done: set<Coord> := {};
    ghost var head := 0;
    enqueued := [start];
    while q != []
      invariant Queued(g, q, enqueued, head, visited, start, maze.cols, maze.rows)
      invariant forall c :: c in done <==> c in enqueued[..head]
      invariant end !in done
      invariant start == end ==> head == 0 && q == [(start, [start])]
      invariant forall a, b {:trigger Link(g, a, b)} :: a in done && Link(g, a, b) ==> b in visited
      decreases AllCells(maze.cols, maze.rows) - visited, |q|
    {
      var cur, curPath := q[0].0, q[0].1;
      assert cur == enqueued[head] && cur in enqueued;
      assert enqueued[..head + 1] == enqueued[..head] + [cur];
      ghost var enqueued0 := enqueued;
      q := q[1..];
      head := head + 1;
      if cur == end {
        return Some(curPath), enqueued;
      }
      ghost var visited0, q0 := visited, q;
      q, visited, enqueued := EnqueueMoves(maze, cur, curPath, start, q, visited, enqueued, head);
      assert enqueued[..head] == enqueued0[..head];
      done := done + {cur};
    }
    assert enqueued[..head] == enqueued;
    forall p | IsPath(g, p, start, end)
      ensures false
    {
      ClosedHoldsPath(g, visited, p, start, end);
    }
    return None, enqueued;
  }

  /**
   * The inner loop of `find_path_bfs`: every move of cur that stays inside
   * the grid and reaches an unvisited cell is marked visited and enqueued
   * with its path; afterwards every search step from cur ends in a visited cell.
   */
  method EnqueueMoves(maze: Maze, cur: Coord, curPath: seq<Coord>, start: Coord, q: seq<Entry>,
                      visited: set<Coord>, ghost enqueued: seq<Coord>, ghost head: nat)
    returns (q': seq<Entry>, visited': set<Coord>, ghost enqueued': seq<Coord>)
    requires maze.Valid() && InBounds(cur, maze.cols, maze.rows) && IsPath(maze.walls, curPath, start, cur)
    requires Queued(maze.walls, q, enqueued, head, visited, start, maze.cols, maze.rows)
    ensures Queued(maze.walls, q', enqueued', head, visited', start, maze.cols, maze.rows)
    ensures visited <= visited' && (visited' == visited ==> q' == q)
    ensures |enqueued| <= |enqueued'| && enqueued'[..|enqueued|] == enqueued
    ensures forall b {:trigger Link(maze.walls, cur, b)} :: Link(maze.walls, cur, b) ==> b in visited'
  {
    ghost var g := maze.walls;
    var moves := OpenMoves(maze.walls[cur.1][cur.0], cur);
    q', visited', enqueued' := q, visited, enqueued;
    for m := 0 to |moves|
      invariant Queued(g, q', enqueued', head, visited', start, maze.cols, maze.rows)
      invariant visited <= visited' && (visited' == visited ==> q' == q)
      invariant |enqueued| <= |enqueued'| && enqueued'[..|enqueued|] == enqueued
      invariant forall k :: 0 <= k < m && InBounds(moves[k], maze.cols, maze.rows) ==> moves[k] in visited'
    {
      var next := moves[m];
      if 0 <= next.0 < maze.cols && 0 <= next.1 < maze.rows && next !in visited' {
        assert Link(g, cur, next);
        PathExtend(g, curPath, start, cur, next);
        QueuedPush(g, q', enqueued', head, visited', start, maze.cols, maze.rows, next, curPath + [next]);
        assert enqueued'[..|enqueued|] == (enqueued' + [next])[..|enqueued|];
        visited' := visited' + {next};
        enqueued' := enqueued' + [next];
        q' := q' + [(next, curPath + [next])];
      }
    }
    forall b | Link(g, cur, b)
      ensures b in visited'
    {
      var k :| 0 <= k < |moves| && moves[k] == b;
    }
  }

  /** A search step is a legal player move: the player's wall test passes and lands on b. */
  lemma LinkIsMove(g: seq<seq<Walls>>, a: Coord, b: Coord)
    requires Link(g, a, b)
    ensures var dx, dy := b.0 - a.0, b.1 - a.1;
      Unit(dx, dy) && Opens(At(g, a), dx, dy)
  {
    var d := Toward(a, b).value;
    assert Go(a, d) == b;
  }

  /** One of the four arrow-key offsets. */
  predicate Unit(dx: int, dy: int)
  {
    (dx, dy) == (1, 0) || (dx, dy) == (-1, 0) || (dx, dy) == (0, 1) || (dx, dy) == (0, -1)
  }

  /** The wall test of `Player.move`, in its order E, W, S, N. */
  predicate Opens(w: Walls, dx: int, dy: int)
  {
    (dx == 1 && !w.e) || (dx == -1 && !w.w) || (dy == 1 && !w.s) || (dy == -1 && !w.n)
  }

  /** `Cell.get_neighbours`: the loop over the four candidate sides. */
  method GetNeighbours(c: Coord, cols: nat, rows: nat) returns (ns: seq<Coord>)
    ensures ns == Around(c, cols, rows, 4)
  {
    ns := [];
    for k := 0 to 4
      invariant ns == Around(c, cols, rows, k)
    {
      var m := Go(c, Sides[k]);
      if 0 <= m.0 < cols && 0 <= m.1 < rows {
        ns := ns + [m];
      }
    }
  }

  /**
   * The neighbours of a cell are exactly its orthogonal neighbours inside
   * the grid, at most four and none twice.
   */
  lemma AroundExactly(c: Coord, cols: nat, rows: nat)
    ensures var ns := Around(c, cols, rows, 4);
      |ns| <= 4 && Distinct(ns) && forall m :: m in ns <==> InBounds(m, cols, rows) && Toward(c, m).Some?
  {
    var ns := Around(c, cols, rows, 4);
    forall m | InBounds(m, cols, rows) && Toward(c, m).Some?
      ensures m in ns
    {
      var d := Toward(c, m).value;
      assert d == Sides[0] || d == Sides[1] || d == Sides[2] || d == Sides[3];
    }
  }

  /**
   * The generators' part of the maze: every cell's walls and `visited_gen`
   * flag, the backtracker's stack, Prim's frontier and the current cell.
   */
  datatype Gen = Gen(walls: seq<seq<Walls>>, visited: seq<seq<bool>>, stack: seq<Coord>,
                     frontier: seq<Edge>, current: Option<Coord>)

  /** A rows x cols grid whose stack, frontier and current cell name cells of it. */
  ghost predicate Wf(s: Gen, cols: nat, rows: nat)
  {
    IsMatrix(s.walls, rows, cols) && IsMatrix(s.visited, rows, cols) &&
    (forall i :: 0 <= i < |s.stack| ==> InBounds(s.stack[i], cols, rows)) &&
    (forall i :: 0 <= i < |s.frontier| ==> InBounds(s.frontier[i].0, cols, rows) && InBounds(s.frontier[i].1, cols, rows)) &&
    (s.current.Some? ==> InBounds(s.current.value, cols, rows))
  }

  /** The reached cells. */
  ghost function Reached(s: Gen, cols: nat, rows: nat): set<Coord>
  {
    set c | c in AllCells(cols, rows) && Inside(s.visited, c) && At(s.visited, c)
  }

  /** Reaching one more cell grows the reached set by exactly that cell. */
  lemma ReachOne(s: Gen, cols: nat, rows: nat, c: Coord)
    requires Wf(s, cols, rows) && InBounds(c, cols, rows) && !At(s.visited, c)
    ensures Reached(s.(visited := Put(s.visited, c, true)), cols, rows) == Reached(s, cols, rows) + {c}
    ensures Reached(s, cols, rows) < Reached(s.(visited := Put(s.visited, c, true)), cols, rows)
  {
    assert c !in Reached(s, cols, rows);
  }

  /**
   * The recursive backtracker's invariant: the boundary is sealed, unreached
   * cells are closed, every stack cell is reached and consecutive stack
   * cells are joined by an open passage.
   */
  ghost predicate BacktrackInv(s: Gen, cols: nat, rows: nat)
  {
    Wf(s, cols, rows) && Sealed(s.walls) && Untouched(s.walls, s.visited) && Chain(s.walls, s.visited, s.stack)
  }

  /** Every cell of the stack is reached and consecutive ones are joined. */
  ghost predicate Chain(g: seq<seq<Walls>>, visited: seq<seq<bool>>, stack: seq<Coord>)
  {
    (forall i :: 0 <= i < |stack| ==> Inside(visited, stack[i]) && At(visited, stack[i])) &&
    (forall i :: 0 <= i < |stack| - 1 ==> Joined(g, stack[i], stack[i + 1]))
  }

  /** Carving from the top of a chain to a neighbour, reaching it and pushing it extends the chain. */
  lemma ChainPush(g: seq<seq<Walls>>, visited: seq<seq<bool>>, stack: seq<Coord>, top: Coord, next: Coord)
    requires Chain(g, visited, stack) && stack != [] && top == stack[|stack| - 1]
    requires Inside(g, top) && Inside(g, next) && Inside(visited, next) && Toward(top, next).Some?
    ensures Chain(Carve(g, top, next), Put(visited, next, true), stack + [next])
  {
    var h, v, st := Carve(g, top, next), Put(visited, next, true), stack + [next];
    CarveJoined(g, top, next);
    forall i | 0 <= i < |st|
      ensures Inside(v, st[i]) && At(v, st[i])
    {
      if i < |stack| {
        assert st[i] == stack[i];
      }
    }
    forall i | 0 <= i < |st| - 1
      ensures Joined(h, st[i], st[i + 1])
    {
      if i < |stack| - 1 {
        assert Joined(g, stack[i], stack[i + 1]);
      }
    }
  }

  /**
   * Prim's invariant: the boundary is sealed, unreached cells are closed,
   * every frontier pair joins neighbours, starts at a reached cell and has
   * no twin.
   */
  ghost predicate PrimsInv(s: Gen, cols: nat, rows: nat)
  {
    Wf(s, cols, rows) && Sealed(s.walls) && Untouched(s.walls, s.visited) && NoTwins(s.frontier) &&
    Rim(s.frontier, s.visited)
  }

  /** Every pair of the frontier joins neighbours and starts at a reached cell. */
  ghost predicate Rim(fr: seq<Edge>, visited: seq<seq<bool>>)
  {
    forall i :: 0 <= i < |fr| ==> Toward(fr[i].0, fr[i].1).Some? && Inside(visited, fr[i].0) && At(visited, fr[i].0)
  }

  /**
   * `generate_step_rb` on the state s, with `random.choice` taking entry
   * `pick % |choices|`; the flag is the returned value.
   */
  function BacktrackStep(s: Gen, cols: nat, rows: nat, pick: nat): (r: (Gen, bool))
    requires Wf(s, cols, rows)
    ensures Wf(r.0, cols, rows)
    ensures r.1 <==> s.stack != []
    ensures r.0.frontier == s.frontier
  {
    if s.stack == [] then (s.(current := None), false)
    else
      var top := s.stack[|s.stack| - 1];
      var free := Unvisited(s.visited, Around(top, cols, rows, 4));
      if free == [] then (s.(current := Some(top), stack := s.stack[..|s.stack| - 1]), true)
      else
        var next := free[pick % |free|];
        assert next in free;
        (s.(current := Some(top), walls := Carve(s.walls, top, next), visited := Put(s.visited, next, true),
            stack := s.stack + [next]), true)
  }

  /**
   * What a backtracking step does: on an empty stack nothing but clearing
   * the current cell; otherwise the top becomes current and either a
   * previously unreached neighbour is carved to, reached and pushed, or,
   * when every neighbour is reached, the top is popped. Either way a new
   * cell is reached or the stack shrinks.
   */
  lemma BacktrackMoves(s: Gen, cols: nat, rows: nat, pick: nat)
    requires Wf(s, cols, rows)
    ensures var (t, more) := BacktrackStep(s, cols, rows, pick);
      (!more ==> t == s.(current := None)) &&
      (more ==>
        var top := s.stack[|s.stack| - 1];
        t.current == Some(top) && t.frontier == s.frontier &&
        ((|t.stack| == |s.stack| + 1 && t.stack[..|s.stack|] == s.stack &&
          var next := t.stack[|s.stack|];
          Toward(top, next).Some? && InBounds(next, cols, rows) && !At(s.visited, next) &&
          t.walls == Carve(s.walls, top, next) && t.visited == Put(s.visited, next, true) &&
          Reached(s, cols, rows) < Reached(t, cols, rows)) ||
         (t.stack == s.stack[..|s.stack| - 1] && t.walls == s.walls && t.visited == s.visited &&
          forall d :: InBounds(Go(top, d), cols, rows) ==> At(s.visited, Go(top, d)))))
  {
    var (t, more) := BacktrackStep(s, cols, rows, pick);
    if more {
      var top := s.stack[|s.stack| - 1];
      var ns := Around(top, cols, rows, 4);
      var free := Unvisited(s.visited, ns);
      if free != [] {
        var next := free[pick % |free|];
        assert next in free;
        assert t.stack[|s.stack|] == next;
        ReachOne(s, cols, rows, next);
        assert t.visited == s.(visited := Put(s.visited, next, true)).visited;
      } else {
        forall d | InBounds(Go(top, d), cols, rows)
          ensures At(s.visited, Go(top, d))
        {
          assert d == Sides[0] || d == Sides[1] || d == Sides[2] || d == Sides[3];
          assert Go(top, d) in ns;
          var i :| 0 <= i < |ns| && ns[i] == Go(top, d);
        }
      }
    }
  }

  /** A backtracking step keeps the backtracker's invariant. */
  lemma BacktrackKeeps(s: Gen, cols: nat, rows: nat, pick: nat)
    requires BacktrackInv(s, cols, rows)
    ensures BacktrackInv(BacktrackStep(s, cols, rows, pick).0, cols, rows)
  {
    if s.stack != [] {
      var top := s.stack[|s.stack| - 1];
      var free := Unvisited(s.visited, Around(top, cols, rows, 4));
      if free != [] {
        var next := free[pick % |free|];
        assert next in free;
        PushKeeps(s, cols, rows, top, next);
      }
    }
  }

  /** Carving from the top of the stack to a neighbour and pushing it keeps the invariant. */
  lemma PushKeeps(s: Gen, cols: nat, rows: nat, top: Coord, next: Coord)
    requires BacktrackInv(s, cols, rows) && s.stack != [] && top == s.stack[|s.stack| - 1]
    requires InBounds(next, cols, rows) && Toward(top, next).Some?
    ensures BacktrackInv(s.(current := Some(top), walls := Carve(s.walls, top, next),
                            visited := Put(s.visited, next, true), stack := s.stack + [next]), cols, rows)
  {
    var t := s.(current := Some(top), walls := Carve(s.walls, top, next),
                visited := Put(s.visited, next, true), stack := s.stack + [next]);
    CarveSealed(s.walls, top, next);
    CarveUntouched(s.walls, s.visited, rows, cols, top, next);
    ChainPush(s.walls, s.visited, s.stack, top, next);
    WfPush(s, cols, rows, top, next);
  }

  /** Pushing a cell of the grid onto the stack of a well-formed state keeps it well formed. */
  lemma WfPush(s: Gen, cols: nat, rows: nat, top: Coord, next: Coord)
    requires Wf(s, cols, rows) && InBounds(top, cols, rows) && InBounds(next, cols, rows)
    ensures Wf(s.(current := Some(top), walls := Carve(s.walls, top, next),
                  visited := Put(s.visited, next, true), stack := s.stack + [next]), cols, rows)
  {
    var st := s.stack + [next];
    assert forall i :: 0 <= i < |st| ==> st[i] == if i < |s.stack| then s.stack[i] else next;
  }

  /**
   * `generate_step_prims` on the state s, with `random.choice` taking entry
   * `pick % |frontier|`; the flag is the returned value.
   */
  function PrimsStep(s: Gen, cols: nat, rows: nat, pick: nat): (r: (Gen, bool))
    requires Wf(s, cols, rows)
    ensures Wf(r.0, cols, rows)
    ensures r.1 <==> s.frontier != []
    ensures r.0.stack == s.stack
  {
    if s.frontier == [] then (s.(current := None), false)
    else
      var (c1, c2) := s.frontier[pick % |s.frontier|];
      var rest := Remove(s.frontier, (c1, c2));
      assert forall i :: 0 <= i < |rest| ==> rest[i] in s.frontier;
      if At(s.visited, c1) != At(s.visited, c2) then
        var nc := if !At(s.visited, c1) then c1 else c2;
        var fr := Gather(rest, nc, cols, rows, 4);
        GatherSpec(rest, nc, cols, rows, 4);
        assert forall i :: 0 <= i < |rest| ==> fr[i] == rest[i];
        (s.(walls := Carve(s.walls, c1, c2), visited := Put(s.visited, nc, true), frontier := fr,
            current := Some(nc)), true)
      else (s.(frontier := rest), true)
  }

  /**
   * What a step of Prim's algorithm does: on an empty frontier nothing but
   * clearing the current cell; otherwise the chosen pair leaves the
   * frontier, and only when exactly one of its cells is reached is the
   * wall between them carved, the other cell reached, made current and its
   * walls gathered. Either way a new cell is reached or the frontier shrinks.
   */
  lemma PrimsMoves(s: Gen, cols: nat, rows: nat, pick: nat)
    requires PrimsInv(s, cols, rows)
    ensures var (t, more) := PrimsStep(s, cols, rows, pick);
      (!more ==> t == s.(current := None)) &&
      (more ==>
        var i := pick % |s.frontier|;
        var (c1, c2) := s.frontier[i];
        var rest := s.frontier[..i] + s.frontier[i + 1..];
        t.stack == s.stack &&
        if At(s.visited, c1) != At(s.visited, c2) then
          At(s.visited, c1) && !At(s.visited, c2) &&
          t.walls == Carve(s.walls, c1, c2) && t.visited == Put(s.visited, c2, true) &&
          t.frontier == Gather(rest, c2, cols, rows, 4) && t.current == Some(c2) &&
          Reached(s, cols, rows) < Reached(t, cols, rows)
        else
          t == s.(frontier := rest) && |t.frontier| < |s.frontier|)
  {
    var (t, more) := PrimsStep(s, cols, rows, pick);
    if more {
      var i := pick % |s.frontier|;
      var (c1, c2) := s.frontier[i];
      RemoveAt(s.frontier, i);
      if At(s.visited, c1) != At(s.visited, c2) {
        ReachOne(s, cols, rows, c2);
        assert t.visited == s.(visited := Put(s.visited, c2, true)).visited;
      }
    }
  }

  /** A step of Prim's algorithm keeps Prim's invariant. */
  lemma PrimsKeeps(s: Gen, cols: nat, rows: nat, pick: nat)
    requires PrimsInv(s, cols, rows)
    ensures PrimsInv(PrimsStep(s, cols, rows, pick).0, cols, rows)
  {
    if s.frontier != [] {
      var i := pick % |s.frontier|;
      var (c1, c2) := s.frontier[i];
      DropKeeps(s, cols, rows, i);
      if At(s.visited, c1) != At(s.visited, c2) {
        GrowKeeps(s.(frontier := Remove(s.frontier, (c1, c2))), cols, rows, c1, c2);
      }
    }
  }

  /** Taking one pair out of the frontier keeps Prim's invariant. */
  lemma DropKeeps(s: Gen, cols: nat, rows: nat, i: nat)
    requires PrimsInv(s, cols, rows) && i < |s.frontier|
    ensures PrimsInv(s.(frontier := Remove(s.frontier, s.frontier[i])), cols, rows)
  {
    RemoveAt(s.frontier, i);
    var rest := Remove(s.frontier, s.frontier[i]);
    assert forall j :: 0 <= j < |rest| ==> rest[j] in s.frontier;
  }

  /**
   * Carving from a reached cell c1 to its unreached neighbour c2, reaching
   * c2 and gathering its walls keeps Prim's invariant.
   */
  lemma GrowKeeps(s: Gen, cols: nat, rows: nat, c1: Coord, c2: Coord)
    requires PrimsInv(s, cols, rows)
    requires InBounds(c1, cols, rows) && InBounds(c2, cols, rows) && Toward(c1, c2).Some?
    requires At(s.visited, c1)
    ensures PrimsInv(s.(walls := Carve(s.walls, c1, c2), visited := Put(s.visited, c2, true),
                        frontier := Gather(s.frontier, c2, cols, rows, 4), current := Some(c2)), cols, rows)
  {
    GatherSpec(s.frontier, c2, cols, rows, 4);
    CarveSealed(s.walls, c1, c2);
    CarveUntouched(s.walls, s.visited, rows, cols, c1, c2);
    GrowRim(s.frontier, s.visited, c2, cols, rows);
    GrowWf(s, cols, rows, c1, c2);
  }

  /** Reaching c2 and gathering its walls keeps every frontier pair starting at a reached cell. */
  lemma GrowRim(fr: seq<Edge>, visited: seq<seq<bool>>, c2: Coord, cols: nat, rows: nat)
    requires Rim(fr, visited) && IsMatrix(visited, rows, cols) && InBounds(c2, cols, rows)
    ensures Rim(Gather(fr, c2, cols, rows, 4), Put(visited, c2, true))
  {
    var r := Gather(fr, c2, cols, rows, 4);
    GatherSpec(fr, c2, cols, rows, 4);
    forall j | 0 <= j < |r|
      ensures Toward(r[j].0, r[j].1).Some? && Inside(Put(visited, c2, true), r[j].0) && At(Put(visited, c2, true), r[j].0)
    {
      if j < |fr| {
        assert r[j] == fr[j];
      }
    }
  }

  /** Carving, reaching c2 and gathering its walls keeps the state well formed. */
  lemma GrowWf(s: Gen, cols: nat, rows: nat, c1: Coord, c2: Coord)
    requires Wf(s, cols, rows) && InBounds(c1, cols, rows) && InBounds(c2, cols, rows)
    ensures Wf(s.(walls := Carve(s.walls, c1, c2), visited := Put(s.visited, c2, true),
                  frontier := Gather(s.frontier, c2, cols, rows, 4), current := Some(c2)), cols, rows)
  {
    var r := Gather(s.frontier, c2, cols, rows, 4);
    GatherSpec(s.frontier, c2, cols, rows, 4);
    forall j | 0 <= j < |r|
      ensures InBounds(r[j].0, cols, rows) && InBounds(r[j].1, cols, rows)
    {
      if j < |s.frontier| {
        assert r[j] == s.frontier[j];
      }
    }
  }

  /** The state `start_generation_rb` leaves: only sc reached, on the stack and current. */
  ghost function RBStart(cols: nat, rows: nat, sc: Coord): Gen
    requires InBounds(sc, cols, rows)
  {
    Gen(Uniform(rows, cols, Closed), Put(Uniform(rows, cols, false), sc, true), [sc], [], Some(sc))
  }

  /** The state `start_generation_prims` leaves: only sc reached and current, its walls on the frontier. */
  ghost function PrimsStart(cols: nat, rows: nat, sc: Coord): Gen
    requires InBounds(sc, cols, rows)
  {
    Gen(Uniform(rows, cols, Closed), Put(Uniform(rows, cols, false), sc, true), [], Gather([], sc, cols, rows, 4), Some(sc))
  }

  /** The backtracker starts in a state satisfying its invariant. */
  lemma RBStartInv(cols: nat, rows: nat, sc: Coord)
    requires InBounds(sc, cols, rows)
    ensures BacktrackInv(RBStart(cols, rows, sc), cols, rows)
  {
    var s := RBStart(cols, rows, sc);
    assert forall c :: Inside(s.walls, c) ==> At(s.walls, c) == Closed;
  }

  /** Prim's algorithm starts in a state satisfying its invariant. */
  lemma PrimsStartInv(cols: nat, rows: nat, sc: Coord)
    requires InBounds(sc, cols, rows)
    ensures PrimsInv(PrimsStart(cols, rows, sc), cols, rows)
  {
    GatherSpec([], sc, cols, rows, 4);
    var s := PrimsStart(cols, rows, sc);
    assert forall c :: Inside(s.walls, c) ==> At(s.walls, c) == Closed;
  }

  /** The maze and the state of its generators. */
  class Maze {
    const cols: nat
    const rows: nat
    /** `grid[y][x].walls` and `grid[y][x].visited_gen`. */
    var walls: seq<seq<Walls>>
    var visited: seq<seq<bool>>
    var stack: seq<Coord>
    var frontier: seq<Edge>
    var current: Option<Coord>
    const startPos: Coord
    var endPos: Coord

    ghost function State(): Gen
      reads this
    {
      Gen(walls, visited, stack, frontier, current)
    }

    ghost predicate Valid()
      reads this
    {
      Wf(State(), cols, rows)
    }

    /** `Maze(grid_cols, grid_rows, cell_size)`: closed cells, nothing reached, no generator state. */
    constructor (cols: nat, rows: nat)
      ensures Valid() && this.cols == cols && this.rows == rows
      ensures State() == Gen(Uniform(rows, cols, Closed), Uniform(rows, cols, false), [], [], None)
      ensures startPos == (0, 0) && endPos == (cols - 1, rows - 1)
    {
      this.cols, this.rows := cols, rows;
      walls := Uniform(rows, cols, Closed);
      visited := Uniform(rows, cols, false);
      stack, frontier, current := [], [], None;
      startPos := (0, 0);
      endPos := (cols - 1, rows - 1);
    }

    /** `reset_grid`: every cell re-initialised, the stack and frontier emptied. */
    method ResetGrid()
      requires Valid()
      modifies this
      ensures Valid()
      ensures State() == Gen(Uniform(rows, cols, Closed), Uniform(rows, cols, false), [], [], None)
      ensures endPos == old(endPos)
    {
      walls := Uniform(rows, cols, Closed);
      visited := Uniform(rows, cols, false);
      stack, frontier, current := [], [], None;
    }

    /** `_remove_walls(c1, c2)`. */
    method RemoveWalls(c1: Coord, c2: Coord)
      requires Inside(walls, c1) && Inside(walls, c2)
      modifies this`walls
      ensures walls == Carve(old(walls), c1, c2)
    {
      walls := Carve(walls, c1, c2);
    }

    /** The start cell of both generators: `start_pos` if it is inside, else (0, 0). */
    function StartCell(): (c: Coord)
      requires cols > 0 && rows > 0
      reads this
      ensures InBounds(c, cols, rows)
    {
      if InBounds(startPos, cols, rows) then startPos else (0, 0)
    }

    /** `start_generation_rb`: a reset grid with only the start cell reached and on the stack. */
    method StartGenerationRB()
      requires Valid() && cols > 0 && rows > 0
      modifies this
      ensures State() == RBStart(cols, rows, StartCell())
      ensures endPos == (cols - 1, rows - 1)
    {
      ResetGrid();
      var sc := if 0 <= startPos.0 < cols && 0 <= startPos.1 < rows then startPos else (0, 0);
      current := Some(sc);
      visited := Put(visited, sc, true);
      stack := stack + [sc];
      endPos := (cols - 1, rows - 1);
    }

    /** `generate_step_rb`, with `random.choice` taking entry `pick % |choices|`. */
    method GenerateStepRB(pick: nat) returns (more: bool)
      requires Valid()
      modifies this`walls, this`visited, this`stack, this`current
      ensures var (t, m) := BacktrackStep(old(State()), cols, rows, pick);
        walls == t.walls && visited == t.visited && stack == t.stack && current == t.current && more == m
    {
      if stack == [] {
        current := None;
        return false;
      }
      var top := stack[|stack| - 1];
      current := Some(top);
      var neighbours := GetNeighbours(top, cols, rows);
      var free := Unvisited(visited, neighbours);
      if free != [] {
        var next := free[pick % |free|];
        assert next in free;
        RemoveWalls(top, next);
        visited := Put(visited, next, true);
        stack := stack + [next];
      } else {
        stack := stack[..|stack| - 1];
      }
      return true;
    }

    /** `_add_walls_to_frontier(cell)`: the loop over the four sides. */
    method AddWallsToFrontier(cell: Coord)
      requires InBounds(cell, cols, rows)
      modifies this`frontier
      ensures frontier == Gather(old(frontier), cell, cols, rows, 4)
    {
      for k := 0 to 4
        invariant frontier == Gather(old(frontier), cell, cols, rows, k)
      {
        var n := Go(cell, Sides[k]);
        if 0 <= n.0 < cols && 0 <= n.1 < rows {
          var pair := (cell, n);
          if pair !in frontier && (n, cell) !in frontier {
            frontier := frontier + [pair];
          }
        }
      }
    }

    /** `start_generation_prims`: a reset grid, the start cell reached and its walls on the frontier. */
    method StartGenerationPrims()
      requires Valid() && cols > 0 && rows > 0
      modifies this
      ensures State() == PrimsStart(cols, rows, StartCell())
      ensures endPos == (cols - 1, rows - 1)
    {
      ResetGrid();
      var sc := if 0 <= startPos.0 < cols && 0 <= startPos.1 < rows then startPos else (0, 0);
      visited := Put(visited, sc, true);
      AddWallsToFrontier(sc);
      endPos := (cols - 1, rows - 1);
      current := Some(sc);
    }

    /** `generate_step_prims`, with `random.choice` taking entry `pick % |frontier|`. */
    method GenerateStepPrims(pick: nat) returns (more: bool)
      requires Valid()
      modifies this`walls, this`visited, this`frontier, this`current
      ensures var (t, m) := PrimsStep(old(State()), cols, rows, pick);
        walls == t.walls && visited == t.visited && frontier == t.frontier && current == t.current && more == m
    {
      if frontier == [] {
        current := None;
        return false;
      }
      var (c1, c2) := frontier[pick % |frontier|];
      frontier := Remove(frontier, (c1, c2));
      if At(visited, c1) != At(visited, c2) {
        RemoveWalls(c1, c2);
        var nc := if !At(visited, c1) then c1 else c2;
        visited := Put(visited, nc, true);
        AddWallsToFrontier(nc);
        current := Some(nc);
      }
      return true;
    }
  }

  /** The player's cell and its pixel centre. */
  class Player {
    var x: int
    var y: int
    const cellSize: nat
    var pixelX: int
    var pixelY: int

    /** `update_pixel_pos`: the centre of the player's cell. */
    ghost predicate Centred()
      reads this
    {
      pixelX == x * cellSize + cellSize / 2 && pixelY == y * cellSize + cellSize / 2
    }

    constructor (x: int, y: int, cellSize: nat)
      ensures this.x == x && this.y == y && this.cellSize == cellSize && Centred()
    {
      this.x, this.y, this.cellSize := x, y, cellSize;
      pixelX := x * cellSize + cellSize / 2;
      pixelY := y * cellSize + cellSize / 2;
    }

    /**
     * `Player.move(dx, dy, maze)`: the player steps by exactly (dx, dy) when
     * the wall on that side of its cell is open, and otherwise stays. In a
     * maze whose boundary is sealed an arrow-key step never leaves the grid.
     */
    method Move(dx: int, dy: int, maze: Maze) returns (moved: bool)
      requires maze.Valid() && InBounds((x, y), maze.cols, maze.rows)
      modifies this`x, this`y, this`pixelX, this`pixelY
      ensures moved == Opens(At(maze.walls, (old(x), old(y))), dx, dy)
      ensures moved ==> x == old(x) + dx && y == old(y) + dy && Centred()
      ensures !moved ==> x == old(x) && y == old(y) && pixelX == old(pixelX) && pixelY == old(pixelY)
      ensures Sealed(maze.walls) && Unit(dx, dy) ==> InBounds((x, y), maze.cols, maze.rows)
    {
      var curr := maze.walls[y][x];
      var move := false;
      if dx == 1 && !curr.e {
        move := true;
      } else if dx == -1 && !curr.w {
        move := true;
      } else if dy == 1 && !curr.s {
        move := true;
      } else if dy == -1 && !curr.n {
        move := true;
      }
      if move {
        assert Sealed(maze.walls) && Unit(dx, dy) ==> InBounds((x + dx, y + dy), maze.cols, maze.rows) by {
          if Sealed(maze.walls) && Unit(dx, dy) {
            var d := if dx == 1 then E else if dx == -1 then W else if dy == 1 then S else N;
            assert Go((x, y), d) == (x + dx, y + dy);
            assert !curr.Up(d);
          }
        }
        x := x + dx;
        y := y + dy;
        pixelX := x * cellSize + cellSize / 2;
        pixelY := y * cellSize + cellSize / 2;
        return true;
      }
      return false;
    }
  }
}

=== FILE: neural_model.dfy ===
/**
 * The bookkeeping of the simulated transformer in NeuralFlowViz: the layer
 * list, the punctuation-splitting tokenizer, the per-token embeddings and
 * the active-component state machine with its attention weights.
 * `Math.random()` is the stream `rand`, consumed in call order.
 */
module NeuralModel {
  import opened Common

  // ---------------------------------------------------------------- layers

  datatype LayerKind = Embedding | Transformer | Output

  /** `{ type, name, heads? }`: one block of a layer. */
  datatype Component = Component(kind: string, name: string, heads: Option<nat>)

  datatype Layer = Layer(kind: LayerKind, index: nat, components: seq<Component>)

  /** The six blocks of every transformer layer, in order. */
  function Blocks(numHeads: nat): seq<Component>
  {
    [Component("layerNorm", "Layer Norm 1", None),
     Component("attention", "Multi-Head Attention", Some(numHeads)),
     Component("residual", "Residual Connection 1", None),
     Component("layerNorm", "Layer Norm 2", None),
     Component("feedForward", "Feed-Forward Network", None),
     Component("residual", "Residual Connection 2", None)]
  }

  function EmbeddingLayer(): Layer
  {
    Layer(Embedding, 0, [Component("tokenEmbedding", "Token Embedding", None),
                         Component("positionEmbedding", "Position Embedding", None)])
  }

  function TransformerLayer(index: nat, numHeads: nat): Layer
  {
    Layer(Transformer, index, Blocks(numHeads))
  }

  function OutputLayer(index: nat): Layer
  {
    Layer(Output, index, [Component("layerNorm", "Final Layer Norm", None),
                          Component("output", "Output Projection", None)])
  }

  /** The first k transformer layers, numbered from 1. */
  function Transformers(k: nat, numHeads: nat): seq<Layer>
  {
    seq(k, i requires 0 <= i < k => TransformerLayer(i + 1, numHeads))
  }

  /** The layer list `createLayers` builds. */
  function Stack(numLayers: nat, numHeads: nat): seq<Layer>
  {
    [EmbeddingLayer()] + Transformers(numLayers, numHeads) + [OutputLayer(numLayers + 1)]
  }

  /**
   * The built stack has numLayers + 2 layers: the embedding layer first,
   * then the transformers, the output layer last; every layer's index is its
   * position and every transformer carries the six blocks in order.
   */
  lemma StackShape(numLayers: nat, numHeads: nat)
    ensures var s := Stack(numLayers, numHeads);
      |s| == numLayers + 2 && s[0].kind == Embedding && s[numLayers + 1].kind == Output &&
      (forall i :: 0 <= i < |s| ==> s[i].index == i) &&
      (forall i :: 0 < i <= numLayers ==> s[i].kind == Transformer) &&
      (forall i :: 0 <= i < |s| && s[i].kind == Transformer ==>
         |s[i].components| == 6 &&
         s[i].components[0].kind == "layerNorm" && s[i].components[1].kind == "attention" &&
         s[i].components[2].kind == "residual" && s[i].components[3].kind == "layerNorm" &&
         s[i].components[4].kind == "feedForward" && s[i].components[5].kind == "residual")
  {
    var s := Stack(numLayers, numHeads);
    forall i | 0 < i <= numLayers
      ensures s[i] == TransformerLayer(i, numHeads)
    {
      assert s[i] == Transformers(numLayers, numHeads)[i - 1];
    }
  }

  // ------------------------------------------------------------- tokenizer

  /** JavaScript's `\s`: the white-space and line-terminator characters. */
  predicate IsSpace(c: char)
  {
    c == ' ' || c == '\t' || c == '\n' || c == '\U{000B}' || c == '\U{000C}' || c == '\r' ||
    c == '\U{00A0}' || c == '\U{1680}' || ('\U{2000}' <= c <= '\U{200A}') ||
    c == '\U{2028}' || c == '\U{2029}' || c == '\U{202F}' || c == '\U{205F}' ||
    c == '\U{3000}' || c == '\U{FEFF}'
  }

  /** The characters of the class `[.,!?;:]`. */
  predicate IsPunct(c: char)
  {
    c == '.' || c == ',' || c == '!' || c == '?' || c == ';' || c == ':'
  }

  /** `text.replace(/([.,!?;:])/g, ' $1 ')`: a space on each side of every punctuation mark. */
  function Pad(text: string): string
  {
    if text == [] then []
    else (if IsPunct(text[0]) then [' ', text[0], ' '] else [text[0]]) + Pad(text[1..])
  }

  /**
   * `s.split(/\s+/)`: the pieces between maximal runs of white space, with
   * an empty first or last piece when s starts or ends with white space.
   */
  function SplitRuns(s: string): (r: seq<string>)
    ensures |r| > 0
  {
    if s == [] then [""]
    else
      var rest := SplitRuns(s[1..]);
      if IsSpace(s[0]) then
        if |s| > 1 && IsSpace(s[1]) then rest else [""] + rest
      else [[s[0]] + rest[0]] + rest[1..]
  }

  /** `.filter(token => token.length > 0)`. */
  function NonEmpty(ps: seq<string>): seq<string>
  {
    if ps == [] then []
    else (if ps[0] == "" then [] else [ps[0]]) + NonEmpty(ps[1..])
  }

  /** `tokenize(text)`. */
  function Tokenize(text: string): seq<string>
  {
    NonEmpty(SplitRuns(Pad(text)))
  }

  /** The pieces joined end to end. */
  function Concat(ps: seq<string>): string
  {
    if ps == [] then [] else ps[0] + Concat(ps[1..])
  }

  /** s with every white-space character deleted. */
  function Strip(s: string): string
  {
    if s == [] then [] else (if IsSpace(s[0]) then [] else [s[0]]) + Strip(s[1..])
  }

  predicate NoSpace(t: string)
  {
    forall k :: 0 <= k < |t| ==> !IsSpace(t[k])
  }

  /**
   * The tokenizer's promises: no token is empty or holds white space, a
   * token holding a punctuation mark is that mark alone, and the tokens
   * joined give the text with its white space deleted.
   */
  lemma TokenizeSpec(text: string)
    ensures var ts := Tokenize(text);
      (forall i :: 0 <= i < |ts| ==> |ts[i]| > 0 && NoSpace(ts[i])) &&
      (forall i, k :: 0 <= i < |ts| && 0 <= k < |ts[i]| && IsPunct(ts[i][k]) ==> ts[i] == [ts[i][k]]) &&
      Concat(ts) == Strip(text)
  {
    var s := Pad(text);
    PadSpaced(text);
    PiecesClean(s);
    PiecesSingle(s);
    PiecesJoin(s);
    NonEmptyKeeps(SplitRuns(s));
    PadStrip(text);
  }

  /** The first piece is a white-space-free prefix of s. */
  lemma {:induction false} HeadPrefix(s: string)
    ensures var h := SplitRuns(s)[0]; |h| <= |s| && h == s[..|h|] && NoSpace(h)
  {
    if s != [] {
      HeadPrefix(s[1..]);
      if IsSpace(s[0]) && |s| > 1 && IsSpace(s[1]) {
        assert SplitRuns(s[1..])[0] == "" by {
          HeadEmpty(s[1..]);
        }
      }
    }
  }

  /** A string starting with white space splits into an empty first piece. */
  lemma HeadEmpty(s: string)
    requires s != [] && IsSpace(s[0])
    ensures SplitRuns(s)[0] == ""
  {
    if |s| > 1 && IsSpace(s[1]) {
      HeadEmpty(s[1..]);
    }
  }

  /** No piece holds white space. */
  lemma {:induction false} PiecesClean(s: string)
    ensures forall i :: 0 <= i < |SplitRuns(s)| ==> NoSpace(SplitRuns(s)[i])
  {
    if s != [] {
      PiecesClean(s[1..]);
      var rest := SplitRuns(s[1..]);
      if !IsSpace(s[0]) {
        var r := SplitRuns(s);
        forall i | 0 <= i < |r|
          ensures NoSpace(r[i])
        {
          if i > 0 {
            assert r[i] == rest[i];
          } else {
            assert NoSpace(rest[0]);
          }
        }
      }
    }
  }

  /** The pieces joined give s without its white space. */
  lemma {:induction false} PiecesJoin(s: string)
    ensures Concat(SplitRuns(s)) == Strip(s)
  {
    if s != [] {
      PiecesJoin(s[1..]);
      var rest := SplitRuns(s[1..]);
      if IsSpace(s[0]) {
        if !(|s| > 1 && IsSpace(s[1])) {
          assert Concat([""] + rest) == "" + Concat(rest) by {
            assert ([""] + rest)[1..] == rest;
          }
        }
      } else {
        var r := [[s[0]] + rest[0]] + rest[1..];
        assert r[1..] == rest[1..];
        assert Concat(rest) == rest[0] + Concat(rest[1..]);
      }
    }
  }

  /** Dropping empty pieces keeps the non-empty ones and the joined text. */
  lemma {:induction false} NonEmptyKeeps(ps: seq<string>)
    ensures var r := NonEmpty(ps);
      Concat(r) == Concat(ps) && (forall i :: 0 <= i < |r| ==> |r[i]| > 0 && r[i] in ps)
  {
    if ps != [] {
      NonEmptyKeeps(ps[1..]);
      var tail := NonEmpty(ps[1..]);
      var r := NonEmpty(ps);
      if ps[0] != "" {
        assert r == [ps[0]] + tail && r[1..] == tail;
        forall i | 0 <= i < |r|
          ensures |r[i]| > 0 && r[i] in ps
        {
          if i > 0 {
            assert r[i] == tail[i - 1] && tail[i - 1] in ps[1..];
          }
        }
      } else {
        assert r == tail;
        assert Concat(ps) == Concat(ps[1..]);
        forall i | 0 <= i < |r|
          ensures r[i] in ps
        {
          assert r[i] in ps[1..];
        }
      }
    }
  }

  /** Deleting white space from the padded text gives the text without its white space. */
  lemma {:induction false} PadStrip(text: string)
    ensures Strip(Pad(text)) == Strip(text)
  {
    if text != [] {
      PadStrip(text[1..]);
      StripAppend(if IsPunct(text[0]) then [' ', text[0], ' '] else [text[0]], Pad(text[1..]));
      if IsPunct(text[0]) {
        var b := [' ', text[0], ' '];
        assert Strip(b) == [text[0]] by {
          assert Strip([' ']) == [] by {
            assert [' '][1..] == [];
          }
          assert [text[0], ' '][1..] == [' '];
          assert Strip([text[0], ' ']) == [text[0]];
          assert b[1..] == [text[0], ' '];
        }
      }
    }
  }

  lemma {:induction false} StripAppend(a: string, b: string)
    ensures Strip(a + b) == Strip(a) + Strip(b)
  {
    if a != [] {
      assert (a + b)[1..] == a[1..] + b;
      StripAppend(a[1..], b);
    } else {
      assert a + b == b;
    }
  }

  /**
   * Every punctuation mark is followed by white space and, unless it opens
   * the string, preceded by white space.
   */
  ghost predicate Spaced(s: string)
  {
    forall i :: 0 <= i < |s| && IsPunct(s[i]) ==>
      i + 1 < |s| && IsSpace(s[i + 1]) && (i > 0 ==> IsSpace(s[i - 1]))
  }

  /** Padding leaves every punctuation mark between two spaces, never first. */
  lemma {:induction false} PadSpaced(text: string)
    ensures Spaced(Pad(text)) && (Pad(text) != [] ==> !IsPunct(Pad(text)[0]))
  {
    if text != [] {
      PadSpaced(text[1..]);
      var b := if IsPunct(text[0]) then [' ', text[0], ' '] else [text[0]];
      var t := Pad(text[1..]);
      var s := b + t;
      forall i | 0 <= i < |s| && IsPunct(s[i])
        ensures i + 1 < |s| && IsSpace(s[i + 1]) && (i > 0 ==> IsSpace(s[i - 1]))
      {
        if i >= |b| {
          assert s[i] == t[i - |b|];
          if i - |b| == 0 {
            assert false;
          }
        }
      }
    }
  }

  /** In a spaced string, a piece holding a punctuation mark is that mark alone. */
  lemma {:induction false} PiecesSingle(s: string)
    requires Spaced(s)
    ensures var r := SplitRuns(s);
      forall i, k :: 0 <= i < |r| && 0 <= k < |r[i]| && IsPunct(r[i][k]) ==> r[i] == [r[i][k]]
  {
    if s != [] {
      var t := s[1..];
      PiecesSingle(t);
      var rest := SplitRuns(t);
      if !IsSpace(s[0]) {
        var r := SplitRuns(s);
        var h := [s[0]] + rest[0];
        HeadPrefix(t);
        forall i, k | 0 <= i < |r| && 0 <= k < |r[i]| && IsPunct(r[i][k])
          ensures r[i] == [r[i][k]]
        {
          if i > 0 {
            assert r[i] == rest[i];
          } else if IsPunct(s[0]) {
            HeadEmpty(t);
          }
        }
      }
    }
  }

  // ------------------------------------------------------------ embeddings

  /** `generateRandomVector(size)`: entries `(Math.random() * 2 - 1) * 0.1`. */
  function Vector(rand: Stream, d: nat, size: nat): seq<real>
  {
    seq(size, k requires 0 <= k < size => (Draw(rand, d + k) * 2.0 - 1.0) * 0.1)
  }

  /** `tokenColors[index % tokenColors.length]`; JavaScript yields `undefined` for an empty palette. */
  function ColorOf(colors: seq<string>, index: nat): Option<string>
  {
    if colors == [] then None else Some(colors[index % |colors|])
  }

  /** One entry of `tokenEmbeddings`. */
  datatype TokenEmbedding = TokenEmbedding(token: string, position: nat, vector: seq<real>, color: Option<string>)

  /**
   * The embeddings `processText` builds for tokens, in order; the i-th one
   * draws its vector after the i earlier ones, starting at draw d.
   */
  function Embeddings(tokens: seq<string>, colors: seq<string>, size: nat, rand: Stream, d: nat): seq<TokenEmbedding>
  {
    if tokens == [] then []
    else
      var i := |tokens| - 1;
      Embeddings(tokens[..i], colors, size, rand, d) +
      [TokenEmbedding(tokens[i], i, Vector(rand, d + i * size, size), ColorOf(colors, i))]
  }

  /**
   * One embedding per token: the i-th holds token i at position i, the
   * palette colour i modulo its length, and a vector of size entries, each
   * in [-0.1, 0.1) when the draws lie in [0, 1).
   */
  lemma {:induction false} EmbeddingsSpec(tokens: seq<string>, colors: seq<string>, size: nat, rand: Stream, d: nat)
    ensures var e := Embeddings(tokens, colors, size, rand, d);
      |e| == |tokens| &&
      forall i :: 0 <= i < |e| ==>
        e[i].token == tokens[i] && e[i].position == i && |e[i].vector| == size &&
        (colors != [] ==> e[i].color == Some(colors[i % |colors|])) && (colors == [] ==> e[i].color.None?) &&
        (UnitStream(rand) ==> forall k :: 0 <= k < size ==> -0.1 <= e[i].vector[k] < 0.1)
    decreases |tokens|
  {
    if tokens != [] {
      var n := |tokens| - 1;
      EmbeddingsSpec(tokens[..n], colors, size, rand, d);
      var e := Embeddings(tokens, colors, size, rand, d);
      forall i | 0 <= i < |e|
        ensures e[i].token == tokens[i]
        ensures UnitStream(rand) ==> forall k :: 0 <= k < size ==> -0.1 <= e[i].vector[k] < 0.1
      {
        if i == n && UnitStream(rand) {
          forall k | 0 <= k < size
            ensures -0.1 <= e[i].vector[k] < 0.1
          {
            assert 0.0 <= Draw(rand, d + i * size + k) < 1.0;
          }
        }
      }
    }
  }

  // ------------------------------------------------------- attention weights

  /** The weight of token j seen from row i before noise, when tokenIndex is being processed. */
  function Bias(tokenIndex: int, i: int, j: int): real
  {
    if i == tokenIndex then (if j == tokenIndex then 0.8 else 0.2)
    else if -3 < i - j < 3 then 0.4
    else 0.1
  }

  /** `Math.max(0, Math.min(1, w))`. */
  function Clamp01(w: real): (r: real)
    ensures 0.0 <= r <= 1.0
    ensures 0.0 <= w <= 1.0 ==> r == w
  {
    var m := if w < 1.0 then w else 1.0;
    if m > 0.0 then m else 0.0
  }

  /** Row i of one head before normalisation, from the n draws starting at d. */
  function Raw(tokenIndex: int, n: nat, i: int, rand: Stream, d: nat): (row: seq<real>)
    ensures |row| == n && forall j :: 0 <= j < n ==> 0.0 <= row[j] <= 1.0
  {
    seq(n, j requires 0 <= j < n => Clamp01(Bias(tokenIndex, i, j) + (Draw(rand, d + j) * 0.3 - 0.15)))
  }

  /** `tokenWeights.reduce((a, b) => a + b, 0)`. */
  function Sum(s: seq<real>): real
  {
    if s == [] then 0.0 else Sum(s[..|s| - 1]) + s[|s| - 1]
  }

  /** Every entry divided by t. */
  function Scaled(s: seq<real>, t: real): seq<real>
    requires t != 0.0
  {
    seq(|s|, k requires 0 <= k < |s| => s[k] / t)
  }

  /** A row scaled to sum 1, or uniform when its sum is not positive. */
  function Normalise(row: seq<real>): seq<real>
  {
    var total := Sum(row);
    if total > 0.0 then Scaled(row, total)
    else seq(|row|, k requires 0 <= k < |row| => 1.0 / |row| as real)
  }

  lemma {:induction false} SumScaled(s: seq<real>, t: real)
    requires t != 0.0
    ensures Sum(Scaled(s, t)) == Sum(s) / t
    decreases |s|
  {
    if s != [] {
      var n := |s| - 1;
      SumScaled(s[..n], t);
      assert Scaled(s, t)[..n] == Scaled(s[..n], t);
    }
  }

  lemma {:induction false} SumConst(n: nat, c: real)
    ensures Sum(seq(n, k requires 0 <= k < n => c)) == n as real * c
  {
    if n > 0 {
      SumConst(n - 1, c);
      assert seq(n, k requires 0 <= k < n => c)[..n - 1] == seq(n - 1, k requires 0 <= k < n - 1 => c);
    }
  }

  /** In a row of non-negative entries each entry is at most the sum. */
  lemma {:induction false} SumBounds(s: seq<real>)
    requires forall k :: 0 <= k < |s| ==> 0.0 <= s[k]
    ensures 0.0 <= Sum(s) && forall k :: 0 <= k < |s| ==> s[k] <= Sum(s)
    decreases |s|
  {
    if s != [] {
      var n := |s| - 1;
      SumBounds(s[..n]);
      forall k | 0 <= k < n
        ensures s[k] <= Sum(s)
      {
        assert s[k] == s[..n][k];
      }
    }
  }

  /** Each entry is its share of a positive sum, or 1/n when the sum is not positive. */
  lemma NormaliseValues(row: seq<real>)
    ensures var r := Normalise(row);
      Sum(row) > 0.0 ==> forall k :: 0 <= k < |r| ==> r[k] == row[k] / Sum(row)
    ensures var r := Normalise(row);
      Sum(row) <= 0.0 ==> forall k :: 0 <= k < |r| ==> r[k] == 1.0 / |row| as real
  {
  }

  /**
   * Normalising a non-empty row of non-negative weights gives weights in
   * [0, 1] that sum to 1 (`sum > 0 ? w / sum : 1 / length`).
   */
  lemma NormaliseSpec(row: seq<real>)
    requires forall k :: 0 <= k < |row| ==> 0.0 <= row[k]
    ensures var r := Normalise(row);
      |r| == |row| && (forall k :: 0 <= k < |r| ==> 0.0 <= r[k] <= 1.0) && (|row| > 0 ==> Sum(r) == 1.0)
  {
    var total := Sum(row);
    SumBounds(row);
    var r := Normalise(row);
    if total > 0.0 {
      SumScaled(row, total);
      forall k | 0 <= k < |row|
        ensures 0.0 <= r[k] <= 1.0
      {
        Fraction(row[k], total);
      }
    } else if |row| > 0 {
      var n := |row|;
      SumConst(n, 1.0 / n as real);
      Fraction(1.0, n as real);
      assert n as real * (1.0 / n as real) == 1.0;
    }
  }

  lemma Fraction(a: real, t: real)
    requires 0.0 <= a <= t && t > 0.0
    ensures 0.0 <= a / t <= 1.0
  {
    assert a / t * t == a;
  }

  /** The first m normalised rows of a head over n tokens, row i from the n draws starting at d + i * n. */
  function Rows(tokenIndex: int, n: nat, m: nat, rand: Stream, d: nat): seq<seq<real>>
  {
    seq(m, i requires 0 <= i < m => Normalise(Raw(tokenIndex, n, i, rand, d + i * n)))
  }

  lemma RowsSnoc(tokenIndex: int, n: nat, m: nat, rand: Stream, d: nat)
    ensures Rows(tokenIndex, n, m + 1, rand, d) == Rows(tokenIndex, n, m, rand, d) + [Normalise(Raw(tokenIndex, n, m, rand, d + m * n))]
  {
    var a, b := Rows(tokenIndex, n, m + 1, rand, d), Rows(tokenIndex, n, m, rand, d) + [Normalise(Raw(tokenIndex, n, m, rand, d + m * n))];
    forall k | 0 <= k <= m
      ensures a[k] == b[k]
    {
      if k < m {
        assert b[k] == Rows(tokenIndex, n, m, rand, d)[k];
      }
    }
  }

  /** The draws of m + 1 rows of n are those of m rows and n more. */
  lemma NextStride(m: nat, n: nat)
    ensures (m + 1) * n == m * n + n
  {
  }

  /** One head: n normalised rows. */
  function HeadWeights(tokenIndex: int, n: nat, rand: Stream, d: nat): seq<seq<real>>
  {
    Rows(tokenIndex, n, n, rand, d)
  }

  /** `generateAttentionWeights(tokenIndex, n)` with numHeads heads, from the draws starting at d. */
  function AttentionWeights(tokenIndex: int, n: nat, numHeads: nat, rand: Stream, d: nat): seq<seq<seq<real>>>
  {
    seq(numHeads, h requires 0 <= h < numHeads => HeadWeights(tokenIndex, n, rand, d + h * (n * n)))
  }

  lemma AttentionSnoc(tokenIndex: int, n: nat, m: nat, rand: Stream, d: nat)
    ensures AttentionWeights(tokenIndex, n, m + 1, rand, d) ==
            AttentionWeights(tokenIndex, n, m, rand, d) + [HeadWeights(tokenIndex, n, rand, d + m * (n * n))]
  {
    var a, b := AttentionWeights(tokenIndex, n, m + 1, rand, d),
                AttentionWeights(tokenIndex, n, m, rand, d) + [HeadWeights(tokenIndex, n, rand, d + m * (n * n))];
    forall k | 0 <= k <= m
      ensures a[k] == b[k]
    {
      if k < m {
        assert b[k] == AttentionWeights(tokenIndex, n, m, rand, d)[k];
      }
    }
  }

  /** Heads of n rows of n weights, each in [0, 1], every row summing to 1. */
  ghost predicate Stochastic(w: seq<seq<seq<real>>>)
  {
    forall h, i :: 0 <= h < |w| && 0 <= i < |w[h]| ==>
      |w[h][i]| == |w[h]| && Sum(w[h][i]) == 1.0 &&
      forall j :: 0 <= j < |w[h][i]| ==> 0.0 <= w[h][i][j] <= 1.0
  }

  /** The attention weights have numHeads × n × n entries in [0, 1] and every row sums to 1. */
  lemma WeightsSpec(tokenIndex: int, n: nat, numHeads: nat, rand: Stream, d: nat)
    ensures var w := AttentionWeights(tokenIndex, n, numHeads, rand, d);
      |w| == numHeads && (forall h :: 0 <= h < numHeads ==> |w[h]| == n) && Stochastic(w)
  {
    var w := AttentionWeights(tokenIndex, n, numHeads, rand, d);
    forall h, i | 0 <= h < |w| && 0 <= i < |w[h]|
      ensures |w[h][i]| == |w[h]| && Sum(w[h][i]) == 1.0
      ensures forall j :: 0 <= j < |w[h][i]| ==> 0.0 <= w[h][i][j] <= 1.0
    {
      NormaliseSpec(Raw(tokenIndex, n, i, rand, d + h * (n * n) + i * n));
    }
  }

  /** The draws `generateAttentionWeights` takes: one per weight of numHeads n × n matrices. */
  function Draws(numHeads: nat, n: nat): nat
  {
    numHeads * (n * n)
  }

  /** `generateRandomActivations(count)`: squares of count draws starting at d. */
  function Activations(rand: Stream, d: nat, count: nat): seq<real>
  {
    seq(count, k requires 0 <= k < count => Draw(rand, d + k) * Draw(rand, d + k))
  }

  lemma ActivationsSnoc(rand: Stream, d: nat, m: nat)
    ensures Activations(rand, d, m + 1) == Activations(rand, d, m) + [Draw(rand, d + m) * Draw(rand, d + m)]
  {
    var a, b := Activations(rand, d, m + 1), Activations(rand, d, m) + [Draw(rand, d + m) * Draw(rand, d + m)];
    forall k | 0 <= k <= m
      ensures a[k] == b[k]
    {
      if k < m {
        assert b[k] == Activations(rand, d, m)[k];
      }
    }
  }

  /** Activations lie in [0, 1) when the draws do. */
  lemma ActivationsRange(rand: Stream, d: nat, count: nat)
    requires UnitStream(rand)
    ensures var a := Activations(rand, d, count);
      |a| == count && forall k :: 0 <= k < count ==> 0.0 <= a[k] < 1.0
  {
    var a := Activations(rand, d, count);
    forall k | 0 <= k < count
      ensures 0.0 <= a[k] < 1.0
    {
      var u := Draw(rand, d + k);
      assert 0.0 <= u < 1.0;
      assert u * u <= u * 1.0;
    }
  }

  // ----------------------------------------------------------------- state

  /** `currentState`. */
  datatype ModelState = ModelState(activeLayer: int, activeComponent: Option<string>, processingToken: int,
                                   attentionWeights: seq<seq<seq<real>>>, activations: seq<real>)

  /** The state `resetState` installs. */
  const Idle := ModelState(-1, None, -1, [], [])

  /**
   * The component a transformer layer works on: a missing, empty,
   * 'embedding' or 'output' component gives way to 'attention'.
   */
  function Promote(c: Option<string>): (r: string)
    ensures r != "" && r != "embedding" && r != "output"
    ensures c == Some(r) || r == "attention"
    ensures c.Some? && c.value != "" && c.value != "embedding" && c.value != "output" ==> r == c.value
  {
    if c.None? || c.value == "" || c.value == "embedding" || c.value == "output" then "attention" else c.value
  }

  /** The number of activations `setActiveComponent` draws for a component type. */
  function ActivationCount(kind: string): nat
  {
    if kind == "feedForward" then 100
    else if kind == "layerNorm" then 20
    else if kind == "attention" then 40
    else 30
  }

  /** Attention weights are present only while 'attention' is the active component. */
  ghost predicate Focused(s: ModelState)
  {
    s.attentionWeights != [] ==> s.activeComponent == Some("attention")
  }

  /** The simulated model: its layers, the current text's tokens and embeddings, and `currentState`. */
  class LLMModel {
    /** `config.model.numLayers`, `numHeads`, `hiddenSize` and `config.animation.tokenColors`. */
    const numLayers: nat
    const numHeads: nat
    const hiddenSize: nat
    const tokenColors: seq<string>
    /** The `Math.random()` stream and the number of draws taken from it. */
    const rand: Stream
    var drawn: nat
    var layers: seq<Layer>
    var tokens: seq<string>
    var embeddings: seq<TokenEmbedding>
    var state: ModelState

    /** The layers are the configured stack. */
    ghost predicate Built()
      reads this`layers
    {
      layers == Stack(numLayers, numHeads)
    }

    /** Built, and attention weights only while attending, each row a distribution. */
    ghost predicate Valid()
      reads this`layers, this`state
    {
      Built() && Focused(state) && Stochastic(state.attentionWeights)
    }

    /** `new LLMModel(config)`: an idle model whose layers are built from the configuration. */
    constructor (numLayers: nat, numHeads: nat, hiddenSize: nat, tokenColors: seq<string>, rand: Stream)
      ensures Valid() && tokens == [] && embeddings == [] && state == Idle && drawn == 0
      ensures this.numLayers == numLayers && this.numHeads == numHeads && this.hiddenSize == hiddenSize
      ensures this.tokenColors == tokenColors && this.rand == rand
    {
      this.numLayers, this.numHeads, this.hiddenSize := numLayers, numHeads, hiddenSize;
      this.tokenColors, this.rand := tokenColors, rand;
      drawn := 0;
      layers, tokens, embeddings := [], [], [];
      state := Idle;
      new;
      CreateLayers();
    }

    /** `createLayers`: the embedding layer, numLayers transformers, then the output layer. */
    method CreateLayers()
      modifies this`layers
      ensures layers == Stack(numLayers, numHeads)
    {
      layers := [];
      layers := layers + [EmbeddingLayer()];
      for i := 0 to numLayers
        invariant layers == [EmbeddingLayer()] + Transformers(i, numHeads)
      {
        layers := layers + [TransformerLayer(i + 1, numHeads)];
        assert Transformers(i + 1, numHeads) == Transformers(i, numHeads) + [TransformerLayer(i + 1, numHeads)];
      }
      layers := layers + [OutputLayer(numLayers + 1)];
    }

    /** `resetState`: no tokens, no embeddings, the idle state. */
    method ResetState()
      modifies this`tokens, this`embeddings, this`state
      ensures tokens == [] && embeddings == [] && state == Idle
    {
      tokens := [];
      embeddings := [];
      state := Idle;
    }

    /** `generateRandomVector(size)`. */
    method GenerateRandomVector(size: nat) returns (vector: seq<real>)
      modifies this`drawn
      ensures vector == Vector(rand, old(drawn), size) && drawn == old(drawn) + size
    {
      vector := [];
      for i := 0 to size
        invariant vector == Vector(rand, old(drawn), i) && drawn == old(drawn) + i
      {
        assert Vector(rand, old(drawn), i + 1) == Vector(rand, old(drawn), i) + [(Draw(rand, drawn) * 2.0 - 1.0) * 0.1];
        vector := vector + [(Draw(rand, drawn) * 2.0 - 1.0) * 0.1];
        drawn := drawn + 1;
      }
    }

    /**
     * `processText(text)`: reset, tokenize, then one embedding per token;
     * the tokens and embeddings are also returned.
     */
    method ProcessText(text: string) returns (toks: seq<string>, embs: seq<TokenEmbedding>)
      requires Built()
      modifies this`tokens, this`embeddings, this`state, this`drawn
      ensures Valid() && state == Idle
      ensures tokens == Tokenize(text) && toks == tokens
      ensures embeddings == Embeddings(tokens, tokenColors, hiddenSize, rand, old(drawn)) && embs == embeddings
      ensures drawn == old(drawn) + |tokens| * hiddenSize
    {
      ResetState();
      tokens := Tokenize(text);
      embeddings := EmbedTokens(tokens);
      return tokens, embeddings;
    }

    /** The `map` of `processText`: one embedding per token, each with a fresh random vector. */
    method EmbedTokens(toks: seq<string>) returns (built: seq<TokenEmbedding>)
      modifies this`drawn
      ensures built == Embeddings(toks, tokenColors, hiddenSize, rand, old(drawn))
      ensures drawn == old(drawn) + |toks| * hiddenSize
    {
      built := [];
      for i := 0 to |toks|
        invariant built == Embeddings(toks[..i], tokenColors, hiddenSize, rand, old(drawn))
        invariant drawn == old(drawn) + i * hiddenSize
      {
        var vector := GenerateRandomVector(hiddenSize);
        built := built + [TokenEmbedding(toks[i], i, vector, ColorOf(tokenColors, i))];
        assert toks[..i + 1][..i] == toks[..i];
      }
      assert toks[..|toks|] == toks;
    }

    /** The j loop of `generateAttentionWeights`: row i of one head before normalisation. */
    method DrawRow(tokenIndex: int, i: int, n: nat) returns (row: seq<real>)
      modifies this`drawn
      ensures row == Raw(tokenIndex, n, i, rand, old(drawn)) && drawn == old(drawn) + n
    {
      row := [];
      for j := 0 to n
        invariant |row| == j && drawn == old(drawn) + j
        invariant forall k :: 0 <= k < j ==> row[k] == Raw(tokenIndex, n, i, rand, old(drawn))[k]
      {
        var weight := Bias(tokenIndex, i, j);
        weight := weight + (Draw(rand, drawn) * 0.3 - 0.15);
        drawn := drawn + 1;
        weight := Clamp01(weight);
        row := row + [weight];
      }
    }

    /** `generateAttentionWeights(tokenIndex, numTokens)`. */
    method GenerateAttentionWeights(tokenIndex: int, numTokens: nat) returns (weights: seq<seq<seq<real>>>)
      modifies this`drawn
      ensures weights == AttentionWeights(tokenIndex, numTokens, numHeads, rand, old(drawn))
      ensures drawn == old(drawn) + numHeads * (numTokens * numTokens)
    {
      weights := [];
      ghost var sq := numTokens * numTokens;
      for h := 0 to numHeads
        invariant weights == AttentionWeights(tokenIndex, numTokens, h, rand, old(drawn))
        invariant drawn == old(drawn) + h * sq
      {
        var headWeights := DrawHead(tokenIndex, numTokens);
        AttentionSnoc(tokenIndex, numTokens, h, rand, old(drawn));
        NextStride(h, sq);
        weights := weights + [headWeights];
      }
    }

    /** The i loop of `generateAttentionWeights`: one head. */
    method DrawHead(tokenIndex: int, numTokens: nat) returns (headWeights: seq<seq<real>>)
      modifies this`drawn
      ensures headWeights == HeadWeights(tokenIndex, numTokens, rand, old(drawn))
      ensures drawn == old(drawn) + numTokens * numTokens
    {
      headWeights := [];
      ghost var d0 := drawn;
      for i := 0 to numTokens
        invariant headWeights == Rows(tokenIndex, numTokens, i, rand, d0)
        invariant drawn == d0 + i * numTokens
      {
        var tokenWeights := DrawRow(tokenIndex, i, numTokens);
        RowsSnoc(tokenIndex, numTokens, i, rand, d0);
        NextStride(i, numTokens);
        headWeights := headWeights + [Normalise(tokenWeights)];
      }
    }

    /** `generateRandomActivations(count)`. */
    method GenerateRandomActivations(count: nat) returns (activations: seq<real>)
      modifies this`drawn
      ensures activations == Activations(rand, old(drawn), count) && drawn == old(drawn) + count
    {
      activations := [];
      ghost var d0 := drawn;
      var r := rand;
      for i := 0 to count
        invariant activations == Activations(r, d0, i) && drawn == d0 + i
      {
        var u := Draw(r, drawn);
        ActivationsSnoc(r, d0, i);
        assert u * u == Draw(r, d0 + i) * Draw(r, d0 + i);
        activations := activations + [u * u];
        drawn := drawn + 1;
      }
    }

    /**
     * `processTokenThroughLayer(tokenIndex, layerIndex)`: the embedding layer
     * shows 50 activations, the output layer 80; a transformer layer keeps
     * its active component (or falls back to 'attention'), draws attention
     * weights only for 'attention', then 100 activations for 'feedForward'
     * and 30 otherwise.
     */
    method ProcessTokenThroughLayer(tokenIndex: int, layerIndex: nat) returns (s: ModelState)
      requires Built() && layerIndex < |layers|
      modifies this`state, this`drawn
      ensures Valid() && s == state
      ensures state.processingToken == tokenIndex && state.activeLayer == layerIndex
      ensures layers[layerIndex].kind == Embedding ==>
        state.activeComponent == Some("embedding") && state.attentionWeights == [] &&
        state.activations == Activations(rand, old(drawn), 50) && drawn == old(drawn) + 50
      ensures layers[layerIndex].kind == Output ==>
        state.activeComponent == Some("output") && state.attentionWeights == [] &&
        state.activations == Activations(rand, old(drawn), 80) && drawn == old(drawn) + 80
      ensures layers[layerIndex].kind == Transformer ==>
        var c := Promote(old(state.activeComponent));
        var w := if c == "attention" then Draws(numHeads, |tokens|) else 0;
        var count := if c == "feedForward" then 100 else 30;
        state.activeComponent == Some(c) &&
        state.attentionWeights == (if c == "attention" then AttentionWeights(tokenIndex, |tokens|, numHeads, rand, old(drawn)) else []) &&
        state.activations == Activations(rand, old(drawn) + w, count) && drawn == old(drawn) + w + count
    {
      state := state.(processingToken := tokenIndex, activeLayer := layerIndex);
      match layers[layerIndex].kind {
        case Embedding =>
          var acts := GenerateRandomActivations(50);
          state := state.(attentionWeights := [], activations := acts, activeComponent := Some("embedding"));
        case Transformer =>
          var c := Promote(state.activeComponent);
          state := state.(activeComponent := Some(c));
          if c == "attention" {
            WeightsSpec(tokenIndex, |tokens|, numHeads, rand, drawn);
            var w := GenerateAttentionWeights(tokenIndex, |tokens|);
            state := state.(attentionWeights := w);
          } else {
            state := state.(attentionWeights := []);
          }
          var acts := GenerateRandomActivations(if c == "feedForward" then 100 else 30);
          state := state.(activations := acts);
        case Output =>
          var acts := GenerateRandomActivations(80);
          state := state.(attentionWeights := [], activations := acts, activeComponent := Some("output"));
      }
      s := state;
    }

    /**
     * `setActiveComponent(componentType)`: weights only for 'attention',
     * drawn for the token being processed over all tokens, then
     * `ActivationCount(componentType)` activations.
     */
    method SetActiveComponent(kind: string) returns (s: ModelState)
      requires Built()
      modifies this`state, this`drawn
      ensures Valid() && s == state
      ensures state.activeComponent == Some(kind)
      ensures state.activeLayer == old(state.activeLayer) && state.processingToken == old(state.processingToken)
      ensures state.attentionWeights ==
        (if kind == "attention" then AttentionWeights(old(state.processingToken), |tokens|, numHeads, rand, old(drawn)) else [])
      ensures var w := if kind == "attention" then Draws(numHeads, |tokens|) else 0;
        state.activations == Activations(rand, old(drawn) + w, ActivationCount(kind)) &&
        drawn == old(drawn) + w + ActivationCount(kind)
    {
      state := state.(activeComponent := Some(kind));
      if kind == "attention" {
        WeightsSpec(state.processingToken, |tokens|, numHeads, rand, drawn);
        var w := GenerateAttentionWeights(state.processingToken, |tokens|);
        state := state.(attentionWeights := w);
      } else {
        state := state.(attentionWeights := []);
      }
      var acts := GenerateRandomActivations(ActivationCount(kind));
      state := state.(activations := acts);
      s := state;
    }
  }
}

=== FILE: neural_visualizer.dfy ===
/**
 * The bookkeeping of NeuralFlowViz's `LLMVisualizer`: the animation queue
 * and its stepper, the layout of the component boxes, hit-testing a click,
 * zooming and the tooltip table. Drawing is not modelled.
 */
module NeuralVisualizer {
  import opened Common
  import opened NeuralModel

  // -------------------------------------------------------- animation queue

  /** One entry of `animationQueue`. */
  datatype Step =
    | ProcessLayer(token: nat, layer: nat)
    | ProcessComponent(token: nat, layer: nat, kind: string)
    | ResetStep

  /** The processComponent steps of one transformer layer, one per component in order. */
  function CompSteps(t: nat, l: nat, comps: seq<Component>): seq<Step>
  {
    if |comps| == 0 then []
    else CompSteps(t, l, comps[..|comps| - 1]) + [ProcessComponent(t, l, comps[|comps| - 1].kind)]
  }

  /** The steps of one token through one layer. */
  function LayerSteps(t: nat, l: nat, layer: Layer): seq<Step>
  {
    [ProcessLayer(t, l)] + (if layer.kind == Transformer then CompSteps(t, l, layer.components) else [])
  }

  /** The steps of token t through the layers, in layer order. */
  function TokenSteps(t: nat, layers: seq<Layer>): seq<Step>
  {
    if |layers| == 0 then []
    else TokenSteps(t, layers[..|layers| - 1]) + LayerSteps(t, |layers| - 1, layers[|layers| - 1])
  }

  /** The steps of the first n tokens, token after token. */
  function Steps(n: nat, layers: seq<Layer>): seq<Step>
  {
    if n == 0 then [] else Steps(n - 1, layers) + TokenSteps(n - 1, layers)
  }

  /** The whole queue `createAnimationSequence` builds for n tokens. */
  function Schedule(n: nat, layers: seq<Layer>): seq<Step>
  {
    Steps(n, layers) + [ResetStep]
  }

  /** Steps per token: one per layer plus one per component of each transformer layer. */
  function Work(layers: seq<Layer>): nat
  {
    if |layers| == 0 then 0
    else
      var last := layers[|layers| - 1];
      Work(layers[..|layers| - 1]) + 1 + (if last.kind == Transformer then |last.components| else 0)
  }

  /** Step a comes before step b: an earlier token, an earlier layer, or a layer's step before its components. */
  predicate Precedes(a: Step, b: Step)
    requires !a.ResetStep? && !b.ResetStep?
  {
    a.token < b.token || (a.token == b.token && (a.layer < b.layer || (a.layer == b.layer && b.ProcessComponent?)))
  }

  /** A run of layer and component steps in token-major, layer-minor order. */
  predicate Ordered(s: seq<Step>)
  {
    (forall k :: 0 <= k < |s| ==> !s[k].ResetStep?) &&
    forall i, j :: 0 <= i < j < |s| ==> Precedes(s[i], s[j])
  }

  /** Every step names a token below n, an existing layer, and for a component one of that layer's. */
  predicate Addresses(s: seq<Step>, n: nat, layers: seq<Layer>)
  {
    forall k :: 0 <= k < |s| ==>
      !s[k].ResetStep? && s[k].token < n && s[k].layer < |layers| &&
      (s[k].ProcessComponent? ==>
         layers[s[k].layer].kind == Transformer &&
         exists c :: 0 <= c < |layers[s[k].layer].components| && layers[s[k].layer].components[c].kind == s[k].kind)
  }

  /** The component steps of a layer follow its components one for one. */
  lemma {:induction false} CompStepsAt(t: nat, l: nat, comps: seq<Component>)
    ensures |CompSteps(t, l, comps)| == |comps|
    ensures forall k :: 0 <= k < |comps| ==> CompSteps(t, l, comps)[k] == ProcessComponent(t, l, comps[k].kind)
  {
    if |comps| > 0 {
      var init := comps[..|comps| - 1];
      CompStepsAt(t, l, init);
      forall k | 0 <= k < |comps| - 1
        ensures CompSteps(t, l, comps)[k] == ProcessComponent(t, l, comps[k].kind)
      {
        assert comps[k] == init[k];
      }
    }
  }

  /** Joining two ordered runs, every step of the first before every step of the second, stays ordered. */
  lemma OrderedAppend(a: seq<Step>, b: seq<Step>)
    requires Ordered(a) && Ordered(b)
    requires forall i, j :: 0 <= i < |a| && 0 <= j < |b| ==> Precedes(a[i], b[j])
    ensures Ordered(a + b)
  {
    var s := a + b;
    forall i, j | 0 <= i < j < |s|
      ensures Precedes(s[i], s[j])
    {
      if j < |a| {
        assert s[i] == a[i] && s[j] == a[j];
      } else if i >= |a| {
        assert s[i] == b[i - |a|] && s[j] == b[j - |a|];
      } else {
        assert s[i] == a[i] && s[j] == b[j - |a|];
      }
    }
  }

  /** One token through one layer: its layer step, then its components in order. */
  lemma LayerStepsShape(t: nat, l: nat, layer: Layer)
    ensures var s := LayerSteps(t, l, layer);
      Ordered(s) && (forall k :: 0 <= k < |s| ==> s[k].token == t && s[k].layer == l) &&
      |s| == 1 + (if layer.kind == Transformer then |layer.components| else 0) &&
      (forall k :: 0 < k < |s| ==> s[k] == ProcessComponent(t, l, layer.components[k - 1].kind))
  {
    CompStepsAt(t, l, layer.components);
  }

  /** Every step is a layer or component step of token t. */
  predicate ForToken(s: seq<Step>, t: nat)
  {
    forall k :: 0 <= k < |s| ==> !s[k].ResetStep? && s[k].token == t
  }

  lemma ForTokenAppend(a: seq<Step>, b: seq<Step>, t: nat)
    requires ForToken(a, t) && ForToken(b, t)
    ensures ForToken(a + b, t)
  {
    var s := a + b;
    forall k | 0 <= k < |s|
      ensures s[k] == (if k < |a| then a[k] else b[k - |a|])
    {
    }
  }

  /** Steps addressing a prefix of the layers address the layers too. */
  lemma AddressesLift(s: seq<Step>, n: nat, init: seq<Layer>, layers: seq<Layer>)
    requires |init| <= |layers| && init == layers[..|init|] && Addresses(s, n, init)
    ensures Addresses(s, n, layers)
  {
    forall k | 0 <= k < |s|
      ensures layers[s[k].layer] == init[s[k].layer]
    {
    }
  }

  /** The steps of the last layer for token t address that layer and its components. */
  lemma LayerStepsAddress(t: nat, layers: seq<Layer>)
    requires |layers| > 0
    ensures var l := |layers| - 1;
      Addresses(LayerSteps(t, l, layers[l]), t + 1, layers) && ForToken(LayerSteps(t, l, layers[l]), t)
  {
    var l := |layers| - 1;
    var b := LayerSteps(t, l, layers[l]);
    LayerStepsShape(t, l, layers[l]);
    forall k | 0 < k < |b|
      ensures layers[l].components[k - 1].kind == b[k].kind
    {
    }
  }

  /** Token t's steps number Work(layers). */
  lemma {:induction false} TokenStepsCount(t: nat, layers: seq<Layer>)
    ensures |TokenSteps(t, layers)| == Work(layers)
  {
    if |layers| > 0 {
      var init, l := layers[..|layers| - 1], |layers| - 1;
      TokenStepsCount(t, init);
      LayerStepsShape(t, l, layers[l]);
    }
  }

  /** Token t's steps are all for token t and address existing layers and components. */
  lemma {:induction false} TokenStepsAddress(t: nat, layers: seq<Layer>)
    ensures Addresses(TokenSteps(t, layers), t + 1, layers) && ForToken(TokenSteps(t, layers), t)
  {
    if |layers| > 0 {
      var init, l := layers[..|layers| - 1], |layers| - 1;
      var a, b := TokenSteps(t, init), LayerSteps(t, l, layers[l]);
      TokenStepsAddress(t, init);
      AddressesLift(a, t + 1, init, layers);
      LayerStepsAddress(t, layers);
      AddressesAppend(a, b, t + 1, t + 1, layers);
      ForTokenAppend(a, b, t);
      assert TokenSteps(t, layers) == a + b;
    }
  }

  /** Token t's steps are in layer order, each layer's step before its components. */
  lemma {:induction false} TokenStepsOrdered(t: nat, layers: seq<Layer>)
    ensures Ordered(TokenSteps(t, layers))
  {
    if |layers| > 0 {
      var init, l := layers[..|layers| - 1], |layers| - 1;
      var a, b := TokenSteps(t, init), LayerSteps(t, l, layers[l]);
      TokenStepsOrdered(t, init);
      TokenStepsAddress(t, init);
      LayerStepsShape(t, l, layers[l]);
      forall i, j | 0 <= i < |a| && 0 <= j < |b|
        ensures Precedes(a[i], b[j])
      {
        assert a[i].token == t && a[i].layer < l;
        assert b[j].token == t && b[j].layer == l;
      }
      OrderedAppend(a, b);
      assert TokenSteps(t, layers) == a + b;
    }
  }

  /** Steps for tokens below m followed by steps for tokens below n, m <= n, address tokens below n. */
  lemma AddressesAppend(a: seq<Step>, b: seq<Step>, m: nat, n: nat, layers: seq<Layer>)
    requires m <= n && Addresses(a, m, layers) && Addresses(b, n, layers)
    ensures Addresses(a + b, n, layers)
  {
    var s := a + b;
    forall k | 0 <= k < |s|
      ensures s[k] == (if k < |a| then a[k] else b[k - |a|])
    {
    }
  }

  /** n tokens take n × Work(layers) steps. */
  lemma {:induction false} StepsCount(n: nat, layers: seq<Layer>)
    ensures |Steps(n, layers)| == n * Work(layers)
  {
    if n > 0 {
      StepsCount(n - 1, layers);
      TokenStepsCount(n - 1, layers);
      assert (n - 1) * Work(layers) + Work(layers) == n * Work(layers);
    }
  }

  /** The steps of n tokens address tokens below n and real layers and components. */
  lemma {:induction false} StepsAddress(n: nat, layers: seq<Layer>)
    ensures Addresses(Steps(n, layers), n, layers)
  {
    if n > 0 {
      var a, b := Steps(n - 1, layers), TokenSteps(n - 1, layers);
      StepsAddress(n - 1, layers);
      TokenStepsAddress(n - 1, layers);
      AddressesAppend(a, b, n - 1, n, layers);
      assert Steps(n, layers) == a + b;
    }
  }

  /** The steps of n tokens are in token-major, layer-minor order. */
  lemma {:induction false} StepsOrdered(n: nat, layers: seq<Layer>)
    ensures Ordered(Steps(n, layers))
  {
    if n > 0 {
      var a, b := Steps(n - 1, layers), TokenSteps(n - 1, layers);
      StepsOrdered(n - 1, layers);
      StepsAddress(n - 1, layers);
      TokenStepsAddress(n - 1, layers);
      TokenStepsOrdered(n - 1, layers);
      forall i, j | 0 <= i < |a| && 0 <= j < |b|
        ensures Precedes(a[i], b[j])
      {
        assert a[i].token < n - 1 && b[j].token == n - 1;
      }
      OrderedAppend(a, b);
      assert Steps(n, layers) == a + b;
    }
  }

  /**
   * The queue holds n × Work(layers) + 1 steps: the layer and component
   * steps in token-major, layer-minor order, each addressing an existing
   * token and layer, and a single reset step, last.
   */
  lemma ScheduleShape(n: nat, layers: seq<Layer>)
    ensures var q := Schedule(n, layers);
      |q| == n * Work(layers) + 1 && q[|q| - 1] == ResetStep &&
      Ordered(q[..|q| - 1]) && Addresses(q[..|q| - 1], n, layers)
  {
    StepsCount(n, layers);
    StepsAddress(n, layers);
    StepsOrdered(n, layers);
    assert Schedule(n, layers)[..|Schedule(n, layers)| - 1] == Steps(n, layers);
  }

  /** The queue's layer steps name layers the model has. */
  predicate Runnable(queue: seq<Step>, layerCount: nat)
  {
    forall k :: 0 <= k < |queue| && queue[k].ProcessLayer? ==> queue[k].layer < layerCount
  }

  /** Every layer step of the queue names one of the layers. */
  lemma ScheduleRunnable(n: nat, layers: seq<Layer>)
    ensures Runnable(Schedule(n, layers), |layers|)
  {
    var q := Schedule(n, layers);
    StepsAddress(n, layers);
    forall k | 0 <= k < |q| && q[k].ProcessLayer?
      ensures q[k].layer < |layers|
    {
      assert q[k] == Steps(n, layers)[k];
    }
  }

  /** With the configured stack every token takes 7 × numLayers + 2 steps. */
  lemma {:induction false} StackWork(numLayers: nat, numHeads: nat)
    ensures Work(Stack(numLayers, numHeads)) == 7 * numLayers + 2
  {
    var s := Stack(numLayers, numHeads);
    StackShape(numLayers, numHeads);
    TransformersWork(numLayers, numHeads, s[..numLayers + 1]);
    assert s[..numLayers + 2] == s;
  }

  /** The embedding layer and the first k transformers take 7 k + 1 steps per token. */
  lemma {:induction false} TransformersWork(k: nat, numHeads: nat, layers: seq<Layer>)
    requires |layers| == k + 1 && layers[0].kind == Embedding
    requires forall i :: 0 < i <= k ==> layers[i].kind == Transformer && |layers[i].components| == 6
    ensures Work(layers) == 7 * k + 1
  {
    if k == 0 {
      assert layers[..0] == [];
    } else {
      TransformersWork(k - 1, numHeads, layers[..k]);
    }
  }

  // ----------------------------------------------------------------- layout

  /** A component box: its type, centre and size. */
  datatype Box = Box(kind: string, x: real, y: real, width: real, height: real)

  /** One entry of `componentPositions`: a layer's index, centre and boxes. */
  datatype LayerPos = LayerPos(layerIndex: nat, x: real, y: real, boxes: seq<Box>)

  /** `config.canvas.padding`. */
  const Padding: real := 40.0

  /** Box width of a transformer component type (residual connections and unknown types are 40 wide). */
  function Width(kind: string): (w: real)
    ensures w > 0.0
  {
    if kind == "attention" then 180.0
    else if kind == "feedForward" then 120.0
    else if kind == "layerNorm" then 80.0
    else 40.0
  }

  /** Box height of a transformer component type. */
  function Height(kind: string): (h: real)
    ensures 40.0 <= h <= 180.0
  {
    if kind == "attention" then 180.0
    else if kind == "feedForward" then 180.0
    else if kind == "layerNorm" then 120.0
    else 40.0
  }

  /** How far `currentY` has moved down after the given components: each box plus a 20 gap. */
  function Extent(comps: seq<Component>): real
  {
    if |comps| == 0 then 0.0
    else Extent(comps[..|comps| - 1]) + Height(comps[|comps| - 1].kind) + 20.0
  }

  /** A component's box, its top edge at `currentY`. */
  function Place(kind: string, x: real, currentY: real): Box
  {
    Box(kind, x, currentY + Height(kind) / 2.0, Width(kind), Height(kind))
  }

  /** The boxes of a transformer layer's components, stacked downwards from top, 20 apart. */
  function Column(comps: seq<Component>, x: real, top: real): seq<Box>
  {
    seq(|comps|, k requires 0 <= k < |comps| => Place(comps[k].kind, x, top + Extent(comps[..k])))
  }

  /** The boxes of one layer centred at (x, y). */
  function LayerBoxes(layer: Layer, x: real, y: real): seq<Box>
  {
    match layer.kind
    case Embedding =>
      [Box("tokenEmbedding", x, y - 40.0 / 2.0, 120.0, 200.0),
       Box("positionEmbedding", x, y + 40.0 / 2.0 + 200.0, 120.0, 200.0)]
    case Transformer =>
      Column(layer.components, x, y - (|layer.components| * 100) as real / 2.0)
    case Output =>
      [Box("output", x, y, 120.0, 180.0)]
  }

  /** The horizontal centre of layer i of count on a canvas of the given width. */
  function LayerX(i: nat, count: nat, width: real): real
  {
    Padding + (width - Padding * 2.0) / (count + 1) as real * (i + 1) as real
  }

  /** `componentPositions` for the layers on a width × height canvas. */
  function Positions(layers: seq<Layer>, width: real, height: real): seq<LayerPos>
  {
    seq(|layers|, i requires 0 <= i < |layers| =>
      var x := LayerX(i, |layers|, width);
      LayerPos(i, x, height / 2.0, LayerBoxes(layers[i], x, height / 2.0)))
  }

  /** Extent grows with the prefix. */
  lemma {:induction false} ExtentGrows(comps: seq<Component>, j: nat, k: nat)
    requires j <= k <= |comps|
    ensures Extent(comps[..j]) <= Extent(comps[..k])
    decreases k - j
  {
    if j < k {
      ExtentGrows(comps, j + 1, k);
      assert comps[..j + 1][..j] == comps[..j];
    }
  }

  /**
   * The boxes of a transformer layer never overlap: each one ends at least
   * 20 above where the next begins, all share the layer's x.
   */
  lemma ColumnSeparated(comps: seq<Component>, x: real, top: real)
    ensures var c := Column(comps, x, top);
      |c| == |comps| &&
      (forall k :: 0 <= k < |c| ==> c[k].kind == comps[k].kind && c[k].x == x && c[k].height > 0.0 && c[k].width > 0.0) &&
      forall j, k :: 0 <= j < k < |c| ==> c[j].y + c[j].height / 2.0 + 20.0 <= c[k].y - c[k].height / 2.0
  {
    var c := Column(comps, x, top);
    forall j, k | 0 <= j < k < |c|
      ensures c[j].y + c[j].height / 2.0 + 20.0 <= c[k].y - c[k].height / 2.0
    {
      ColumnGap(comps, x, top, j, k);
    }
  }

  lemma ColumnGap(comps: seq<Component>, x: real, top: real, j: nat, k: nat)
    requires j < k < |comps|
    ensures var c := Column(comps, x, top);
      c[j].y + c[j].height / 2.0 + 20.0 <= c[k].y - c[k].height / 2.0
  {
    var hj := Height(comps[j].kind);
    var ej, ek := Extent(comps[..j]), Extent(comps[..k]);
    assert comps[..j + 1][..j] == comps[..j];
    assert Extent(comps[..j + 1]) == ej + hj + 20.0;
    ExtentGrows(comps, j + 1, k);
    var bj, bk := Place(comps[j].kind, x, top + ej), Place(comps[k].kind, x, top + ek);
    assert bj.y + bj.height / 2.0 == top + ej + hj;
    assert bk.y - bk.height / 2.0 == top + ek;
  }

  /**
   * `calculateComponentPositions` gives one entry per layer with
   * layerIndex = i, columns left to right on a canvas wider than the
   * padding; a transformer layer has one box per component in order, the
   * embedding layer its token and position boxes, the output layer one box.
   */
  lemma PositionsShape(layers: seq<Layer>, width: real, height: real)
    ensures var ps := Positions(layers, width, height);
      |ps| == |layers| &&
      (forall i :: 0 <= i < |ps| ==>
         ps[i].layerIndex == i && ps[i].y == height / 2.0 &&
         forall b :: 0 <= b < |ps[i].boxes| ==> ps[i].boxes[b].x == ps[i].x) &&
      (width > Padding * 2.0 ==> forall i, j :: 0 <= i < j < |ps| ==> ps[i].x < ps[j].x) &&
      (forall i :: 0 <= i < |ps| && layers[i].kind == Transformer ==>
         |ps[i].boxes| == |layers[i].components| &&
         forall b :: 0 <= b < |ps[i].boxes| ==> ps[i].boxes[b].kind == layers[i].components[b].kind) &&
      (forall i :: 0 <= i < |ps| && layers[i].kind == Embedding ==>
         |ps[i].boxes| == 2 && ps[i].boxes[0].kind == "tokenEmbedding" && ps[i].boxes[1].kind == "positionEmbedding") &&
      (forall i :: 0 <= i < |ps| && layers[i].kind == Output ==> |ps[i].boxes| == 1 && ps[i].boxes[0].kind == "output")
  {
    var ps := Positions(layers, width, height);
    forall i | 0 <= i < |ps|
      ensures forall b :: 0 <= b < |ps[i].boxes| ==> ps[i].boxes[b].x == ps[i].x
      ensures layers[i].kind == Transformer ==>
         |ps[i].boxes| == |layers[i].components| &&
         forall b :: 0 <= b < |ps[i].boxes| ==> ps[i].boxes[b].kind == layers[i].components[b].kind
    {
      if layers[i].kind == Transformer {
        ColumnSeparated(layers[i].components, ps[i].x, height / 2.0 - (|layers[i].components| * 100) as real / 2.0);
      }
    }
    forall i, j | width > Padding * 2.0 && 0 <= i < j < |ps|
      ensures ps[i].x < ps[j].x
    {
      var step := (width - Padding * 2.0) / (|layers| + 1) as real;
      assert step > 0.0;
      assert step * (i + 1) as real < step * (j + 1) as real;
    }
  }

  // ------------------------------------------------------------ hit-testing

  /** The point strictly inside the box. */
  predicate Hit(b: Box, mx: real, my: real)
  {
    mx > b.x - b.width / 2.0 && mx < b.x + b.width / 2.0 &&
    my > b.y - b.height / 2.0 && my < b.y + b.height / 2.0
  }

  /** The first box from index `from` on that contains the point. */
  function FirstIn(boxes: seq<Box>, mx: real, my: real, from: nat): (r: Option<nat>)
    ensures r.Some? ==> from <= r.value < |boxes| && Hit(boxes[r.value], mx, my)
    decreases |boxes| - from
  {
    if from >= |boxes| then None
    else if Hit(boxes[from], mx, my) then Some(from)
    else FirstIn(boxes, mx, my, from + 1)
  }

  /** The first component, in layer then component order from layer `from` on, that contains the point. */
  function FirstHit(ps: seq<LayerPos>, mx: real, my: real, from: nat): Option<(nat, string)>
    decreases |ps| - from
  {
    if from >= |ps| then None
    else match FirstIn(ps[from].boxes, mx, my, 0)
      case Some(j) => Some((from, ps[from].boxes[j].kind))
      case None => FirstHit(ps, mx, my, from + 1)
  }

  lemma {:induction false} FirstInSpec(boxes: seq<Box>, mx: real, my: real, from: nat)
    ensures var r := FirstIn(boxes, mx, my, from);
      (r.None? ==> forall j :: from <= j < |boxes| ==> !Hit(boxes[j], mx, my)) &&
      (r.Some? ==> from <= r.value < |boxes| && Hit(boxes[r.value], mx, my) &&
                   forall j :: from <= j < r.value ==> !Hit(boxes[j], mx, my))
    decreases |boxes| - from
  {
    if from < |boxes| && !Hit(boxes[from], mx, my) {
      FirstInSpec(boxes, mx, my, from + 1);
    }
  }

  /**
   * A click lands on the first component, in layer then component order,
   * whose box strictly contains the point, and on none when no box does.
   */
  lemma {:induction false} FirstHitSpec(ps: seq<LayerPos>, mx: real, my: real, from: nat)
    ensures var r := FirstHit(ps, mx, my, from);
      (r.None? ==> forall i, j :: from <= i < |ps| && 0 <= j < |ps[i].boxes| ==> !Hit(ps[i].boxes[j], mx, my)) &&
      (r.Some? ==>
         var (i, kind) := r.value;
         from <= i < |ps| &&
         (exists j :: 0 <= j < |ps[i].boxes| && ps[i].boxes[j].kind == kind && Hit(ps[i].boxes[j], mx, my) &&
                      forall j' :: 0 <= j' < j ==> !Hit(ps[i].boxes[j'], mx, my)) &&
         forall i', j :: from <= i' < i && 0 <= j < |ps[i'].boxes| ==> !Hit(ps[i'].boxes[j], mx, my))
    decreases |ps| - from
  {
    if from < |ps| {
      FirstInSpec(ps[from].boxes, mx, my, 0);
      if FirstIn(ps[from].boxes, mx, my, 0).None? {
        FirstHitSpec(ps, mx, my, from + 1);
      }
    }
  }

  /** No point lies in two boxes of one transformer column, so a hit there is the only one. */
  lemma ColumnUniqueHit(comps: seq<Component>, x: real, top: real, mx: real, my: real, j: nat, k: nat)
    requires j < k < |comps|
    ensures var c := Column(comps, x, top);
      !(Hit(c[j], mx, my) && Hit(c[k], mx, my))
  {
    ColumnGap(comps, x, top, j, k);
  }

  // ---------------------------------------------------------------- zooming

  /** `config.view.minScale`, `maxScale` and `zoomStep`. */
  const MinScale: real := 0.5
  const MaxScale: real := 3.0
  const ZoomStep: real := 0.1

  /** A wheel turn away from the user (delta > 0) zooms out by one step, any other in. */
  function ZoomFactor(delta: real): (f: real)
    ensures f > 0.0 && (delta > 0.0 <==> f < 1.0)
  {
    if delta > 0.0 then 1.0 - ZoomStep else 1.0 + ZoomStep
  }

  /**
   * Zooming about the mouse keeps the point under it fixed: the canvas
   * coordinate `(m - offset) / scale` is the same before and after.
   */
  lemma ZoomKeepsAnchor(m: real, offset: real, scale: real, f: real)
    requires scale > 0.0 && f > 0.0
    ensures (m - (m - (m - offset) * f)) / (scale * f) == (m - offset) / scale
  {
    var d := m - offset;
    assert m - (m - d * f) == d * f;
    assert (d * f) / (scale * f) == d / scale by {
      assert (d / scale) * (scale * f) == d * f;
    }
  }

  // --------------------------------------------------------------- tooltips

  /** `config.tooltips`. */
  const EmbeddingsTip := "Embeddings convert tokens (words/subwords) into vectors that the model can process. They include both token and positional information."
  const MultiHeadAttentionTip := "Multiple attention heads allow the model to focus on different aspects of the input simultaneously, capturing various relationships."
  const FeedForwardTip := "Feed-forward networks process each position independently, applying the same transformation to each token representation."
  const LayerNormTip := "Layer normalization stabilizes the learning process by normalizing the inputs across features."
  const ResidualConnectionTip := "Residual connections help information flow through deep networks by adding the input of a layer to its output."

  /** The component types with an explanatory tooltip. */
  predicate Explained(kind: string)
  {
    kind == "tokenEmbedding" || kind == "positionEmbedding" || kind == "attention" ||
    kind == "feedForward" || kind == "layerNorm" || kind == "residual"
  }

  /** `getTooltipText(componentType)`. */
  function Tooltip(kind: string): string
  {
    if kind == "tokenEmbedding" || kind == "positionEmbedding" then EmbeddingsTip
    else if kind == "attention" then MultiHeadAttentionTip
    else if kind == "feedForward" then FeedForwardTip
    else if kind == "layerNorm" then LayerNormTip
    else if kind == "residual" then ResidualConnectionTip
    else kind + " component"
  }

  /**
   * Each explained type gets its own configured tooltip (both embedding boxes
   * share the embeddings text), every other type gets "<type> component", and
   * a type gets one of the configured tooltips exactly when it is explained.
   */
  lemma TooltipSpec(kind: string)
    ensures kind == "tokenEmbedding" || kind == "positionEmbedding" ==> Tooltip(kind) == EmbeddingsTip
    ensures kind == "attention" ==> Tooltip(kind) == MultiHeadAttentionTip
    ensures kind == "feedForward" ==> Tooltip(kind) == FeedForwardTip
    ensures kind == "layerNorm" ==> Tooltip(kind) == LayerNormTip
    ensures kind == "residual" ==> Tooltip(kind) == ResidualConnectionTip
    ensures !Explained(kind) ==> Tooltip(kind) == kind + " component"
    ensures Explained(kind) <==>
      Tooltip(kind) in {EmbeddingsTip, MultiHeadAttentionTip, FeedForwardTip, LayerNormTip, ResidualConnectionTip}
  {
    if !Explained(kind) {
      var t := kind + " component";
      assert t[|t| - 1] == 't';
      assert EmbeddingsTip[|EmbeddingsTip| - 1] == '.';
      assert MultiHeadAttentionTip[|MultiHeadAttentionTip| - 1] == '.';
      assert FeedForwardTip[|FeedForwardTip| - 1] == '.';
      assert LayerNormTip[|LayerNormTip| - 1] == '.';
      assert ResidualConnectionTip[|ResidualConnectionTip| - 1] == '.';
    }
  }

  /**
   * Every box laid out for the configured stack except the output box
   * carries an explained type, so only the output box falls back to
   * "output component".
   */
  lemma LayoutExplained(numLayers: nat, numHeads: nat, width: real, height: real)
    ensures var ps := Positions(Stack(numLayers, numHeads), width, height);
      forall i, b :: 0 <= i < |ps| && 0 <= b < |ps[i].boxes| ==>
        (Explained(ps[i].boxes[b].kind) <==> ps[i].boxes[b].kind != "output")
  {
    var layers := Stack(numLayers, numHeads);
    StackShape(numLayers, numHeads);
    PositionsShape(layers, width, height);
  }

  // ------------------------------------------------------------- visualizer

  /** `LLMVisualizer`: the animation queue and stepper, the layout, and `config.view`. */
  class Visualizer {
    const model: LLMModel
    var canvasWidth: real
    var canvasHeight: real
    var queue: seq<Step>
    var isAnimating: bool
    var step: nat
    var animationStarted: bool
    var positions: seq<LayerPos>
    /** `config.view.scale`, `offsetX` and `offsetY`. */
    var scale: real
    var offsetX: real
    var offsetY: real

    /** The model is valid, the scale within bounds, and every queued layer step names a model layer. */
    ghost predicate Valid()
      reads this, model
    {
      model.Valid() && MinScale <= scale <= MaxScale && Runnable(queue, |model.layers|)
    }

    /** `new LLMVisualizer(model, config)`: an empty queue, not animating, the view at scale 1. */
    constructor (model: LLMModel)
      requires model.Valid()
      ensures Valid() && this.model == model
      ensures queue == [] && !isAnimating && step == 0 && !animationStarted && positions == []
      ensures canvasWidth == 0.0 && canvasHeight == 0.0 && scale == 1.0 && offsetX == 0.0 && offsetY == 0.0
    {
      this.model := model;
      canvasWidth, canvasHeight := 0.0, 0.0;
      queue, isAnimating, step, animationStarted := [], false, 0, false;
      positions := [];
      scale, offsetX, offsetY := 1.0, 0.0, 0.0;
    }

    /** The canvas part of `setup`: take the container's size, then lay the components out. */
    method Setup(width: real, height: real)
      modifies this`canvasWidth, this`canvasHeight, this`positions
      ensures canvasWidth == width && canvasHeight == height
      ensures positions == Positions(model.layers, width, height)
    {
      canvasWidth, canvasHeight := width, height;
      CalculateComponentPositions();
    }

    /** `calculateComponentPositions`. */
    method CalculateComponentPositions()
      modifies this`positions
      ensures positions == Positions(model.layers, canvasWidth, canvasHeight)
    {
      var layers := model.layers;
      var layerSpacing := (canvasWidth - Padding * 2.0) / (|layers| + 1) as real;
      positions := [];
      for i := 0 to |layers|
        invariant |positions| == i
        invariant forall k :: 0 <= k < i ==> positions[k] == Positions(layers, canvasWidth, canvasHeight)[k]
      {
        var x := Padding + layerSpacing * (i + 1) as real;
        var y := canvasHeight / 2.0;
        var boxes: seq<Box>;
        match layers[i].kind {
          case Embedding =>
            boxes := [Box("tokenEmbedding", x, y - 40.0 / 2.0, 120.0, 200.0),
                      Box("positionEmbedding", x, y + 40.0 / 2.0 + 200.0, 120.0, 200.0)];
          case Transformer =>
            var comps := layers[i].components;
            boxes := PlaceComponents(comps, x, y - (|comps| * 100) as real / 2.0);
          case Output =>
            boxes := [Box("output", x, y, 120.0, 180.0)];
        }
        assert boxes == LayerBoxes(layers[i], x, y) && x == LayerX(i, |layers|, canvasWidth);
        positions := positions + [LayerPos(i, x, y, boxes)];
      }
    }

    /** The component loop of `calculateComponentPositions`: boxes stacked down from top. */
    method PlaceComponents(comps: seq<Component>, x: real, top: real) returns (boxes: seq<Box>)
      ensures boxes == Column(comps, x, top)
    {
      boxes := [];
      var currentY := top;
      for j := 0 to |comps|
        invariant |boxes| == j && currentY == top + Extent(comps[..j])
        invariant forall k :: 0 <= k < j ==> boxes[k] == Column(comps, x, top)[k]
      {
        var kind := comps[j].kind;
        var compWidth, compHeight := 40.0, 40.0;
        if kind == "attention" {
          compWidth, compHeight := 180.0, 180.0;
        } else if kind == "feedForward" {
          compWidth, compHeight := 120.0, 180.0;
        } else if kind == "layerNorm" {
          compWidth, compHeight := 80.0, 120.0;
        }
        boxes := boxes + [Box(kind, x, currentY + compHeight / 2.0, compWidth, compHeight)];
        currentY := currentY + compHeight + 20.0;
        assert comps[..j + 1][..j] == comps[..j];
      }
    }

    /**
     * `mousePressed`: the first box containing the clicked canvas point
     * makes its layer and type active and the model regenerates its data
     * for that type; a click on no box changes nothing.
     */
    method MousePressed(px: real, py: real)
      requires Valid()
      modifies model`state, model`drawn
      ensures Valid()
      ensures var hit := FirstHit(positions, (px - offsetX) / scale, (py - offsetY) / scale, 0);
        (hit.None? ==> model.state == old(model.state) && model.drawn == old(model.drawn)) &&
        (hit.Some? ==>
           var (i, kind) := hit.value;
           var w := if kind == "attention" then Draws(model.numHeads, |model.tokens|) else 0;
           model.state.activeLayer == i && model.state.activeComponent == Some(kind) &&
           model.state.processingToken == old(model.state.processingToken) &&
           model.state.attentionWeights ==
             (if kind == "attention"
              then AttentionWeights(old(model.state.processingToken), |model.tokens|, model.numHeads, model.rand, old(model.drawn))
              else []) &&
           model.state.activations == Activations(model.rand, old(model.drawn) + w, ActivationCount(kind)) &&
           model.drawn == old(model.drawn) + w + ActivationCount(kind))
    {
      var mx := (px - offsetX) / scale;
      var my := (py - offsetY) / scale;
      var i := 0;
      while i < |positions|
        invariant i <= |positions|
        invariant FirstHit(positions, mx, my, 0) == FirstHit(positions, mx, my, i)
        invariant model.state == old(model.state) && model.drawn == old(model.drawn)
      {
        var boxes := positions[i].boxes;
        var j := 0;
        while j < |boxes|
          invariant j <= |boxes|
          invariant FirstIn(boxes, mx, my, 0) == FirstIn(boxes, mx, my, j)
          invariant model.state == old(model.state) && model.drawn == old(model.drawn)
        {
          var b := boxes[j];
          if mx > b.x - b.width / 2.0 && mx < b.x + b.width / 2.0 &&
             my > b.y - b.height / 2.0 && my < b.y + b.height / 2.0 {
            model.state := model.state.(activeLayer := i, activeComponent := Some(b.kind));
            var _ := model.SetActiveComponent(b.kind);
            return;
          }
          j := j + 1;
        }
        i := i + 1;
      }
    }

    /**
     * `mouseWheel`: zoom one step about the mouse, but only when the new
     * scale stays within [MinScale, MaxScale]; otherwise nothing changes.
     */
    method MouseWheel(delta: real, mouseX: real, mouseY: real)
      requires Valid()
      modifies this`scale, this`offsetX, this`offsetY
      ensures Valid()
      ensures var f := ZoomFactor(delta);
        if MinScale <= old(scale) * f <= MaxScale
        then scale == old(scale) * f &&
             offsetX == mouseX - (mouseX - old(offsetX)) * f && offsetY == mouseY - (mouseY - old(offsetY)) * f
        else scale == old(scale) && offsetX == old(offsetX) && offsetY == old(offsetY)
    {
      var zoomFactor := if delta > 0.0 then 1.0 - ZoomStep else 1.0 + ZoomStep;
      var newScale := scale * zoomFactor;
      if newScale >= MinScale && newScale <= MaxScale {
        offsetX := mouseX - (mouseX - offsetX) * zoomFactor;
        offsetY := mouseY - (mouseY - offsetY) * zoomFactor;
        scale := newScale;
      }
    }

    /**
     * `startAnimation(text)`: the model processes the text, the queue is
     * rebuilt from scratch for its tokens, and the animation is on.
     */
    method StartAnimation(text: string)
      requires Valid()
      modifies this`queue, this`step, this`animationStarted, this`isAnimating
      modifies model`tokens, model`embeddings, model`state, model`drawn
      ensures Valid()
      ensures model.tokens == Tokenize(text) && model.state == Idle
      ensures model.embeddings == Embeddings(model.tokens, model.tokenColors, model.hiddenSize, model.rand, old(model.drawn))
      ensures queue == Schedule(|model.tokens|, model.layers)
      ensures step == 0 && !animationStarted && isAnimating
    {
      var toks, _ := model.ProcessText(text);
      queue := [];
      step := 0;
      animationStarted := false;
      CreateAnimationSequence(toks);
      isAnimating := true;
      ScheduleRunnable(|toks|, model.layers);
    }

    /** `createAnimationSequence(tokens)`: append the schedule for the tokens, then a reset step. */
    method CreateAnimationSequence(tokens: seq<string>)
      modifies this`queue
      ensures queue == old(queue) + Schedule(|tokens|, model.layers)
    {
      for t := 0 to |tokens|
        invariant queue == old(queue) + Steps(t, model.layers)
      {
        QueueToken(t);
      }
      queue := queue + [ResetStep];
    }

    /** The layer loop of `createAnimationSequence` for one token. */
    method QueueToken(t: nat)
      modifies this`queue
      ensures queue == old(queue) + TokenSteps(t, model.layers)
    {
      var layers := model.layers;
      for l := 0 to |layers|
        invariant queue == old(queue) + TokenSteps(t, layers[..l])
      {
        assert layers[..l + 1][..l] == layers[..l];
        queue := queue + [ProcessLayer(t, l)];
        if layers[l].kind == Transformer {
          QueueComponents(t, l, layers[l].components);
        }
      }
      assert layers[..|layers|] == layers;
    }

    /** The component loop of `createAnimationSequence` for one transformer layer. */
    method QueueComponents(t: nat, l: nat, comps: seq<Component>)
      modifies this`queue
      ensures queue == old(queue) + CompSteps(t, l, comps)
    {
      for c := 0 to |comps|
        invariant queue == old(queue) + CompSteps(t, l, comps[..c])
      {
        assert comps[..c + 1][..c] == comps[..c];
        queue := queue + [ProcessComponent(t, l, comps[c].kind)];
      }
      assert comps[..|comps|] == comps;
    }

    /**
     * One tick of `processAnimation`: past the end of the queue it only
     * stops the animation; otherwise it runs the current step on the model
     * and, as the timer that follows does, moves on to the next step.
     */
    method ProcessAnimation()
      requires Valid()
      modifies this`isAnimating, this`step
      modifies model`tokens, model`embeddings, model`state, model`drawn
      ensures Valid() && queue == old(queue)
      ensures old(step) >= |queue| ==>
        !isAnimating && step == old(step) && model.state == old(model.state) && model.tokens == old(model.tokens) &&
        model.embeddings == old(model.embeddings) && model.drawn == old(model.drawn)
      ensures old(step) < |queue| ==>
        step == old(step) + 1 && isAnimating == old(isAnimating) &&
        match queue[old(step)]
        case ProcessLayer(t, l) =>
          model.state.processingToken == t && model.state.activeLayer == l && model.tokens == old(model.tokens)
        case ProcessComponent(_, _, kind) =>
          model.state.activeComponent == Some(kind) && model.tokens == old(model.tokens)
        case ResetStep =>
          model.state == Idle && model.tokens == [] && model.embeddings == []
    {
      if step >= |queue| {
        isAnimating := false;
        return;
      }
      match queue[step] {
        case ProcessLayer(t, l) =>
          var _ := model.ProcessTokenThroughLayer(t, l);
        case ProcessComponent(_, _, kind) =>
          var _ := model.SetActiveComponent(kind);
        case ResetStep =>
          model.ResetState();
      }
      step := step + 1;
    }

    /** `reset`: the model is reset, the queue emptied and the animation stopped. */
    method Reset()
      requires Valid()
      modifies this`isAnimating, this`queue, this`step, this`animationStarted
      modifies model`tokens, model`embeddings, model`state
      ensures Valid()
      ensures model.state == Idle && model.tokens == [] && model.embeddings == []
      ensures queue == [] && step == 0 && !isAnimating && !animationStarted
    {
      model.ResetState();
      isAnimating := false;
      queue := [];
      step := 0;
      animationStarted := false;
    }
  }
}

=== FILE: tectonic_earthquake.dfy ===
/**
 * An earthquake on a fault (earthquake.js): its size, how long it lasts,
 * when it is over, how it shakes the camera and how it is described.
 */
module TectonicEarthquake {
  import opened TectonicUtils
  import opened TectonicFault

  const MagnitudeThresholds: seq<real> := [2.0, 3.0, 4.0, 5.0, 6.0, 7.0, 8.0]

  const Descriptions: seq<string> := [
    "Micro earthquake - Not felt",
    "Minor earthquake - Felt by some people",
    "Light earthquake - Felt by many people",
    "Moderate earthquake - Some damage",
    "Strong earthquake - Moderate damage",
    "Major earthquake - Serious damage",
    "Great earthquake - Severe damage",
    "Catastrophic earthquake - Total destruction"]

  /** `getDescription`: the label of a magnitude. */
  function Description(magnitude: real): string
  {
    if magnitude < 2.0 then "Micro earthquake - Not felt"
    else if magnitude < 3.0 then "Minor earthquake - Felt by some people"
    else if magnitude < 4.0 then "Light earthquake - Felt by many people"
    else if magnitude < 5.0 then "Moderate earthquake - Some damage"
    else if magnitude < 6.0 then "Strong earthquake - Moderate damage"
    else if magnitude < 7.0 then "Major earthquake - Serious damage"
    else if magnitude < 8.0 then "Great earthquake - Severe damage"
    else "Catastrophic earthquake - Total destruction"
  }

  /** The label is the one of the magnitude's band under the thresholds 2, 3, ..., 8. */
  lemma DescriptionBand(magnitude: real)
    ensures Description(magnitude) == Descriptions[Rank(magnitude, MagnitudeThresholds)]
  {
    var k := if magnitude < 2.0 then 0 else if magnitude < 3.0 then 1 else if magnitude < 4.0 then 2
      else if magnitude < 5.0 then 3 else if magnitude < 6.0 then 4 else if magnitude < 7.0 then 5
      else if magnitude < 8.0 then 6 else 7;
    RankBand(magnitude, MagnitudeThresholds, k);
  }

  /** A stronger quake is never described by an earlier label. */
  lemma DescriptionMonotone(m1: real, m2: real)
    requires m1 <= m2
    ensures Rank(m1, MagnitudeThresholds) <= Rank(m2, MagnitudeThresholds)
    ensures Description(m1) == Descriptions[Rank(m1, MagnitudeThresholds)]
    ensures Description(m2) == Descriptions[Rank(m2, MagnitudeThresholds)]
  {
    RankMonotone(m1, m2, MagnitudeThresholds);
    DescriptionBand(m1);
    DescriptionBand(m2);
  }

  /** floor(2 m) cracks for a quake above magnitude 4, none otherwise. */
  function CrackCount(magnitude: real): (n: nat)
    ensures magnitude > 4.0 ==> n >= 8 && n as real <= 2.0 * magnitude < n as real + 1.0
    ensures magnitude <= 4.0 ==> n == 0
  {
    if magnitude > 4.0 then (magnitude * 2.0).Floor else 0
  }

  class Earthquake {
    const magnitude: real
    const epicenter: Vec3
    const fault: Fault
    const startTime: real
    const duration: real
    const radius: real
    const energy: real
    const depth: real
    const shakeIntensity: real
    const crackCount: nat
    var active: bool

    /**
     * A quake of the given magnitude starting at time `now`, its depth drawn
     * from u; `env.pow10` gives its energy.
     */
    constructor (magnitude: real, epicenter: Vec3, fault: Fault, now: real, u: real, env: Env)
      ensures this.magnitude == magnitude && this.epicenter == epicenter && this.fault == fault
      ensures startTime == now && active
      ensures duration == 2000.0 + magnitude * 1000.0
      ensures radius == magnitude * 2.0
      ensures energy == Pow10(env, 1.5 * magnitude)
      ensures depth == Random(u, 5.0, 30.0)
      ensures shakeIntensity == Min(magnitude / 3.0, 1.0) && shakeIntensity <= 1.0
      ensures crackCount == CrackCount(magnitude)
    {
      this.magnitude := magnitude;
      this.epicenter := epicenter;
      this.fault := fault;
      startTime := now;
      duration := 2000.0 + magnitude * 1000.0;
      active := true;
      radius := magnitude * 2.0;
      energy := Pow10(env, 1.5 * magnitude);
      depth := Random(u, 5.0, 30.0);
      shakeIntensity := Min(magnitude / 3.0, 1.0);
      crackCount := CrackCount(magnitude);
    }

    /** `update` at time `now`: the quake ends once more than its duration has elapsed. */
    method Update(now: real)
      modifies this`active
      ensures active == (old(active) && !(now - startTime > duration))
    {
      if now - startTime > duration {
        active := false;
      }
    }

    /** How strongly the quake shakes at time `now`: less as it dies away. */
    function Intensity(now: real): real
      requires duration != 0.0
    {
      shakeIntensity * (1.0 - (now - startTime) / duration)
    }

    /**
     * `applyCameraShake`: an active quake moves the camera along each axis by
     * a jolt of at most its current intensity times dt times 10; an inactive
     * one leaves it where it is.
     */
    method ApplyCameraShake(camera: Vec3, dt: real, now: real, u1: real, u2: real, u3: real) returns (moved: Vec3)
      requires duration != 0.0
      ensures !active ==> moved == camera
      ensures active ==> var i := Intensity(now);
        moved == Vec3(camera.x + Jolt(u1, i, dt), camera.y + Jolt(u2, i, dt), camera.z + Jolt(u3, i, dt))
    {
      if !active {
        return camera;
      }
      var intensity := Intensity(now);
      moved := Vec3(camera.x + Jolt(u1, intensity, dt), camera.y + Jolt(u2, intensity, dt),
                    camera.z + Jolt(u3, intensity, dt));
    }
  }

  /**
   * `random(-intensity, intensity) * dt * 10`, given the draw u: never more
   * than intensity * dt * 10 either way.
   */
  function Jolt(u: real, intensity: real, dt: real): (d: real)
    ensures dt >= 0.0 && intensity > 0.0 && 0.0 <= u < 1.0 ==> Abs(d) <= intensity * dt * 10.0
  {
    var r := Random(u, -intensity, intensity);
    var k := dt * 10.0;
    assert dt >= 0.0 && intensity > 0.0 && 0.0 <= u < 1.0 ==> (intensity - r) * k >= 0.0 && (intensity + r) * k >= 0.0 by {
      if dt >= 0.0 && intensity > 0.0 && 0.0 <= u < 1.0 {
        assert -intensity <= r < intensity;
        var a, b := intensity - r, intensity + r;
        assert a >= 0.0 && b >= 0.0 && k >= 0.0;
        assert a * k >= 0.0;
        assert b * k >= 0.0;
      }
    }
    r * dt * 10.0
  }
}

=== FILE: tectonic_fault.dfy ===
/**
 * A fault between two plates (fault.js): its kind, the chain of contact
 * points along which the plates touch, and the stress that builds up along
 * it until it gives way in an earthquake.
 */
module TectonicFault {
  import opened Common
  import opened TectonicUtils
  import opened TectonicPlate

  /** A place where the plates touch: the midpoint of two nearby vertices. */
  datatype ContactPoint = ContactPoint(position: Vec3, stress: real, distance: real, vertex1: Vec3, vertex2: Vec3)

  /** Vertices closer than this are in contact. */
  const MaxContactDistance: real := 2.0

  /**
   * `determineFaultType`: upward relative motion makes a subduction fault when
   * the densities differ by more than 0.1 and a convergent one otherwise;
   * other faults are transform faults when the sideways motion is mostly
   * along x, and divergent otherwise.
   */
  function DetermineFaultType(velocity1: Vec3, velocity2: Vec3, density1: real, density2: real): (t: string)
    ensures var rel := Sub(velocity1, velocity2);
      && (t == "subduction" <==> rel.y > 0.05 && Abs(density1 - density2) > 0.1)
      && (t == "convergent" <==> rel.y > 0.05 && Abs(density1 - density2) <= 0.1)
      && (t == "transform" <==> rel.y <= 0.05 && Abs(rel.x) > Abs(rel.z))
      && (t == "divergent" <==> rel.y <= 0.05 && Abs(rel.x) <= Abs(rel.z))
  {
    var rel := Sub(velocity1, velocity2);
    var densityDiff := density1 - density2;
    if rel.y > 0.05 then
      if densityDiff > 0.1 then "subduction"
      else if densityDiff < -0.1 then "subduction"
      else "convergent"
    else if Abs(rel.x) > Abs(rel.z) then "transform"
    else "divergent"
  }

  /** `getFaultColor`: one colour per known kind, white for anything else. */
  function FaultColor(kind: string): (c: nat)
    ensures c == 0xffffff <==> kind !in {"transform", "convergent", "divergent", "subduction"}
  {
    match kind
    case "transform" => 0xff9900
    case "convergent" => 0xff3300
    case "divergent" => 0x00ffcc
    case "subduction" => 0xff0066
    case _ => 0xffffff
  }

  // ---------------------------------------------------------------------
  // Contact points
  // ---------------------------------------------------------------------

  function Contact(v1: Vec3, v2: Vec3, dist: Metric): ContactPoint
  {
    ContactPoint(Midpoint(v1, v2), 0.0, Distance(dist, v1, v2), v1, v2)
  }

  /** The contacts of vertex v with the vertices ws, in the order of ws. */
  function RowContacts(v: Vec3, ws: seq<Vec3>, dist: Metric): seq<ContactPoint>
  {
    if |ws| == 0 then []
    else
      var last := ws[|ws| - 1];
      RowContacts(v, ws[..|ws| - 1], dist) + (if Distance(dist, v, last) < MaxContactDistance then [Contact(v, last, dist)] else [])
  }

  /** The contacts found by the double loop over vs (outer) and ws (inner). */
  function Candidates(vs: seq<Vec3>, ws: seq<Vec3>, dist: Metric): seq<ContactPoint>
  {
    if |vs| == 0 then []
    else Candidates(vs[..|vs| - 1], ws, dist) + RowContacts(vs[|vs| - 1], ws, dist)
  }

  lemma {:induction false} RowContactsSpec(v: Vec3, ws: seq<Vec3>, dist: Metric, c: ContactPoint)
    ensures c in RowContacts(v, ws, dist) <==>
      exists j :: 0 <= j < |ws| && Distance(dist, v, ws[j]) < MaxContactDistance && c == Contact(v, ws[j], dist)
  {
    if |ws| > 0 {
      var init := ws[..|ws| - 1];
      RowContactsSpec(v, init, dist, c);
      if c in RowContacts(v, init, dist) {
        var j :| 0 <= j < |init| && Distance(dist, v, init[j]) < MaxContactDistance && c == Contact(v, init[j], dist);
        assert ws[j] == init[j];
      }
      if exists j :: 0 <= j < |ws| && Distance(dist, v, ws[j]) < MaxContactDistance && c == Contact(v, ws[j], dist) {
        var j :| 0 <= j < |ws| && Distance(dist, v, ws[j]) < MaxContactDistance && c == Contact(v, ws[j], dist);
        if j < |init| {
          assert init[j] == ws[j];
        }
      }
    }
  }

  /** A contact of the pair vs[i], ws[j] closer than 2.0. */
  ghost predicate CloseContact(vs: seq<Vec3>, ws: seq<Vec3>, dist: Metric, c: ContactPoint)
  {
    exists i, j :: 0 <= i < |vs| && 0 <= j < |ws| && Distance(dist, vs[i], ws[j]) < MaxContactDistance && c == Contact(vs[i], ws[j], dist)
  }

  /** Every candidate is the contact of a pair closer than 2.0. */
  lemma {:induction false} CandidatesSound(vs: seq<Vec3>, ws: seq<Vec3>, dist: Metric, c: ContactPoint)
    requires c in Candidates(vs, ws, dist)
    ensures CloseContact(vs, ws, dist, c)
  {
    var init := vs[..|vs| - 1];
    var v := vs[|vs| - 1];
    if c in Candidates(init, ws, dist) {
      CandidatesSound(init, ws, dist, c);
      var i, j :| 0 <= i < |init| && 0 <= j < |ws| && Distance(dist, init[i], ws[j]) < MaxContactDistance && c == Contact(init[i], ws[j], dist);
      assert vs[i] == init[i];
    } else {
      RowContactsSpec(v, ws, dist, c);
      var j :| 0 <= j < |ws| && Distance(dist, v, ws[j]) < MaxContactDistance && c == Contact(v, ws[j], dist);
      assert vs[|vs| - 1] == v;
    }
  }

  /** The contact of every pair closer than 2.0 is a candidate. */
  lemma {:induction false} CandidatesComplete(vs: seq<Vec3>, ws: seq<Vec3>, dist: Metric, i: nat, j: nat)
    requires i < |vs| && j < |ws| && Distance(dist, vs[i], ws[j]) < MaxContactDistance
    ensures Contact(vs[i], ws[j], dist) in Candidates(vs, ws, dist)
  {
    var init := vs[..|vs| - 1];
    var c := Contact(vs[i], ws[j], dist);
    if i < |init| {
      assert init[i] == vs[i];
      CandidatesComplete(init, ws, dist, i, j);
    } else {
      RowContactsSpec(vs[i], ws, dist, c);
    }
  }

  /** The candidates are exactly the contacts of the vertex pairs closer than 2.0. */
  lemma CandidatesSpec(vs: seq<Vec3>, ws: seq<Vec3>, dist: Metric, c: ContactPoint)
    ensures c in Candidates(vs, ws, dist) <==> CloseContact(vs, ws, dist, c)
  {
    if c in Candidates(vs, ws, dist) {
      CandidatesSound(vs, ws, dist, c);
    }
    if CloseContact(vs, ws, dist, c) {
      var i, j :| 0 <= i < |vs| && 0 <= j < |ws| && Distance(dist, vs[i], ws[j]) < MaxContactDistance && c == Contact(vs[i], ws[j], dist);
      CandidatesComplete(vs, ws, dist, i, j);
    }
  }

  /**
   * The index of the point of ps[..n] nearest to `from`, the first one on a
   * tie: at least as near as every point there and strictly nearer than
   * every point before it.
   */
  function Nearest(from: Vec3, ps: seq<ContactPoint>, n: nat, dist: Metric): (k: nat)
    requires 0 < n <= |ps|
    ensures k < n
    ensures forall j :: 0 <= j < n ==> Distance(dist, from, ps[k].position) <= Distance(dist, from, ps[j].position)
    ensures forall j :: 0 <= j < k ==> Distance(dist, from, ps[j].position) > Distance(dist, from, ps[k].position)
  {
    if n == 1 then 0
    else
      var k := Nearest(from, ps, n - 1, dist);
      if Distance(dist, from, ps[n - 1].position) < Distance(dist, from, ps[k].position) then n - 1 else k
  }

  /** s without its element at k (`splice(k, 1)`). */
  function Remove<T>(s: seq<T>, k: nat): (r: seq<T>)
    requires k < |s|
    ensures |r| == |s| - 1
    ensures multiset(r) == multiset(s) - multiset{s[k]}
  {
    assert s == s[..k] + [s[k]] + s[k + 1..];
    s[..k] + s[k + 1..]
  }

  /** The greedy walk from `from`: repeatedly step to the nearest point not yet visited. */
  function Chain(from: Vec3, rest: seq<ContactPoint>, dist: Metric): (r: seq<ContactPoint>)
    ensures multiset(r) == multiset(rest)
    decreases |rest|
  {
    if |rest| == 0 then []
    else
      var k := Nearest(from, rest, |rest|, dist);
      assert multiset(rest) == multiset{rest[k]} + (multiset(rest) - multiset{rest[k]});
      [rest[k]] + Chain(rest[k].position, Remove(rest, k), dist)
  }

  /** The contact points in line order: the first candidate, then the greedy walk from it. */
  function Route(cs: seq<ContactPoint>, dist: Metric): (r: seq<ContactPoint>)
    ensures multiset(r) == multiset(cs)
    ensures |cs| > 0 ==> r[0] == cs[0]
  {
    if |cs| > 1 then
      assert cs == [cs[0]] + cs[1..];
      [cs[0]] + Chain(cs[0].position, cs[1..], dist)
    else cs
  }

  /** t[0] is at least as near to `from` as every point of t. */
  ghost predicate NearestFirst(from: Vec3, t: seq<ContactPoint>, dist: Metric)
  {
    forall j :: 0 <= j < |t| ==> Distance(dist, from, t[0].position) <= Distance(dist, from, t[j].position)
  }

  /** Each point of s after the first is the nearest to its predecessor of the points from there on. */
  ghost predicate Greedy(s: seq<ContactPoint>, dist: Metric)
  {
    |s| <= 1 || (NearestFirst(s[0].position, s[1..], dist) && Greedy(s[1..], dist))
  }

  lemma ChainFirstNearest(from: Vec3, rest: seq<ContactPoint>, dist: Metric)
    ensures NearestFirst(from, Chain(from, rest, dist), dist)
  {
    var t := Chain(from, rest, dist);
    if |rest| > 0 {
      var k := Nearest(from, rest, |rest|, dist);
      assert t[0] == rest[k];
      forall j | 0 <= j < |t| ensures Distance(dist, from, t[0].position) <= Distance(dist, from, t[j].position) {
        assert t[j] in multiset(rest);
        var m :| 0 <= m < |rest| && rest[m] == t[j];
      }
    }
  }

  lemma {:induction false} ChainGreedy(c: ContactPoint, rest: seq<ContactPoint>, dist: Metric)
    ensures Greedy([c] + Chain(c.position, rest, dist), dist)
    decreases |rest|
  {
    var t := Chain(c.position, rest, dist);
    assert ([c] + t)[1..] == t;
    ChainFirstNearest(c.position, rest, dist);
    if |rest| > 0 {
      var k := Nearest(c.position, rest, |rest|, dist);
      ChainGreedy(rest[k], Remove(rest, k), dist);
    }
  }

  /**
   * `findContactPoints`: every vertex pair closer than 2.0 appears exactly as
   * often as among the candidates, the first candidate found comes first, and
   * each next point is the nearest of those still left.
   */
  lemma RouteSpec(cs: seq<ContactPoint>, dist: Metric)
    ensures multiset(Route(cs, dist)) == multiset(cs)
    ensures |cs| > 0 ==> Route(cs, dist)[0] == cs[0]
    ensures Greedy(Route(cs, dist), dist)
  {
    if |cs| > 1 {
      ChainGreedy(cs[0], cs[1..], dist);
    }
  }

  /** The inner loop of the contact search: the contacts of v, in order. */
  method CollectRow(v: Vec3, ws: seq<Vec3>, dist: Metric) returns (row: seq<ContactPoint>)
    ensures row == RowContacts(v, ws, dist)
  {
    row := [];
    for j := 0 to |ws|
      invariant row == RowContacts(v, ws[..j], dist)
    {
      assert ws[..j + 1][..j] == ws[..j];
      if Distance(dist, v, ws[j]) < MaxContactDistance {
        row := row + [Contact(v, ws[j], dist)];
      }
    }
    assert ws[..|ws|] == ws;
  }

  /** The search for the nearest remaining point, keeping the first on a tie. */
  method NearestIndex(from: Vec3, ps: seq<ContactPoint>, dist: Metric) returns (closest: nat)
    requires |ps| > 0
    ensures closest == Nearest(from, ps, |ps|, dist)
  {
    closest := 0;
    var closestDist := Distance(dist, from, ps[0].position);
    for i := 1 to |ps|
      invariant closest == Nearest(from, ps, i, dist)
      invariant closestDist == Distance(dist, from, ps[closest].position)
    {
      var d := Distance(dist, from, ps[i].position);
      if d < closestDist {
        closestDist := d;
        closest := i;
      }
    }
  }

  /** The double loop of `findContactPoints`: every close pair, vertices1 outermost. */
  method CollectCandidates(vertices1: seq<Vec3>, vertices2: seq<Vec3>, dist: Metric)
    returns (contacts: seq<ContactPoint>)
    ensures contacts == Candidates(vertices1, vertices2, dist)
  {
    contacts := [];
    for i := 0 to |vertices1|
      invariant contacts == Candidates(vertices1[..i], vertices2, dist)
    {
      assert vertices1[..i + 1][..i] == vertices1[..i];
      var row := CollectRow(vertices1[i], vertices2, dist);
      contacts := contacts + row;
    }
    assert vertices1[..|vertices1|] == vertices1;
  }

  /** One step of the greedy walk moves the nearest point from the rest to the placed ones. */
  lemma ChainStep(placed: seq<ContactPoint>, from: Vec3, rest: seq<ContactPoint>, k: nat, dist: Metric)
    requires |rest| > 0 && k == Nearest(from, rest, |rest|, dist)
    ensures placed + Chain(from, rest, dist) == (placed + [rest[k]]) + Chain(rest[k].position, Remove(rest, k), dist)
  {
    var tail := Chain(rest[k].position, Remove(rest, k), dist);
    ChainUnfold(from, rest, k, dist);
    SeqAssoc(placed, [rest[k]], tail);
  }

  lemma ChainUnfold(from: Vec3, rest: seq<ContactPoint>, k: nat, dist: Metric)
    requires |rest| > 0 && k == Nearest(from, rest, |rest|, dist)
    ensures Chain(from, rest, dist) == [rest[k]] + Chain(rest[k].position, Remove(rest, k), dist)
  {
  }

  /** The first k + 1 entries are the first k, then entry k. */
  lemma TakeSnoc<T>(s: seq<T>, k: nat)
    requires k < |s|
    ensures s[..k + 1] == s[..k] + [s[k]]
  {
  }

  /** Taking every entry gives the whole sequence. */
  lemma TakeAll<T>(s: seq<T>)
    ensures s[..|s|] == s
  {
  }

  lemma EmptyConcat<T>(s: seq<T>)
    ensures [] + s == s
  {
  }

  lemma SeqAssoc<T>(a: seq<T>, b: seq<T>, c: seq<T>)
    ensures a + (b + c) == (a + b) + c
  {
  }

  /** The ordering loop of `findContactPoints`: repeatedly move the point nearest the last one placed. */
  method OrderContacts(contacts: seq<ContactPoint>, dist: Metric) returns (sorted: seq<ContactPoint>)
    requires |contacts| > 1
    ensures sorted == Route(contacts, dist)
  {
    ghost var route := Route(contacts, dist);
    sorted := [contacts[0]];
    var remaining := contacts[1..];
    while |remaining| > 0
      invariant |sorted| > 0
      invariant sorted + Chain(sorted[|sorted| - 1].position, remaining, dist) == route
      decreases |remaining|
    {
      var last := sorted[|sorted| - 1];
      var k := NearestIndex(last.position, remaining, dist);
      var next := remaining[k];
      ChainStep(sorted, last.position, remaining, k, dist);
      sorted := sorted + [next];
      remaining := Remove(remaining, k);
      assert sorted[|sorted| - 1] == next;
    }
  }

  /** `findContactPoints`: collect the close pairs, then order them into a line. */
  method FindContactPoints(vertices1: seq<Vec3>, vertices2: seq<Vec3>, dist: Metric)
    returns (points: seq<ContactPoint>)
    ensures points == Route(Candidates(vertices1, vertices2, dist), dist)
  {
    var contacts := CollectCandidates(vertices1, vertices2, dist);
    if |contacts| > 1 {
      points := OrderContacts(contacts, dist);
    } else {
      points := contacts;
    }
  }

  // ---------------------------------------------------------------------
  // The fault
  // ---------------------------------------------------------------------

  /** Every contact point with its stress raised by inc. */
  function Raised(cps: seq<ContactPoint>, inc: real): (r: seq<ContactPoint>)
    ensures |r| == |cps|
    ensures forall i :: 0 <= i < |r| ==> r[i] == cps[i].(stress := cps[i].stress + inc)
  {
    seq(|cps|, i requires 0 <= i < |cps| => cps[i].(stress := cps[i].stress + inc))
  }

  /** Every contact point with its stress cut to a tenth. */
  function Damped(cps: seq<ContactPoint>): (r: seq<ContactPoint>)
    ensures |r| == |cps|
    ensures forall i :: 0 <= i < |r| ==> r[i] == cps[i].(stress := cps[i].stress * 0.1)
  {
    seq(|cps|, i requires 0 <= i < |cps| => cps[i].(stress := cps[i].stress * 0.1))
  }

  /** Releasing a fraction f in [0.7, 0.95) of a non-negative stress s leaves 5% to 30% of it. */
  lemma ReleaseBounds(s: real, f: real, r: real)
    requires 0.7 <= f < 0.95 && r == s - s * f
    ensures s >= 0.0 ==> 0.05 * s <= r <= 0.3 * s
  {
    if s >= 0.0 {
      ProductNonNegative(s, 0.95 - f);
      ProductNonNegative(s, f - 0.7);
    }
  }

  lemma ProductNonNegative(x: real, y: real)
    requires x >= 0.0 && y >= 0.0
    ensures x * y >= 0.0
  {
  }

  /** The part of a fault that `update` changes: its stress, its contact points and the time of its last quake. */
  datatype FaultState = FaultState(stress: real, contactPoints: seq<ContactPoint>, lastEarthquakeTime: real)

  class Fault {
    const plate1: Plate
    const plate2: Plate
    const kind: string
    const friction: real
    const strength: real
    const accumulationRate: real
    const decayRate: real
    const env: Env
    var stress: real
    var lastEarthquakeTime: real
    var contactPoints: seq<ContactPoint>

    /** The draws lie in their ranges. */
    ghost predicate Calibrated()
    {
      && 0.3 <= friction < 0.7 && 0.7 <= strength < 1.3
      && 0.05 <= accumulationRate < 0.15 && 0.01 <= decayRate < 0.03
    }

    /**
     * The draws lie in their ranges, the stress is never negative, and a
     * fault whose plates do not touch holds no stress.
     */
    ghost predicate Valid()
      reads this`stress, this`contactPoints
    {
      && Calibrated()
      && stress >= 0.0
      && (|contactPoints| == 0 ==> stress == 0.0)
    }

    /**
     * A fault between two plates, of the given kind or else of the kind the
     * plates' motion determines, drawing its friction, strength and rates
     * from Draw(rand, d) .. Draw(rand, d + 3).
     */
    constructor (plate1: Plate, plate2: Plate, kind: Option<string>, rand: Stream, d: nat, env: Env)
      requires UnitStream(rand) && Sound(env)
      ensures Valid()
      ensures this.plate1 == plate1 && this.plate2 == plate2 && this.env == env
      ensures this.kind == if kind.Some? && kind.value != "" then kind.value
                           else DetermineFaultType(plate1.velocity, plate2.velocity, plate1.density, plate2.density)
      ensures friction == Random(Draw(rand, d), 0.3, 0.7) && strength == Random(Draw(rand, d + 1), 0.7, 1.3)
      ensures accumulationRate == Random(Draw(rand, d + 2), 0.05, 0.15) && decayRate == Random(Draw(rand, d + 3), 0.01, 0.03)
      ensures stress == 0.0 && lastEarthquakeTime == 0.0
      ensures contactPoints == Route(Candidates(plate1.vertices, plate2.vertices, env.dist), env.dist)
    {
      this.plate1 := plate1;
      this.plate2 := plate2;
      this.kind := if kind.Some? && kind.value != "" then kind.value
                   else DetermineFaultType(plate1.velocity, plate2.velocity, plate1.density, plate2.density);
      this.env := env;
      friction := Random(Draw(rand, d), 0.3, 0.7);
      strength := Random(Draw(rand, d + 1), 0.7, 1.3);
      accumulationRate := Random(Draw(rand, d + 2), 0.05, 0.15);
      decayRate := Random(Draw(rand, d + 3), 0.01, 0.03);
      stress := 0.0;
      lastEarthquakeTime := 0.0;
      new;
      contactPoints := FindContactPoints(plate1.vertices, plate2.vertices, env.dist);
    }

    /** The stress one contact point adds over dt: relative speed times friction, dt and rate. */
    function Increment(dt: real): real
    {
      Norm(env, Sub(plate1.velocity, plate2.velocity)) * friction * dt * accumulationRate
    }

    /** With lengths non-negative, no contact point loses stress as time advances. */
    lemma IncrementNonNegative(dt: real)
      requires Calibrated() && Sound(env) && dt >= 0.0
      ensures Increment(dt) >= 0.0
    {
      var speed := Norm(env, Sub(plate1.velocity, plate2.velocity));
      assert speed * friction >= 0.0;
      assert speed * friction * dt >= 0.0;
    }

    /** The stress s of a fault with n contact points after the contact-point loop and the natural decay over dt. */
    function DecayOf(s: real, n: nat, dt: real): real
    {
      Max(0.0, s + n as real * Increment(dt) - decayRate * dt)
    }

    /** What `update(dt)` returns from stress s and n contact points: 0 unless the decayed stress passes the strength. */
    function OutcomeOf(s: real, n: nat, dt: real): real
    {
      var d := DecayOf(s, n, dt);
      if d > strength then 1.5 * Ln(env, d) else 0.0
    }

    /** The fault stress after the contact-point loop and the natural decay of `update`. */
    function Decayed(dt: real): (s: real)
      reads this`stress, this`contactPoints
      requires Valid()
      ensures s >= 0.0
      ensures dt >= 0.0 && |contactPoints| == 0 ==> s == 0.0
    {
      assert dt >= 0.0 ==> decayRate * dt >= 0.0;
      DecayOf(stress, |contactPoints|, dt)
    }

    /** What `update(dt)` returns: 0 below the strength, else the magnitude 1.5 ln(stress). */
    function Outcome(dt: real): (m: real)
      reads this`stress, this`contactPoints
      requires Valid()
      ensures Decayed(dt) <= strength ==> m == 0.0
    {
      OutcomeOf(stress, |contactPoints|, dt)
    }

    /** The fault's current stress, contact points and last quake time. */
    function State(): FaultState
      reads this`stress, this`contactPoints, this`lastEarthquakeTime
    {
      FaultState(stress, contactPoints, lastEarthquakeTime)
    }

    /**
     * The state `update(dt)` leaves from st: every contact point gains the
     * increment, the stress decays, and a decayed stress above the strength
     * keeps only 5% to 30% (draw u), damps the contact points and records
     * the time now.
     */
    function Advanced(st: FaultState, dt: real, u: real, now: real): FaultState
    {
      var s := DecayOf(st.stress, |st.contactPoints|, dt);
      var raised := Raised(st.contactPoints, Increment(dt));
      if s > strength then FaultState(s - s * Random(u, 0.7, 0.95), Damped(raised), now)
      else FaultState(s, raised, st.lastEarthquakeTime)
    }

    /** An advanced fault that was valid stays valid: no negative stress, and none without contact points. */
    lemma AdvancedValid(st: FaultState, dt: real, u: real, now: real)
      requires Calibrated() && st.stress >= 0.0 && (|st.contactPoints| == 0 ==> st.stress == 0.0)
      requires dt >= 0.0 && 0.0 <= u < 1.0
      ensures var r := Advanced(st, dt, u, now);
        && r.stress >= 0.0 && |r.contactPoints| == |st.contactPoints|
        && (|r.contactPoints| == 0 ==> r.stress == 0.0)
    {
      var s := DecayOf(st.stress, |st.contactPoints|, dt);
      assert decayRate * dt >= 0.0;
      if s > strength {
        ReleaseBounds(s, Random(u, 0.7, 0.95), s - s * Random(u, 0.7, 0.95));
      }
    }

    /**
     * A fault that slips starts a quake (a positive magnitude) exactly when
     * its stress is above 1, where the logarithm turns positive.
     */
    lemma OutcomeSign(dt: real)
      requires Valid() && Sound(env) && Decayed(dt) > strength
      ensures Outcome(dt) > 0.0 <==> Decayed(dt) > 1.0
    {
      assert Decayed(dt) > 0.0;
    }

    /**
     * `update(dt)`: every contact point and the fault gain the same
     * increment once per contact point, the stress decays, and a stress
     * above the strength is released in an earthquake whose magnitude is
     * returned (0 when there is none). u is the draw of the release.
     */
    method Update(dt: real, u: real, now: real) returns (magnitude: real)
      requires Valid() && dt >= 0.0 && 0.0 <= u < 1.0
      modifies this`stress, this`contactPoints, this`lastEarthquakeTime
      ensures Valid()
      ensures magnitude == old(Outcome(dt))
      ensures magnitude > 0.0 ==> |contactPoints| > 0
      ensures State() == Advanced(old(State()), dt, u, now)
      ensures var s := old(Decayed(dt)); var raised := Raised(old(contactPoints), Increment(dt));
        if s > strength then
          stress == s - s * Random(u, 0.7, 0.95) && contactPoints == Damped(raised) && lastEarthquakeTime == now
        else
          stress == s && contactPoints == raised && lastEarthquakeTime == old(lastEarthquakeTime)
    {
      Strain(dt);
      if stress > strength {
        magnitude := TriggerEarthquake(u, now);
      } else {
        magnitude := 0.0;
      }
    }

    /** The first half of `update`: the contact-point loop, then the natural decay. */
    method Strain(dt: real)
      requires Valid() && dt >= 0.0
      modifies this`stress, this`contactPoints
      ensures stress == old(Decayed(dt))
      ensures contactPoints == Raised(old(contactPoints), Increment(dt))
    {
      var inc := Increment(dt);
      AccumulateStress(inc);
      stress := Max(0.0, stress - decayRate * dt);
    }

    /** The loop of `update`: each contact point, and the fault once per point, gain inc. */
    method AccumulateStress(inc: real)
      modifies this`stress, this`contactPoints
      ensures contactPoints == Raised(old(contactPoints), inc)
      ensures stress == old(stress) + |contactPoints| as real * inc
    {
      ghost var cps0 := contactPoints;
      ghost var s0 := stress;
      for i := 0 to |contactPoints|
        invariant |contactPoints| == |cps0|
        invariant forall k :: 0 <= k < i ==> contactPoints[k] == cps0[k].(stress := cps0[k].stress + inc)
        invariant forall k :: i <= k < |cps0| ==> contactPoints[k] == cps0[k]
        invariant stress == s0 + i as real * inc
      {
        contactPoints := contactPoints[i := contactPoints[i].(stress := contactPoints[i].stress + inc)];
        stress := stress + inc;
      }
    }

    /** The loop of `triggerEarthquake`: each contact point keeps a tenth of its stress. */
    method DampContacts()
      modifies this`contactPoints
      ensures contactPoints == Damped(old(contactPoints))
    {
      ghost var cps0 := contactPoints;
      for i := 0 to |contactPoints|
        invariant |contactPoints| == |cps0|
        invariant forall k :: 0 <= k < i ==> contactPoints[k] == cps0[k].(stress := cps0[k].stress * 0.1)
        invariant forall k :: i <= k < |cps0| ==> contactPoints[k] == cps0[k]
      {
        contactPoints := contactPoints[i := contactPoints[i].(stress := contactPoints[i].stress * 0.1)];
      }
    }

    /**
     * `triggerEarthquake`: the magnitude is 1.5 ln(stress); 70% to 95% of the
     * stress is released, so 5% to 30% remains, and each contact point keeps
     * a tenth of its stress.
     */
    method TriggerEarthquake(u: real, now: real) returns (magnitude: real)
      requires 0.0 <= u < 1.0
      modifies this`stress, this`contactPoints, this`lastEarthquakeTime
      ensures magnitude == 1.5 * Ln(env, old(stress))
      ensures stress == old(stress) - old(stress) * Random(u, 0.7, 0.95)
      ensures old(stress) >= 0.0 ==> 0.05 * old(stress) <= stress <= 0.3 * old(stress)
      ensures contactPoints == Damped(old(contactPoints))
      ensures lastEarthquakeTime == now
    {
      var s := stress;
      magnitude := Ln(env, s) * 1.5;
      var fraction := Random(u, 0.7, 0.95);
      var remaining := s - s * fraction;
      ReleaseBounds(s, fraction, remaining);
      stress := remaining;
      lastEarthquakeTime := now;
      DampContacts();
    }
  }
}

=== FILE: tectonic_plate.dfy ===
/**
 * One tectonic plate (plate.js): its fixed shape and physical properties,
 * and the list of stress points it accumulates and releases.
 */
module TectonicPlate {
  import opened Common
  import opened TectonicUtils

  /** A point of stress on the plate. */
  datatype StressPoint = StressPoint(position: Vec3, amount: real, age: real)

  /** The sum of the amounts, first point first. */
  function Sum(ps: seq<StressPoint>): real
  {
    if |ps| == 0 then 0.0 else ps[0].amount + Sum(ps[1..])
  }

  /** `reduce((sum, point) => sum + point.amount, acc)`: the left fold. */
  function Fold(acc: real, ps: seq<StressPoint>): (t: real)
    ensures t == acc + Sum(ps)
    decreases ps
  {
    if |ps| == 0 then acc else Fold(acc + ps[0].amount, ps[1..])
  }

  lemma {:induction false} SumAppend(ps: seq<StressPoint>, p: StressPoint)
    ensures Sum(ps + [p]) == Sum(ps) + p.amount
  {
    if |ps| > 0 {
      assert (ps + [p])[1..] == ps[1..] + [p];
      SumAppend(ps[1..], p);
    }
  }

  /** Every amount is at least zero. */
  ghost predicate NonNegative(ps: seq<StressPoint>)
  {
    forall i :: 0 <= i < |ps| ==> ps[i].amount >= 0.0
  }

  lemma {:induction false} SumNonNegative(ps: seq<StressPoint>)
    requires NonNegative(ps)
    ensures Sum(ps) >= 0.0
  {
    if |ps| > 0 {
      SumNonNegative(ps[1..]);
    }
  }

  // ---------------------------------------------------------------------
  // Sorting by amount, highest first (`sort((a, b) => b.amount - a.amount)`)
  // ---------------------------------------------------------------------

  ghost predicate Descending(ps: seq<StressPoint>)
  {
    forall i, j :: 0 <= i < j < |ps| ==> ps[i].amount >= ps[j].amount
  }

  /** p placed before the first point of s whose amount does not exceed its own. */
  function Insert(p: StressPoint, s: seq<StressPoint>): (r: seq<StressPoint>)
    ensures multiset(r) == multiset(s) + multiset{p}
    ensures |r| == |s| + 1
  {
    if |s| == 0 || s[0].amount <= p.amount then [p] + s
    else
      assert s == [s[0]] + s[1..];
      [s[0]] + Insert(p, s[1..])
  }

  lemma {:induction false} InsertDescending(p: StressPoint, s: seq<StressPoint>)
    requires Descending(s)
    ensures Descending(Insert(p, s))
    ensures |s| > 0 ==> Insert(p, s)[0] == (if s[0].amount <= p.amount then p else s[0])
  {
    if |s| > 0 && s[0].amount > p.amount {
      InsertDescending(p, s[1..]);
      var t := Insert(p, s[1..]);
      assert Insert(p, s) == [s[0]] + t;
      forall j | 0 <= j < |t| ensures s[0].amount >= t[j].amount {
        assert t[j] in multiset(s[1..]) + multiset{p};
      }
      DescendingCons(s[0], t);
    }
  }

  lemma DescendingCons(x: StressPoint, t: seq<StressPoint>)
    requires Descending(t)
    requires forall j :: 0 <= j < |t| ==> x.amount >= t[j].amount
    ensures Descending([x] + t)
  {
    var r := [x] + t;
    forall i, j | 0 <= i < j < |r| ensures r[i].amount >= r[j].amount {
      assert r[j] == t[j - 1];
      if i > 0 {
        assert r[i] == t[i - 1];
      }
    }
  }

  /** A stable sort of the points by decreasing amount. */
  function SortDesc(ps: seq<StressPoint>): (r: seq<StressPoint>)
    ensures multiset(r) == multiset(ps)
  {
    if |ps| == 0 then []
    else
      assert ps == [ps[0]] + ps[1..];
      Insert(ps[0], SortDesc(ps[1..]))
  }

  /** The sort orders the points by decreasing amount. */
  lemma {:induction false} SortDescOrdered(ps: seq<StressPoint>)
    ensures Descending(SortDesc(ps))
  {
    if |ps| > 0 {
      SortDescOrdered(ps[1..]);
      InsertDescending(ps[0], SortDesc(ps[1..]));
    }
  }

  /** Sums only depend on which points there are, not on their order. */
  lemma {:induction false} SumPermutation(a: seq<StressPoint>, b: seq<StressPoint>)
    requires multiset(a) == multiset(b)
    ensures Sum(a) == Sum(b)
    decreases |a|
  {
    if |a| > 0 {
      var p := a[0];
      assert p in multiset(b);
      var k :| 0 <= k < |b| && b[k] == p;
      var rest := b[..k] + b[k + 1..];
      assert b == b[..k] + [p] + b[k + 1..];
      assert multiset(a[1..]) == multiset(rest) by {
        assert a == [p] + a[1..];
        assert multiset(a) == multiset{p} + multiset(a[1..]);
        assert multiset(b) == multiset(b[..k]) + multiset{p} + multiset(b[k + 1..]);
        assert multiset(rest) == multiset(b[..k]) + multiset(b[k + 1..]);
        assert multiset(a[1..]) == multiset(a) - multiset{p};
        assert multiset(rest) == multiset(b) - multiset{p};
      }
      SumPermutation(a[1..], rest);
      SumMoveFront(b[..k], p, b[k + 1..]);
    }
  }

  lemma {:induction false} SumMoveFront(x: seq<StressPoint>, p: StressPoint, y: seq<StressPoint>)
    ensures Sum(x + [p] + y) == p.amount + Sum(x + y)
  {
    if |x| == 0 {
      assert x + [p] + y == [p] + y;
      assert ([p] + y)[1..] == y;
      assert x + y == y;
    } else {
      assert (x + [p] + y)[1..] == x[1..] + [p] + y;
      assert (x + y)[1..] == x[1..] + y;
      SumMoveFront(x[1..], p, y);
    }
  }

  // ---------------------------------------------------------------------
  // Draining and filtering
  // ---------------------------------------------------------------------

  /**
   * The drain loop of `releaseStress`, from point ps[0] with `remaining` left
   * to release: the points afterwards and how much was released.
   */
  function Drain(ps: seq<StressPoint>, remaining: real): (r: (seq<StressPoint>, real))
    ensures |r.0| == |ps|
  {
    if |ps| == 0 || remaining <= 0.0 then (ps, 0.0)
    else
      var release := Min(ps[0].amount, remaining);
      var rest := Drain(ps[1..], remaining - release);
      ([ps[0].(amount := ps[0].amount - release)] + rest.0, release + rest.1)
  }

  /** Draining takes from the amounts exactly what it reports as released. */
  lemma {:induction false} DrainSum(ps: seq<StressPoint>, remaining: real)
    ensures Sum(Drain(ps, remaining).0) == Sum(ps) - Drain(ps, remaining).1
  {
    if |ps| > 0 && remaining > 0.0 {
      var release := Min(ps[0].amount, remaining);
      DrainSum(ps[1..], remaining - release);
      assert Drain(ps, remaining).0[1..] == Drain(ps[1..], remaining - release).0;
    }
  }

  /** The release never exceeds the request, and nothing is released for a request of 0 or less. */
  lemma {:induction false} DrainBounded(ps: seq<StressPoint>, remaining: real)
    ensures remaining <= 0.0 ==> Drain(ps, remaining).1 == 0.0
    ensures remaining > 0.0 ==> Drain(ps, remaining).1 <= remaining
  {
    if |ps| > 0 && remaining > 0.0 {
      var release := Min(ps[0].amount, remaining);
      DrainBounded(ps[1..], remaining - release);
    }
  }

  /** With non-negative amounts, exactly min(request, total) is released and no amount goes negative. */
  lemma {:induction false} DrainExact(ps: seq<StressPoint>, remaining: real)
    requires NonNegative(ps) && remaining >= 0.0
    ensures Drain(ps, remaining).1 == Min(remaining, Sum(ps))
    ensures NonNegative(Drain(ps, remaining).0)
  {
    if |ps| == 0 {
    } else if remaining == 0.0 {
      SumNonNegative(ps);
    } else {
      var release := Min(ps[0].amount, remaining);
      DrainExact(ps[1..], remaining - release);
      var r := Drain(ps, remaining).0;
      assert r[1..] == Drain(ps[1..], remaining - release).0;
      assert forall i :: 1 <= i < |r| ==> r[i] == r[1..][i - 1];
    }
  }

  /** `filter(point => point.amount > 0.01)`. */
  function Keep(ps: seq<StressPoint>): (r: seq<StressPoint>)
    ensures forall i :: 0 <= i < |r| ==> r[i].amount > 0.01
    ensures multiset(r) <= multiset(ps)
  {
    if |ps| == 0 then []
    else if ps[0].amount > 0.01 then
      assert ps == [ps[0]] + ps[1..];
      [ps[0]] + Keep(ps[1..])
    else
      assert ps == [ps[0]] + ps[1..];
      Keep(ps[1..])
  }

  /** Dropping non-negative points never raises the total. */
  lemma {:induction false} KeepSum(ps: seq<StressPoint>)
    requires NonNegative(ps)
    ensures Sum(Keep(ps)) <= Sum(ps)
  {
    if |ps| > 0 {
      KeepSum(ps[1..]);
    }
  }

  /** The points and the released amount `releaseStress(amount)` leaves, as a function of the old points. */
  function Release(ps: seq<StressPoint>, amount: real): (seq<StressPoint>, real)
  {
    var d := Drain(SortDesc(ps), amount);
    (Keep(d.0), d.1)
  }

  /**
   * What `releaseStress` promises: it never releases more than was asked;
   * with non-negative amounts it releases min(request, total); what is left
   * is above 0.01 everywhere and totals at most the old total less the release.
   */
  lemma ReleaseSpec(ps: seq<StressPoint>, amount: real)
    ensures amount <= 0.0 ==> Release(ps, amount).1 == 0.0
    ensures amount > 0.0 ==> Release(ps, amount).1 <= amount
    ensures forall i :: 0 <= i < |Release(ps, amount).0| ==> Release(ps, amount).0[i].amount > 0.01
    ensures NonNegative(ps) && amount >= 0.0 ==>
      && Release(ps, amount).1 == Min(amount, Sum(ps))
      && Sum(Release(ps, amount).0) <= Sum(ps) - Release(ps, amount).1
  {
    var s := SortDesc(ps);
    SortDescOrdered(ps);
    DrainBounded(s, amount);
    if NonNegative(ps) && amount >= 0.0 {
      assert NonNegative(s) by {
        forall i | 0 <= i < |s| ensures s[i].amount >= 0.0 {
          assert s[i] in multiset(ps);
        }
      }
      SumPermutation(s, ps);
      DrainExact(s, amount);
      DrainSum(s, amount);
      KeepSum(Drain(s, amount).0);
    }
  }

  /**
   * The loop of `releaseStress` over the sorted points: while something is
   * left to release, take min(point amount, remaining) from the next point.
   * `done` holds the points visited so far, `rest` the ones still to visit.
   */
  method DrainInOrder(sorted: seq<StressPoint>, amount: real) returns (points: seq<StressPoint>, released: real)
    ensures points == Drain(sorted, amount).0 && released == Drain(sorted, amount).1
  {
    var done: seq<StressPoint> := [];
    var rest := sorted;
    var remaining := amount;
    released := 0.0;
    while |rest| > 0 && remaining > 0.0
      invariant Drain(sorted, amount).0 == done + Drain(rest, remaining).0
      invariant Drain(sorted, amount).1 == released + Drain(rest, remaining).1
      decreases |rest|
    {
      var release := Min(rest[0].amount, remaining);
      var drained := rest[0].(amount := rest[0].amount - release);
      ghost var tail := Drain(rest[1..], remaining - release);
      assert Drain(rest, remaining).0 == [drained] + tail.0;
      assert done + ([drained] + tail.0) == (done + [drained]) + tail.0;
      done := done + [drained];
      rest := rest[1..];
      remaining := remaining - release;
      released := released + release;
    }
    points := done + rest;
  }

  // ---------------------------------------------------------------------
  // The plate
  // ---------------------------------------------------------------------

  class Plate {
    const id: nat
    const vertices: seq<Vec3>
    const velocity: Vec3
    const rotationCenter: Vec3
    const rotationSpeed: real
    const density: real
    const thickness: real
    const isOceanic: bool
    const color: (real, real, real)
    const opacity: real
    var stressPoints: seq<StressPoint>
    var deformation: real

    /** A plate drawing density, thickness, kind and colour from Draw(rand, d) .. Draw(rand, d + 5). */
    constructor (id: nat, vertices: seq<Vec3>, velocity: Vec3, rotationCenter: Vec3,
                 rotationSpeed: real, rand: Stream, d: nat)
      ensures this.id == id && this.vertices == vertices && this.velocity == velocity
      ensures this.rotationCenter == rotationCenter && this.rotationSpeed == rotationSpeed
      ensures density == Random(Draw(rand, d), 0.8, 1.2) && thickness == Random(Draw(rand, d + 1), 0.8, 1.2)
      ensures isOceanic == (Draw(rand, d + 2) > 0.5)
      ensures color == (Random(Draw(rand, d + 3), 0.2, 0.8), Random(Draw(rand, d + 4), 0.2, 0.8), Random(Draw(rand, d + 5), 0.2, 0.8))
      ensures opacity == if isOceanic then 0.8 else 1.0
      ensures UnitStream(rand) ==> 0.8 <= density < 1.2 && 0.8 <= thickness < 1.2
      ensures stressPoints == [] && deformation == 0.0
    {
      this.id := id;
      this.vertices := vertices;
      this.velocity := velocity;
      this.rotationCenter := rotationCenter;
      this.rotationSpeed := rotationSpeed;
      density := Random(Draw(rand, d), 0.8, 1.2);
      thickness := Random(Draw(rand, d + 1), 0.8, 1.2);
      var oceanic := Draw(rand, d + 2) > 0.5;
      isOceanic := oceanic;
      color := (Random(Draw(rand, d + 3), 0.2, 0.8), Random(Draw(rand, d + 4), 0.2, 0.8), Random(Draw(rand, d + 5), 0.2, 0.8));
      opacity := if oceanic then 0.8 else 1.0;
      stressPoints := [];
      deformation := 0.0;
    }

    /** `getTotalStress`: the reduce over the stress points. */
    function TotalStress(): (t: real)
      reads this
      ensures t == Sum(stressPoints)
    {
      Fold(0.0, stressPoints)
    }

    /** `addStress`: one more point of the given amount, aged 0. */
    method AddStress(point: Vec3, amount: real)
      modifies this`stressPoints, this`deformation
      ensures stressPoints == old(stressPoints) + [StressPoint(point, amount, 0.0)]
      ensures deformation == old(deformation) + amount
      ensures TotalStress() == old(TotalStress()) + amount
    {
      SumAppend(stressPoints, StressPoint(point, amount, 0.0));
      stressPoints := stressPoints + [StressPoint(point, amount, 0.0)];
      deformation := deformation + amount;
    }

    /**
     * `releaseStress`: sort the points by decreasing amount, take up to
     * `amount` from them in that order, drop the points left at 0.01 or
     * less, and lower the deformation by what was released.
     */
    method ReleaseStress(amount: real) returns (released: real)
      modifies this`stressPoints, this`deformation
      ensures (stressPoints, released) == Release(old(stressPoints), amount)
      ensures deformation == old(deformation) - released
    {
      var points;
      points, released := DrainInOrder(SortDesc(stressPoints), amount);
      stressPoints := Keep(points);
      deformation := deformation - released;
    }
  }
}

=== FILE: tectonic_simulation.dfy ===
/**
 * The tectonic simulation (simulation.js): the plates, the faults found
 * between them, the earthquakes in progress, the running statistics, and
 * the tick that advances them all.
 */
module TectonicSimulation {
  import opened Common
  import opened TectonicUtils
  import opened TectonicPlate
  import opened TectonicFault
  import opened TectonicEarthquake

  /** Plates with a pair of vertices closer than this get a fault. */
  const FaultDistance: real := 5.0

  // ---------------------------------------------------------------------
  // Which plate pairs get a fault
  // ---------------------------------------------------------------------

  /** `Math.min(a, b)` where `None` stands for `Infinity`. */
  function MinOpt(a: Option<real>, b: Option<real>): Option<real>
  {
    if a.None? then b else if b.None? then a else Some(Min(a.value, b.value))
  }

  /** The least distance from v to a vertex of ws, `None` (Infinity) when ws is empty. */
  function MinRow(v: Vec3, ws: seq<Vec3>, dist: Metric): Option<real>
  {
    if |ws| == 0 then None
    else MinOpt(MinRow(v, ws[..|ws| - 1], dist), Some(Distance(dist, v, ws[|ws| - 1])))
  }

  /** The least distance between a vertex of vs and one of ws, `None` when there is no pair. */
  function MinAll(vs: seq<Vec3>, ws: seq<Vec3>, dist: Metric): Option<real>
  {
    if |vs| == 0 then None
    else MinOpt(MinAll(vs[..|vs| - 1], ws, dist), MinRow(vs[|vs| - 1], ws, dist))
  }

  lemma {:induction false} MinRowBelow(v: Vec3, ws: seq<Vec3>, dist: Metric, bound: real)
    ensures (MinRow(v, ws, dist).Some? && MinRow(v, ws, dist).value < bound) <==>
      exists j :: 0 <= j < |ws| && Distance(dist, v, ws[j]) < bound
  {
    if |ws| > 0 {
      var init := ws[..|ws| - 1];
      MinRowBelow(v, init, dist, bound);
      if exists j :: 0 <= j < |ws| && Distance(dist, v, ws[j]) < bound {
        var j :| 0 <= j < |ws| && Distance(dist, v, ws[j]) < bound;
        if j < |init| {
          assert init[j] == ws[j];
        }
      }
      if MinRow(v, init, dist).Some? && MinRow(v, init, dist).value < bound {
        var j :| 0 <= j < |init| && Distance(dist, v, init[j]) < bound;
        assert ws[j] == init[j];
      }
    }
  }

  /** Two vertex lists are closer than a bound exactly when some pair of their vertices is. */
  lemma {:induction false} MinAllBelow(vs: seq<Vec3>, ws: seq<Vec3>, dist: Metric, bound: real)
    ensures (MinAll(vs, ws, dist).Some? && MinAll(vs, ws, dist).value < bound) <==>
      exists i, j :: 0 <= i < |vs| && 0 <= j < |ws| && Distance(dist, vs[i], ws[j]) < bound
  {
    if |vs| > 0 {
      var init := vs[..|vs| - 1];
      var v := vs[|vs| - 1];
      MinAllBelow(init, ws, dist, bound);
      MinRowBelow(v, ws, dist, bound);
      if exists i, j :: 0 <= i < |vs| && 0 <= j < |ws| && Distance(dist, vs[i], ws[j]) < bound {
        var i, j :| 0 <= i < |vs| && 0 <= j < |ws| && Distance(dist, vs[i], ws[j]) < bound;
        if i < |init| {
          assert init[i] == vs[i];
        }
      }
      if MinAll(init, ws, dist).Some? && MinAll(init, ws, dist).value < bound {
        var i, j :| 0 <= i < |init| && 0 <= j < |ws| && Distance(dist, init[i], ws[j]) < bound;
        assert vs[i] == init[i];
      }
    }
  }

  lemma MinOptAssoc(a: Option<real>, b: Option<real>, c: Option<real>)
    ensures MinOpt(MinOpt(a, b), c) == MinOpt(a, MinOpt(b, c))
  {
  }

  /**
   * The double loop of `createFaults` that finds the least distance between
   * the vertices of two plates, starting from Infinity (`None`).
   */
  method MinDistance(vs: seq<Vec3>, ws: seq<Vec3>, dist: Metric) returns (minDistance: Option<real>)
    ensures minDistance == MinAll(vs, ws, dist)
  {
    minDistance := None;
    var a := 0;
    while a < |vs|
      invariant 0 <= a <= |vs|
      invariant minDistance == MinAll(vs[..a], ws, dist)
    {
      var b := 0;
      while b < |ws|
        invariant 0 <= b <= |ws|
        invariant minDistance == MinOpt(MinAll(vs[..a], ws, dist), MinRow(vs[a], ws[..b], dist))
      {
        assert ws[..b + 1][..b] == ws[..b];
        MinOptAssoc(MinAll(vs[..a], ws, dist), MinRow(vs[a], ws[..b], dist), Some(Distance(dist, vs[a], ws[b])));
        minDistance := MinOpt(minDistance, Some(Distance(dist, vs[a], ws[b])));
        b := b + 1;
      }
      assert ws[..b] == ws;
      assert vs[..a + 1][..a] == vs[..a];
      a := a + 1;
    }
    assert vs[..a] == vs;
  }

  /** The fault test of `createFaults`: the least vertex distance is below 5. */
  predicate Close(p: Plate, q: Plate, dist: Metric)
  {
    var m := MinAll(p.vertices, q.vertices, dist);
    m.Some? && m.value < FaultDistance
  }

  /** The pair (i, j) if plates i and j get a fault, nothing otherwise. */
  function PairIfClose(plates: seq<Plate>, i: nat, j: nat, dist: Metric): seq<(nat, nat)>
    requires i < |plates| && j < |plates|
  {
    if Close(plates[i], plates[j], dist) then [(i, j)] else []
  }

  /** The pairs (i, j), i < j < m, that get a fault, in the order of the inner loop. */
  function RowPairs(plates: seq<Plate>, i: nat, m: nat, dist: Metric): seq<(nat, nat)>
    requires m <= |plates|
  {
    if m <= i + 1 then []
    else RowPairs(plates, i, m - 1, dist) + PairIfClose(plates, i, m - 1, dist)
  }

  /** The pairs that get a fault once the outer loop has visited plates 0 .. n - 1. */
  function ClosePairs(plates: seq<Plate>, n: nat, dist: Metric): seq<(nat, nat)>
    requires n <= |plates|
  {
    if n == 0 then []
    else ClosePairs(plates, n - 1, dist) + RowPairs(plates, n - 1, |plates|, dist)
  }

  /** The inner loop of row i, run up to m, pairs plate i only with plates after it and before m. */
  lemma {:induction false} RowPairsRange(plates: seq<Plate>, i: nat, m: nat, dist: Metric)
    requires m <= |plates|
    ensures forall t :: 0 <= t < |RowPairs(plates, i, m, dist)| ==>
      RowPairs(plates, i, m, dist)[t].0 == i && i < RowPairs(plates, i, m, dist)[t].1 < m
  {
    if m > i + 1 {
      RowPairsRange(plates, i, m - 1, dist);
      var a := RowPairs(plates, i, m - 1, dist);
      var r := RowPairs(plates, i, m, dist);
      var c := PairIfClose(plates, i, m - 1, dist);
      assert r == a + c;
      forall t | 0 <= t < |r| ensures r[t].0 == i && i < r[t].1 < m {
        if t < |a| {
          assert r[t] == a[t];
        } else {
          assert r[t] == c[t - |a|] == (i, m - 1);
        }
      }
    }
  }

  /** After rows 0 .. n - 1, every pair (i, j) has i < n and i < j < |plates|. */
  lemma {:induction false} ClosePairsRange(plates: seq<Plate>, n: nat, dist: Metric)
    requires n <= |plates|
    ensures forall t :: 0 <= t < |ClosePairs(plates, n, dist)| ==>
      ClosePairs(plates, n, dist)[t].0 < n && ClosePairs(plates, n, dist)[t].0 < ClosePairs(plates, n, dist)[t].1 < |plates|
  {
    if n > 0 {
      ClosePairsRange(plates, n - 1, dist);
      RowPairsRange(plates, n - 1, |plates|, dist);
      var a := ClosePairs(plates, n - 1, dist);
      var b := RowPairs(plates, n - 1, |plates|, dist);
      var r := ClosePairs(plates, n, dist);
      assert r == a + b;
      forall t | 0 <= t < |r| ensures r[t].0 < n && r[t].0 < r[t].1 < |plates| {
        if t < |a| {
          assert r[t] == a[t];
        } else {
          assert r[t] == b[t - |a|];
        }
      }
    }
  }

  lemma RowPairsStep(plates: seq<Plate>, i: nat, j: nat, dist: Metric)
    requires i < j < |plates|
    ensures RowPairs(plates, i, j + 1, dist) == RowPairs(plates, i, j, dist) + PairIfClose(plates, i, j, dist)
  {
  }

  /** (a, b) comes before (c, d) in the order of the double loop. */
  predicate Before(x: (nat, nat), y: (nat, nat))
  {
    x.0 < y.0 || (x.0 == y.0 && x.1 < y.1)
  }

  ghost predicate Increasing(ps: seq<(nat, nat)>)
  {
    forall s, t :: 0 <= s < t < |ps| ==> Before(ps[s], ps[t])
  }

  /** The inner loop finds the close pairs of row i in increasing j. */
  lemma {:induction false} RowPairsIncreasing(plates: seq<Plate>, i: nat, m: nat, dist: Metric)
    requires m <= |plates|
    ensures Increasing(RowPairs(plates, i, m, dist))
  {
    if m > i + 1 {
      var a := RowPairs(plates, i, m - 1, dist);
      RowPairsIncreasing(plates, i, m - 1, dist);
      RowPairsRange(plates, i, m - 1, dist);
      assert RowPairs(plates, i, m, dist) == a + PairIfClose(plates, i, m - 1, dist);
      forall s, t | 0 <= s < t < |a| + |PairIfClose(plates, i, m - 1, dist)|
        ensures Before(RowPairs(plates, i, m, dist)[s], RowPairs(plates, i, m, dist)[t])
      {
        if t == |a| {
          assert RowPairs(plates, i, m, dist)[s] == a[s];
        }
      }
    }
  }

  /** The inner loop finds exactly the close pairs (i, j), i < j < m. */
  lemma {:induction false} RowPairsMember(plates: seq<Plate>, i: nat, m: nat, dist: Metric, j: nat)
    requires m <= |plates|
    ensures (i, j) in RowPairs(plates, i, m, dist) <==> i < j < m && Close(plates[i], plates[j], dist)
  {
    if m > i + 1 {
      var a := RowPairs(plates, i, m - 1, dist);
      var c := PairIfClose(plates, i, m - 1, dist);
      RowPairsMember(plates, i, m - 1, dist, j);
      assert RowPairs(plates, i, m, dist) == a + c;
      assert (i, j) in c <==> j == m - 1 && Close(plates[i], plates[m - 1], dist);
      assert (i, j) in a + c <==> (i, j) in a || (i, j) in c;
    }
  }

  /** Pairs of an earlier row, followed by pairs of a later row, stay in loop order. */
  lemma ConcatIncreasing(a: seq<(nat, nat)>, b: seq<(nat, nat)>, n: nat)
    requires Increasing(a) && Increasing(b)
    requires forall t :: 0 <= t < |a| ==> a[t].0 < n
    requires forall t :: 0 <= t < |b| ==> b[t].0 == n
    ensures Increasing(a + b)
  {
    forall s, t | 0 <= s < t < |a + b| ensures Before((a + b)[s], (a + b)[t]) {
      if t < |a| {
        assert (a + b)[s] == a[s] && (a + b)[t] == a[t];
      } else if s < |a| {
        assert (a + b)[s] == a[s] && (a + b)[t] == b[t - |a|];
      } else {
        assert (a + b)[s] == b[s - |a|] && (a + b)[t] == b[t - |a|];
      }
    }
  }

  /** `createFaults` visits the pairs in the order of its double loop. */
  lemma {:induction false} ClosePairsIncreasing(plates: seq<Plate>, n: nat, dist: Metric)
    requires n <= |plates|
    ensures Increasing(ClosePairs(plates, n, dist))
  {
    if n > 0 {
      var k: nat := n - 1;
      var a := ClosePairs(plates, k, dist);
      var b := RowPairs(plates, k, |plates|, dist);
      assert ClosePairs(plates, n, dist) == a + b;
      ClosePairsIncreasing(plates, k, dist);
      RowPairsIncreasing(plates, k, |plates|, dist);
      ClosePairsRange(plates, k, dist);
      RowPairsRange(plates, k, |plates|, dist);
      assert forall t :: 0 <= t < |a| ==> a[t].0 < k;
      assert forall t :: 0 <= t < |b| ==> b[t].0 == k;
      ConcatIncreasing(a, b, k);
    }
  }

  /** So no pair of plates gets two faults. */
  lemma ClosePairsDistinct(plates: seq<Plate>, n: nat, dist: Metric)
    requires n <= |plates|
    ensures var ps := ClosePairs(plates, n, dist); forall s, t :: 0 <= s < t < |ps| ==> ps[s] != ps[t]
  {
    ClosePairsIncreasing(plates, n, dist);
  }

  /** Every pair `createFaults` gives a fault is a pair i < j of close plates, i in the rows visited. */
  lemma {:induction false} ClosePairsSound(plates: seq<Plate>, n: nat, dist: Metric, i: nat, j: nat)
    requires n <= |plates| && (i, j) in ClosePairs(plates, n, dist)
    ensures i < n && i < j < |plates| && Close(plates[i], plates[j], dist)
  {
    ClosePairsRange(plates, n, dist);
    var u :| 0 <= u < |ClosePairs(plates, n, dist)| && ClosePairs(plates, n, dist)[u] == (i, j);
    var a := ClosePairs(plates, n - 1, dist);
    var b := RowPairs(plates, n - 1, |plates|, dist);
    assert ClosePairs(plates, n, dist) == a + b;
    if (i, j) in a {
      ClosePairsSound(plates, n - 1, dist, i, j);
    } else {
      assert (i, j) in b;
      var t :| 0 <= t < |b| && b[t] == (i, j);
      RowPairsRange(plates, n - 1, |plates|, dist);
      RowPairsMember(plates, n - 1, |plates|, dist, j);
    }
  }

  /** Every pair i < j of close plates, i in the rows visited, gets a fault. */
  lemma {:induction false} ClosePairsComplete(plates: seq<Plate>, n: nat, dist: Metric, i: nat, j: nat)
    requires n <= |plates| && i < n && i < j < |plates| && Close(plates[i], plates[j], dist)
    ensures (i, j) in ClosePairs(plates, n, dist)
  {
    var a := ClosePairs(plates, n - 1, dist);
    var b := RowPairs(plates, n - 1, |plates|, dist);
    assert ClosePairs(plates, n, dist) == a + b;
    if i < n - 1 {
      ClosePairsComplete(plates, n - 1, dist, i, j);
      assert (i, j) in a;
    } else {
      RowPairsMember(plates, n - 1, |plates|, dist, j);
      assert (i, j) in b;
    }
  }

  /**
   * `createFaults` gives a fault to exactly the pairs i < j of plates with
   * vertices closer than 5.
   */
  lemma ClosePairsMember(plates: seq<Plate>, n: nat, dist: Metric, i: nat, j: nat)
    requires n <= |plates|
    ensures (i, j) in ClosePairs(plates, n, dist) <==> i < n && i < j < |plates| && Close(plates[i], plates[j], dist)
  {
    if (i, j) in ClosePairs(plates, n, dist) {
      ClosePairsSound(plates, n, dist, i, j);
    }
    if i < n && i < j < |plates| && Close(plates[i], plates[j], dist) {
      ClosePairsComplete(plates, n, dist, i, j);
    }
  }

  // ---------------------------------------------------------------------
  // Bookkeeping of a tick
  // ---------------------------------------------------------------------

  /** The magnitudes of the quakes a tick triggers: the positive fault outcomes, in fault order. */
  function Positives(ms: seq<real>): (r: seq<real>)
    ensures |r| <= |ms|
  {
    if |ms| == 0 then []
    else Positives(ms[..|ms| - 1]) + (if ms[|ms| - 1] > 0.0 then [ms[|ms| - 1]] else [])
  }

  /** Only positive outcomes start quakes. */
  lemma {:induction false} PositivesPositive(ms: seq<real>)
    ensures forall t :: 0 <= t < |Positives(ms)| ==> Positives(ms)[t] > 0.0
  {
    if |ms| > 0 {
      var init, m := ms[..|ms| - 1], ms[|ms| - 1];
      PositivesPositive(init);
      assert Positives(ms) == Positives(init) + (if m > 0.0 then [m] else []);
    }
  }

  /** When every fault slips, every outcome starts a quake, in fault order. */
  lemma {:induction false} PositivesAll(ms: seq<real>)
    requires forall t :: 0 <= t < |ms| ==> ms[t] > 0.0
    ensures Positives(ms) == ms
  {
    if |ms| > 0 {
      var init, m := ms[..|ms| - 1], ms[|ms| - 1];
      assert forall t :: 0 <= t < |init| ==> init[t] == ms[t];
      PositivesAll(init);
      assert Positives(ms) == init + [m];
      assert init + [m] == ms;
    }
  }

  /** When no fault slips, no quake starts. */
  lemma {:induction false} PositivesNone(ms: seq<real>)
    requires forall t :: 0 <= t < |ms| ==> ms[t] <= 0.0
    ensures Positives(ms) == []
  {
    if |ms| > 0 {
      var init := ms[..|ms| - 1];
      assert forall t :: 0 <= t < |init| ==> init[t] == ms[t];
      PositivesNone(init);
    }
  }

  /** The largest of acc and the values ms. */
  function MaxOf(acc: real, ms: seq<real>): (r: real)
    ensures r >= acc
  {
    if |ms| == 0 then acc else Max(MaxOf(acc, ms[..|ms| - 1]), ms[|ms| - 1])
  }

  /** MaxOf is an upper bound of acc and of every value, and is one of them. */
  lemma {:induction false} MaxOfSpec(acc: real, ms: seq<real>)
    ensures forall t :: 0 <= t < |ms| ==> MaxOf(acc, ms) >= ms[t]
    ensures MaxOf(acc, ms) == acc || exists t :: 0 <= t < |ms| && MaxOf(acc, ms) == ms[t]
  {
    if |ms| > 0 {
      var init := ms[..|ms| - 1];
      MaxOfSpec(acc, init);
      assert forall t :: 0 <= t < |init| ==> init[t] == ms[t];
    }
  }

  /** The energy the quakes qs release, summed. */
  function Energies(qs: seq<Earthquake>): (e: real)
    ensures (forall t :: 0 <= t < |qs| ==> qs[t].energy > 0.0) ==> e >= 0.0
  {
    if |qs| == 0 then 0.0 else Energies(qs[..|qs| - 1]) + qs[|qs| - 1].energy
  }

  /** One more fault outcome m: a quake of magnitude m joins the list exactly when m > 0. */
  lemma PositivesSnoc(ms: seq<real>, m: real)
    ensures Positives(ms + [m]) == Positives(ms) + (if m > 0.0 then [m] else [])
  {
    assert (ms + [m])[..|ms|] == ms;
  }

  lemma MaxOfSnoc(acc: real, ps: seq<real>, m: real)
    ensures MaxOf(acc, ps + [m]) == Max(MaxOf(acc, ps), m)
  {
    assert (ps + [m])[..|ps|] == ps;
  }

  lemma EnergiesSnoc(qs: seq<Earthquake>, q: Earthquake)
    ensures Energies(qs + [q]) == Energies(qs) + q.energy
  {
    assert (qs + [q])[..|qs|] == qs;
  }

  /**
   * The quake at index i - 1 moves the camera from before to moved and the
   * next draw from d to d': by a jolt and three draws while it is still
   * going, not at all once it has ended.
   */
  lemma ShakeStep(before: Vec3, moved: Vec3, qs: seq<Earthquake>, i: nat, dt: real, now: real, rand: Stream, d: nat, d': nat)
    requires 0 < i <= |qs| && forall t :: 0 <= t < |qs| ==> qs[t].duration != 0.0
    requires Ended(qs[i - 1], now) ==> moved == before && d' == d
    requires !Ended(qs[i - 1], now) ==> moved == Jolted(before, qs[i - 1], dt, now, rand, d) && d' == d + 3
    ensures Shake(before, qs[..i], dt, now, rand, d) == Shake(moved, qs[..i - 1], dt, now, rand, d')
  {
    assert qs[..i][..i - 1] == qs[..i - 1];
  }

  /** Quake i - 1 joins the survivors of the quakes before it unless it has ended. */
  lemma SurvivorsStep(qs: seq<Earthquake>, i: nat, now: real, kept: seq<Earthquake>)
    requires 0 < i <= |qs|
    ensures Ended(qs[i - 1], now) ==> Survivors(qs[..i], now) + kept == Survivors(qs[..i - 1], now) + kept
    ensures !Ended(qs[i - 1], now) ==> Survivors(qs[..i], now) + kept == Survivors(qs[..i - 1], now) + ([qs[i - 1]] + kept)
  {
    assert qs[..i][..i - 1] == qs[..i - 1];
    var init := Survivors(qs[..i - 1], now);
    if !Ended(qs[i - 1], now) {
      assert (init + [qs[i - 1]]) + kept == init + ([qs[i - 1]] + kept);
    }
  }

  /** The list qs[..i] + kept with its entry i - 1 kept, or spliced out. */
  lemma SpliceAt(qs: seq<Earthquake>, i: nat, kept: seq<Earthquake>)
    requires 0 < i <= |qs|
    ensures qs[..i] + kept == qs[..i - 1] + ([qs[i - 1]] + kept)
    ensures (qs[..i] + kept)[..i - 1] + (qs[..i] + kept)[i..] == qs[..i - 1] + kept
  {
    var s := qs[..i] + kept;
    assert qs[..i] == qs[..i - 1] + [qs[i - 1]];
    assert s[..i - 1] == qs[..i - 1];
    assert s[i..] == kept;
  }

  /** The quake has run longer than its duration at time `now`. */
  predicate Ended(q: Earthquake, now: real)
  {
    now - q.startTime > q.duration
  }

  /** The quakes still going at time `now`: those whose duration has not run out, in order. */
  function Survivors(qs: seq<Earthquake>, now: real): seq<Earthquake>
  {
    if |qs| == 0 then []
    else Survivors(qs[..|qs| - 1], now) + (if Ended(qs[|qs| - 1], now) then [] else [qs[|qs| - 1]])
  }

  /**
   * The survivors are exactly the quakes of qs that have not ended, none
   * added and none dropped.
   */
  lemma {:induction false} SurvivorsSpec(qs: seq<Earthquake>, now: real)
    ensures |Survivors(qs, now)| <= |qs|
    ensures forall q :: q in Survivors(qs, now) <==> q in qs && !Ended(q, now)
  {
    if |qs| > 0 {
      var init := qs[..|qs| - 1];
      SurvivorsSpec(init, now);
      assert qs == init + [qs[|qs| - 1]];
    }
  }

  /** The camera jolted by quake q along x, y and z by the draws d, d + 1 and d + 2. */
  function Jolted(camera: Vec3, q: Earthquake, dt: real, now: real, rand: Stream, d: nat): Vec3
    requires q.duration != 0.0
  {
    var k := q.Intensity(now);
    Vec3(camera.x + Jolt(Draw(rand, d), k, dt), camera.y + Jolt(Draw(rand, d + 1), k, dt), camera.z + Jolt(Draw(rand, d + 2), k, dt))
  }

  /**
   * The camera after the quakes qs, visited from the last to the first, each
   * still-going quake jolting it by the next three draws from d on; also the
   * index of the next unused draw.
   */
  function Shake(camera: Vec3, qs: seq<Earthquake>, dt: real, now: real, rand: Stream, d: nat): (Vec3, nat)
    requires forall i :: 0 <= i < |qs| ==> qs[i].duration != 0.0
    decreases |qs|
  {
    if |qs| == 0 then (camera, d)
    else
      var init := qs[..|qs| - 1];
      var q := qs[|qs| - 1];
      if Ended(q, now) then Shake(camera, init, dt, now, rand, d)
      else Shake(Jolted(camera, q, dt, now, rand, d), init, dt, now, rand, d + 3)
  }

  /**
   * The draws fault f takes in one turn of the fault loop of `update` from
   * the state st: one for its stress release when it slips, and two more
   * for the quake's epicentre and depth when the magnitude is positive.
   */
  function TurnDraws(f: Fault, st: FaultState, dt: real): nat
  {
    var n := |st.contactPoints|;
    (if f.DecayOf(st.stress, n, dt) > f.strength then 1 else 0) + (if f.OutcomeOf(st.stress, n, dt) > 0.0 then 2 else 0)
  }

  /** The draws the fault loop takes before fault k, the faults starting from the states sts. */
  function DrawsBefore(fs: seq<Fault>, sts: seq<FaultState>, k: nat, dt: real): (n: nat)
    requires k <= |fs| && k <= |sts|
    ensures n <= 3 * k
  {
    if k == 0 then 0 else DrawsBefore(fs, sts, k - 1, dt) + TurnDraws(fs[k - 1], sts[k - 1], dt)
  }

  /** The states of the faults fs, in order. */
  ghost function States(fs: seq<Fault>): (r: seq<FaultState>)
    reads fs`stress, fs`contactPoints, fs`lastEarthquakeTime
    ensures |r| == |fs|
  {
    if |fs| == 0 then [] else States(fs[..|fs| - 1]) + [fs[|fs| - 1].State()]
  }

  /** Entry t of the states is fault t's state. */
  lemma {:induction false} StatesAt(fs: seq<Fault>)
    ensures forall t :: 0 <= t < |fs| ==> States(fs)[t] == fs[t].State()
  {
    if |fs| > 0 {
      StatesAt(fs[..|fs| - 1]);
    }
  }

  /** The draw cursor at each fault's turn: d plus the draws of the faults before it. */
  function Cursors(fs: seq<Fault>, st: seq<FaultState>, dt: real, d: nat): (cur: seq<nat>)
    requires |st| == |fs|
    ensures |cur| == |fs|
  {
    seq(|fs|, t requires 0 <= t < |fs| => d + DrawsBefore(fs, st, t, dt))
  }

  /**
   * The fault states after k turns of the fault loop, from the states st:
   * each fault t before k advanced by dt with the draw at cursor cur[t],
   * the others as they were.
   */
  function AfterTurns(fs: seq<Fault>, st: seq<FaultState>, k: nat, dt: real, rand: Stream, cur: seq<nat>, now: real): (r: seq<FaultState>)
    requires |st| == |fs| == |cur| && k <= |fs|
    ensures |r| == |fs|
  {
    if k == 0 then st
    else AfterTurns(fs, st, k - 1, dt, rand, cur, now)[k - 1 := fs[k - 1].Advanced(st[k - 1], dt, Draw(rand, cur[k - 1]), now)]
  }

  /** Fault t has advanced after k turns exactly when t < k. */
  lemma {:induction false} AfterTurnsAt(fs: seq<Fault>, st: seq<FaultState>, k: nat, dt: real, rand: Stream, cur: seq<nat>, now: real)
    requires |st| == |fs| == |cur| && k <= |fs|
    ensures forall t :: 0 <= t < |fs| ==>
      AfterTurns(fs, st, k, dt, rand, cur, now)[t] == (if t < k then fs[t].Advanced(st[t], dt, Draw(rand, cur[t]), now) else st[t])
  {
    if k > 0 {
      AfterTurnsAt(fs, st, k - 1, dt, rand, cur, now);
    }
  }

  /** The fault states after the whole fault loop, from the states st and the draw cursor d. */
  function Stepped(fs: seq<Fault>, st: seq<FaultState>, dt: real, rand: Stream, d: nat, now: real): (r: seq<FaultState>)
    requires |st| == |fs|
    ensures |r| == |fs|
  {
    AfterTurns(fs, st, |fs|, dt, rand, Cursors(fs, st, dt, d), now)
  }

  /** After the fault loop, every fault t holds its state advanced by dt with the draw at its cursor. */
  lemma SteppedAt(fs: seq<Fault>, st: seq<FaultState>, dt: real, rand: Stream, d: nat, now: real)
    requires |st| == |fs|
    ensures forall t :: 0 <= t < |fs| ==>
      Stepped(fs, st, dt, rand, d, now)[t] == fs[t].Advanced(st[t], dt, Draw(rand, Cursors(fs, st, dt, d)[t]), now)
  {
    AfterTurnsAt(fs, st, |fs|, dt, rand, Cursors(fs, st, dt, d), now);
  }

  /**
   * The first fault draws at the starting cursor, and each next one right
   * after the draws of the fault before it; the loop ends at the last
   * fault's cursor plus its draws.
   */
  lemma CursorsStep(fs: seq<Fault>, st: seq<FaultState>, dt: real, d: nat)
    requires |st| == |fs|
    ensures |fs| > 0 ==> Cursors(fs, st, dt, d)[0] == d
    ensures forall t :: 0 <= t < |fs| - 1 ==> Cursors(fs, st, dt, d)[t + 1] == Cursors(fs, st, dt, d)[t] + TurnDraws(fs[t], st[t], dt)
    ensures |fs| > 0 ==> d + DrawsBefore(fs, st, |fs|, dt) == Cursors(fs, st, dt, d)[|fs| - 1] + TurnDraws(fs[|fs| - 1], st[|fs| - 1], dt)
  {
    var cur := Cursors(fs, st, dt, d);
    forall t | 0 <= t < |fs| - 1
      ensures cur[t + 1] == cur[t] + TurnDraws(fs[t], st[t], dt)
    {
      assert cur[t + 1] == d + DrawsBefore(fs, st, t + 1, dt);
    }
    if |fs| > 0 {
      assert cur[|fs| - 1] == d + DrawsBefore(fs, st, |fs| - 1, dt);
      assert DrawsBefore(fs, st, |fs|, dt) == DrawsBefore(fs, st, |fs| - 1, dt) + TurnDraws(fs[|fs| - 1], st[|fs| - 1], dt);
    }
  }

  /** Turn k replaces fault k's state, still as it was before the loop, by its advanced state x. */
  lemma TurnAdvances(fs: seq<Fault>, st: seq<FaultState>, pre: seq<FaultState>, k: nat, dt: real, rand: Stream,
                     cur: seq<nat>, now: real, x: FaultState)
    requires |st| == |fs| == |cur| && k < |fs| && pre == AfterTurns(fs, st, k, dt, rand, cur, now)
    requires x == fs[k].Advanced(pre[k], dt, Draw(rand, cur[k]), now)
    ensures pre[k] == st[k]
    ensures pre[k := x] == AfterTurns(fs, st, k + 1, dt, rand, cur, now)
  {
    AfterTurnsAt(fs, st, k, dt, rand, cur, now);
  }

  /** What each fault's next update returns after dt, in fault order. */
  function Outcomes(fs: seq<Fault>, dt: real): (ms: seq<real>)
    reads fs`stress, fs`contactPoints
    requires forall i :: 0 <= i < |fs| ==> fs[i].Valid()
    ensures |ms| == |fs|
  {
    if |fs| == 0 then [] else Outcomes(fs[..|fs| - 1], dt) + [fs[|fs| - 1].Outcome(dt)]
  }

  /** Entry k of the outcomes is what fault k's update returns. */
  lemma {:induction false} OutcomesAt(fs: seq<Fault>, dt: real)
    requires forall i :: 0 <= i < |fs| ==> fs[i].Valid()
    ensures forall k :: 0 <= k < |fs| ==> Outcomes(fs, dt)[k] == fs[k].Outcome(dt)
  {
    if |fs| > 0 {
      OutcomesAt(fs[..|fs| - 1], dt);
    }
  }

  /** The stress of each fault relative to its strength, summed. */
  function RatioSum(fs: seq<Fault>): real
    reads fs`stress
    requires forall i :: 0 <= i < |fs| ==> fs[i].strength > 0.0
  {
    if |fs| == 0 then 0.0 else RatioSum(fs[..|fs| - 1]) + fs[|fs| - 1].stress / fs[|fs| - 1].strength
  }

  lemma {:induction false} RatioSumNonNegative(fs: seq<Fault>)
    requires forall i :: 0 <= i < |fs| ==> fs[i].strength > 0.0
    ensures (forall i :: 0 <= i < |fs| ==> fs[i].stress >= 0.0) ==> RatioSum(fs) >= 0.0
  {
    if |fs| > 0 {
      RatioSumNonNegative(fs[..|fs| - 1]);
    }
  }

  /** `avgStress`: the mean stress ratio over the faults, 0 when there are none. */
  function MeanRatio(fs: seq<Fault>): (r: real)
    reads fs`stress
    requires forall i :: 0 <= i < |fs| ==> fs[i].strength > 0.0
    ensures |fs| == 0 ==> r == 0.0
    ensures (forall i :: 0 <= i < |fs| ==> fs[i].stress >= 0.0) ==> r >= 0.0
  {
    RatioSumNonNegative(fs);
    if |fs| > 0 then RatioSum(fs) / |fs| as real else 0.0
  }

  // ---------------------------------------------------------------------
  // The simulation
  // ---------------------------------------------------------------------

  /** The running statistics shown in the panel. */
  datatype Stats = Stats(earthquakeCount: nat, maxMagnitude: real, totalEnergy: real, avgStress: real)

  /** The statistics with quake q taken in: one more quake, the largest magnitude, its energy added. */
  function Counted(s: Stats, q: Earthquake): (s': Stats)
    ensures s'.earthquakeCount == s.earthquakeCount + 1 && s'.avgStress == s.avgStress
    ensures s'.maxMagnitude >= s.maxMagnitude && s'.maxMagnitude >= q.magnitude
    ensures s'.totalEnergy - s.totalEnergy == q.energy
  {
    s.(earthquakeCount := s.earthquakeCount + 1, maxMagnitude := Max(s.maxMagnitude, q.magnitude),
       totalEnergy := s.totalEnergy + q.energy)
  }

  class Simulation {
    /** The `Math.random()` stream and the library functions. */
    const rand: UnitDraws
    const env: SoundEnv
    /** How many draws the simulation has taken from rand. */
    var drawn: nat
    var plates: seq<Plate>
    var faults: seq<Fault>
    var earthquakes: seq<Earthquake>
    var timeScale: real
    var isPaused: bool
    var stats: Stats
    var camera: Vec3

    /** Every fault is consistent and listed once. */
    ghost predicate FaultsValid()
      reads this`faults, faults`stress, faults`contactPoints
    {
      && (forall i :: 0 <= i < |faults| ==> faults[i].Valid())
      && Unique(faults)
    }

    /** Every listed quake is still active, and lasts a positive time. */
    ghost predicate QuakesValid()
      reads this`earthquakes, earthquakes`active
    {
      forall i :: 0 <= i < |earthquakes| ==> earthquakes[i].active && earthquakes[i].duration > 0.0
    }

    /** Time does not run backwards and the statistics are non-negative. */
    ghost predicate StatsValid()
      reads this`timeScale, this`stats
    {
      timeScale >= 0.0 && stats.maxMagnitude >= 0.0 && stats.totalEnergy >= 0.0 && stats.avgStress >= 0.0
    }

    ghost predicate Valid()
      reads this`faults, this`earthquakes, this`timeScale, this`stats
      reads faults`stress, faults`contactPoints, earthquakes`active
    {
      FaultsValid() && QuakesValid() && StatsValid()
    }

    /**
     * A running simulation over the given plates: normal speed, empty
     * statistics, the camera at (0, 30, 30), and a fault between every two
     * plates that come close.
     */
    constructor (plates: seq<Plate>, rand: UnitDraws, env: SoundEnv)
      ensures Valid()
      ensures this.plates == plates && this.rand == rand && this.env == env
      ensures timeScale == 1.0 && !isPaused && earthquakes == []
      ensures stats == Stats(0, 0.0, 0.0, 0.0)
      ensures camera == Vec3(0.0, 30.0, 30.0)
      ensures Created(faults, this.plates, this.env, ClosePairs(this.plates, |this.plates|, this.env.dist))
      ensures drawn == 4 * |faults|
    {
      this.rand := rand;
      this.env := env;
      this.plates := plates;
      drawn := 0;
      faults := [];
      earthquakes := [];
      timeScale := 1.0;
      isPaused := false;
      stats := Stats(0, 0.0, 0.0, 0.0);
      camera := Vec3(0.0, 30.0, 30.0);
      new;
      assert QuakesValid() && StatsValid();
      CreateAllFaults();
    }

    /** `createFaults` from no faults: exactly the faults for the close pairs, four draws each. */
    method CreateAllFaults()
      requires faults == []
      modifies this`faults, this`drawn
      ensures FaultsValid() && Created(faults, plates, env, ClosePairs(plates, |plates|, env.dist))
      ensures drawn == old(drawn) + 4 * |faults|
    {
      ghost var made := CreateFaults();
      EmptyConcat(made);
      assert faults == made;
    }

    /**
     * `createFaults`: a fault, of the kind the plates' motion determines,
     * between every two plates i < j whose vertices come closer than 5,
     * appended in the order of the double loop; each takes four draws.
     */
    method CreateFaults() returns (ghost made: seq<Fault>)
      requires FaultsValid()
      modifies this`faults, this`drawn
      ensures MadeSoFar(|plates|, old(faults), old(drawn), made)
    {
      made := [];
      ghost var f0, d0 := faults, drawn;
      assert faults == f0 + made && ClosePairs(plates, 0, env.dist) == [];
      for i := 0 to |plates|
        invariant MadeSoFar(i, f0, d0, made)
      {
        made := AddRow(i, f0, d0, made);
      }
    }

    /**
     * The outer loop of `createFaults` before plate i: the faults are f0
     * followed by the faults `made` for the close pairs of the rows before i,
     * each having taken four draws.
     */
    ghost predicate MadeSoFar(i: nat, f0: seq<Fault>, d0: nat, made: seq<Fault>)
      reads this`plates, this`faults, this`drawn, faults`stress, faults`contactPoints
    {
      && i <= |plates|
      && faults == f0 + made && FaultsValid()
      && Created(made, plates, env, ClosePairs(plates, i, env.dist))
      && drawn == d0 + 4 * |made|
    }

    /** One turn of the outer loop, on row i. */
    method AddRow(i: nat, ghost f0: seq<Fault>, ghost d0: nat, ghost made: seq<Fault>) returns (ghost made': seq<Fault>)
      requires i < |plates| && MadeSoFar(i, f0, d0, made)
      modifies this`faults, this`drawn
      ensures MadeSoFar(i + 1, f0, d0, made')
    {
      var row := AddRowFaults(i);
      CreatedRow(made, row, plates, env, i);
      SeqAssoc(f0, made, row);
      made' := made + row;
    }

    /** The inner loop of `createFaults`: the faults between plate i and the plates after it. */
    method AddRowFaults(i: nat) returns (ghost row: seq<Fault>)
      requires i < |plates| && FaultsValid()
      modifies this`faults, this`drawn
      ensures RowSoFar(i, |plates|, old(faults), old(drawn), row)
    {
      row := [];
      ghost var f0, d0 := faults, drawn;
      var j := i + 1;
      while j < |plates|
        invariant i + 1 <= j && RowSoFar(i, j, f0, d0, row)
      {
        row := AddPair(i, j, f0, d0, row);
        j := j + 1;
      }
    }

    /**
     * The inner loop of row i before plate j: the faults are f0 followed by
     * the faults `row` made for the close pairs (i, i + 1) .. (i, j - 1),
     * each having taken four draws.
     */
    ghost predicate RowSoFar(i: nat, j: nat, f0: seq<Fault>, d0: nat, row: seq<Fault>)
      reads this`plates, this`faults, this`drawn, faults`stress, faults`contactPoints
    {
      && i < j <= |plates|
      && faults == f0 + row && FaultsValid()
      && Created(row, plates, env, RowPairs(plates, i, j, env.dist))
      && drawn == d0 + 4 * |row|
    }

    /** One turn of the inner loop, on the pair (i, j). */
    method AddPair(i: nat, j: nat, ghost f0: seq<Fault>, ghost d0: nat, ghost row: seq<Fault>) returns (ghost row': seq<Fault>)
      requires j < |plates| && RowSoFar(i, j, f0, d0, row)
      modifies this`faults, this`drawn
      ensures RowSoFar(i, j + 1, f0, d0, row')
    {
      ghost var added := AddFaultIfClose(i, j);
      CreatedPair(row, added, plates, env, i, j);
      SeqAssoc(f0, row, added);
      row' := row + added;
    }

    /**
     * One step of the inner loop: `new Fault(plate1, plate2)` pushed onto the
     * faults if plates i and j come closer than 5, its four draws next in the
     * stream.
     */
    method AddFaultIfClose(i: nat, j: nat) returns (ghost added: seq<Fault>)
      requires i < j < |plates| && FaultsValid()
      modifies this`faults, this`drawn
      ensures faults == old(faults) + added && FaultsValid()
      ensures Created(added, plates, env, PairIfClose(plates, i, j, env.dist))
      ensures drawn == old(drawn) + 4 * |added|
    {
      var minDistance := MinDistance(plates[i].vertices, plates[j].vertices, env.dist);
      if minDistance.Some? && minDistance.value < FaultDistance {
        var fault := AddFault(i, j);
        added := [fault];
      } else {
        added := [];
      }
    }

    /** `new Fault(plate1, plate2)` pushed onto the faults: its four draws come next in the stream. */
    method AddFault(i: nat, j: nat) returns (fault: Fault)
      requires i < |plates| && j < |plates| && FaultsValid()
      modifies this`faults, this`drawn
      ensures faults == old(faults) + [fault] && FaultsValid() && fresh(fault)
      ensures Created([fault], plates, env, [(i, j)])
      ensures drawn == old(drawn) + 4
    {
      fault := new Fault(plates[i], plates[j], None, rand, drawn, env);
      assert fault !in faults;
      assert (faults + [fault])[..|faults|] == faults;
      faults := faults + [fault];
      drawn := drawn + 4;
    }

    /**
     * `update`: unless paused, advance every fault by the elapsed time scaled
     * by the time scale, start a quake for every fault that slips, end the
     * quakes that have run their course while shaking the camera with the
     * others, and recompute the mean stress. born are the quakes the
     * faults start, one for each positive outcome, in fault order.
     */
    method Update(elapsed: real, now: real) returns (deltaTime: real, ghost born: seq<Earthquake>)
      requires Valid() && elapsed >= 0.0
      modifies this`earthquakes, this`drawn, this`stats, this`camera, faults, earthquakes`active
      ensures Valid()
      ensures deltaTime == if isPaused then 0.0 else elapsed * old(timeScale)
      ensures isPaused ==> unchanged(this) && unchanged(faults) && unchanged(earthquakes)
      ensures !isPaused ==>
        && States(old(faults)) == old(Stepped(faults, States(faults), deltaTime, rand, drawn, now))
        && Booked(stats, old(stats), old(Outcomes(faults, deltaTime)), born)
        && earthquakes == Survivors(old(earthquakes) + born, now)
        && (forall i :: 0 <= i < |born| ==> born[i].duration > 0.0)
        && (camera, drawn) == Shake(old(camera), old(earthquakes) + born, deltaTime, now, rand,
                                    old(drawn + DrawsBefore(faults, States(faults), |faults|, deltaTime)))
        && stats.avgStress == MeanRatio(faults)
    {
      if isPaused {
        deltaTime, born := 0.0, [];
        return;
      }
      deltaTime := elapsed * timeScale;
      born := Advance(deltaTime, now);
    }

    /** An unpaused `update` by the simulated time dt. */
    method Advance(dt: real, now: real) returns (ghost born: seq<Earthquake>)
      requires Valid() && dt >= 0.0
      modifies this`earthquakes, this`drawn, this`stats, this`camera, faults, earthquakes`active
      ensures Valid() && faults == old(faults)
      ensures States(old(faults)) == old(Stepped(faults, States(faults), dt, rand, drawn, now))
      ensures Booked(stats, old(stats), old(Outcomes(faults, dt)), born)
      ensures earthquakes == Survivors(old(earthquakes) + born, now)
      ensures forall i :: 0 <= i < |born| ==> born[i].duration > 0.0
      ensures (camera, drawn) == Shake(old(camera), old(earthquakes) + born, dt, now, rand, old(drawn + DrawsBefore(faults, States(faults), |faults|, dt)))
      ensures stats.avgStress == MeanRatio(faults)
    {
      born := UpdateFaults(dt, now);
      ghost var e1, d1 := earthquakes, drawn;
      assert camera == old(camera) && e1 == old(earthquakes) + born;
      Settle(dt, now);
      assert (camera, drawn) == Shake(old(camera), e1, dt, now, rand, d1);
    }

    /** The rest of an unpaused `update`: the quake loop, then the statistics. */
    method Settle(dt: real, now: real)
      requires FaultsValid() && QuakesValid() && StatsValid()
      modifies this`earthquakes, this`camera, this`drawn, this`stats, earthquakes`active
      ensures FaultsValid() && QuakesValid() && StatsValid() && faults == old(faults)
      ensures earthquakes == Survivors(old(earthquakes), now)
      ensures (camera, drawn) == Shake(old(camera), old(earthquakes), dt, now, rand, old(drawn))
      ensures stats == old(stats).(avgStress := MeanRatio(faults))
      ensures States(old(faults)) == old(States(faults))
    {
      UpdateEarthquakes(dt, now);
      UpdateStats();
    }

    /**
     * The fault loop of `update`: each fault advances by dt, and one that
     * slips with a positive magnitude starts a quake. A slipping fault takes
     * one draw for its stress release.
     */
    method UpdateFaults(dt: real, now: real) returns (ghost born: seq<Earthquake>)
      requires FaultsValid() && QuakesValid() && StatsValid() && dt >= 0.0
      modifies this`earthquakes, this`drawn, this`stats, faults
      ensures FaultsValid() && QuakesValid() && StatsValid() && faults == old(faults)
      ensures States(old(faults)) == old(Stepped(faults, States(faults), dt, rand, drawn, now))
      ensures drawn == old(drawn + DrawsBefore(faults, States(faults), |faults|, dt))
      ensures Ledger(old(earthquakes), old(stats), old(Outcomes(faults, dt)), born)
      ensures forall i :: 0 <= i < |born| ==> born[i].duration > 0.0
      ensures forall t :: 0 <= t < |born| ==> fresh(born[t])
    {
      ghost var fs, out, st := faults, Outcomes(faults, dt), States(faults);
      ghost var d0, e0, s0 := drawn, earthquakes, stats;
      NoTurns(dt, now, out, st);
      born := [];
      var k := 0;
      while k < |faults|
        invariant k <= |faults| && faults == fs
        invariant Turned(k, dt, now, out, st, d0, e0, s0, born)
        invariant forall t :: 0 <= t < |born| ==> fresh(born[t])
      {
        ghost var more := Turn(k, dt, now, out, st, d0, e0, s0, born);
        born := born + more;
        k := k + 1;
      }
      AllTurned(dt, now, out, st, d0, e0, s0, born);
    }

    /** Before the first turn nothing has advanced, been drawn or been booked. */
    ghost method NoTurns(dt: real, now: real, out: seq<real>, st: seq<FaultState>)
      requires FaultsValid() && QuakesValid() && StatsValid()
      requires out == Outcomes(faults, dt) && st == States(faults)
      ensures Turned(0, dt, now, out, st, drawn, earthquakes, stats, [])
    {
      OutcomesAt(faults, dt);
      assert earthquakes == earthquakes + [];
    }

    /** After the last turn every fault has advanced, and every quake born has a duration. */
    ghost method AllTurned(dt: real, now: real, out: seq<real>, st: seq<FaultState>, d0: nat,
                           e0: seq<Earthquake>, s0: Stats, born: seq<Earthquake>)
      requires Turned(|faults|, dt, now, out, st, d0, e0, s0, born)
      ensures FaultsValid() && QuakesValid() && StatsValid()
      ensures States(faults) == Stepped(faults, st, dt, rand, d0, now)
      ensures drawn == d0 + DrawsBefore(faults, st, |faults|, dt)
      ensures Ledger(e0, s0, out, born)
      ensures forall i :: 0 <= i < |born| ==> born[i].duration > 0.0
    {
      TakeAll(out);
      forall i | 0 <= i < |born|
        ensures born[i].duration > 0.0
      {
        assert born[i] == earthquakes[|e0| + i];
      }
    }

    /**
     * The fault loop after k turns, from the fault states st and the draw
     * cursor d0: the faults are still consistent; those before k have
     * advanced, each with the draw after those of the faults before it;
     * those from k on are untouched and yet to return their outcomes out;
     * and the books hold the starting quakes and counts followed by the
     * quakes `born` for out[..k].
     */
    ghost predicate Turned(k: nat, dt: real, now: real, out: seq<real>, st: seq<FaultState>, d0: nat,
                           e0: seq<Earthquake>, s0: Stats, born: seq<Earthquake>)
      reads this`faults, this`earthquakes, this`stats, this`timeScale, this`drawn
      reads faults`stress, faults`contactPoints, faults`lastEarthquakeTime, earthquakes`active
    {
      && k <= |faults| == |out| == |st|
      && FaultsValid() && QuakesValid() && StatsValid()
      && States(faults) == AfterTurns(faults, st, k, dt, rand, Cursors(faults, st, dt, d0), now)
      && (forall t :: k <= t < |faults| ==> faults[t].Outcome(dt) == out[t])
      && drawn == d0 + DrawsBefore(faults, st, k, dt)
      && Ledger(e0, s0, out[..k], born)
    }

    /** One turn of the fault loop, on fault k; the quakes it starts are `more`. */
    method Turn(k: nat, dt: real, now: real, ghost out: seq<real>, ghost st: seq<FaultState>, ghost d0: nat,
                ghost e0: seq<Earthquake>, ghost s0: Stats, ghost born: seq<Earthquake>)
      returns (ghost more: seq<Earthquake>)
      requires k < |faults| && dt >= 0.0 && Turned(k, dt, now, out, st, d0, e0, s0, born)
      modifies faults[k], this`earthquakes, this`drawn, this`stats
      ensures Turned(k + 1, dt, now, out, st, d0, e0, s0, born + more)
      ensures forall t :: 0 <= t < |more| ==> fresh(more[t])
    {
      UniqueAt(faults, k);
      TakeSnoc(out, k);
      ghost var s := stats;
      ghost var pre := States(faults);
      StatesAt(faults);
      ghost var fs := faults;
      ghost var f := faults[k];
      ghost var sk := f.State();
      ghost var dk := drawn;
      ghost var cur := Cursors(fs, st, dt, d0);
      assert dk == cur[k];
      var magnitude;
      magnitude, more := Tick(k, dt, now);
      assert faults == fs;
      assert States(faults) == pre[k := f.State()] by {
        StatesAt(faults);
        forall t | 0 <= t < |faults| && t != k
          ensures States(faults)[t] == pre[t]
        {
          assert faults[t] != faults[k];
        }
      }
      TurnAdvances(fs, st, pre, k, dt, rand, cur, now, f.State());
      assert drawn == d0 + DrawsBefore(fs, st, k + 1, dt);
      SeqAssoc(e0, born, more);
      BookedStep(s, s0, out[..k], born, out[k], more, stats);
    }

    /** The quake list and the counters hold e0 and the starting counts followed by the quakes `added` for ms. */
    ghost predicate Ledger(e0: seq<Earthquake>, s0: Stats, ms: seq<real>, added: seq<Earthquake>)
      reads this`earthquakes, this`stats
    {
      && earthquakes == e0 + added
      && Booked(stats, s0, ms, added)
    }

    /**
     * One turn of the fault loop: fault k advances and returns its outcome;
     * if that is positive, the quake it starts (born) joins the list and the
     * statistics, and otherwise nothing else changes.
     */
    method Tick(k: nat, dt: real, now: real) returns (magnitude: real, ghost born: seq<Earthquake>)
      requires FaultsValid() && QuakesValid() && StatsValid() && dt >= 0.0 && k < |faults|
      modifies faults[k], this`earthquakes, this`drawn, this`stats
      ensures FaultsValid() && QuakesValid() && StatsValid()
      ensures magnitude == old(faults[k].Outcome(dt))
      ensures faults[k].State() == faults[k].Advanced(old(faults[k].State()), dt, Draw(rand, old(drawn)), now)
      ensures drawn == old(drawn) + TurnDraws(faults[k], old(faults[k].State()), dt)
      ensures forall t :: 0 <= t < |faults| && faults[t] != faults[k] ==> unchanged(faults[t])
      ensures earthquakes == old(earthquakes) + born
      ensures forall t :: 0 <= t < |born| ==> fresh(born[t])
      ensures magnitude <= 0.0 ==> born == [] && stats == old(stats)
      ensures magnitude > 0.0 ==> |born| == 1 && born[0].magnitude == magnitude && stats == Counted(old(stats), born[0])
    {
      magnitude := StepFault(k, dt, now);
      if magnitude > 0.0 {
        var quake := TriggerEarthquake(faults[k], magnitude, now);
        born := [quake];
      } else {
        born := [];
      }
    }

    /** `fault.update(deltaTime)` on fault k, which draws once if the fault slips. */
    method StepFault(k: nat, dt: real, now: real) returns (magnitude: real)
      requires FaultsValid() && k < |faults| && dt >= 0.0
      modifies faults[k], this`drawn
      ensures FaultsValid()
      ensures magnitude == old(faults[k].Outcome(dt))
      ensures magnitude > 0.0 ==> |faults[k].contactPoints| > 0
      ensures faults[k].State() == faults[k].Advanced(old(faults[k].State()), dt, Draw(rand, old(drawn)), now)
      ensures drawn == old(drawn) + if old(faults[k].Decayed(dt)) > faults[k].strength then 1 else 0
    {
      var fault := faults[k];
      var slips := fault.Decayed(dt) > fault.strength;
      magnitude := fault.Update(dt, Draw(rand, drawn), now);
      if slips {
        drawn := drawn + 1;
      }
    }

    /**
     * `triggerEarthquake`: a quake of the given magnitude at a contact point
     * of the fault picked by one draw, its depth picked by the next; the
     * count, the largest magnitude and the total energy take it in.
     */
    method TriggerEarthquake(fault: Fault, magnitude: real, now: real) returns (quake: Earthquake)
      requires QuakesValid() && StatsValid() && |fault.contactPoints| > 0 && magnitude > 0.0
      modifies this`earthquakes, this`drawn, this`stats
      ensures QuakesValid() && StatsValid()
      ensures fresh(quake) && earthquakes == old(earthquakes) + [quake]
      ensures quake.magnitude == magnitude && quake.fault == fault && quake.startTime == now
      ensures quake.epicenter ==
        fault.contactPoints[ScaledIndex(Draw(rand, old(drawn)), |fault.contactPoints|)].position
      ensures quake.depth == Random(Draw(rand, old(drawn) + 1), 5.0, 30.0)
      ensures drawn == old(drawn) + 2
      ensures quake.energy == Pow10(env, 1.5 * magnitude) && quake.energy > 0.0
      ensures stats == Counted(old(stats), quake)
    {
      var at := ScaledIndex(Draw(rand, drawn), |fault.contactPoints|);
      quake := new Earthquake(magnitude, fault.contactPoints[at].position, fault, now, Draw(rand, drawn + 1), env);
      earthquakes := earthquakes + [quake];
      drawn := drawn + 2;
      stats := stats.(earthquakeCount := stats.earthquakeCount + 1,
                      maxMagnitude := Max(stats.maxMagnitude, magnitude),
                      totalEnergy := stats.totalEnergy + quake.energy);
    }

    /**
     * The quake loop of `update`, from the last quake to the first: each
     * ends once past its duration and is spliced out; each still going
     * shakes the camera, taking three draws.
     */
    method UpdateEarthquakes(dt: real, now: real)
      requires QuakesValid()
      modifies this`earthquakes, this`camera, this`drawn, earthquakes`active
      ensures QuakesValid()
      ensures earthquakes == Survivors(old(earthquakes), now)
      ensures (camera, drawn) == Shake(old(camera), old(earthquakes), dt, now, rand, old(drawn))
    {
      ghost var qs := earthquakes;
      ghost var kept: seq<Earthquake> := [];
      var i := |earthquakes|;
      assert qs[..i] == qs;
      while i > 0
        invariant 0 <= i <= |qs|
        invariant earthquakes == qs[..i] + kept
        invariant Settled(qs, now)
        invariant Survivors(qs, now) == Survivors(qs[..i], now) + kept
        invariant Shake(old(camera), qs, dt, now, rand, old(drawn)) == Shake(camera, qs[..i], dt, now, rand, drawn)
      {
        kept := EndOrShake(earthquakes[i - 1], i, dt, now, qs, kept);
        i := i - 1;
      }
      SurvivorsSpec(qs, now);
      forall t | 0 <= t < |earthquakes| ensures earthquakes[t].active && earthquakes[t].duration > 0.0 {
        assert earthquakes[t] in Survivors(qs, now);
      }
    }

    /** Each quake of qs lasts a positive time and is active unless it has ended. */
    ghost predicate Settled(qs: seq<Earthquake>, now: real)
      reads qs`active
    {
      forall t :: 0 <= t < |qs| ==> qs[t].duration > 0.0 && (qs[t].active || Ended(qs[t], now))
    }

    /**
     * One turn of the quake loop, on the quake at index i - 1: it is spliced
     * out if it has ended and otherwise shakes the camera; kept' are the
     * quakes after it still listed.
     */
    method EndOrShake(quake: Earthquake, i: nat, dt: real, now: real, ghost qs: seq<Earthquake>, ghost kept: seq<Earthquake>)
      returns (ghost kept': seq<Earthquake>)
      requires 0 < i <= |qs| && quake == qs[i - 1] && earthquakes == qs[..i] + kept && Settled(qs, now)
      modifies this`earthquakes, this`camera, this`drawn, quake`active
      ensures Settled(qs, now)
      ensures earthquakes == qs[..i - 1] + kept'
      ensures Survivors(qs[..i], now) + kept == Survivors(qs[..i - 1], now) + kept'
      ensures Shake(old(camera), qs[..i], dt, now, rand, old(drawn)) == Shake(camera, qs[..i - 1], dt, now, rand, drawn)
    {
      quake.Update(now);
      assert quake.active == !Ended(quake, now);
      ghost var before, d := camera, drawn;
      camera := quake.ApplyCameraShake(camera, dt, now, Draw(rand, drawn), Draw(rand, drawn + 1), Draw(rand, drawn + 2));
      if quake.active {
        drawn := drawn + 3;
        kept' := [quake] + kept;
      } else {
        earthquakes := earthquakes[..i - 1] + earthquakes[i..];
        kept' := kept;
      }
      SpliceAt(qs, i, kept);
      SurvivorsStep(qs, i, now, kept);
      ShakeStep(before, camera, qs, i, dt, now, rand, d, drawn);
    }

    /** `updateStats`: the mean stress ratio over the faults, 0 with none. */
    method UpdateStats()
      requires FaultsValid()
      modifies this`stats
      ensures stats == old(stats).(avgStress := MeanRatio(faults)) && stats.avgStress >= 0.0
    {
      var totalStress := 0.0;
      var k := 0;
      while k < |faults|
        invariant 0 <= k <= |faults|
        invariant totalStress == RatioSum(faults[..k])
      {
        assert faults[..k + 1][..k] == faults[..k];
        totalStress := totalStress + faults[k].stress / faults[k].strength;
        k := k + 1;
      }
      assert faults[..k] == faults;
      assert forall i :: 0 <= i < |faults| ==> faults[i].stress >= 0.0 by {
        assert FaultsValid();
      }
      stats := stats.(avgStress := if |faults| > 0 then totalStress / |faults| as real else 0.0);
    }

    /**
     * `reset`: the plates replaced by new ones, the faults rebuilt between
     * them, no quakes, the statistics back to zero; the speed, the pause
     * flag and the camera stay.
     */
    method Reset(newPlates: seq<Plate>)
      requires Valid()
      modifies this`plates, this`faults, this`earthquakes, this`drawn
      modifies this`stats
      ensures Valid()
      ensures plates == newPlates && earthquakes == []
      ensures Created(faults, plates, env, ClosePairs(plates, |plates|, env.dist))
      ensures stats == Stats(0, 0.0, 0.0, 0.0)
      ensures drawn == old(drawn) + 4 * |faults|
    {
      plates := newPlates;
      faults := [];
      earthquakes := [];
      stats := Stats(0, 0.0, 0.0, 0.0);
      assert QuakesValid() && StatsValid();
      CreateAllFaults();
    }

    /** `togglePause`: flips the pause flag and returns its new value. */
    method TogglePause() returns (paused: bool)
      modifies this`isPaused
      ensures isPaused == !old(isPaused) && paused == isPaused
    {
      isPaused := !isPaused;
      paused := isPaused;
    }

    /** `setTimeScale`: the factor between wall-clock and simulated time. */
    method SetTimeScale(scale: real)
      requires scale >= 0.0
      modifies this`timeScale
      ensures timeScale == scale
    {
      timeScale := scale;
    }
  }

  /**
   * The statistics of a tick in progress: s0 with the quakes `added`, one of
   * each magnitude in Positives(ms), taken into the count, the largest
   * magnitude and the total energy.
   */
  ghost predicate Booked(s: Stats, s0: Stats, ms: seq<real>, added: seq<Earthquake>)
  {
    && |added| == |Positives(ms)|
    && (forall t :: 0 <= t < |added| ==> added[t].magnitude == Positives(ms)[t])
    && s.earthquakeCount == s0.earthquakeCount + |Positives(ms)|
    && s.maxMagnitude == MaxOf(s0.maxMagnitude, Positives(ms))
    && s.totalEnergy == s0.totalEnergy + Energies(added)
  }

  /**
   * One more fault outcome m in the books: a quake of magnitude m joins the
   * statistics when m is positive; otherwise nothing changes.
   */
  lemma BookedStep(s: Stats, s0: Stats, ms: seq<real>, added: seq<Earthquake>, m: real, more: seq<Earthquake>, s': Stats)
    requires Booked(s, s0, ms, added)
    requires m <= 0.0 ==> more == [] && s' == s
    requires m > 0.0 ==> |more| == 1 && more[0].magnitude == m && s' == Counted(s, more[0])
    ensures Booked(s', s0, ms + [m], added + more)
  {
    PositivesSnoc(ms, m);
    if m > 0.0 {
      MaxOfSnoc(s0.maxMagnitude, Positives(ms), m);
      EnergiesSnoc(added, more[0]);
      assert more == [more[0]];
    } else {
      assert Positives(ms + [m]) == Positives(ms);
      assert added + more == added;
    }
  }

  /** f is a fault between p and q, of the kind their motion determines. */
  ghost predicate MadeFor(f: Fault, p: Plate, q: Plate, env: Env)
  {
    && f.env == env
    && f.plate1 == p && f.plate2 == q
    && f.kind == DetermineFaultType(p.velocity, q.velocity, p.density, q.density)
  }

  /** The faults of row i up to plate j, then the one with plate j if any, are those up to plate j + 1. */
  lemma CreatedPair(row: seq<Fault>, added: seq<Fault>, plates: seq<Plate>, env: Env, i: nat, j: nat)
    requires i < j < |plates|
    requires Created(row, plates, env, RowPairs(plates, i, j, env.dist))
    requires Created(added, plates, env, PairIfClose(plates, i, j, env.dist))
    ensures Created(row + added, plates, env, RowPairs(plates, i, j + 1, env.dist))
  {
    RowPairsStep(plates, i, j, env.dist);
    CreatedAppend(row, added, plates, env, RowPairs(plates, i, j, env.dist), PairIfClose(plates, i, j, env.dist));
  }

  /** The faults of the rows before i, then those of row i, are the faults of the rows up to i. */
  lemma CreatedRow(made: seq<Fault>, row: seq<Fault>, plates: seq<Plate>, env: Env, i: nat)
    requires i < |plates|
    requires Created(made, plates, env, ClosePairs(plates, i, env.dist))
    requires Created(row, plates, env, RowPairs(plates, i, |plates|, env.dist))
    ensures Created(made + row, plates, env, ClosePairs(plates, i + 1, env.dist))
  {
    CreatedAppend(made, row, plates, env, ClosePairs(plates, i, env.dist), RowPairs(plates, i, |plates|, env.dist));
  }

  /**
   * fs are faults, one for each pair of plates in pairs and in the same
   * order, each made for its two plates.
   */
  ghost predicate Created(fs: seq<Fault>, plates: seq<Plate>, env: Env, pairs: seq<(nat, nat)>)
  {
    && |fs| == |pairs|
    && (forall t :: 0 <= t < |pairs| ==> pairs[t].0 < |plates| && pairs[t].1 < |plates|)
    && (forall t :: 0 <= t < |fs| ==> MadeFor(fs[t], plates[pairs[t].0], plates[pairs[t].1], env))
  }

  lemma CreatedAppend(fs: seq<Fault>, gs: seq<Fault>, plates: seq<Plate>, env: Env,
                      ps: seq<(nat, nat)>, qs: seq<(nat, nat)>)
    requires Created(fs, plates, env, ps) && Created(gs, plates, env, qs)
    ensures Created(fs + gs, plates, env, ps + qs)
  {
    var hs, rs := fs + gs, ps + qs;
    forall t | 0 <= t < |rs| ensures rs[t].0 < |plates| && rs[t].1 < |plates| {
      if t < |ps| {
        assert rs[t] == ps[t];
      } else {
        assert rs[t] == qs[t - |ps|];
      }
    }
    forall t | 0 <= t < |hs| ensures MadeFor(hs[t], plates[rs[t].0], plates[rs[t].1], env) {
      if t < |fs| {
        assert hs[t] == fs[t] && rs[t] == ps[t];
      } else {
        assert hs[t] == gs[t - |fs|] && rs[t] == qs[t - |fs|];
      }
    }
  }

  /** No fault is listed twice. */
  ghost predicate Unique(fs: seq<Fault>)
    decreases |fs|
  {
    |fs| == 0 || (fs[|fs| - 1] !in fs[..|fs| - 1] && Unique(fs[..|fs| - 1]))
  }

  /** In a list without repeats, the fault at k appears at no other index. */
  lemma {:induction false} UniqueAt(fs: seq<Fault>, k: nat)
    requires Unique(fs) && k < |fs|
    ensures forall t :: 0 <= t < |fs| && t != k ==> fs[t] != fs[k]
    decreases |fs|
  {
    var n := |fs| - 1;
    var init := fs[..n];
    assert forall t :: 0 <= t < n ==> fs[t] == init[t] && fs[t] in init;
    if k < n {
      UniqueAt(init, k);
    }
  }
}

=== FILE: tectonic_utils.dfy ===
/**
 * The numeric helpers of the tectonic simulation (utils.js), the vector type
 * its plates, faults and earthquakes share, and the floating-point library
 * calls they rely on, passed in as an environment of functions.
 */
module TectonicUtils {

  /** A point or direction in space (a `THREE.Vector3`). */
  datatype Vec3 = Vec3(x: real, y: real, z: real)

  function Add(a: Vec3, b: Vec3): Vec3 { Vec3(a.x + b.x, a.y + b.y, a.z + b.z) }
  function Sub(a: Vec3, b: Vec3): Vec3 { Vec3(a.x - b.x, a.y - b.y, a.z - b.z) }
  function Scale(a: Vec3, k: real): Vec3 { Vec3(a.x * k, a.y * k, a.z * k) }

  /** The point halfway between a and b. */
  function Midpoint(a: Vec3, b: Vec3): Vec3 { Scale(Add(a, b), 0.5) }

  function Abs(x: real): (r: real)
    ensures r >= 0.0 && (r == x || r == -x)
  {
    if x < 0.0 then -x else x
  }

  function Min(a: real, b: real): (r: real)
    ensures r <= a && r <= b && (r == a || r == b)
  {
    if a <= b then a else b
  }

  function Max(a: real, b: real): (r: real)
    ensures r >= a && r >= b && (r == a || r == b)
  {
    if a >= b then a else b
  }

  /**
   * The square roots, logarithms and powers of the program: `distanceTo`,
   * `length`, `Math.log` and `Math.pow(10, x)`. They are floating-point
   * library calls, so the model keeps them as tables given from outside
   * and assumes only the facts `Sound` lists about them.
   */
  datatype Env = Env(
    dist: Metric,
    norm: imap<Vec3, real>,
    ln: imap<real, real>,
    pow10: imap<real, real>)

  /** A table of distances between pairs of points. */
  type Metric = imap<(Vec3, Vec3), real>

  /** `a.distanceTo(b)` (0 for a pair the table does not give). */
  function Distance(dist: Metric, a: Vec3, b: Vec3): real
  {
    if (a, b) in dist then dist[(a, b)] else 0.0
  }

  /** `v.length()`. */
  function Norm(env: Env, v: Vec3): real
  {
    if v in env.norm then env.norm[v] else 0.0
  }

  /** `Math.log(x)`. */
  function Ln(env: Env, x: real): real
  {
    if x in env.ln then env.ln[x] else 0.0
  }

  /** `Math.pow(10, x)`. */
  function Pow10(env: Env, x: real): real
  {
    if x in env.pow10 then env.pow10[x] else 0.0
  }

  /**
   * Distances and lengths are non-negative, a logarithm is positive exactly
   * above 1, and a power of ten is positive.
   */
  ghost predicate Sound(env: Env)
  {
    && (forall a, b :: Distance(env.dist, a, b) >= 0.0)
    && (forall v :: Norm(env, v) >= 0.0)
    && (forall x :: x > 0.0 ==> (Ln(env, x) > 0.0 <==> x > 1.0))
    && (forall x :: Pow10(env, x) > 0.0)
  }

  /** Library functions with the facts `Sound` lists. */
  type SoundEnv = env: Env | Sound(env)
    ghost witness Env(imap p | true :: 0.0, imap v | true :: 0.0, imap x: real | true :: x - 1.0, imap x | true :: 1.0)

  /** `random(min, max)`, given the `Math.random()` draw u it scales. */
  function Random(u: real, min: real, max: real): (r: real)
    ensures 0.0 <= u < 1.0 && min < max ==> min <= r < max
  {
    assert 0.0 <= u < 1.0 && min < max ==> u * (max - min) < max - min by {
      if 0.0 <= u < 1.0 && min < max {
        var a, b := 1.0 - u, max - min;
        assert a > 0.0 && b > 0.0;
        assert a * b > 0.0;
        assert a * b == (max - min) - u * (max - min);
      }
    }
    u * (max - min) + min
  }

  /** Linear interpolation from a (at t = 0) to b (at t = 1). */
  function Lerp(a: real, b: real, t: real): (r: real)
    ensures t == 0.0 ==> r == a
    ensures t == 1.0 ==> r == b
  {
    a + (b - a) * t
  }

  /** `map`: the affine map sending [inMin, inMax] onto [outMin, outMax]. */
  function Map(value: real, inMin: real, inMax: real, outMin: real, outMax: real): (r: real)
    requires inMin != inMax
    ensures value == inMin ==> r == outMin
    ensures value == inMax ==> r == outMax
  {
    assert (inMax - inMin) * (outMax - outMin) / (inMax - inMin) == outMax - outMin;
    (value - inMin) * (outMax - outMin) / (inMax - inMin) + outMin
  }

  /** `clamp`: value pushed up to min, then down to max. */
  function Clamp(value: real, min: real, max: real): (r: real)
    ensures min <= max ==> min <= r <= max
    ensures min <= value <= max ==> r == value
    ensures min > max ==> r == max
  {
    Min(Max(value, min), max)
  }

  /** Clamping twice into the same bounds is clamping once. */
  lemma ClampIdempotent(value: real, min: real, max: real)
    ensures Clamp(Clamp(value, min, max), min, max) == Clamp(value, min, max)
  {
    var c := Clamp(value, min, max);
    if min > max {
      assert c == max;
    } else {
      assert min <= c <= max;
    }
  }

  /**
   * The band a value falls in under the thresholds ts: how many of them it
   * has reached. A chain of `if (x < t) return ...` tests picks band Rank.
   */
  function Rank(x: real, ts: seq<real>): (k: nat)
    ensures k <= |ts|
  {
    if |ts| == 0 then 0 else (if ts[0] <= x then 1 else 0) + Rank(x, ts[1..])
  }

  /** A larger value never falls in an earlier band. */
  lemma {:induction false} RankMonotone(x: real, y: real, ts: seq<real>)
    requires x <= y
    ensures Rank(x, ts) <= Rank(y, ts)
  {
    if |ts| > 0 {
      RankMonotone(x, y, ts[1..]);
    }
  }

  /** For increasing thresholds, band k is exactly [ts[k-1], ts[k]). */
  lemma {:induction false} RankBand(x: real, ts: seq<real>, k: nat)
    requires forall i, j :: 0 <= i < j < |ts| ==> ts[i] < ts[j]
    requires k <= |ts|
    requires k > 0 ==> ts[k - 1] <= x
    requires k < |ts| ==> x < ts[k]
    ensures Rank(x, ts) == k
  {
    if |ts| > 0 {
      if k == 0 {
        assert x < ts[0];
        RankBand(x, ts[1..], 0);
      } else {
        assert ts[0] <= ts[k - 1] <= x;
        RankBand(x, ts[1..], k - 1);
      }
    }
  }

  const HeightThresholds: seq<real> := [0.2, 0.4, 0.5, 0.7, 0.85]

  /** Deep water, shallow water, sand, grass, hills, mountains. */
  const TerrainPalette: seq<nat> := [0x0077be, 0x2a93d5, 0xc2b280, 0x228b22, 0x808040, 0x696969]

  /** `heightToColor`: the terrain colour of a height, as a 24-bit RGB value. */
  function HeightToColor(height: real): (c: nat)
  {
    if height < 0.2 then 0x0077be
    else if height < 0.4 then 0x2a93d5
    else if height < 0.5 then 0xc2b280
    else if height < 0.7 then 0x228b22
    else if height < 0.85 then 0x808040
    else 0x696969
  }

  /** The colour is the palette entry of the height's band. */
  lemma HeightToColorBand(height: real)
    ensures HeightToColor(height) == TerrainPalette[Rank(height, HeightThresholds)]
  {
    var ts := HeightThresholds;
    var k := if height < 0.2 then 0 else if height < 0.4 then 1 else if height < 0.5 then 2
      else if height < 0.7 then 3 else if height < 0.85 then 4 else 5;
    RankBand(height, ts, k);
  }

  /** A higher point is never coloured as a lower band. */
  lemma HeightToColorMonotone(h1: real, h2: real)
    requires h1 <= h2
    ensures Rank(h1, HeightThresholds) <= Rank(h2, HeightThresholds)
    ensures HeightToColor(h1) == TerrainPalette[Rank(h1, HeightThresholds)]
    ensures HeightToColor(h2) == TerrainPalette[Rank(h2, HeightThresholds)]
  {
    RankMonotone(h1, h2, HeightThresholds);
    HeightToColorBand(h1);
    HeightToColorBand(h2);
  }
}

=== FILE: upload.dfy ===
/**
 * The resume upload endpoint of the ATS app (app.py): the extension check,
 * the text extraction dispatch and the validation ladder of `upload_resume`.
 * The request is a value; what the file system, `secure_filename` and the
 * analysis placeholder do is given as the `World` the request meets, and
 * the upload folder is the set of file names it holds.
 */
module Upload {
  import opened Common

  // ------------------------------------------------------------ file names

  const UploadFolder: string := "uploads"

  /** `ALLOWED_EXTENSIONS`. */
  const AllowedExtensions: set<string> := {"txt", "pdf", "docx"}

  /** `str.lower()` on one character, for the ASCII letters. */
  function LowerChar(c: char): char
  {
    if 'A' <= c <= 'Z' then (c as int - 'A' as int + 'a' as int) as char else c
  }

  /** `str.lower()`, character by character. */
  function Lower(s: string): (r: string)
    ensures |r| == |s|
  {
    seq(|s|, i requires 0 <= i < |s| => LowerChar(s[i]))
  }

  /** Lowering distributes over concatenation. */
  lemma LowerConcat(a: string, b: string)
    ensures Lower(a + b) == Lower(a) + Lower(b)
  {
  }

  /** k is the position of a '.' in s with no '.' after it. */
  predicate IsLastDot(s: string, k: nat)
  {
    k < |s| && s[k] == '.' && forall j :: k < j < |s| ==> s[j] != '.'
  }

  /** The position of the last '.' of s, if s has one. */
  function LastDot(s: string): (k: Option<nat>)
    ensures k.None? <==> '.' !in s
    ensures k.Some? ==> IsLastDot(s, k.value)
  {
    if s == [] then None
    else if s[|s| - 1] == '.' then Some(|s| - 1)
    else
      var t := s[..|s| - 1];
      assert '.' in s ==> '.' in t by {
        if '.' in s {
          var i :| 0 <= i < |s| && s[i] == '.';
          assert t[i] == '.';
        }
      }
      LastDot(t)
  }

  /** `filename.rsplit('.', 1)[1]`: the text after the last '.'. */
  function Extension(filename: string): string
    requires '.' in filename
  {
    filename[LastDot(filename).value + 1..]
  }

  /** `allowed_file`: the name has a '.' and the text after the last one, lowered, is allowed. */
  predicate AllowedFile(filename: string)
  {
    '.' in filename && Lower(Extension(filename)) in AllowedExtensions
  }

  /** A '.' with no '.' after it is the one `LastDot` finds. */
  lemma LastDotAt(s: string, k: nat)
    requires IsLastDot(s, k)
    ensures LastDot(s) == Some(k)
  {
    assert s[k] == '.';
  }

  /**
   * A name is allowed exactly when it has a '.' with no '.' after it and
   * the text after that '.', lowered, is txt, pdf or docx; in particular a
   * name without a '.' never is.
   */
  lemma AllowedFileSpec(filename: string)
    ensures AllowedFile(filename) <==>
      exists k :: IsLastDot(filename, k) && Lower(filename[k + 1..]) in AllowedExtensions
    ensures '.' !in filename ==> !AllowedFile(filename)
  {
    if exists k :: IsLastDot(filename, k) && Lower(filename[k + 1..]) in AllowedExtensions {
      var k :| IsLastDot(filename, k) && Lower(filename[k + 1..]) in AllowedExtensions;
      LastDotAt(filename, k);
    }
  }

  /** The extension of a name is the text after its last '.'. */
  lemma ExtensionAt(s: string, k: nat)
    requires IsLastDot(s, k)
    ensures '.' in s && Extension(s) == s[k + 1..]
  {
    LastDotAt(s, k);
  }

  /** Only the text after the last '.' counts, whatever its case. */
  lemma AllowedFileAccepts()
    ensures AllowedFile("a.tar.PDF")
    ensures AllowedFile(".txt")
    ensures AllowedFile("CV.Docx")
  {
    ExtensionAt("a.tar.PDF", 5);
    assert "a.tar.PDF"[6..] == "PDF";
    assert Lower("PDF") == "pdf";
    ExtensionAt(".txt", 0);
    assert ".txt"[1..] == "txt";
    assert Lower("txt") == "txt";
    ExtensionAt("CV.Docx", 2);
    assert "CV.Docx"[3..] == "Docx";
    assert Lower("Docx") == "docx";
  }

  /** An allowed extension before the last '.', no '.', or nothing after it is refused. */
  lemma AllowedFileRefuses()
    ensures !AllowedFile("a.pdf.exe")
    ensures !AllowedFile("resume")
    ensures !AllowedFile("resume.")
  {
    ExtensionAt("a.pdf.exe", 5);
    assert "a.pdf.exe"[6..] == "exe";
    assert Lower("exe") == "exe";
    assert forall i :: 0 <= i < |"resume"| ==> "resume"[i] != '.';
    ExtensionAt("resume.", 6);
    assert "resume."[7..] == "";
  }

  // ------------------------------------------------------------ extraction

  /** `s.endswith(suffix)`. */
  predicate EndsWith(s: string, suffix: string)
  {
    |suffix| <= |s| && s[|s| - |suffix|..] == suffix
  }

  /** `os.path.join(folder, name)` for a relative name. */
  function Join(folder: string, name: string): string
  {
    folder + "/" + name
  }

  /** The branch of `extract_text_from_resume` a path takes, by its lowered suffix. */
  datatype Format = Txt | Pdf | Docx | Unconfigured

  function FormatOf(filepath: string): Format
  {
    var p := Lower(filepath);
    if EndsWith(p, ".txt") then Txt
    else if EndsWith(p, ".pdf") then Pdf
    else if EndsWith(p, ".docx") then Docx
    else Unconfigured
  }

  const PdfSample: string := "Sample PDF text extracted. Lorem ipsum dolor sit amet, consectetur adipiscing elit. Ut enim ad minim veniam."
  const DocxSample: string := "Sample DOCX text extracted. Sed do eiusmod tempor incididunt ut labore et dolore magna aliqua. Quis nostrud exercitation ullamco laboris nisi ut aliquip."

  /**
   * `extract_text_from_resume(filepath)`. `read` is what reading the file
   * as UTF-8, dropping undecodable bytes, gives; None when that raises.
   */
  function ExtractText(filepath: string, read: Option<string>): (text: string)
    ensures FormatOf(filepath) == Unconfigured ==> text == ""
    ensures FormatOf(filepath) == Txt && read.None? ==> text == ""
    ensures FormatOf(filepath) == Txt && read.Some? ==> text == read.value
    ensures FormatOf(filepath) != Txt ==> (text != "" <==> FormatOf(filepath) != Unconfigured)
  {
    match FormatOf(filepath)
    case Txt => if read.Some? then read.value else ""
    case Pdf => PdfSample
    case Docx => DocxSample
    case Unconfigured => ""
  }

  /**
   * An allowed name, saved under the upload folder, always takes one of the
   * three configured branches: the fallback of `extract_text_from_resume`
   * is never reached from `upload_resume` when the safe name keeps the
   * extension.
   */
  lemma AllowedDispatches(name: string)
    requires AllowedFile(name)
    ensures FormatOf(Join(UploadFolder, name)) != Unconfigured
  {
    var ext := Extension(name);
    DotExtensionSuffix(name);
    EndsWithAppend(UploadFolder + "/", name, "." + ext);
    LowerEndsWith(Join(UploadFolder, name), "." + ext);
    LowerDot(ext);
    DottedExtensions(Lower(ext));
  }

  /** The suffixes `extract_text_from_resume` tests are the allowed extensions, dotted. */
  lemma DottedExtensions(e: string)
    requires e in AllowedExtensions
    ensures "." + e == ".txt" || "." + e == ".pdf" || "." + e == ".docx"
  {
  }

  /** A name with a '.' ends with that '.' and its extension. */
  lemma DotExtensionSuffix(name: string)
    requires '.' in name
    ensures EndsWith(name, "." + Extension(name))
  {
    var k := LastDot(name).value;
    assert name[k..] == [name[k]] + name[k + 1..];
  }

  lemma LowerDot(ext: string)
    ensures Lower("." + ext) == "." + Lower(ext)
  {
    var l := Lower("." + ext);
    assert l[0] == '.';
    assert forall i :: 1 <= i < |l| ==> l[i] == Lower(ext)[i - 1];
  }

  lemma EndsWithAppend(a: string, b: string, suffix: string)
    requires EndsWith(b, suffix)
    ensures EndsWith(a + b, suffix)
  {
    assert (a + b)[|a + b| - |suffix|..] == b[|b| - |suffix|..];
  }

  lemma LowerEndsWith(s: string, suffix: string)
    requires EndsWith(s, suffix)
    ensures EndsWith(Lower(s), Lower(suffix))
  {
    assert Lower(s)[|s| - |suffix|..] == Lower(s[|s| - |suffix|..]);
  }

  // ------------------------------------------------------------ the request

  /** Python's `str.isspace()` characters, which `str.strip()` removes. */
  predicate IsSpace(c: char)
  {
    c == ' ' || ('\t' <= c <= '\r') || ('\U{001C}' <= c <= '\U{001F}') || c == '\U{0085}' ||
    c == '\U{00A0}' || c == '\U{1680}' || ('\U{2000}' <= c <= '\U{200A}') ||
    c == '\U{2028}' || c == '\U{2029}' || c == '\U{202F}' || c == '\U{205F}' || c == '\U{3000}'
  }

  function TrimStart(s: string): string
  {
    if s != [] && IsSpace(s[0]) then TrimStart(s[1..]) else s
  }

  function TrimEnd(s: string): string
  {
    if s != [] && IsSpace(s[|s| - 1]) then TrimEnd(s[..|s| - 1]) else s
  }

  /** `str.strip()`. */
  function Strip(s: string): string
  {
    TrimEnd(TrimStart(s))
  }

  /** A stripped text is empty exactly when the text is all white space. */
  lemma {:induction false} StripBlank(s: string)
    ensures Strip(s) == "" <==> forall i :: 0 <= i < |s| ==> IsSpace(s[i])
  {
    TrimStartBlank(s);
    TrimEndBlank(TrimStart(s));
  }

  lemma {:induction false} TrimStartBlank(s: string)
    ensures (forall i :: 0 <= i < |s| ==> IsSpace(s[i])) ==> TrimStart(s) == ""
    ensures TrimStart(s) != "" ==> !IsSpace(TrimStart(s)[0])
    ensures (exists i :: 0 <= i < |s| && !IsSpace(s[i])) ==> TrimStart(s) != ""
  {
    if s != [] && IsSpace(s[0]) {
      TrimStartBlank(s[1..]);
      assert forall i :: 0 < i < |s| ==> s[i] == s[1..][i - 1];
    }
  }

  lemma {:induction false} TrimEndBlank(s: string)
    ensures s != [] && !IsSpace(s[0]) ==> TrimEnd(s) != ""
    ensures s == [] ==> TrimEnd(s) == ""
  {
    if s != [] && IsSpace(s[|s| - 1]) {
      TrimEndBlank(s[..|s| - 1]);
    }
  }

  /** What `upload_resume` reads from the request: file field names to uploaded names, and the form fields. */
  datatype Request = Request(files: map<string, string>, form: map<string, string>)

  /**
   * What the request meets outside the model: the name `secure_filename`
   * makes of the upload, whether `file.save` raises, what reading the saved
   * file gives, and the placeholder similarity score.
   */
  datatype World = World(safeName: string, saveOk: bool, read: Option<string>, score: real)

  datatype Failure =
    | NoResumePart
    | NoFileSelected
    | EmptyJobDescription
    | TypeNotAllowed
    | ExtractionFailed(original: string)
    | InternalError

  /** `', '.join(items)`. */
  function JoinWith(items: seq<string>, sep: string): string
  {
    if |items| == 0 then ""
    else if |items| == 1 then items[0]
    else items[0] + sep + JoinWith(items[1..], sep)
  }

  /**
   * `listing` is an order in which iterating `ALLOWED_EXTENSIONS` can yield
   * its members: each of the three extensions exactly once.
   */
  ghost predicate AllowedListing(listing: seq<string>)
  {
    multiset(listing) == multiset(["txt", "pdf", "docx"])
  }

  /**
   * The "error" text each failure answers with; `listing` is the order in
   * which iterating `ALLOWED_EXTENSIONS` yields its members.
   */
  function Message(f: Failure, listing: seq<string>): string
    requires AllowedListing(listing)
  {
    match f
    case NoResumePart => "No resume file part found in the request."
    case NoFileSelected => "No resume file selected."
    case EmptyJobDescription => "Job description cannot be empty."
    case TypeNotAllowed => "File type not allowed. Please upload one of: " + JoinWith(listing, ", ")
    case ExtractionFailed(original) =>
      "Could not extract text from the uploaded file '" + original +
      "'. It might be empty, corrupted, or an unsupported format variant."
    case InternalError => "An internal server error occurred. Please try again later."
  }

  /** An allowed listing names each allowed extension, and nothing else. */
  lemma ListingCoversAllowed(listing: seq<string>)
    requires AllowedListing(listing)
    ensures |listing| == 3
    ensures {listing[0], listing[1], listing[2]} == AllowedExtensions
  {
    assert |multiset(listing)| == 3;
    var names := {listing[0], listing[1], listing[2]};
    var m := multiset{listing[0], listing[1], listing[2]};
    assert multiset(listing) == m by {
      assert listing == [listing[0], listing[1], listing[2]];
    }
    assert forall e :: e in m <==> e in names;
    assert forall e :: e in multiset(["txt", "pdf", "docx"]) <==> e in AllowedExtensions;
  }

  /**
   * The disallowed-type message lists the three allowed extensions
   * separated by ", ", in the set's iteration order.
   */
  lemma TypeMessage(listing: seq<string>)
    requires AllowedListing(listing)
    ensures |listing| == 3
    ensures Message(TypeNotAllowed, listing) ==
            "File type not allowed. Please upload one of: " + listing[0] + ", " + listing[1] + ", " + listing[2]
  {
    ListingCoversAllowed(listing);
    assert listing[1..][1..] == [listing[2]];
    assert JoinWith(listing[1..], ", ") == listing[1] + ", " + listing[2];
    assert listing[0] + ", " + (listing[1] + ", " + listing[2])
        == listing[0] + ", " + listing[1] + ", " + listing[2];
  }

  /**
   * The JSON body: `{"error": Message(..)}`, or `{"message": "Analysis
   * successful.", "filename": .., "analysis": ..}` with its similarity score.
   */
  datatype Body = Error(failure: Failure) | Analysis(filename: string, score: real)

  datatype Response = Response(status: nat, body: Body)

  /** The result of `upload_resume`: the response, and the upload folder afterwards. */
  datatype Outcome = Outcome(response: Response, folder: set<string>)

  /** `request.form.get('job_description', '').strip()`. */
  function JobDescription(req: Request): string
  {
    Strip(if "job_description" in req.form then req.form["job_description"] else "")
  }

  /**
   * `upload_resume`: the four checks in order, each answering 400; then
   * the file is saved under its safe name and its text extracted. A failed
   * save answers 500 after removing whatever is at the path; an empty text
   * answers 500 after removing the saved file; otherwise the analysis
   * answers 200 and the file stays.
   */
  function UploadResume(req: Request, world: World, folder: set<string>): (out: Outcome)
    ensures out.response.status in {200, 400, 500}
    ensures out.response.status == 400 ==> out.folder == folder
  {
    if "resume" !in req.files then Outcome(Response(400, Error(NoResumePart)), folder)
    else
      var filename := req.files["resume"];
      var job := JobDescription(req);
      if filename == "" then Outcome(Response(400, Error(NoFileSelected)), folder)
      else if job == "" then Outcome(Response(400, Error(EmptyJobDescription)), folder)
      else if !AllowedFile(filename) then Outcome(Response(400, Error(TypeNotAllowed)), folder)
      else
        var filepath := Join(UploadFolder, world.safeName);
        if !world.saveOk then Outcome(Response(500, Error(InternalError)), folder - {world.safeName})
        else
          var text := ExtractText(filepath, world.read);
          if text == "" then Outcome(Response(500, Error(ExtractionFailed(filename))), folder - {world.safeName})
          else Outcome(Response(200, Analysis(filename, world.score)), folder + {world.safeName})
  }

  /** The request passes validation: a resume part with a non-empty allowed name, and a non-blank job description. */
  predicate Acceptable(req: Request)
  {
    && "resume" in req.files
    && req.files["resume"] != ""
    && (exists i :: 0 <= i < |JobDescriptionText(req)| && !IsSpace(JobDescriptionText(req)[i]))
    && AllowedFile(req.files["resume"])
  }

  /** The job description field before stripping. */
  function JobDescriptionText(req: Request): string
  {
    if "job_description" in req.form then req.form["job_description"] else ""
  }

  /**
   * `upload_resume` answers 400 exactly for the requests that fail
   * validation, names the first failed check in the order resume part,
   * file name, job description, extension, and leaves the upload folder as
   * it was: nothing is saved before validation passes.
   */
  lemma UploadRejects(req: Request, world: World, folder: set<string>)
    ensures var out := UploadResume(req, world, folder);
      && (out.response.status == 400 <==> !Acceptable(req))
      && (out.response.status == 400 ==> out.folder == folder)
      && ("resume" !in req.files ==> out.response.body == Error(NoResumePart))
      && ("resume" in req.files && req.files["resume"] == "" ==> out.response.body == Error(NoFileSelected))
      && (("resume" in req.files && req.files["resume"] != "" &&
           (forall i :: 0 <= i < |JobDescriptionText(req)| ==> IsSpace(JobDescriptionText(req)[i]))) ==>
            out.response.body == Error(EmptyJobDescription))
      && (("resume" in req.files && req.files["resume"] != "" &&
           (exists i :: 0 <= i < |JobDescriptionText(req)| && !IsSpace(JobDescriptionText(req)[i])) &&
           !AllowedFile(req.files["resume"])) ==> out.response.body == Error(TypeNotAllowed))
  {
    StripBlank(JobDescriptionText(req));
  }

  /**
   * Past validation, a save that fails answers 500 with the generic
   * internal-error message, and the file is gone from the upload folder.
   */
  lemma UploadSaveFails(req: Request, world: World, folder: set<string>)
    requires Acceptable(req) && !world.saveOk
    ensures UploadResume(req, world, folder) == Outcome(Response(500, Error(InternalError)), folder - {world.safeName})
  {
    StripBlank(JobDescriptionText(req));
  }

  /**
   * Past validation, a saved file whose text comes out empty answers 500
   * naming the uploaded file and is removed; a non-empty text answers 200
   * with the uploaded name and keeps the file.
   */
  lemma UploadAfterSave(req: Request, world: World, folder: set<string>)
    requires Acceptable(req) && world.saveOk
    ensures var out := UploadResume(req, world, folder);
      var text := ExtractText(Join(UploadFolder, world.safeName), world.read);
      && (text == "" ==> out == Outcome(Response(500, Error(ExtractionFailed(req.files["resume"]))), folder - {world.safeName}))
      && (text != "" ==> out == Outcome(Response(200, Analysis(req.files["resume"], world.score)), folder + {world.safeName}))
  {
    StripBlank(JobDescriptionText(req));
  }

  /**
   * When the safe name is the uploaded name, a PDF or DOCX upload always
   * succeeds once saved, and a text upload succeeds exactly when its
   * content reads back non-empty.
   */
  lemma UploadKeepsName(req: Request, world: World, folder: set<string>)
    requires Acceptable(req) && world.saveOk && world.safeName == req.files["resume"]
    ensures var out := UploadResume(req, world, folder);
      var format := FormatOf(Join(UploadFolder, world.safeName));
      && format != Unconfigured
      && (format != Txt ==> out.response.status == 200)
      && (format == Txt ==> (out.response.status == 200 <==> world.read.Some? && world.read.value != ""))
  {
    StripBlank(JobDescriptionText(req));
    AllowedDispatches(world.safeName);
  }
}
